=== FILE: README.md ===
# WeiboSpider orchestration and consolidation, modelled in Dafny

WeiboSpider crawls Weibo for keywords. Its runner (`main.py`) does the following:

- splits the keywords and an optional date range into tasks;
- spreads the tasks over worker slots, each a copy of the Scrapy project;
- lets every worker run its tasks (`run_weibo_spider.py`);
- consolidates what the workers wrote;
- crawls and merges the user profiles;
- turns ids into spreadsheet hyperlinks;
- curates one topic sheet per keyword.

The comment-text cleaner (`utils/__init__.py`) and the Gibbs sampler (`utils/lda.py`) feed the analysis.

This project models that pipeline as pure functions over rows and strings. It proves what each step promises about its output.

| module | file | what it models |
|---|---|---|
| `Wrappers` | wrappers.dfy | `Option`, `Result` and the Python exceptions the pipeline can raise (`Fault`) |
| `Text` | text.dfy | the `str` operations used: `split`, `join`, `replace`, `strip`, `endswith`, `in`, `int()`/`str()`, `readlines`/`writelines` |
| `Table` | table.dfy | CSV rows, the first-seen dedup loop, the "append when new" loop, dictionary filling, stable descending sort on integer-tuple keys |
| `Partition` | partition.dfy | `split_tasks`, `split_users`, worker chunking, slot directories in `crawl`, the keyword list of `__main__` |
| `Consolidate` | consolidate.dfy | `postprocess_tasks` and `postprocess_users` |
| `Linker` | linker.dfy | `postprocess_final` |
| `Topics` | topics.dfy | `postprocess_topics` |
| `SpiderRun` | spider_run.dfy | one crawl task in `run_weibo_spider.py` |
| `Pagination`, `TweetSpider`, `CommentSpider`, `UserSpider` | pagination.dfy, tweet_spider.dfy, comment_spider.dfy, user_spider.dfy | the URLs the spiders build and the id fields of their items |
| `Pipeline` | pipeline.dfy | `CSVPipeline`, the write-header-once state machine |
| `Identity` | identity.dfy | the proxy and cookie a worker slot uses (`middlewares.py`, `settings.py`) |
| `CommentText` | comment_text.dfy | the whitelist, run-collapse and strip tail of `extract_comment_content` |
| `Lda` | lda.dfy | vocabulary building and the count bookkeeping of the Gibbs sampler |

## Modelling conventions

- **Exceptions.** A Python exception is an `Err(fault)` result, and a contract says exactly when it happens:
  - `ZeroDivisionError` on an empty input to the chunking or to a slot table;
  - `IndexError` on a short row;
  - `KeyError` on a lookup miss that is not caught;
  - `TypeError`, `ValueError` from `int()`;
  - `FileNotFoundError` on a missing file;
  - the csv writer's error on a `None` header.
- **Files, directories and randomness.** Files are sequences of rows. A directory walk is its listing, given as a sequence. A subprocess's output is a function of its arguments.
- **Parameters.** The following are passed in as parameters:
  - `strftime`;
  - the regex filters;
  - `difflib`;
  - the random draws;
  - the HTML captures.
- **Dates.** Dates are day numbers.
- **Spreadsheet rows.** Rows are 1-based with the header on row 1. The record at 0-based position `i` of a file, header included, is on row `i + 1`.

## Model

| member | source | states |
|---|---|---|
| Partition.CeilDivBounds | main.py:80-81 | `int(math.ceil(a / b))` is the least multiple count covering `a`: `ceil * b >= a > (ceil - 1) * b` |
| Partition.BaseNameJoin | main.py:126 | the basename of a path joined onto a directory is the name joined on, for a non-empty name without `/` |
| Partition.Spans | main.py:60-72 | date spans start at `date_start`, each span starts the day after the previous one ends, each ends at `min(start + days - 1, date_end)`, the last ends at `date_end`, and there are none for an empty range |
| Partition.SpansTile | main.py:57-72 | the spans tile the date range: every day is in some span, every span lies in the range, and spans are ordered without overlap |
| Partition.SpansCover | main.py:60-72 | every day of `[date_start, date_end]` lies in some span |
| Partition.SpansOrdered | main.py:60-72 | all spans lie inside the range, in increasing order and disjoint |
| Partition.SpansCount | main.py:61-72 | a non-empty range gives `ceil((end - start + 1) / days)` spans |
| Partition.KeywordTasks | main.py:56-78 | with dates, one task per span named `<keyword>_<first day>`; without both dates, one task named after the keyword |
| Partition.SplitTasks | main.py:54-78 | every task belongs to a listed keyword and carries the run's thresholds; without both dates there is exactly one task per keyword (the layout with dates is `DatedTasks`) |
| Partition.DatedTasks | main.py:54-72 | with both dates the task list is the keywords' blocks laid end to end: the `i`-th task of keyword `k` is its `i`-th span task |
| Partition.DatedTaskCount | main.py:54-72 | with both dates there are (keywords × spans) tasks |
| Partition.UndatedTasks | main.py:73-78 | without both dates the task list is exactly one task per keyword, in keyword order, named after it |
| Partition.KeywordOfTask | main.py:160 | `task_name.split('_')[0]` gives the keyword back when the keyword holds no `_`, with or without a date suffix |
| Partition.KeywordOfUnderscore | main.py:66 | a keyword holding `_` is filed under its first piece, which differs from the keyword |
| Partition.Chunk | main.py:80-91 | the only failure of the chunking is a division by zero, and a plan has one batch per worker |
| Partition.Batches | main.py:83-91 | worker `w`'s batch is `xs[w * per:(w + 1) * per]` |
| Partition.ChunkEmpty | main.py:80 | nothing to split is a division by zero, whatever the pool size |
| Partition.ChunkSizes | main.py:80-81 | with items and a positive pool: `per >= 1`, `1 <= workers <= max_workers`, and `workers` batches of `per` just cover the items |
| Partition.ChunkPartition | main.py:80-91 | batches are non-empty, at most `per` long, at most `max_workers` many, and concatenate back to the task list in order |
| Partition.ChunkWithinPool | main.py:80-81 | however the pool size is given, a successful plan never has more batches than `max_workers` |
| Partition.NonPositivePool | main.py:80-81 | a negative pool gives a non-positive per-worker size and worker count, so no worker runs |
| Partition.SlotDirs | main.py:333-335 | `crawl` creates one slot directory per id below `max_workers` |
| Partition.DispatchedSlotsExist | main.py:333-339 | every worker a plan dispatches has its slot directory already copied |
| Partition.RealBaseNamePlain | main.py:126 | `basename(realpath(p))` of a path ending in a plain component is that component, wherever the process runs |
| Partition.RealBaseNameJoin | main.py:126 | after a plain component, a last `.` resolves to that component and `..` to the directory above it; any other name stays |
| Partition.TaskNameFromArgs | main.py:126 | `basename(realpath(...))` of the last argument (`--file-dir`, built at main.py:89) is the task name, except that `.` reads back as `data` and `..` as the slot directory `weibospider_<w>` |
| Partition.KeywordFromArgs | main.py:156-160 | the consolidation pass reads back, from a worker's arguments, the keyword the task was made for, if the keyword holds no `_`; an undated `.` or `..` comes back as `data` or `weibospider` |
| Partition.SplitUsersPartition | main.py:93-113 | every user id of `users.txt` is crawled by exactly one worker, once, no other id is crawled, and the ids are dispatched in the order of their first line |
| Partition.SplitUsersEmpty | main.py:104 | an empty `users.txt` aborts with a division by zero |
| Partition.RunnerKeywordsRoundTrip | main.py:482-489 | joining the deduplicated keywords with `,` and splitting again gives them back, if none holds a comma; an empty file gives one empty keyword |
| Consolidate.DataHasHeader | main.py:184-190 | if any data record is read, some file gave a header |
| Consolidate.MergeSheets | main.py:178-202 | raises `IndexError` iff a record lacks the key column; otherwise succeeds iff every first-of-key record has numeric sort cells; writes nothing iff there is no data; the header is the first file's; the output is sorted descending, and records that tie on the sort cells keep their first-seen order |
| Consolidate.MergeFaults | main.py:191-196 | the sort of the kept records fails exactly when the first record of some key has a bad sort cell |
| Consolidate.MergeKeepsFirsts | main.py:186-194 | the merge writes each key's first record once and nothing else |
| Consolidate.AddTo | main.py:161-164 | `d[k].append(x)` grows only group `k`, creating it at the end when new |
| Consolidate.GroupBy | main.py:153-167 | keyword groups have unique keys in first-appearance order, and each holds exactly its tasks in order |
| Consolidate.GroupByCovers | main.py:160-164 | every task lands in the group of its keyword |
| Consolidate.CopyInto | main.py:206-207 | after copying, the directory holds its old names plus every copied name |
| Consolidate.CopyLastWins | main.py:206-207 | a copied name holds the content of the last file copied under it |
| Consolidate.CopyKeeps | main.py:206-207 | a name that no copied file carries keeps its old content |
| Consolidate.MergeUserIds | main.py:210-219 | the merged user ids are duplicate-free, are exactly the ids of all `users.txt` files, and appear in the order each was first read |
| Consolidate.KeywordPasses | main.py:169-208 | the per-keyword passes succeed together, one result per keyword; a failure is some keyword's failure |
| Consolidate.PostprocessTasks | main.py:142-224 | a missing comments directory raises `FileNotFoundError`; otherwise the pass succeeds iff every keyword's merge succeeds on the tasks filed under it; output `i` is the `i`-th distinct keyword in first-seen order; the user list holds the tasks' ids once each, in first-read order |
| Consolidate.TaskGroups | main.py:153-169 | the keyword groups are the distinct keywords in first-seen order, each holding exactly the tasks filed under it; every keyword merges iff every group does |
| Consolidate.KeywordTweets | main.py:169-202 | each keyword's `tweets.csv` is the merge of the tweet files of exactly that keyword's tasks, in task order |
| Consolidate.KeywordComments | main.py:166-207 | a comments file ends up under its keyword with the content of the last task listing that name |
| Consolidate.UsersFileRoundTrip | main.py:220-222 | `users.txt` as written reads back, stripped, as the same ids, if no id holds a line break or surrounding space |
| UserSpider.UnsortableRecordStopsMerge | main.py:252 | in `postprocess_users`, a record whose follower count is `Unknown` makes the sort raise `ValueError` |
| Linker.LabelOfHyperlink | main.py:392-393 | `split('","')[-1].split('")')[0]` recovers a hyperlink's caption, for a target without a comma and a caption without `"` |
| Linker.IndexRows | main.py:267-273 | indexing succeeds iff every user record has 16 columns; every stored row number is the row of a record with that id; every url maps to an indexed id |
| Linker.IndexRowsLastId | main.py:269-272 | every user record is indexed, at the row of the last record with its id |
| Linker.IndexRowsLastUrl | main.py:269-273 | every profile url is indexed, naming the user of the last record with that url |
| Linker.IndexedRow | main.py:272 | the row stored for a user is a full record of that user |
| Linker.IndexUsers | main.py:264-273 | a missing `users.csv` raises `FileNotFoundError`; otherwise indexing fails iff a record is short |
| Linker.LinkTweet | main.py:291-300 | a tweet record is kept iff its author url is indexed; the id column becomes the comments link; the other columns except the author stay |
| Linker.LinkTweetRows | main.py:287-300 | the pass fails iff a record lacks an id column; the kept records are the linked forms of the records with an indexed author, in file order; `tweets_dict` sends each tweet id to a kept record whose id column links that tweet |
| Linker.LinkTweetRowsKeeps | main.py:292-297 | every tweet whose author is indexed is kept and known to `tweets_dict` |
| Linker.LinkTweetRowsOrigin | main.py:291-297 | every kept record is the linked form of an input record |
| Linker.LinkTweetsFile | main.py:281-305 | succeeds iff there is a header and every record has an id column (a missing header fails in the csv writer); the file written is the header, then the linked form of every record with an indexed author, in file order; every `tweets_dict` entry names the sheet row linking that tweet |
| Linker.LinkComment | main.py:316-322 | corrected reading: a comment is kept iff its author is indexed and its tweet is in `tweets_dict`; columns from 2 on are unchanged |
| Linker.LinkCommentAsWritten | main.py:316-322 | as written, a comment that gets past the lookups is never kept |
| Linker.AsWrittenAborts | main.py:316-322 | as written, the pass raises `TypeError` exactly where the corrected reading keeps a record, and agrees with it elsewhere |
| Linker.LinkCommentRows | main.py:312-322 | corrected pass: fails iff some record lacks an author column; otherwise keeps, in file order, exactly the linked form of every record whose author is indexed and whose tweet is known, and kept plus dropped equals the data records |
| Linker.AsWrittenLosesComments | main.py:312-322 | as written, a comments file never keeps a record: it aborts with `TypeError` whenever the corrected pass would keep one |
| Linker.LinkCommentsFile | main.py:307-327 | succeeds iff the file has a header and every record an author column; the output is the header followed by the linked records, in file order |
| Linker.UserLinkCaption | main.py:294 | a user link's caption is the user id |
| Linker.TweetLinkCaption | main.py:318 | a tweet link's caption is the tweet id |
| Linker.CommentsLinkCaption | main.py:295 | a comments link's caption is the tweet id |
| Linker.LinkedTweetCells | main.py:293-295 | a kept tweet's author cell links the author's users row and its id cell links its comments file |
| Linker.LinkedTweetCaptions | main.py:293-295 | the author and id links of a kept tweet read back as the author id and the tweet id |
| Linker.LinkedCommentCells | main.py:317-319 | a kept comment's tweet cell links row `count + 1` of the tweets sheet and its author cell links the author's users row |
| Linker.LinkedCommentCaptions | main.py:317-319 | the tweet and author links of a kept comment read back as the tweet id and the author id |
| Linker.CommentTweetLink | main.py:296-318 | the corrected tweet link of a comment names the tweets-sheet row whose id link shows that same tweet id |
| Linker.TweetAuthorLink | main.py:293-294 | a kept tweet's author link names the users-sheet row that holds the author's record |
| Linker.CommentAuthorLink | main.py:317-319 | a kept comment's author link names the users-sheet row that holds the author's record |
| Linker.AsWrittenAbortExample | main.py:318 | one user, one tweet and one comment on it make the written pass raise `TypeError` where the corrected one keeps the comment |
| Linker.LinkCommentFiles | main.py:306-327 | every comments file of a directory is linked against the same `tweets_dict`, names kept |
| Linker.LinkDir | main.py:276-327 | a directory's tweets file replaces `tweets_dict` before its comments are linked; without one the walk's previous `tweets_dict` is used |
| Linker.LinkDirs | main.py:276-327 | one output per keyword directory; each is linked against the `tweets_dict` of the nearest earlier directory with a tweets file (the incoming one if none), and the walk succeeds iff every such link does |
| Linker.LinkDirsShift | main.py:276-285 | after the first directory the rest of the walk sees the `tweets_dict` that directory left |
| Linker.PostprocessFinal | main.py:262-328 | a missing `users.csv` raises; success means every user record was full, and each directory is rewritten as its link against the `tweets_dict` left by the nearest earlier directory with a tweets file |
| Linker.OwnTweetsIndex | main.py:284 | a directory with its own tweets file is linked the same whatever the walk saw before |
| Topics.BlockLines | main.py:353-355 | the block list is the file's lines, each stripped |
| Topics.EmptyLineBlocksAll | main.py:363 | an empty block-list line blocks every user |
| Topics.NoLinesBlockNobody | main.py:363 | an empty block list blocks nobody |
| Topics.UsersDict | main.py:357-363 | fails iff a user record is too short; every user id is present, with the nick name and block flag of the last record with that id |
| Topics.TweetTopic | main.py:391-398 | a short record raises `IndexError`; an unknown author raises `KeyError`; a row is written iff the author is not blocked, naming the author and the tweet id |
| Topics.TweetTopics | main.py:376-398 | fails iff some record raises; otherwise the rows written are, in file order, exactly the rows of the records whose author is not blocked |
| Topics.TweetTopicsDict | main.py:391-398 | `tweets_dict` gains exactly the ids of the tweets given a row, and every row written names a tweet now in `tweets_dict` |
| Topics.TweetTopicsValues | main.py:391-396 | each id given a row is sent to the url cell of the last tweet with that id; every other id keeps its old value |
| Topics.EntriesConcat | main.py:396 | assigning two runs of `tweets_dict` entries in turn equals assigning their concatenation |
| Topics.CommentTopic | main.py:410-416 | a comment row is written iff its author is not blocked and its tweet was kept; it carries the author's name, the tweet's url and the content |
| Topics.CommentTopics | main.py:399-416 | fails iff some record raises; otherwise the rows written are, in file order, exactly the rows of the comments whose author is not blocked and whose tweet is in `tweets_dict` |
| Topics.LinkedTweetTopic | main.py:392-398 | a tweet record linked by the final pass reads back as the author and tweet it was made from |
| Topics.Append | main.py:385-390 | appending grows only the named file, creating it at the end when missing |
| Topics.AppendTwice | main.py:385-390 | appending twice to one file appends both row lists in turn |
| Topics.WalkTweets | main.py:376-398 | a tweets file makes the keyword's topic file current, creates it with the header when new, appends the rows of the unblocked authors' tweets in order, and `tweets_dict` gains exactly those tweets, each sent to the url cell of the last one read with its id |
| Topics.WalkDirTweets | main.py:376-398 | a directory without a tweets file leaves `tweets_dict` as it was; one with a file adds its entries |
| Topics.WalkComments | main.py:399-416 | before any tweets file the open of `None` raises `TypeError` first; otherwise the rows of the qualifying comments are appended, in order, to the current topic file, and nothing else changes |
| Topics.WalkDirs | main.py:372-416 | after the whole walk `tweets_dict` holds exactly the tweets it held before and those kept in some directory; each kept id is sent to the url cell of the last tweet with that id, over all directories in listing order |
| Topics.Select | main.py:426-436 | fails iff a row is short; every kept row has content of at least 5 characters, and no kept row is similar to one kept before it |
| Topics.SelectOrigin | main.py:429-436 | every kept row is a normalised input row |
| Topics.SelectComplete | main.py:432-436 | every input row is kept, too short, or similar to a kept row |
| Topics.Curate | main.py:426-442 | a curated sheet is the header, then exactly the selected rows, sorted by likes descending; rows with equal likes keep their selection order |
| Topics.StemOfTopicFile | main.py:418-419 | `os.path.splitext('<keyword>.csv')[0]` is the keyword |
| Topics.CurateAll | main.py:418-442 | every surviving topic file is named after a keyword |
| Topics.CurateAllOrigin | main.py:418-442 | every surviving file is the curated form of an input file with the same name |
| Topics.CurateAllKeeps | main.py:418-425 | every keyword's topic file survives |
| Topics.Contents | main.py:444-452 | the content cells of every data row of every topic file, in listing order; reading fails iff some data row has no content cell |
| Topics.PostprocessTopics | main.py:351-457 | a missing block list or `users.csv` raises `FileNotFoundError`; otherwise the topic files are the curation of what the walk wrote, each named after a keyword, and `comments.txt` holds every content cell of them, one per line |
| SpiderRun.Passing | weibospider/run_weibo_spider.py:56-58 | exactly the records reaching all three thresholds pass |
| SpiderRun.TweetPass | weibospider/run_weibo_spider.py:50-63 | the tweet loop fails iff some record has an unreadable count |
| SpiderRun.TweetPassMeaning | weibospider/run_weibo_spider.py:50-63 | the kept tweets are the first record of each id among the passing ones, and their ids; user ids grow by the passing authors, each when new |
| SpiderRun.TweetPassKeeps | weibospider/run_weibo_spider.py:54-63 | kept tweets are unique by id and pass the thresholds; every passing record has its id kept |
| SpiderRun.TweetsOut | weibospider/run_weibo_spider.py:64-71 | `tweets.csv` is written iff a tweet was kept: the header, then a permutation of the kept tweets sorted descending by likes, reposts and comments; tied tweets keep their crawl order |
| SpiderRun.CommentPass | weibospider/run_weibo_spider.py:86-95 | the comment loop fails iff some record lacks a comment id column |
| SpiderRun.CommentPassMeaning | weibospider/run_weibo_spider.py:86-95 | the kept comments are the first record of each comment id; user ids grow by every comment author, each when new |
| SpiderRun.CommentsOut | weibospider/run_weibo_spider.py:96-103 | the comments file is written iff there is a comment: the header, then a permutation of the comments sorted by likes descending, tied comments in crawl order; a bad likes cell raises |
| SpiderRun.CommentRuns | weibospider/run_weibo_spider.py:74-104 | every comments file is named after a kept tweet id; a missing crawl output raises |
| SpiderRun.CommentRunsUsers | weibospider/run_weibo_spider.py:90-92 | the comment crawls append every comment author, in crawl order, each when new |
| SpiderRun.CommentRunsFiles | weibospider/run_weibo_spider.py:81-103 | each comments file written holds its crawl's header and the first record of each comment id, by likes |
| SpiderRun.KeywordRun | weibospider/run_weibo_spider.py:30-104 | a missing tweets output raises; the first crawl started is the keyword's tweet crawl |
| SpiderRun.CommentCrawls | weibospider/run_weibo_spider.py:74-77 | one comment crawl per kept tweet id, in order |
| SpiderRun.KeptCountsReadable | weibospider/run_weibo_spider.py:54-65 | every kept tweet has readable counts, so the sort cannot raise |
| SpiderRun.KeywordRunUsers | weibospider/run_weibo_spider.py:54-92 | a keyword adds the authors of its passing tweets, then its comment authors, each when new |
| SpiderRun.KeywordRunTweets | weibospider/run_weibo_spider.py:45-71 | nothing is written iff no record passes; otherwise the first record of each passing tweet id, sorted descending |
| SpiderRun.CommentCrawlsOnce | weibospider/run_weibo_spider.py:61-77 | comment crawls are distinct, and every passing tweet has its comments crawled |
| SpiderRun.KeywordRuns | weibospider/run_weibo_spider.py:30-104 | one output per keyword, in keyword order |
| SpiderRun.KeywordRunsUsers | weibospider/run_weibo_spider.py:29-92 | user ids accumulate across keywords in reading order, each when new |
| SpiderRun.RunTask | weibospider/run_weibo_spider.py:28-117 | one keyword output per comma-separated piece of `--keywords`, in order |
| SpiderRun.RunUsersFirstSeen | weibospider/run_weibo_spider.py:115-117 | `users.txt` lists every user id read, once each, in first-seen order |
| TweetSpider.KeywordDayUrls | weibospider/spiders/tweet.py:46-65 | each keyword gets 25 URLs per day |
| TweetSpider.HourWindow | weibospider/spiders/tweet.py:51-65 | hour window `t` runs from stamp `t + 23` to stamp `t`: hours 7-23 of the previous day, hours 0-6 two days back |
| TweetSpider.KeywordBlocks | weibospider/spiders/tweet.py:46-65 | a day's URLs come keyword by keyword, in keyword order |
| TweetSpider.DayBlocks | weibospider/spiders/tweet.py:45-66 | one block of URLs per day of the range, in day order |
| TweetSpider.DatedUrlsLayout | weibospider/spiders/tweet.py:44-66 | with dates there are `25 * keywords * days` URLs, and URL `t` of keyword `j` on day `k` sits at `25 * keywords * k + 25 * j + t` |
| TweetSpider.SearchUrls | weibospider/spiders/tweet.py:36-73 | without both dates, one plain search URL per keyword, in order |
| TweetSpider.ProfileUrls | weibospider/spiders/tweet.py:30-34 | one profile URL `…/<id>/profile?page=1` per user id, in order |
| TweetSpider.SeedsArePageOne | weibospider/spiders/tweet.py:42-68 | every seed URL ends in `page=1` |
| TweetSpider.DayUrlsArePageOne | weibospider/spiders/tweet.py:42-43 | every URL of a keyword's day ends in `page=1` |
| TweetSpider.TweetItem | weibospider/spiders/tweet.py:95-173 | a tweet item has 13 fields |
| TweetSpider.TweetRecordColumns | weibospider/spiders/tweet.py:101-123 | the record written for a tweet has the author path in column 1, the id in column 2 and counts in columns 5-7 that read back as the counts, and `_id` is the tweet id |
| TweetSpider.UserPathNamesAuthor | weibospider/spiders/tweet.py:104 | the text after the last `/` of `/u/<id>` is the author id |
| Pagination.PageUrls | weibospider/spiders/tweet.py:82-89 | no follow-ups unless the URL ends in `page=1` and a page count was found; otherwise the URLs of pages 2 to N, in order |
| Pagination.PageUrlAtEnd | weibospider/spiders/tweet.py:88 | when `page=1` occurs only at the end, page n's URL is the same URL ending in `page=n` |
| Pagination.FollowUpsEndInPage | weibospider/spiders/tweet.py:82-89 | no follow-up URL is a first page again, so the fan-out happens once |
| Pagination.NotFirstPage | weibospider/spiders/tweet.py:88 | a URL ending in `page=n` with n of two or more does not end in `page=1` |
| CommentSpider.StartUrl | weibospider/spiders/comment.py:30 | every start URL is a first page |
| CommentSpider.StartUrls | weibospider/spiders/comment.py:26-32 | one start URL per tweet id, in order |
| CommentSpider.WeiboIdAfterHot | weibospider/spiders/comment.py:51 | `url.split('/')[-1].split('?')[0]` recovers the tweet id whatever query follows it |
| CommentSpider.PagesNameTweet | weibospider/spiders/comment.py:36-51 | the start page and every follow-up page read back as the tweet's id |
| CommentSpider.PrefixWithoutFirstPage | weibospider/spiders/comment.py:43 | only the final `page=1` of a start URL is one |
| CommentSpider.FollowUpNamesTweet | weibospider/spiders/comment.py:43-51 | a page-n URL reads back as the tweet's id |
| CommentSpider.CommentItem | weibospider/spiders/comment.py:49-69 | a comment item has 6 fields; what each column holds is `CommentSpider.CommentRecordColumns` |
| CommentSpider.CommentItems | weibospider/spiders/comment.py:46-69 | one item per comment on the page, in page order |
| CommentSpider.CommentRecordColumns | weibospider/spiders/comment.py:49-69 | the record written for a comment holds the tweet id, the author link, the cleaned content, the comment id, a like count that reads back, and the creation time, in the columns the crawl task and the topic pass read |
| CommentSpider.CrawledCommentsNameTweet | weibospider/spiders/comment.py:46-51 | every comment crawled on any page of a tweet carries that tweet's id |
| UserSpider.IdsOfArg | weibospider/spiders/user.py:24-31 | a `.txt` entry stands for its file's stripped lines and fails iff the file cannot be read; any other entry is itself |
| UserSpider.UserIds | weibospider/spiders/user.py:21-31 | the ids of all entries in order; fails iff some `.txt` entry fails |
| UserSpider.UserIdsPlain | weibospider/spiders/user.py:30-31 | entries that are not `.txt` files are the ids, in order |
| UserSpider.UsersFileFeedsSpider | weibospider/spiders/user.py:25-29 | a `users.txt` written by a crawl task reads back as the same ids |
| UserSpider.UrlFieldOfRequest | weibospider/spiders/user.py:36-61 | the `url` field gives back the id the page was requested with, if the id holds no `weibo.cn` |
| UserSpider.AuthorPathComesBack | weibospider/spiders/user.py:36-61 | a tweet author's `/u/<id>` path comes back as the user record's `url` |
| UserSpider.CountText | weibospider/spiders/user.py:43-59 | a count is `Unknown` when missing, otherwise a numeral that reads back as the count |
| UserSpider.Cleaned | weibospider/spiders/user.py:87-90 | a missing or empty capture is `Unknown`; otherwise it is the capture with every non-breaking space deleted and nothing else changed |
| UserSpider.Verbatim | weibospider/spiders/user.py:113-116 | the birthday is the capture as is, or `Unknown` |
| UserSpider.PlaceOneWord | weibospider/spiders/user.py:97-106 | a one-word place is the province, and the city is `Unknown` |
| UserSpider.PlaceTwoWords | weibospider/spiders/user.py:97-106 | `province city` gives the province first and the city second |
| UserSpider.SexOrientation | weibospider/spiders/user.py:118-124 | `Unknown` when absent; otherwise same-sex iff the cleaned capture equals the raw gender capture, else opposite-sex; no gender capture raises `IndexError` |
| UserSpider.Labels | weibospider/spiders/user.py:141-144 | a missing or empty capture is `Unknown`; otherwise non-breaking spaces become commas, semicolons are deleted and commas stripped from both ends, which leaves no non-breaking space, no `;` and no comma at either end |
| UserSpider.LabelsPair | weibospider/spiders/user.py:141-144 | two labels separated by a non-breaking space come out separated by a comma |
| UserSpider.ParseInfo | weibospider/spiders/user.py:69-151 | fails with `IndexError` iff the id capture is missing or a sex orientation has no gender to compare with; the record has the 16 user fields in order |
| UserSpider.UserRecordColumns | weibospider/spiders/user.py:87-150 | the record written for a user has the id, nick name, verification, follower count and profile path in the columns post-processing reads |
| UserSpider.UnknownFansStopsMerge | weibospider/spiders/user.py:55-59 | a profile without a follower count leads `postprocess_users` to raise `ValueError` |
| Pipeline.Lookup | weibospider/pipelines.py:80 | `item['_id']` succeeds iff the key is present, and gives its value |
| Pipeline.Write | weibospider/pipelines.py:75-80 | after a write the output has its header; the `_id` lookup fails iff the item has no `_id` |
| Pipeline.Process | weibospider/pipelines.py:72-121 | unknown spiders change nothing; otherwise only the spider's output changes, now with a header; the call returns the item |
| Pipeline.ProcessStep | weibospider/pipelines.py:74-120 | one item adds the keys row only if the output had no header, then its values row and its `_id`; other outputs are untouched |
| Pipeline.ProcessAllOutput | weibospider/pipelines.py:72-121 | after any run, each output holds the first item's keys if it had no header, then every item's values, and every `_id`, repeats included |
| Pipeline.ProcessAllAfter | weibospider/pipelines.py:72-121 | a run of the pipeline over any events leaves each output equal to the reference `After`: the items routed to it, written in one go after what it held |
| Pipeline.HeaderOnce | weibospider/pipelines.py:60-80 | from a fresh pipeline an output holds exactly one header, the first item's keys, then every item's values |
| Pipeline.SharedRelationshipsHeader | weibospider/pipelines.py:82-96 | fan and follower items share one header: that of whichever came first |
| Pipeline.UnknownSpidersIgnored | weibospider/pipelines.py:74-121 | items from unknown spiders leave the pipeline as it was |
| Identity.ProxyTable | weibospider/middlewares.py:5-9 | one entry per line of `ips.txt`: no proxy iff the stripped line is `default`, otherwise the stripped line |
| Identity.CookieTable | weibospider/settings.py:13-16 | one stripped entry per line of `cookies.txt` |
| Identity.SlotNumber | weibospider/middlewares.py:17 | the slot number is the integer after the last `_` of the directory name; anything else raises `ValueError` |
| Identity.Pick | weibospider/middlewares.py:17 | a bad slot name raises `ValueError`, an empty table a division by zero; otherwise the entry at `slot mod n` |
| Identity.SlotNumberOfSlotDir | main.py:334 | the slot directory `weibospider_<w>` reads back as `w` |
| Identity.SlotPicksModulo | weibospider/middlewares.py:17 | worker `w` uses entry `w mod n` |
| Identity.SlotsShareEntry | weibospider/middlewares.py:17 | workers congruent modulo the table size share an entry, and distinct workers have distinct slots |
| Identity.ProcessRequest | weibospider/middlewares.py:19-24 | a chosen non-empty proxy sets `meta['proxy']` to `http://<proxy>`; otherwise meta is unchanged; no other key changes |
| Identity.DefaultLineNoProxy | weibospider/middlewares.py:8-21 | a slot whose line is `default` sends requests without a proxy |
| Identity.EmptyIpsFails | weibospider/middlewares.py:17 | an empty `ips.txt` makes every request fail with a division by zero |
| Identity.Octet | weibospider/settings.py:22 | each forwarded octet is one of 1, 21, …, 181 |
| Identity.ForwardedForOctets | weibospider/settings.py:22 | the `X-Forwarded-For` value splits back into its four octets |
| Identity.DefaultHeaders | weibospider/settings.py:19-23 | the headers exist iff the cookie pick succeeds; they are the user agent, the slot's cookie and the forwarded address |
| Identity.SlotCookie | weibospider/settings.py:21 | worker `w` sends the stripped `w mod n`-th cookie line |
| Identity.EmptyCookiesFail | weibospider/settings.py:21 | an empty `cookies.txt` makes the settings fail with a division by zero |
| CommentText.KeepAllowed | utils/__init__.py:18-26 | the whitelist filter keeps only allowed characters and never adds any; allowed text is left unchanged |
| CommentText.KeepAllowedConcat | utils/__init__.py:18-26 | the whitelist filter works piecewise: on a concatenation it is the filter of each piece |
| CommentText.KeepAllowedOne | utils/__init__.py:18-26 | one character is kept exactly when the whitelist has it |
| CommentText.EraseLeaves | utils/__init__.py:18-26 | deleting the characters a class holds leaves only characters outside it, all from the input; nothing to delete leaves the text, everything leaves nothing |
| CommentText.SqueezeLeavesNoRun | utils/__init__.py:27-29 | after `re.sub(p + '+', p, s)` no run of `p` is left |
| CommentText.SqueezeKeepsNoRun | utils/__init__.py:27-29 | a substitution creates no run of an entry whose letters differ from its repeated letter |
| CommentText.SqueezeFixes | utils/__init__.py:27-29 | text with no run of the entry is left unchanged |
| CommentText.CollapseAllAvoids | utils/__init__.py:27-29 | after the whole collapse list no entry has a run left |
| CommentText.CollapseAllFixes | utils/__init__.py:27-29 | text with no run to collapse is left unchanged |
| CommentText.RulesWellFormed | utils/__init__.py:27-28 | the collapse list's order cannot recreate a run it already removed |
| CommentText.CleanTail | utils/__init__.py:26-30 | the result has only whitelisted characters, no run left to collapse, no surrounding white space; apart from the collapse list's repeated characters (哇 哈 嗯, `m`, `k` and the punctuation marks) and white space it is exactly the whitelisted input, in order |
| CommentText.CleanTailFixes | utils/__init__.py:26-30 | a clean comment passes through unchanged |
| CommentText.CleanTailIdempotent | utils/__init__.py:26-30 | cleaning twice is cleaning once |
| CommentText.TildeNeverKept | utils/__init__.py:26-29 | `~` never survives, because the whitelist drops it before the collapse |
| CommentText.SqueezeExample | utils/__init__.py:29 | `memmmme` collapses to `meme` under the `em` entry |
| CommentText.ExtractCommentContent | utils/__init__.py:11-31 | whatever the six pattern filters do, the result is clean, no longer than their output, and apart from the collapse list's repeated characters (哇 哈 嗯, `m`, `k` and the punctuation marks) and white space it is exactly their whitelisted output, in order |
| Lda.TokensOfJoin | utils/lda.py:60 | `split()` undoes joining words with single spaces |
| Lda.StripThenSplit | utils/lda.py:60 | `line.strip().split()` is `line.split()` |
| Lda.BlankLineSkipped | utils/lda.py:66-68 | blank lines anywhere leave the documents unchanged |
| Lda.Vocabulary | utils/lda.py:65-76 | the vocabulary is duplicate-free and holds exactly the tokens of the documents |
| Lda.IdToWordInverse | utils/lda.py:81 | `id2word` is defined exactly on `0..V-1` and is the inverse of `word2id` both ways |
| Lda.IndexesCard | utils/lda.py:83 | `words_count` equals the number of vocabulary words |
| Lda.Preprocess | utils/lda.py:56-85 | one document per non-blank line, whose ids name its tokens in the first-seen vocabulary; `words_count` is the vocabulary size; `id2word` inverts `word2id` |
| Lda.EncodeLine | utils/lda.py:69-77 | each token's id names it in the grown vocabulary, and new words get the next ids in first-seen order |
| Lda.Sample | utils/lda.py:88-105 | moving one word to any topic in `[0, K)` keeps `nw`, `nd`, `nwsum`, `ndsum` consistent with the assignment |
| Lda.SampleSameTopic | utils/lda.py:88-105 | resampling a word into its own topic changes nothing |
| Lda.PairBagReassign | utils/lda.py:102-104 | reassigning a word moves one (word, topic) count from the old topic to the new |
| Lda.TopicBagReassign | utils/lda.py:102-104 | reassigning a word moves one topic count from the old topic to the new |
| Lda.CountTotals | utils/lda.py:44-51 | every row of `nd` sums to `ndsum[x]` and every column of `nw` sums to `nwsum[k]` |
| Lda.RowSumCounts | utils/lda.py:44-51 | a row counting a bag sums to the bag's size below the row length |
| Lda.ColumnSumCounts | utils/lda.py:44-51 | a column counting pairs sums to the pairs with that topic |
| Lda.DrawTopics | utils/lda.py:46-51 | each word of a document gets its drawn topic, and `nd[x]`, `nw`, `nwsum` grow by exactly those assignments |
| Lda.DrawDocument | utils/lda.py:46-51 | one more document drawn keeps the counts consistent and earlier assignments unchanged |
| Lda.DrawAll | utils/lda.py:44-51 | after the counting loop every word has its drawn topic and all counts agree with the assignment |
| Lda.Initialise | utils/lda.py:43-51 | raises `ValueError` iff `K = 0` and some document has a word; otherwise every word has its drawn topic and the counts are consistent |
| Lda.Train | utils/lda.py:108-116 | the counts stay consistent through every sweep; with zero sweeps the counts are unchanged; otherwise the assignment is the last sweep's draws |
| Lda.Sweep | utils/lda.py:113-116 | one sweep gives every word its drawn topic and keeps the counts consistent |
| Lda.SweepDocument | utils/lda.py:113-116 | one document's words get their drawn topics, the other documents are untouched, and the counts stay consistent |
| Lda.TopWordsNum | utils/lda.py:54 | the number of top words listed is one of the two bounds and exceeds neither |
| Table.FirstWinsIsFirsts | main.py:192-194 | the first-seen loop keeps exactly the first element of every key, in order |
| Table.SortDesc | main.py:196 | the descending sort is a permutation and is sorted |
| Table.SortDescStable | main.py:196 | the sort is stable: for every key value, the elements with that key keep their input order |
| Table.AppendAllFirstWins | main.py:102-103 | appending unseen values continues the first-seen list of everything read so far |
| Table.KeysFaultSome | main.py:196 | the sort raises exactly when some row has a missing or non-numeric key cell |
| Table.SortRows | weibospider/run_weibo_spider.py:65 | sorting rows on integer key columns fails iff some key cell is missing or not a number; otherwise the result is a permutation of the rows, sorted descending by the key tuple, rows with equal keys in input order |
| Table.SortKeepsElements | main.py:196 | the sort keeps the length and exactly the elements |
| Table.FirstWinsKeeps | main.py:192-194 | the first row with a key is kept |
| Table.FirstWinsOrigin | main.py:192-194 | every kept row is the first row of its key in the input |
| Table.AssocLast | main.py:272 | filling a dictionary row by row leaves each key with the value of its last row |
| Table.Distinct | main.py:486-488 | the deduplicated keyword list has no repeats, holds exactly the lines read, and keeps each at its first occurrence, in file order |
| Table.PicksConcat | main.py:312-322 | filtering two record lists in turn is filtering their concatenation |
| Table.PicksMember | main.py:291-297 | a value is kept exactly when some record gives it |
| Text.Strip | main.py:485 | `strip()` gives an infix of the line without surrounding white space, and leaves a line without any unchanged |
| Text.ReadLines | main.py:484 | `readlines()` cuts the file into non-empty lines, each ending at its first line break (the last may have none), that concatenate back to the file |
| Text.WriteLines | main.py:453-455 | `comments.txt` text: every line followed by a break; its length is the contents plus one per line, and it ends in a break when not empty |
| Text.ReplaceCharIsSubstitute | weibospider/spiders/user.py:88 | `str.replace` of a one-character pattern replaces every occurrence of that character and nothing else |
| Text.SubstituteConcat | weibospider/spiders/user.py:142 | replacing a character in two pieces in turn is replacing it in their concatenation |
| Text.Split | main.py:160 | `split(sep)` gives at least one piece, and the string itself when `sep` does not occur |
| Linker.NumeralNoComma | main.py:294 | a numeral holds no comma, so a row number cannot break the `HYPERLINK` formula |
| Topics.WalkCommentFiles | main.py:399-416 | a directory's comments files need a current topic file; their qualifying rows are appended to it file after file, in order, and `tweets_dict` stays |
| Lda.Tokens | utils/lda.py:60 | `split()` gives non-empty tokens without white space |
| Lda.LoadLine | utils/lda.py:62-78 | reading one more line keeps the vocabulary, `word2id`, the index set and the documents in step with the lines read |
| CommentText.Squeeze | utils/__init__.py:29 | a single substitution never lengthens the text (what it deletes is `SqueezeErase`) |
| CommentText.SqueezeErase | utils/__init__.py:28-29 | the substitution deletes copies of the repeated letter and nothing else: every other character survives, in order |
| CommentText.CollapseAll | utils/__init__.py:27-29 | the collapse list never lengthens the text and adds no new character (what it deletes is `CollapseAllErase`) |
| CommentText.CollapseAllErase | utils/__init__.py:27-29 | the whole collapse list deletes copies of the entries' repeated letters only |
| CommentText.StripErase | utils/__init__.py:30 | `strip()` deletes white space and nothing else |
| Text.SplitJoin | main.py:489 | splitting on a one-character separator undoes joining with it, when no piece holds it |
| Text.ParseIntToString | weibospider/run_weibo_spider.py:55 | a count the spiders wrote with `str` reads back with `int` as the same number, negative ones included |
| Text.ReadWrittenLines | main.py:222 | lines written one per line read back with their `\n` |

## Findings

| source | as written | input that shows it | evidently intended | confidence | as-written member | corrected member |
|---|---|---|---|---|---|---|
| main.py:318 (value stored at main.py:297, only `KeyError` caught at main.py:321) | `tweets_dict[row[0]][0]` subscripts the `int` stored by the tweets pass. Every comment whose author and tweet are both found raises an uncaught `TypeError`, and the run aborts. Only comments the pass would drop get through. | a `users.csv` with one user (url `u`, id `1`), a `tweets.csv` with tweet `7` by `u`, and a comments file with one comment on `7` by `u` | link the comment to its tweet's row. `tweets_dict` holds `len(tweets)`, the number of tweets kept so far, so the row is `len(tweets) + 1` once the header is counted, as for `users_dict`'s `i + 1` | not executed | Linker.LinkCommentAsWritten, Linker.AsWrittenLosesComments, Linker.AsWrittenAbortExample | Linker.LinkComment, Linker.CommentTweetLink |

`Linker.PostprocessFinal` uses the corrected comment pass. `Linker.AsWrittenAborts` proves the two passes agree everywhere except where the corrected one keeps a record.

## Left out

- I/O, subprocesses, process pools, `time.sleep`, `shutil` and `os.walk`/`os.listdir`: files are row sequences and directory listings are given sequences. A crawl's output is a function of its argument.
- `os.walk` and `os.listdir` order: given as data. The runner's source directory is assumed empty before consolidation, so earlier contents are not merged.
- CSV parsing and quoting, the `utf-8-sig` byte-order mark and the `excel` dialect: a row is its cells.
- Partition.TaskNameFromArgs: `realpath` is modelled lexically, from a working-directory parameter: `.` and `..` components are resolved, but symbolic links are not followed. The same holds for `Partition.KeywordFromArgs`.
- Partition.CeilDivBounds: `int(math.ceil(a / b))` goes through a float. The model's exact integer ceiling agrees with it while the item count stays below 2^53.
- `datetime.strptime`/`strftime`: dates are day numbers and formatting is a parameter. An invalid date string (a `ValueError`) is not modelled.
- Partition.Spans: a `days_per_worker` of zero or less makes the source loop forever (or never advance), so `days >= 1` is a precondition there.
- `int()` accepts surrounding white space, `_` separators and non-ASCII digits. The model's `Text.ParseInt` accepts an optional sign and ASCII digits only.
- Regex filters 1-6 of `extract_comment_content`: a parameter. The `difflib` `quick_ratio() > 0.7` similarity test: a parameter.
- HTML/XPath parsing and regex captures in the spiders: the captures are inputs. A capture that is missing where the source indexes `[0]` is not modelled, except for the user id and gender captures of `parse_info`.
- `time_fix` and `extract_weibo_content`: outputs taken as inputs.
- Redirects: a response URL is the request URL.
- TweetSpider.TweetItem: states the field count and the columns the crawl task reads, not every optional link field.
- CommentText.TildeNeverKept: the source lists `~` for collapsing, but it cannot reach the collapse, so that entry is inert. The model keeps it on the list.
- Topics.WalkDirs: states `tweets_dict` exactly: its keys, and each kept id's value, the url cell of the last tweet with that id. The source stores a one-element tuple and reads back its element; the model stores the url itself. The topic files the walk writes are stated per directory by `Topics.WalkTweets` and `Topics.WalkCommentFiles`, not composed over the whole walk.
- CommentText.Squeeze: its own contract states only that the text does not grow. What the substitution deletes is stated by `CommentText.SqueezeErase`, and that no run is left by `CommentText.SqueezeLeavesNoRun`.
- CommentText.CollapseAll: its own contract states only length and no new characters. What the list deletes is stated by `CommentText.CollapseAllErase`, and that no run is left by `CommentText.CollapseAllAvoids`.
- CommentText.CleanTail: relates the result to the whitelisted input only up to collapse letters and white space. Which copies of those the collapse and `strip()` remove is bounded by `IsClean`, not fixed character by character.
- CommentText.ExtractCommentContent: the same as `CommentText.CleanTail`, applied to the output of the six pattern filters.
- LDA floating point: the conditional probabilities, theta/phi, the multinomial draw and the CSV output. The topic a draw yields is a parameter in `[0, K)`.
- Lda.Initialise: `random.randint(0, K - 1)` with `K = 0` raises `ValueError`, which is modelled. A negative `K` cannot be expressed, because `K` is a natural number.
- Lda.Preprocess: `id2word` is built from the ids, and `Lda.IdToWordInverse` proves it equals the inverse of `word2id`. `nd` and `ndsum` rows are appended per document rather than preallocated, which has the same final contents.
- Lda.Train: the draws of every sweep are a parameter `draw(it, i, j)`.
- Writing `topic_docs_word.txt` (utils/lda.py:147-152), each word with the topic of its position: file output, and the topics are the assignment `Lda.Train` states.
- UserSpider.SexOrientation: compares the cleaned capture with the raw gender capture, exactly as the source does. It does not compare against the cleaned gender.
- `MongoDBPipeline` (a database client), `run_spider.py` (command-line dispatch), `test.py` (network probing), `utils/analyzer.py` and the `wordcount` part of `utils/__init__.py` (foreign libraries, floating point, plotting): outside the modelled core.
- Consolidate.MergeUsers: `postprocess_users` is `Consolidate.MergeSheets` with key column 15 and sort column 14. Its properties are those of `MergeSheets`, so it carries no contract of its own.

=== FILE: comment_spider.dfy ===
/** The comment spider (`weibospider/spiders/comment.py`): the hot-comment URLs it
    requests for a tweet and the items it yields.

    The HTML of a comment page is an input: for each comment, the link to its
    author, its cleaned text, its element id, its time as `time_fix` returns it and
    its like count, already extracted.
 */
module CommentSpider {
  import opened Wrappers
  import opened Text
  import opened Table
  import opened Partition
  import opened Pagination
  import opened Pipeline
  import opened SpiderRun

  const HotPath: String := "/comment/hot/"

  // ---------------------------------------------------------------------------
  // URLs

  /** The first page of a tweet's hot comments. */
  function StartUrl(tweetId: String): (u: String)
    ensures EndsWith(u, FirstPage)
  {
    EndsWithPageOne(BaseUrl + HotPath + tweetId + "?");
    BaseUrl + HotPath + tweetId + "?" + FirstPage
  }

  /** `start_requests`: one first page per tweet id, in order. */
  function StartUrls(tweetIds: seq<String>): (r: seq<String>)
    ensures |r| == |tweetIds|
    ensures forall i :: 0 <= i < |r| ==> r[i] == StartUrl(tweetIds[i])
  {
    seq(|tweetIds|, i requires 0 <= i < |tweetIds| => StartUrl(tweetIds[i]))
  }

  /** `url.split('/')[-1].split('?')[0]`: the tweet id a comment page is read as. */
  function WeiboId(url: String): String {
    FirstField(LastField(url, "/"), "?")
  }

  /** An id that survives being put into a URL path and read back. */
  predicate PlainId(id: String) {
    '/' !in id && '?' !in id
  }

  /** Whatever query follows the id, as long as it has no `/`, the id is read back. */
  lemma WeiboIdAfterHot(tweetId: String, query: String)
    requires PlainId(tweetId) && '/' !in query
    ensures WeiboId(BaseUrl + HotPath + tweetId + "?" + query) == tweetId
  {
    var head := "https://weibo.cn/comment/hot";
    var tail := tweetId + "?" + query;
    assert BaseUrl + HotPath + tweetId + "?" + query == head + ['/'] + tail;
    assert '/' !in tail by {
      assert forall i :: 0 <= i < |tail| ==> tail[i] != '/';
    }
    LastFieldAfter(head, '/', tail);
    FirstAfterHead(tweetId, "?", query);
    SplitAt(tweetId, "?", query);
  }

  /** Every page the spider requests for a tweet, the first and the follow-ups alike,
      is read back as that tweet's id, provided the id has no `/` or `?` and no
      `page=1` inside it. */
  lemma PagesNameTweet(tweetId: String, total: Option<nat>)
    requires PlainId(tweetId) && !Occurs(tweetId, FirstPage)
    ensures WeiboId(StartUrl(tweetId)) == tweetId
    ensures forall u :: u in PageUrls(StartUrl(tweetId), total) ==> WeiboId(u) == tweetId
  {
    WeiboIdAfterHot(tweetId, FirstPage);
    if total.Some? {
      FollowUpsNameTweet(tweetId, total.value);
    }
  }

  /** Every follow-up page of a tweet's comment listing names that tweet. */
  lemma FollowUpsNameTweet(tweetId: String, total: nat)
    requires PlainId(tweetId) && !Occurs(tweetId, FirstPage)
    ensures forall u :: u in PageUrls(StartUrl(tweetId), Some(total)) ==> WeiboId(u) == tweetId
  {
    var prefix := BaseUrl + HotPath + tweetId + "?";
    PrefixWithoutFirstPage(tweetId);
    FollowUpsEndInPage(prefix, total);
    var r := PageUrls(StartUrl(tweetId), Some(total));
    forall i | 0 <= i < |r|
      ensures WeiboId(r[i]) == tweetId
    {
      FollowUpNamesTweet(tweetId, i + 2);
    }
  }

  /** Only the final `page=1` of a first page is one, so the page number is put there. */
  lemma PrefixWithoutFirstPage(tweetId: String)
    requires PlainId(tweetId) && !Occurs(tweetId, FirstPage)
    ensures !Occurs(BaseUrl + HotPath + tweetId + "?", FirstPage)
  {
    var head := "https://weibo.cn/comment/hot";
    assert BaseUrl + HotPath + tweetId + "?" == head + ['/'] + (tweetId + ['?'] + "");
    AbsentChar(head, FirstPage, 4);
    AbsentAcross(tweetId, '?', "", FirstPage);
    AbsentAcross(head, '/', tweetId + ['?'] + "", FirstPage);
  }

  lemma FollowUpNamesTweet(tweetId: String, n: nat)
    requires PlainId(tweetId)
    ensures WeiboId(BaseUrl + HotPath + tweetId + "?" + PageKey + NatToString(n)) == tweetId
  {
    var d := NatToString(n);
    var query := PageKey + d;
    assert '/' !in query by {
      forall k | 0 <= k < |d| ensures d[k] != '/' {
        assert IsDigit(d[k]);
      }
      assert forall k :: 0 <= k < |query| ==> query[k] != '/';
    }
    assert BaseUrl + HotPath + tweetId + "?" + PageKey + d == BaseUrl + HotPath + tweetId + "?" + query;
    WeiboIdAfterHot(tweetId, query);
  }

  // ---------------------------------------------------------------------------
  // Items

  /** What a comment page shows of one comment, already extracted. */
  datatype CommentNode = CommentNode(userHref: String, content: String, commentId: String,
                                     createdAt: String, likes: nat)

  /** The item `parse` yields for a comment on the page at `url`, in field order. */
  function CommentItem(url: String, n: CommentNode): (item: Item)
    ensures |item| == 6
  {
    [ ("weibo_id", WeiboId(url)),
      ("comment_user_id", n.userHref),
      ("content", n.content),
      ("_id", n.commentId),
      ("like_num", NatToString(n.likes)),
      ("created_at", n.createdAt) ]
  }

  /** `parse`'s items for one page: one per comment, in page order. */
  function CommentItems(url: String, nodes: seq<CommentNode>): (r: seq<Item>)
    ensures |r| == |nodes|
    ensures forall i :: 0 <= i < |r| ==> r[i] == CommentItem(url, nodes[i])
  {
    seq(|nodes|, i requires 0 <= i < |nodes| => CommentItem(url, nodes[i]))
  }

  /** The record the pipeline writes for a comment is the one the crawl task and the
      topic pass read: the tweet id in column 0, the author link in column 1, the
      cleaned content in column 2, the comment id in column 3, the like count in
      column 4 as a numeral that reads back as it, and the time in column 5. */
  predicate CommentColumns(url: String, n: CommentNode) {
    var item := CommentItem(url, n);
    var row := Values(item);
    && row[0] == WeiboId(url)
    && UserOf(row) == n.userHref
    && row[2] == n.content
    && CommentIdOf(row) == n.commentId
    && CellsFault(row, [4]).None?
    && IntCells(row, [4]) == [n.likes as int]
    && row[5] == n.createdAt
    && Lookup(item, "_id") == Some(n.commentId)
  }

  lemma CommentRecordColumns(url: String, n: CommentNode)
    ensures CommentColumns(url, n)
  {
    var item := CommentItem(url, n);
    ParseNatToString(n.likes);
    assert item[0].0 != "_id" && item[1].0 != "_id" && item[2].0 != "_id";
    assert Lookup(item, "_id") == Lookup(item[1..], "_id");
    assert Lookup(item[1..], "_id") == Lookup(item[2..], "_id") by {
      assert item[1..][1..] == item[2..];
    }
    assert Lookup(item[2..], "_id") == Lookup(item[3..], "_id") by {
      assert item[2..][1..] == item[3..];
    }
    assert Lookup(item[3..], "_id") == Some(n.commentId);
  }

  /** The comments crawled for a tweet, on any of its pages, carry that tweet's id. */
  lemma CrawledCommentsNameTweet(tweetId: String, total: Option<nat>, url: String, nodes: seq<CommentNode>)
    requires PlainId(tweetId) && !Occurs(tweetId, FirstPage)
    requires url == StartUrl(tweetId) || url in PageUrls(StartUrl(tweetId), total)
    ensures forall item :: item in CommentItems(url, nodes) ==> Lookup(item, "weibo_id") == Some(tweetId)
  {
    PagesNameTweet(tweetId, total);
    var r := CommentItems(url, nodes);
    forall item | item in r
      ensures Lookup(item, "weibo_id") == Some(tweetId)
    {
      assert item[0] == ("weibo_id", WeiboId(url));
    }
  }
}

=== FILE: comment_text.dfy ===
/** The tail of `extract_comment_content` (`utils/__init__.py`): after the six
    pattern filters, every character outside a whitelist is deleted, runs of the
    listed interjections and punctuation marks are collapsed to one, and the
    surrounding white space is stripped.

    The six earlier filters delete mentions, links, hashtags, emoji and notices by
    regular expression; they are a parameter here.
 */
module CommentText {
  import opened Text

  // ---------------------------------------------------------------------------
  // The whitelist

  /** The punctuation the whitelist keeps, the space included. */
  const Punctuation: String :=
    "+-*/%()\U{ff08}\U{ff09}<=>,\U{ff0c}.\U{3002}!\U{ff01}:\U{ff1a};\U{ff1b}?\U{ff1f}\"'\U{2018}\U{2019}\U{201c}\U{201d}\U{3001}\U{2026}\U{300a}\U{300b} "

  /** The characters the last pattern filter keeps: the CJK ideographs from U+4E00 to
      U+9FA5, ASCII letters and digits, and the punctuation above. */
  predicate Allowed(c: char) {
    || ('\U{4e00}' <= c <= '\U{9fa5}')
    || ('0' <= c <= '9') || ('A' <= c <= 'Z') || ('a' <= c <= 'z')
    || c in Punctuation
  }

  predicate AllAllowed(s: String) {
    forall i :: 0 <= i < |s| ==> Allowed(s[i])
  }

  predicate Disallowed(c: char) {
    !Allowed(c)
  }

  /** The characters of `s` that `drop` does not hold for, in order: the deletion
      `re.sub(pattern, '', s)` performs when `pattern` matches single characters,
      and what is left to compare once the characters an operation may delete are
      set aside. */
  function Erase(s: String, drop: char -> bool): (r: String)
    ensures |r| <= |s|
    decreases |s|
  {
    if |s| == 0 then "" else (if drop(s[0]) then "" else [s[0]]) + Erase(s[1..], drop)
  }

  /** What erasing leaves: characters of `s` that `drop` does not hold for; all of
      `s` when there is nothing to drop, nothing when there is nothing else. */
  lemma {:induction false} EraseLeaves(s: String, drop: char -> bool)
    ensures forall i :: 0 <= i < |Erase(s, drop)| ==> !drop(Erase(s, drop)[i])
    ensures forall x :: x in Erase(s, drop) ==> x in s
    ensures (forall i :: 0 <= i < |s| ==> !drop(s[i])) ==> Erase(s, drop) == s
    ensures (forall i :: 0 <= i < |s| ==> drop(s[i])) ==> Erase(s, drop) == ""
    decreases |s|
  {
    if |s| > 0 {
      EraseLeaves(s[1..], drop);
      var h := if drop(s[0]) then "" else [s[0]];
      var rest := Erase(s[1..], drop);
      assert Erase(s, drop) == h + rest;
      assert forall x :: x in rest ==> x in s by {
        assert forall x :: x in s[1..] ==> x in s;
      }
      if forall i :: 0 <= i < |s| ==> !drop(s[i]) {
        assert forall i :: 0 <= i < |s| - 1 ==> !drop(s[1..][i]);
        assert s == [s[0]] + s[1..];
      }
      if forall i :: 0 <= i < |s| ==> drop(s[i]) {
        assert forall i :: 0 <= i < |s| - 1 ==> drop(s[1..][i]);
      }
    }
  }

  /** Erasing works character by character: on two pieces in turn ... */
  lemma {:induction false} EraseConcat(a: String, b: String, drop: char -> bool)
    ensures Erase(a + b, drop) == Erase(a, drop) + Erase(b, drop)
    decreases |a|
  {
    if |a| > 0 {
      assert (a + b)[0] == a[0];
      assert (a + b)[1..] == a[1..] + b;
      EraseConcat(a[1..], b, drop);
    } else {
      assert a + b == b;
    }
  }

  /** ... and on one character, which it keeps exactly when `drop` does not hold. */
  lemma EraseOne(x: char, drop: char -> bool)
    ensures Erase([x], drop) == if drop(x) then "" else [x]
  {
    assert [x][1..] == "";
  }

  /** The whitelist filter, the last pattern filter: every character outside the
      whitelist deleted, the others kept in order. */
  function KeepAllowed(s: String): (r: String)
    ensures |r| <= |s|
    ensures AllAllowed(r)
    ensures forall x :: x in r ==> x in s
    ensures AllAllowed(s) ==> r == s
  {
    EraseLeaves(s, Disallowed);
    Erase(s, Disallowed)
  }

  /** The filter works character by character: on two pieces in turn ... */
  lemma KeepAllowedConcat(a: String, b: String)
    ensures KeepAllowed(a + b) == KeepAllowed(a) + KeepAllowed(b)
  {
    EraseConcat(a, b, Disallowed);
  }

  /** ... and on one character, which it keeps exactly when the whitelist has it. */
  lemma KeepAllowedOne(x: char)
    ensures KeepAllowed([x]) == if Allowed(x) then [x] else ""
  {
    EraseOne(x, Disallowed);
  }

  /** `strip(chars)` deletes characters it strips and nothing else. */
  lemma StripWhereErase(s: String, d: char -> bool, drop: char -> bool)
    requires forall x :: d(x) ==> drop(x)
    ensures Erase(StripWhere(s, d), drop) == Erase(s, drop)
  {
    var t := TrimStartWhere(s, d);
    var r := TrimEndWhere(t, d);
    assert StripWhere(s, d) == r;
    EraseFront(s, |s| - |t|, drop);
    EraseBack(t, |r|, drop);
  }

  /** A prefix of dropped characters erases to nothing. */
  lemma EraseFront(s: String, k: nat, drop: char -> bool)
    requires k <= |s| && forall i :: 0 <= i < k ==> drop(s[i])
    ensures Erase(s, drop) == Erase(s[k..], drop)
  {
    var front := s[..k];
    assert forall i :: 0 <= i < |front| ==> drop(front[i]);
    EraseLeaves(front, drop);
    assert s == front + s[k..];
    EraseConcat(front, s[k..], drop);
  }

  /** So does a suffix of them. */
  lemma EraseBack(s: String, k: nat, drop: char -> bool)
    requires k <= |s| && forall i :: k <= i < |s| ==> drop(s[i])
    ensures Erase(s, drop) == Erase(s[..k], drop)
  {
    var back := s[k..];
    assert forall i :: 0 <= i < |back| ==> drop(back[i]);
    EraseLeaves(back, drop);
    assert s == s[..k] + back;
    EraseConcat(s[..k], back, drop);
  }

  /** `strip()` deletes white space only. */
  lemma StripErase(s: String, drop: char -> bool)
    requires forall x :: IsSpace(x) ==> drop(x)
    ensures Erase(Strip(s), drop) == Erase(s, drop)
  {
    StripWhereErase(s, IsSpace, drop);
  }

  // ---------------------------------------------------------------------------
  // Collapsing runs

  /** One entry of the collapse list, the substitution `re.sub(p + '+', p, s)`:
      `Run(c)` for a one-character entry, `LedRun(lead, c)` for `em` and `ok`, where
      only the last letter repeats. */
  datatype Rule = Run(c: char) | LedRun(lead: char, c: char)

  predicate WellFormed(rule: Rule) {
    rule.LedRun? ==> rule.lead != rule.c
  }

  /** The text one match is replaced by: the entry itself. */
  function Head(rule: Rule): String {
    match rule
    case Run(c) => [c]
    case LedRun(a, c) => [a, c]
  }

  /** The entry matches at the start of `s`. */
  predicate MatchesAt(s: String, rule: Rule) {
    match rule
    case Run(c) => |s| > 0 && s[0] == c
    case LedRun(a, c) => |s| > 1 && s[0] == a && s[1] == c
  }

  /** A run the substitution would shorten starts at `i`: the entry with its last
      letter doubled. */
  predicate RunAt(s: String, rule: Rule, i: int) {
    match rule
    case Run(c) => 0 <= i && i + 1 < |s| && s[i] == c && s[i + 1] == c
    case LedRun(a, c) => 0 <= i && i + 2 < |s| && s[i] == a && s[i + 1] == c && s[i + 2] == c
  }

  predicate NoRun(s: String, rule: Rule) {
    forall i :: 0 <= i < |s| ==> !RunAt(s, rule, i)
  }

  /** The text after the leading run of `c`. */
  function DropRun(s: String, c: char): (r: String)
    ensures |r| <= |s|
    ensures |r| > 0 ==> r[0] != c
    ensures |s| > 0 && s[0] != c ==> r == s
    decreases |s|
  {
    if |s| > 0 && s[0] == c then DropRun(s[1..], c) else s
  }

  /** What `DropRun` leaves is a suffix of its input. */
  lemma {:induction false} DropRunSuffix(s: String, c: char)
    ensures s[|s| - |DropRun(s, c)|..] == DropRun(s, c)
    decreases |s|
  {
    if |s| > 0 && s[0] == c {
      DropRunSuffix(s[1..], c);
    }
  }

  /** One substitution, scanning from the left as `re.sub` does: where the entry
      matches, the longest match is replaced by the entry and the scan resumes
      after it. */
  function Squeeze(s: String, rule: Rule): (r: String)
    ensures |r| <= |s|
    decreases |s|
  {
    if |s| == 0 then ""
    else if MatchesAt(s, rule) then
      Head(rule) + Squeeze(DropRun(s[|Head(rule)|..], rule.c), rule)
    else
      [s[0]] + Squeeze(s[1..], rule)
  }

  /** Dropping a leading run deletes copies of the repeated letter only. */
  lemma {:induction false} DropRunErase(s: String, c: char, drop: char -> bool)
    requires drop(c)
    ensures Erase(DropRun(s, c), drop) == Erase(s, drop)
    decreases |s|
  {
    if |s| > 0 && s[0] == c {
      DropRunErase(s[1..], c, drop);
    }
  }

  /** The substitution deletes copies of the repeated letter and nothing else: every
      other character survives, in order. */
  lemma {:induction false} SqueezeErase(s: String, rule: Rule, drop: char -> bool)
    requires drop(rule.c)
    ensures Erase(Squeeze(s, rule), drop) == Erase(s, drop)
    decreases |s|
  {
    if |s| > 0 {
      if MatchesAt(s, rule) {
        var h := Head(rule);
        var w := s[|h|..];
        assert s == h + w;
        DropRunErase(w, rule.c, drop);
        SqueezeErase(DropRun(w, rule.c), rule, drop);
        EraseConcat(h, Squeeze(DropRun(w, rule.c), rule), drop);
        EraseConcat(h, w, drop);
      } else {
        assert s == [s[0]] + s[1..];
        SqueezeErase(s[1..], rule, drop);
        EraseConcat([s[0]], Squeeze(s[1..], rule), drop);
        EraseConcat([s[0]], s[1..], drop);
      }
    }
  }

  /** The substitution keeps the first character. */
  lemma SqueezeFirst(s: String, rule: Rule)
    requires |s| > 0
    ensures |Squeeze(s, rule)| > 0 && Squeeze(s, rule)[0] == s[0]
  {
  }

  /** It keeps the second one too when the first is not the repeated letter. */
  lemma SqueezeSecond(s: String, rule: Rule)
    requires |s| > 1 && s[0] != rule.c
    ensures |Squeeze(s, rule)| > 1 && Squeeze(s, rule)[1] == s[1]
  {
    if MatchesAt(s, rule) {
      assert rule.LedRun?;
    } else {
      SqueezeFirst(s[1..], rule);
    }
  }

  /** The substitution only deletes characters. */
  lemma {:induction false} SqueezeChars(s: String, rule: Rule)
    ensures forall x :: x in Squeeze(s, rule) ==> x in s
    decreases |s|
  {
    if |s| > 0 {
      if MatchesAt(s, rule) {
        var rest := DropRun(s[|Head(rule)|..], rule.c);
        DropRunSuffix(s[|Head(rule)|..], rule.c);
        SqueezeChars(rest, rule);
        assert forall x :: x in rest ==> x in s;
        assert forall x :: x in Head(rule) ==> x in s;
      } else {
        SqueezeChars(s[1..], rule);
      }
    }
  }

  /** A run-free text stays run-free with a character put in front, unless the
      window at the front is a run. */
  lemma NoRunCons(x: char, t: String, rule: Rule)
    requires NoRun(t, rule) && !RunAt([x] + t, rule, 0)
    ensures NoRun([x] + t, rule)
  {
    forall i | i != 0 ensures !RunAt([x] + t, rule, i) {
      if RunAt([x] + t, rule, i) {
        assert RunAt(t, rule, i - 1);
      }
    }
  }

  /** Windows in a suffix are windows in the whole. */
  lemma NoRunSuffix(s: String, k: nat, rule: Rule)
    requires k <= |s| && NoRun(s, rule)
    ensures NoRun(s[k..], rule)
  {
    forall i ensures !RunAt(s[k..], rule, i) {
      if RunAt(s[k..], rule, i) {
        assert RunAt(s, rule, i + k);
      }
    }
  }

  /** Windows in an infix are windows in the whole. */
  lemma NoRunInfix(r: String, s: String, rule: Rule)
    requires IsInfix(r, s) && NoRun(s, rule)
    ensures NoRun(r, rule)
  {
    var a :| 0 <= a <= |s| - |r| && InfixAt(r, s, a);
    forall i ensures !RunAt(r, rule, i) {
      if RunAt(r, rule, i) {
        assert RunAt(s, rule, i + a);
      }
    }
  }

  /** After a substitution its entry has no run left: every match was cut to the
      entry itself. */
  lemma {:induction false} SqueezeLeavesNoRun(s: String, rule: Rule)
    requires WellFormed(rule)
    ensures NoRun(Squeeze(s, rule), rule)
    decreases |s|
  {
    if |s| > 0 {
      if MatchesAt(s, rule) {
        var u := DropRun(s[|Head(rule)|..], rule.c);
        var x := Squeeze(u, rule);
        SqueezeLeavesNoRun(u, rule);
        if |u| > 0 {
          SqueezeFirst(u, rule);
        }
        assert |x| > 0 ==> x[0] != rule.c;
        match rule
        case Run(c) =>
          NoRunCons(c, x, rule);
        case LedRun(a, c) =>
          NoRunCons(c, x, rule);
          assert [a] + ([c] + x) == Head(rule) + x;
          NoRunCons(a, [c] + x, rule);
      } else {
        var x := Squeeze(s[1..], rule);
        SqueezeLeavesNoRun(s[1..], rule);
        if |s| > 1 {
          SqueezeFirst(s[1..], rule);
        }
        NoRunCons(s[0], x, rule);
      }
    }
  }

  /** `rule`'s letter is neither letter of `other`. */
  predicate Fresh(rule: Rule, other: Rule) {
    rule.c != other.c && (other.LedRun? ==> rule.c != other.lead)
  }

  /** A substitution creates no run of an entry whose letters differ from its own
      repeated letter: it only deletes copies of that letter. */
  lemma {:induction false} SqueezeKeepsNoRun(s: String, rule: Rule, other: Rule)
    requires Fresh(rule, other) && NoRun(s, other)
    ensures NoRun(Squeeze(s, rule), other)
    decreases |s|, 1
  {
    if |s| > 0 {
      if MatchesAt(s, rule) {
        KeepsNoRunMatched(s, rule, other);
      } else {
        KeepsNoRunSkipped(s, rule, other);
      }
    }
  }

  /** `SqueezeKeepsNoRun` where the text starts with a run of the entry. */
  lemma {:induction false} KeepsNoRunMatched(s: String, rule: Rule, other: Rule)
    requires Fresh(rule, other) && NoRun(s, other) && |s| > 0 && MatchesAt(s, rule)
    ensures NoRun(Squeeze(s, rule), other)
    decreases |s|, 0
  {
    var w := s[|Head(rule)|..];
    var u := DropRun(w, rule.c);
    var x := Squeeze(u, rule);
    NoRunSuffix(s, |Head(rule)|, other);
    DropRunSuffix(w, rule.c);
    NoRunSuffix(w, |w| - |u|, other);
    SqueezeKeepsNoRun(u, rule, other);
    match rule
    case Run(c) =>
      NoRunCons(c, x, other);
    case LedRun(a, c) =>
      NoRunCons(c, x, other);
      assert [a] + ([c] + x) == Head(rule) + x;
      NoRunCons(a, [c] + x, other);
  }

  /** `SqueezeKeepsNoRun` where the first character is kept as it is. */
  lemma {:induction false} KeepsNoRunSkipped(s: String, rule: Rule, other: Rule)
    requires Fresh(rule, other) && NoRun(s, other) && |s| > 0 && !MatchesAt(s, rule)
    ensures NoRun(Squeeze(s, rule), other)
    decreases |s|, 0
  {
    var x := Squeeze(s[1..], rule);
    NoRunSuffix(s, 1, other);
    SqueezeKeepsNoRun(s[1..], rule, other);
    if |s| > 1 {
      SqueezeFirst(s[1..], rule);
      if s[1] != rule.c && |s| > 2 {
        SqueezeSecond(s[1..], rule);
      }
    }
    assert !RunAt(s, other, 0);
    NoRunCons(s[0], x, other);
  }

  /** Text with no run of the entry is left as it is. */
  lemma {:induction false} SqueezeFixes(s: String, rule: Rule)
    requires NoRun(s, rule)
    ensures Squeeze(s, rule) == s
    decreases |s|
  {
    if |s| > 0 {
      if MatchesAt(s, rule) {
        var w := s[|Head(rule)|..];
        assert !RunAt(s, rule, 0);
        assert |w| > 0 ==> w[0] != rule.c;
        assert DropRun(w, rule.c) == w;
        NoRunSuffix(s, |Head(rule)|, rule);
        SqueezeFixes(w, rule);
        assert s == Head(rule) + w;
      } else {
        NoRunSuffix(s, 1, rule);
        SqueezeFixes(s[1..], rule);
      }
    }
  }

  /** The substitutions in list order. */
  function CollapseAll(s: String, rules: seq<Rule>): (r: String)
    ensures |r| <= |s|
    ensures forall x :: x in r ==> x in s
    decreases |rules|
  {
    if |rules| == 0 then s
    else
      SqueezeChars(s, rules[0]);
      CollapseAll(Squeeze(s, rules[0]), rules[1..])
  }

  /** The substitutions together delete copies of the entries' repeated letters only. */
  lemma {:induction false} CollapseAllErase(s: String, rules: seq<Rule>, drop: char -> bool)
    requires forall i :: 0 <= i < |rules| ==> drop(rules[i].c)
    ensures Erase(CollapseAll(s, rules), drop) == Erase(s, drop)
    decreases |rules|
  {
    if |rules| > 0 {
      SqueezeErase(s, rules[0], drop);
      assert forall i :: 0 <= i < |rules| - 1 ==> rules[1..][i] == rules[i + 1];
      CollapseAllErase(Squeeze(s, rules[0]), rules[1..], drop);
    }
  }

  /** No entry's repeated letter is a letter of an entry applied before it. */
  predicate LaterLettersFresh(rules: seq<Rule>) {
    forall i, j :: 0 <= i < j < |rules| ==> Fresh(rules[j], rules[i])
  }

  predicate Avoids(s: String, rules: seq<Rule>) {
    forall i :: 0 <= i < |rules| ==> NoRun(s, rules[i])
  }

  lemma {:induction false} CollapseAllKeepsNoRun(s: String, rules: seq<Rule>, other: Rule)
    requires NoRun(s, other)
    requires forall i :: 0 <= i < |rules| ==> Fresh(rules[i], other)
    ensures NoRun(CollapseAll(s, rules), other)
    decreases |rules|
  {
    if |rules| > 0 {
      SqueezeKeepsNoRun(s, rules[0], other);
      assert forall i :: 0 <= i < |rules| - 1 ==> rules[1..][i] == rules[i + 1];
      CollapseAllKeepsNoRun(Squeeze(s, rules[0]), rules[1..], other);
    }
  }

  /** After all substitutions no entry has a run left, provided each later entry's
      repeated letter is neither letter of an earlier one. */
  lemma {:induction false} CollapseAllAvoids(s: String, rules: seq<Rule>)
    requires forall i :: 0 <= i < |rules| ==> WellFormed(rules[i])
    requires LaterLettersFresh(rules)
    ensures Avoids(CollapseAll(s, rules), rules)
    decreases |rules|
  {
    if |rules| > 0 {
      var t := Squeeze(s, rules[0]);
      var rest := rules[1..];
      assert forall i :: 0 <= i < |rest| ==> rest[i] == rules[i + 1];
      SqueezeLeavesNoRun(s, rules[0]);
      CollapseAllAvoids(t, rest);
      CollapseAllKeepsNoRun(t, rest, rules[0]);
      forall i | 0 <= i < |rules|
        ensures NoRun(CollapseAll(s, rules), rules[i])
      {
        if i > 0 {
          assert rules[i] == rest[i - 1];
        }
      }
    }
  }

  /** Text with no run to collapse is left as it is. */
  lemma {:induction false} CollapseAllFixes(s: String, rules: seq<Rule>)
    requires Avoids(s, rules)
    ensures CollapseAll(s, rules) == s
    decreases |rules|
  {
    if |rules| > 0 {
      SqueezeFixes(s, rules[0]);
      assert forall i :: 0 <= i < |rules| - 1 ==> rules[1..][i] == rules[i + 1];
      CollapseAllFixes(s, rules[1..]);
    }
  }

  /** The collapse list, in source order: three interjections, `em`, `ok`, and ten
      punctuation marks (`?` `？` `!` `！` `~` `,` `，` `.` `。` `…`). */
  const Rules: seq<Rule> := [
    Run('\U{54c7}'), Run('\U{54c8}'), Run('\U{55ef}'),
    LedRun('e', 'm'), LedRun('o', 'k'),
    Run('?'), Run('\U{ff1f}'), Run('!'), Run('\U{ff01}'), Run('~'),
    Run(','), Run('\U{ff0c}'), Run('.'), Run('\U{3002}'), Run('\U{2026}')]

  /** Where a repeated letter sits in the collapse list, -1 for none. */
  function Position(c: char): int {
    if c == '\U{54c7}' then 0 else if c == '\U{54c8}' then 1 else if c == '\U{55ef}' then 2
    else if c == 'm' then 3 else if c == 'k' then 4 else if c == '?' then 5
    else if c == '\U{ff1f}' then 6 else if c == '!' then 7 else if c == '\U{ff01}' then 8
    else if c == '~' then 9 else if c == ',' then 10 else if c == '\U{ff0c}' then 11
    else if c == '.' then 12 else if c == '\U{3002}' then 13 else if c == '\U{2026}' then 14
    else -1
  }

  /** The list's repeated letters are distinct and none is a lead, so the collapse
      order cannot recreate a run it already removed. */
  lemma RulesWellFormed()
    ensures forall i :: 0 <= i < |Rules| ==> WellFormed(Rules[i])
    ensures LaterLettersFresh(Rules)
  {
    assert forall k :: 0 <= k < |Rules| ==>
      Position(Rules[k].c) == k && (Rules[k].LedRun? ==> Position(Rules[k].lead) == -1);
  }

  // ---------------------------------------------------------------------------
  // The whole tail

  /** What the tail after the whitelist may delete: a repeated letter of the collapse
      list, or white space. */
  predicate Incidental(x: char) {
    Position(x) >= 0 || IsSpace(x)
  }

  lemma RulesIncidental()
    ensures forall i :: 0 <= i < |Rules| ==> Incidental(Rules[i].c)
  {
    assert forall k :: 0 <= k < |Rules| ==> Position(Rules[k].c) == k;
  }

  /** A cleaned comment: whitelisted characters only, no run left to collapse, and no
      white space at either end. */
  predicate IsClean(s: String) {
    AllAllowed(s) && Avoids(s, Rules) && Strip(s) == s
  }

  /** Filter 7, the collapse loop and the final `strip()`. */
  function CleanTail(s: String): (r: String)
    ensures IsClean(r)
    ensures |r| <= |s|
    ensures Erase(r, Incidental) == Erase(KeepAllowed(s), Incidental)
  {
    RulesWellFormed();
    var kept := KeepAllowed(s);
    var collapsed := CollapseAll(kept, Rules);
    CollapseAllAvoids(kept, Rules);
    var r := Strip(collapsed);
    RulesIncidental();
    CollapseAllErase(kept, Rules, Incidental);
    StripErase(collapsed, Incidental);
    StripStable(collapsed);
    forall i | 0 <= i < |Rules|
      ensures NoRun(r, Rules[i])
    {
      NoRunInfix(r, collapsed, Rules[i]);
    }
    assert AllAllowed(r) by {
      forall i | 0 <= i < |r| ensures Allowed(r[i]) {
        assert r[i] in collapsed;
        var j :| 0 <= j < |kept| && kept[j] == r[i];
      }
    }
    r
  }

  /** A clean comment passes through unchanged, so cleaning twice is cleaning once. */
  lemma CleanTailFixes(s: String)
    requires IsClean(s)
    ensures CleanTail(s) == s
  {
    RulesWellFormed();
    CollapseAllFixes(s, Rules);
  }

  lemma CleanTailIdempotent(s: String)
    ensures CleanTail(CleanTail(s)) == CleanTail(s)
  {
    CleanTailFixes(CleanTail(s));
  }

  /** `~` is on the collapse list but not on the whitelist, so it never survives the
      filter that runs before the collapse. */
  lemma TildeNeverKept(s: String)
    ensures '~' !in CleanTail(s)
  {
    assert !Allowed('~') by {
      assert forall i :: 0 <= i < |Punctuation| ==> Punctuation[i] != '~';
    }
    var r := CleanTail(s);
    assert forall i :: 0 <= i < |r| ==> r[i] != '~';
  }

  /** `emmm` becomes `em`, a lone `m` or `e` stays. */
  lemma SqueezeExample()
    ensures Squeeze("memmmme", LedRun('e', 'm')) == "meme"
  {
    var rule := LedRun('e', 'm');
    assert DropRun("mmme", 'm') == "e";
    assert Squeeze("e", rule) == "e";
    assert Squeeze("emmmme", rule) == "em" + Squeeze("e", rule);
  }

  /** `extract_comment_content`: the six pattern filters, then the tail. */
  function ExtractCommentContent(s: String, patternFilters: String -> String): (r: String)
    ensures IsClean(r)
    ensures |r| <= |patternFilters(s)|
    ensures Erase(r, Incidental) == Erase(KeepAllowed(patternFilters(s)), Incidental)
  {
    CleanTail(patternFilters(s))
  }
}

=== FILE: consolidate.dfy ===
/** The consolidation passes of the runner (main.py): merging the tweet files every
    task wrote for a keyword (`postprocess_tasks`), the user lists of all tasks, and
    the user tables of all workers (`postprocess_users`).

    The directory the passes read is given as data: each task's outputs as found at
    the paths the pass computes, in worker-then-task order.
 */
module Consolidate {
  import opened Wrappers
  import opened Text
  import opened Table
  import opened Partition

  // ---------------------------------------------------------------------------
  // Merging CSV tables

  /** A CSV file at a path the pass opens: absent, or its records in order. */
  datatype CsvFile = Missing | Present(rows: seq<Row>)

  /** A CSV file the pass writes: a header row, then the data rows. */
  datatype Sheet = Sheet(header: Row, rows: seq<Row>)

  /** The header kept by a merge: the first record of the first file that has one. */
  function FirstHeader(files: seq<CsvFile>): Option<Row>
    decreases |files|
  {
    if |files| == 0 then None
    else if files[0].Present? && |files[0].rows| > 0 then Some(files[0].rows[0])
    else FirstHeader(files[1..])
  }

  /** The data records of one file: all but its first. */
  function Body(f: CsvFile): seq<Row> {
    if f.Present? && |f.rows| > 0 then f.rows[1..] else []
  }

  /** The data records of all files, in reading order. */
  function DataRows(files: seq<CsvFile>): seq<Row>
    decreases |files|
  {
    if |files| == 0 then [] else Body(files[0]) + DataRows(files[1..])
  }

  lemma {:induction false} DataHasHeader(files: seq<CsvFile>)
    ensures |DataRows(files)| > 0 ==> FirstHeader(files).Some?
    decreases |files|
  {
    if |files| > 0 {
      DataHasHeader(files[1..]);
    }
  }

  /** `row[c]`, with "" for a record too short to have it. */
  function Cell(row: Row, c: nat): String {
    if c < |row| then row[c] else ""
  }

  /** Every record reaches column `c`. */
  predicate HasColumn(rows: seq<Row>, c: nat) {
    forall i :: 0 <= i < |rows| ==> c < |rows[i]|
  }

  /** The records a first-wins merge on column `keyCol` keeps are exactly the first
      record of each key, and the sort needs their key cells to be numerals. */
  predicate SortableFirsts(rows: seq<Row>, keyCol: nat, sortCols: seq<nat>) {
    forall i :: 0 <= i < |rows| && IsFirst(rows, row => Cell(row, keyCol), i) ==>
      CellsFault(rows[i], sortCols).None?
  }

  /** The merge of `postprocess_tasks` and `postprocess_users`: read the files in
      order, skipping missing ones; keep the first file's header and the first record
      seen for each value of column `keyCol`; sort the kept records in descending
      order of the integers in `sortCols`; write nothing when no record is kept. A
      record without column `keyCol` raises `IndexError`, a bad sort cell in a kept
      record raises from the sort. */
  function MergeSheets(files: seq<CsvFile>, keyCol: nat, sortCols: seq<nat>): (r: Result<Option<Sheet>>)
    ensures !HasColumn(DataRows(files), keyCol) ==> r == Err(IndexError)
    ensures HasColumn(DataRows(files), keyCol) ==>
      (r.Ok? <==> SortableFirsts(DataRows(files), keyCol, sortCols))
    ensures r == Ok(None) <==> HasColumn(DataRows(files), keyCol) && |DataRows(files)| == 0
    ensures r.Ok? && r.value.Some? ==> Some(r.value.value.header) == FirstHeader(files)
    ensures r.Ok? && r.value.Some? ==> SortedDesc(r.value.value.rows, row => IntCells(row, sortCols))
    ensures r.Ok? && r.value.Some? ==>
      KeepsTies(r.value.value.rows, FirstWins(DataRows(files), row => Cell(row, keyCol)), row => IntCells(row, sortCols))
  {
    var data := DataRows(files);
    var key := row => Cell(row, keyCol);
    if !HasColumn(data, keyCol) then Err(IndexError)
    else
      var kept := FirstWins(data, key);
      MergeFaults(data, keyCol, sortCols);
      if |kept| == 0 then
        assert |data| == 0;
        Ok(None)
      else
        match SortRows(kept, sortCols)
        case Err(f) => Err(f)
        case Ok(sorted) =>
          DataHasHeader(files);
          Ok(Some(Sheet(FirstHeader(files).value, sorted)))
  }

  /** The kept records are sortable exactly when the first record of every key is. */
  lemma MergeFaults(data: seq<Row>, keyCol: nat, sortCols: seq<nat>)
    ensures var kept := FirstWins(data, row => Cell(row, keyCol));
      KeysFault(kept, sortCols).None? <==> SortableFirsts(data, keyCol, sortCols)
  {
    var key := row => Cell(row, keyCol);
    var kept := FirstWins(data, key);
    KeysFaultSome(kept, sortCols);
    if KeysFault(kept, sortCols).None? {
      forall i | 0 <= i < |data| && IsFirst(data, key, i)
        ensures CellsFault(data[i], sortCols).None?
      {
        FirstWinsKeeps(data, key, i);
        var j :| 0 <= j < |kept| && kept[j] == data[i];
      }
    } else {
      var j :| 0 <= j < |kept| && CellsFault(kept[j], sortCols).Some?;
      FirstWinsOrigin(data, key, kept[j]);
    }
  }

  /** What a successful merge writes: the first record of every key, once each, and
      nothing else. */
  lemma MergeKeepsFirsts(files: seq<CsvFile>, keyCol: nat, sortCols: seq<nat>)
    requires MergeSheets(files, keyCol, sortCols).Ok?
    requires MergeSheets(files, keyCol, sortCols).value.Some?
    ensures var rows := MergeSheets(files, keyCol, sortCols).value.value.rows;
      var data := DataRows(files);
      && UniqueKeys(rows, row => Cell(row, keyCol))
      && (forall i :: 0 <= i < |data| && IsFirst(data, row => Cell(row, keyCol), i) ==> data[i] in rows)
      && (forall y :: y in rows ==> exists i :: 0 <= i < |data| && data[i] == y && IsFirst(data, row => Cell(row, keyCol), i))
  {
    var data := DataRows(files);
    var key := row => Cell(row, keyCol);
    var kept := FirstWins(data, key);
    var rows := MergeSheets(files, keyCol, sortCols).value.value.rows;
    assert SortRows(kept, sortCols) == Ok(rows);
    assert multiset(rows) == multiset(kept);
    SameElements(rows, kept);
    forall i | 0 <= i < |data| && IsFirst(data, key, i)
      ensures data[i] in rows
    {
      FirstWinsKeeps(data, key, i);
    }
    forall y | y in rows
      ensures exists i :: 0 <= i < |data| && data[i] == y && IsFirst(data, key, i)
    {
      FirstWinsOrigin(data, key, y);
    }
    UniqueKeysPermuted(kept, rows, key);
  }

  lemma SameElements<T>(a: seq<T>, b: seq<T>)
    requires multiset(a) == multiset(b)
    ensures forall y :: y in a <==> y in b
  {
    forall y
      ensures y in a <==> y in b
    {
      assert y in a <==> y in multiset(a);
      assert y in b <==> y in multiset(b);
    }
  }

  /** Reordering keeps keys unique. */
  lemma UniqueKeysPermuted<T>(a: seq<T>, b: seq<T>, key: T -> String)
    requires UniqueKeys(a, key) && multiset(a) == multiset(b)
    ensures UniqueKeys(b, key)
  {
    forall i, j | 0 <= i < j < |b|
      ensures key(b[i]) != key(b[j])
    {
      var p, q := DistinctPositions(a, b, i, j);
      if p < q {
        assert key(a[p]) != key(a[q]);
      } else {
        assert key(a[q]) != key(a[p]);
      }
    }
  }

  /** Two positions of a permutation come from two positions of the original. */
  lemma DistinctPositions<T>(a: seq<T>, b: seq<T>, i: nat, j: nat) returns (p: nat, q: nat)
    requires multiset(a) == multiset(b) && i < j < |b|
    ensures p < |a| && q < |a| && p != q && a[p] == b[i] && a[q] == b[j]
  {
    assert b[i] in multiset(a) && b[j] in multiset(a);
    p :| p < |a| && a[p] == b[i];
    if b[i] != b[j] {
      q :| q < |a| && a[q] == b[j];
    } else {
      TwiceCounted(b, i, j);
      q := OtherPosition(a, p);
    }
  }

  /** An element at two positions is counted at least twice. */
  lemma TwiceCounted<T>(b: seq<T>, i: nat, j: nat)
    requires i < j < |b| && b[i] == b[j]
    ensures multiset(b)[b[i]] >= 2
  {
    assert b == b[..i] + [b[i]] + b[i + 1..j] + [b[j]] + b[j + 1..];
  }

  /** An element counted twice occurs at a second position. */
  lemma OtherPosition<T>(a: seq<T>, p: nat) returns (q: nat)
    requires p < |a| && multiset(a)[a[p]] >= 2
    ensures q < |a| && q != p && a[q] == a[p]
  {
    var rest := a[..p] + a[p + 1..];
    assert a == a[..p] + [a[p]] + a[p + 1..];
    assert multiset(rest)[a[p]] >= 1;
    var k :| 0 <= k < |rest| && rest[k] == a[p];
    q := if k < p then k else k + 1;
    assert a[q] == rest[k];
  }

  /** `postprocess_tasks` for one keyword: tweets are identified by column 2 and
      ranked by likes, reposts and comments (columns 5, 6, 7). */
  function MergeTweets(files: seq<CsvFile>): Result<Option<Sheet>> {
    MergeSheets(files, 2, [5, 6, 7])
  }

  /** `postprocess_users`: users are identified by their profile url (column 15) and
      ranked by follower count (column 14). */
  function MergeUsers(files: seq<CsvFile>): Result<Option<Sheet>> {
    MergeSheets(files, 15, [14])
  }

  // ---------------------------------------------------------------------------
  // Grouping tasks by keyword

  /** The entry of an insertion-ordered dictionary from keys to lists. */
  datatype Group<T> = Group(key: String, items: seq<T>)

  function GroupKey<T>(g: Group<T>): String {
    g.key
  }

  /** The elements of `xs` with key `k`, in order. */
  function Having<T>(xs: seq<T>, key: T -> String, k: String): (r: seq<T>)
    ensures forall y :: y in r ==> y in xs && key(y) == k
    decreases |xs|
  {
    if |xs| == 0 then []
    else Having(xs[..|xs| - 1], key, k) + (if key(xs[|xs| - 1]) == k then [xs[|xs| - 1]] else [])
  }

  lemma HavingSnoc<T>(xs: seq<T>, x: T, key: T -> String, k: String)
    ensures Having(xs + [x], key, k) == Having(xs, key, k) + (if key(x) == k then [x] else [])
  {
    assert (xs + [x])[..|xs|] == xs;
  }

  /** A key no element carries has no elements. */
  lemma {:induction false} HavingNone<T>(xs: seq<T>, key: T -> String, k: String)
    requires k !in KeySeq(xs, key)
    ensures Having(xs, key, k) == []
    decreases |xs|
  {
    if |xs| > 0 {
      var init := xs[..|xs| - 1];
      assert forall i :: 0 <= i < |init| ==> KeySeq(init, key)[i] == KeySeq(xs, key)[i];
      assert KeySeq(xs, key)[|xs| - 1] == key(xs[|xs| - 1]);
      HavingNone(init, key, k);
    }
  }

  /** `d[k].append(x)`, creating the entry `k` at the end when it is new. */
  function AddTo<T>(gs: seq<Group<T>>, k: String, x: T): (r: seq<Group<T>>)
    requires UniqueKeys(gs, GroupKey)
    ensures k in KeySeq(gs, GroupKey) ==> |r| == |gs|
    ensures k !in KeySeq(gs, GroupKey) ==> r == gs + [Group(k, [x])]
    ensures forall i :: 0 <= i < |gs| ==> r[i].key == gs[i].key
    ensures forall i :: 0 <= i < |gs| ==> r[i].items == gs[i].items + (if gs[i].key == k then [x] else [])
  {
    var added := seq(|gs|, i requires 0 <= i < |gs| => if gs[i].key == k then Group(k, gs[i].items + [x]) else gs[i]);
    if k in KeySeq(gs, GroupKey) then added
    else
      assert added == gs;
      added + [Group(k, [x])]
  }

  /** The `data_dict['keywords']` loop of `postprocess_tasks`: elements grouped by
      key, groups in order of first appearance, each group in input order. */
  function GroupBy<T>(xs: seq<T>, key: T -> String): (r: seq<Group<T>>)
    ensures UniqueKeys(r, GroupKey)
    ensures KeySeq(r, GroupKey) == FirstWins(KeySeq(xs, key), s => s)
    ensures forall i :: 0 <= i < |r| ==> r[i].items == Having(xs, key, r[i].key)
    decreases |xs|
  {
    if |xs| == 0 then []
    else
      var gs := GroupBy(xs[..|xs| - 1], key);
      GroupStep(xs, key, gs);
      AddTo(gs, key(xs[|xs| - 1]), xs[|xs| - 1])
  }

  /** Adding the last element to the groups of the others groups them all. */
  lemma GroupStep<T>(xs: seq<T>, key: T -> String, gs: seq<Group<T>>)
    requires |xs| > 0
    requires UniqueKeys(gs, GroupKey)
    requires KeySeq(gs, GroupKey) == FirstWins(KeySeq(xs[..|xs| - 1], key), s => s)
    requires forall i :: 0 <= i < |gs| ==> gs[i].items == Having(xs[..|xs| - 1], key, gs[i].key)
    ensures var r := AddTo(gs, key(xs[|xs| - 1]), xs[|xs| - 1]);
      && UniqueKeys(r, GroupKey)
      && KeySeq(r, GroupKey) == FirstWins(KeySeq(xs, key), s => s)
      && forall i :: 0 <= i < |r| ==> r[i].items == Having(xs, key, r[i].key)
  {
    var init, x := xs[..|xs| - 1], xs[|xs| - 1];
    assert init + [x] == xs;
    GroupKeysStep(init, x, key, gs);
    GroupItemsStep(init, x, key, gs);
  }

  lemma GroupKeysStep<T>(init: seq<T>, x: T, key: T -> String, gs: seq<Group<T>>)
    requires UniqueKeys(gs, GroupKey)
    requires KeySeq(gs, GroupKey) == FirstWins(KeySeq(init, key), s => s)
    ensures UniqueKeys(AddTo(gs, key(x), x), GroupKey)
    ensures KeySeq(AddTo(gs, key(x), x), GroupKey) == FirstWins(KeySeq(init + [x], key), s => s)
  {
    var ks0 := KeySeq(init, key);
    KeySeqSnoc(init, x, key);
    var d := FirstWins(ks0, s => s);
    FirstWinsSnoc(ks0, key(x), s => s);
    assert KeySeq(d, s => s) == d;
    AddToKeys(gs, key(x), x);
  }

  /** Adding to a group keeps the keys; adding a new key appends it. */
  lemma AddToKeys<T>(gs: seq<Group<T>>, k: String, x: T)
    requires UniqueKeys(gs, GroupKey)
    ensures KeySeq(AddTo(gs, k, x), GroupKey) ==
      if k in KeySeq(gs, GroupKey) then KeySeq(gs, GroupKey) else KeySeq(gs, GroupKey) + [k]
  {
    var r := AddTo(gs, k, x);
    if k in KeySeq(gs, GroupKey) {
      assert forall i :: 0 <= i < |r| ==> KeySeq(r, GroupKey)[i] == KeySeq(gs, GroupKey)[i];
    } else {
      KeySeqSnoc(gs, Group(k, [x]), GroupKey);
    }
  }

  lemma GroupItemsStep<T>(init: seq<T>, x: T, key: T -> String, gs: seq<Group<T>>)
    requires UniqueKeys(gs, GroupKey)
    requires KeySeq(gs, GroupKey) == FirstWins(KeySeq(init, key), s => s)
    requires forall i :: 0 <= i < |gs| ==> gs[i].items == Having(init, key, gs[i].key)
    ensures var r := AddTo(gs, key(x), x);
      forall i :: 0 <= i < |r| ==> r[i].items == Having(init + [x], key, r[i].key)
  {
    var r := AddTo(gs, key(x), x);
    forall i | 0 <= i < |r|
      ensures r[i].items == Having(init + [x], key, r[i].key)
    {
      HavingSnoc(init, x, key, r[i].key);
      if i == |gs| {
        assert key(x) !in KeySeq(gs, GroupKey);
        var d := FirstWins(KeySeq(init, key), s => s);
        assert KeySeq(d, s => s) == d;
        HavingNone(init, key, key(x));
      }
    }
  }

  /** Every element lands in the group of its key. */
  lemma GroupByCovers<T>(xs: seq<T>, key: T -> String, y: T)
    requires y in xs
    ensures exists i :: 0 <= i < |GroupBy(xs, key)| && GroupBy(xs, key)[i].key == key(y) && y in GroupBy(xs, key)[i].items
  {
    var r := GroupBy(xs, key);
    var j :| 0 <= j < |xs| && xs[j] == y;
    var ks := KeySeq(xs, key);
    var d := FirstWins(ks, s => s);
    assert KeySeq(ks, s => s)[j] == key(y);
    assert key(y) in KeySeq(d, s => s);
    assert KeySeq(d, s => s) == d == KeySeq(r, GroupKey);
    var i :| 0 <= i < |r| && KeySeq(r, GroupKey)[i] == key(y);
    assert r[i].key == key(y);
    HavingContains(xs, key, j);
  }

  lemma {:induction false} HavingContains<T>(xs: seq<T>, key: T -> String, j: nat)
    requires j < |xs|
    ensures xs[j] in Having(xs, key, key(xs[j]))
    decreases |xs|
  {
    if j < |xs| - 1 {
      HavingContains(xs[..|xs| - 1], key, j);
    }
  }

  // ---------------------------------------------------------------------------
  // postprocess_tasks

  /** What one task left behind, as the pass finds it at the paths it computes from
      the task's directory name: the raw lines of `users.txt` (None when missing),
      `<keyword>/tweets.csv`, and the listing of `<keyword>/comments` with each file's
      content (None when the directory is missing). */
  datatype TaskOutput = TaskOutput(
    name: String,
    users: Option<seq<String>>,
    tweets: CsvFile,
    comments: Option<seq<(String, seq<Row>)>>)

  function TaskKeyword(t: TaskOutput): String {
    KeywordOf(t.name)
  }

  /** What the pass leaves in the source directory for one keyword: `tweets.csv`
      (None when not written) and the files of `comments/` by name. */
  datatype KeywordData = KeywordData(keyword: String, tweets: Option<Sheet>, comments: map<String, seq<Row>>)

  /** The source directory after `postprocess_tasks`, starting from an empty one. */
  datatype Source = Source(keywords: seq<KeywordData>, users: seq<String>)

  /** `shutil.copy` of every file into one directory, in order: a later file of the
      same name replaces an earlier one. */
  function CopyInto(dir: map<String, seq<Row>>, files: seq<(String, seq<Row>)>): (r: map<String, seq<Row>>)
    ensures r.Keys == dir.Keys + set f | f in files :: f.0
    decreases |files|
  {
    if |files| == 0 then dir
    else
      var last := files[|files| - 1];
      var r := CopyInto(dir, files[..|files| - 1])[last.0 := last.1];
      assert files == files[..|files| - 1] + [last];
      r
  }

  /** The file a name ends up with: the last one copied under it. */
  lemma {:induction false} CopyLastWins(dir: map<String, seq<Row>>, files: seq<(String, seq<Row>)>, i: nat)
    requires i < |files|
    requires forall j :: i < j < |files| ==> files[j].0 != files[i].0
    ensures CopyInto(dir, files)[files[i].0] == files[i].1
    decreases |files|
  {
    if i < |files| - 1 {
      CopyLastWins(dir, files[..|files| - 1], i);
    }
  }

  /** A name no file carries keeps what the directory held. */
  lemma {:induction false} CopyKeeps(dir: map<String, seq<Row>>, files: seq<(String, seq<Row>)>, name: String)
    requires name in dir && forall j :: 0 <= j < |files| ==> files[j].0 != name
    ensures CopyInto(dir, files)[name] == dir[name]
    decreases |files|
  {
    if |files| > 0 {
      CopyKeeps(dir, files[..|files| - 1], name);
    }
  }

  function Listing(t: TaskOutput): seq<(String, seq<Row>)> {
    t.comments.GetOr([])
  }

  function Listings(ts: seq<TaskOutput>): seq<(String, seq<Row>)>
    decreases |ts|
  {
    if |ts| == 0 then [] else Listing(ts[0]) + Listings(ts[1..])
  }

  function TweetFiles(ts: seq<TaskOutput>): (r: seq<CsvFile>)
    ensures |r| == |ts|
    ensures forall i :: 0 <= i < |ts| ==> r[i] == ts[i].tweets
  {
    seq(|ts|, i requires 0 <= i < |ts| => ts[i].tweets)
  }

  /** The user ids of every task's `users.txt`, stripped, first occurrence kept. */
  function MergeUserIds(ts: seq<TaskOutput>): (r: seq<String>)
    ensures forall i, j :: 0 <= i < j < |r| ==> r[i] != r[j]
    ensures forall u :: u in r <==> u in UserLines(ts)
    ensures r == Firsts(UserLines(ts), s => s, |UserLines(ts)|)
  {
    Distinct(UserLines(ts))
  }

  function UserLines(ts: seq<TaskOutput>): seq<String>
    decreases |ts|
  {
    if |ts| == 0 then [] else StripAll(ts[0].users.GetOr([])) + UserLines(ts[1..])
  }

  /** The pass per keyword group: merge its tweet files, copy its comment files. */
  function KeywordPass(g: Group<TaskOutput>): (r: Result<KeywordData>)
    ensures r.Ok? ==> r.value.keyword == g.key
  {
    var tweets :- MergeTweets(TweetFiles(g.items));
    Ok(KeywordData(g.key, tweets, CopyInto(map[], Listings(g.items))))
  }

  function KeywordPasses(gs: seq<Group<TaskOutput>>): (r: Result<seq<KeywordData>>)
    ensures r.Ok? ==> |r.value| == |gs|
    ensures r.Ok? ==> forall i :: 0 <= i < |gs| ==> Passes(gs[i], r.value[i])
    ensures r.Err? ==> exists i :: 0 <= i < |gs| && KeywordPass(gs[i]) == Err(r.fault)
    decreases |gs|
  {
    if |gs| == 0 then Ok([])
    else
      var k :- KeywordPass(gs[0]);
      match KeywordPasses(gs[1..])
      case Err(f) =>
        PassesErr(gs, f);
        Err(f)
      case Ok(rest) =>
        ConsAll(gs, k, rest, Passes);
        Ok([k] + rest)
  }

  /** The pass of group `g` succeeds with `k`. */
  predicate Passes(g: Group<TaskOutput>, k: KeywordData) {
    KeywordPass(g) == Ok(k)
  }

  /** A relation that holds of the first pair and of every later pair holds of
      every pair of the two lists, the first element put in front. */
  lemma ConsAll<A, B>(xs: seq<A>, y: B, ys: seq<B>, ok: (A, B) -> bool)
    requires |xs| > 0 && ok(xs[0], y) && |ys| == |xs| - 1
    requires forall i :: 0 <= i < |ys| ==> ok(xs[1..][i], ys[i])
    ensures forall i :: 0 <= i < |xs| ==> ok(xs[i], ([y] + ys)[i])
  {
    forall i | 1 <= i < |xs|
      ensures ok(xs[i], ([y] + ys)[i])
    {
      assert xs[i] == xs[1..][i - 1] && ([y] + ys)[i] == ys[i - 1];
    }
  }

  /** Each keyword's output is filed under its group's keyword. */
  lemma PassesKeywords(gs: seq<Group<TaskOutput>>, ks: seq<KeywordData>)
    requires |ks| == |gs| && forall i :: 0 <= i < |gs| ==> Passes(gs[i], ks[i])
    ensures forall i :: 0 <= i < |gs| ==> ks[i].keyword == gs[i].key
  {
  }

  /** A pass of a later group that fails is a pass of some group that fails. */
  lemma PassesErr(gs: seq<Group<TaskOutput>>, f: Fault)
    requires |gs| > 0 && exists i :: 0 <= i < |gs| - 1 && KeywordPass(gs[1..][i]) == Err(f)
    ensures exists i :: 0 <= i < |gs| && KeywordPass(gs[i]) == Err(f)
  {
    var i :| 0 <= i < |gs| - 1 && KeywordPass(gs[1..][i]) == Err(f);
    assert gs[1..][i] == gs[i + 1];
  }

  /** A task whose comments directory is missing: the listing of `postprocess_tasks`
      raises before anything is merged. */
  predicate ListingMissing(ts: seq<TaskOutput>) {
    exists i :: 0 <= i < |ts| && ts[i].comments.None?
  }

  /** The pass of every keyword succeeds on the tasks filed under it. */
  predicate Mergeable(ts: seq<TaskOutput>) {
    forall k :: k in KeySeq(ts, TaskKeyword) ==> KeywordPass(Group(k, Having(ts, TaskKeyword, k))).Ok?
  }

  /** The keyword groups of the tasks: one per distinct keyword, in first-seen
      order, each holding the tasks filed under its keyword. */
  lemma TaskGroups(ts: seq<TaskOutput>)
    ensures var gs := GroupBy(ts, TaskKeyword);
      && |gs| == |Distinct(KeySeq(ts, TaskKeyword))|
      && (forall i :: 0 <= i < |gs| ==> gs[i].key == Distinct(KeySeq(ts, TaskKeyword))[i])
      && (forall i :: 0 <= i < |gs| ==> gs[i] == Group(gs[i].key, Having(ts, TaskKeyword, gs[i].key)))
      && (Mergeable(ts) <==> forall i :: 0 <= i < |gs| ==> KeywordPass(gs[i]).Ok?)
  {
    var gs := GroupBy(ts, TaskKeyword);
    var ds := Distinct(KeySeq(ts, TaskKeyword));
    assert KeySeq(gs, GroupKey) == ds;
    assert forall i :: 0 <= i < |gs| ==> KeySeq(gs, GroupKey)[i] == gs[i].key;
    MergeableGroups(ts, gs, ds);
  }

  /** Every keyword's pass succeeds exactly when the pass of every group does. */
  lemma MergeableGroups(ts: seq<TaskOutput>, gs: seq<Group<TaskOutput>>, ds: seq<String>)
    requires |gs| == |ds| && forall i :: 0 <= i < |gs| ==> gs[i].key == ds[i]
    requires forall i :: 0 <= i < |gs| ==> gs[i].items == Having(ts, TaskKeyword, gs[i].key)
    requires forall k :: k in ds <==> k in KeySeq(ts, TaskKeyword)
    ensures Mergeable(ts) <==> forall i :: 0 <= i < |gs| ==> KeywordPass(gs[i]).Ok?
  {
    if forall i :: 0 <= i < |gs| ==> KeywordPass(gs[i]).Ok? {
      forall k | k in KeySeq(ts, TaskKeyword)
        ensures KeywordPass(Group(k, Having(ts, TaskKeyword, k))).Ok?
      {
        assert k in ds;
        var i :| 0 <= i < |ds| && ds[i] == k;
        assert gs[i] == Group(k, Having(ts, TaskKeyword, k));
      }
    }
    if Mergeable(ts) {
      forall i | 0 <= i < |gs|
        ensures KeywordPass(gs[i]).Ok?
      {
        assert gs[i].key in ds;
        assert gs[i] == Group(gs[i].key, Having(ts, TaskKeyword, gs[i].key));
      }
    }
  }

  /** `postprocess_tasks`: list every task's comment files, then merge each keyword's
      tweets and copy its comments, then merge every task's user ids. It fails when
      a listing or the pass of some keyword does, and otherwise gives one merged
      keyword per distinct keyword, in first-seen order. */
  function PostprocessTasks(ts: seq<TaskOutput>): (r: Result<Source>)
    ensures ListingMissing(ts) ==> r == Err(FileNotFound)
    ensures !ListingMissing(ts) ==> (r.Ok? <==> Mergeable(ts))
    ensures r.Ok? ==> |r.value.keywords| == |Distinct(KeySeq(ts, TaskKeyword))|
    ensures r.Ok? ==> forall i :: 0 <= i < |r.value.keywords| ==>
      r.value.keywords[i].keyword == Distinct(KeySeq(ts, TaskKeyword))[i]
    ensures r.Ok? ==> forall i, j :: 0 <= i < j < |r.value.keywords| ==>
      r.value.keywords[i].keyword != r.value.keywords[j].keyword
    ensures r.Ok? ==> forall u :: u in r.value.users <==> u in UserLines(ts)
    ensures r.Ok? ==> r.value.users == Firsts(UserLines(ts), s => s, |UserLines(ts)|)
  {
    if ListingMissing(ts) then Err(FileNotFound)
    else
      var gs := GroupBy(ts, TaskKeyword);
      TaskGroups(ts);
      var ks :- KeywordPasses(gs);
      PassesKeywords(gs, ks);
      Ok(Source(ks, MergeUserIds(ts)))
  }

  /** Each keyword's `tweets.csv` is the merge of the tweet files of exactly the tasks
      filed under that keyword, in task order. */
  lemma KeywordTweets(ts: seq<TaskOutput>, i: nat)
    requires PostprocessTasks(ts).Ok? && i < |PostprocessTasks(ts).value.keywords|
    ensures var kd := PostprocessTasks(ts).value.keywords[i];
      MergeTweets(TweetFiles(Having(ts, TaskKeyword, kd.keyword))) == Ok(kd.tweets)
  {
    var gs := GroupBy(ts, TaskKeyword);
    var ks := KeywordPasses(gs).value;
    assert KeywordPass(gs[i]) == Ok(ks[i]);
  }

  /** A comment file of a task ends up in its keyword's `comments/` with the content
      of the last task listing that name. */
  lemma KeywordComments(ts: seq<TaskOutput>, i: nat, j: nat)
    requires PostprocessTasks(ts).Ok? && i < |PostprocessTasks(ts).value.keywords|
    requires var files := Listings(Having(ts, TaskKeyword, PostprocessTasks(ts).value.keywords[i].keyword));
      j < |files| && forall h :: j < h < |files| ==> files[h].0 != files[j].0
    ensures var kd := PostprocessTasks(ts).value.keywords[i];
      var files := Listings(Having(ts, TaskKeyword, kd.keyword));
      files[j].0 in kd.comments && kd.comments[files[j].0] == files[j].1
  {
    var gs := GroupBy(ts, TaskKeyword);
    var ks := KeywordPasses(gs).value;
    assert KeywordPass(gs[i]) == Ok(ks[i]);
    CopyLastWins(map[], Listings(gs[i].items), j);
  }

  /** The user list written to `users.txt` reads back, through `split_users`, as the
      same list when no id holds a line break or surrounding white space. */
  lemma UsersFileRoundTrip(ids: seq<String>)
    requires forall k :: 0 <= k < |ids| ==> Strip(ids[k]) == ids[k]
    requires forall k :: 0 <= k < |ids| ==> forall i :: 0 <= i < |ids[k]| ==> !IsLineBreak(ids[k][i])
    ensures StripAll(ReadLines(WriteLines(ids))) == ids
  {
    ReadWrittenLines(ids);
    forall k | 0 <= k < |ids|
      ensures Strip(ids[k] + "\n") == ids[k]
    {
      StripNewline(ids[k]);
    }
  }
}

=== FILE: identity.dfy ===
/** The network identity of a worker slot (`weibospider/middlewares.py`,
    `weibospider/settings.py`).

    Every worker runs its own copy of the spider in a slot directory named
    `weibospider_<worker id>`. The copy reads the integer after the last `_` of its
    directory name and uses it, modulo the table size, to pick one line of `ips.txt`
    as its proxy and one line of `cookies.txt` as its cookie. The
    `X-Forwarded-For` header is four random octets from `range(1, 200, 20)`.
 */
module Identity {
  import opened Wrappers
  import opened Text
  import opened Partition

  // ---------------------------------------------------------------------------
  // Tables read from files

  /** The `ips.txt` table: stripped lines, with `default` standing for no proxy. */
  function ProxyTable(text: String): (ips: seq<Option<String>>)
    ensures |ips| == |ReadLines(text)|
    ensures forall i :: 0 <= i < |ips| ==>
      (ips[i].None? <==> Strip(ReadLines(text)[i]) == "default")
    ensures forall i :: 0 <= i < |ips| && ips[i].Some? ==> ips[i].value == Strip(ReadLines(text)[i])
  {
    var lines := ReadLines(text);
    seq(|lines|, i requires 0 <= i < |lines| =>
      if Strip(lines[i]) == "default" then None else Some(Strip(lines[i])))
  }

  /** The `cookies.txt` table: stripped lines. */
  function CookieTable(text: String): (cookies: seq<String>)
    ensures |cookies| == |ReadLines(text)|
    ensures forall i :: 0 <= i < |cookies| ==> cookies[i] == Strip(ReadLines(text)[i])
  {
    StripAll(ReadLines(text))
  }

  // ---------------------------------------------------------------------------
  // Slot selection

  /** `int(os.path.basename(dir).split('_')[-1])`: the slot number a spider copy reads
      off its own directory; a suffix that is not an integer raises. */
  function SlotNumber(dir: String): (r: Result<int>)
    ensures r.Err? ==> r.fault == ValueError
    ensures r.Ok? <==> ParseInt(LastField(BaseName(dir), "_")).Some?
  {
    match ParseInt(LastField(BaseName(dir), "_"))
    case None => Err(ValueError)
    case Some(n) => Ok(n)
  }

  /** `TABLE[slot % len(TABLE)]`: the entry of a table a slot uses. The number is read
      before the modulus, so a bad directory name raises before an empty table does. */
  function Pick<T>(table: seq<T>, dir: String): (r: Result<T>)
    ensures SlotNumber(dir).Err? ==> r == Err(ValueError)
    ensures SlotNumber(dir).Ok? && |table| == 0 ==> r == Err(ZeroDivision)
    ensures SlotNumber(dir).Ok? && |table| > 0 ==>
      r.Ok? && exists i :: 0 <= i < |table| && i == SlotNumber(dir).value % |table| && r.value == table[i]
  {
    var n :- SlotNumber(dir);
    if |table| == 0 then Err(ZeroDivision)
    else
      var i := n % |table|;
      Ok(table[i])
  }

  /** The slot directory `crawl` creates for worker `w` reads back as `w`. */
  lemma SlotNumberOfSlotDir(runDir: String, w: nat)
    ensures SlotNumber(SlotDir(runDir, w)) == Ok(w)
  {
    var digits := NatToString(w);
    var name := "weibospider_" + digits;
    assert '/' !in digits && '_' !in digits by {
      forall i | 0 <= i < |digits| ensures digits[i] != '/' && digits[i] != '_' {
        assert IsDigit(digits[i]);
      }
    }
    assert '/' !in name by {
      assert forall i :: 0 <= i < |name| ==> name[i] != '/';
    }
    BaseNameJoin(runDir, name);
    assert name == "weibospider" + ['_'] + digits;
    LastFieldAfter("weibospider", '_', digits);
    ParseNatToString(w);
  }

  /** Worker `w` of a pool whose tables have `n` entries uses entry `w mod n`. */
  lemma SlotPicksModulo<T>(table: seq<T>, runDir: String, w: nat)
    requires |table| > 0
    ensures Pick(table, SlotDir(runDir, w)) == Ok(table[w % |table|])
  {
    SlotNumberOfSlotDir(runDir, w);
  }

  /** Distinct workers have distinct slots, and two workers share an entry when their
      ids agree modulo the table size. */
  lemma SlotsShareEntry<T>(table: seq<T>, runDir: String, v: nat, w: nat)
    requires |table| > 0
    ensures v % |table| == w % |table| ==> Pick(table, SlotDir(runDir, v)) == Pick(table, SlotDir(runDir, w))
    ensures v != w ==> SlotDir(runDir, v) != SlotDir(runDir, w)
  {
    SlotNumberOfSlotDir(runDir, v);
    SlotNumberOfSlotDir(runDir, w);
  }

  // ---------------------------------------------------------------------------
  // The proxy middleware

  /** `IPProxyMiddleware.fetch_proxy` in the spider copy at `dir`. */
  function FetchProxy(ipsText: String, dir: String): Result<Option<String>> {
    Pick(ProxyTable(ipsText), dir)
  }

  /** `process_request`: a chosen proxy is recorded in the request's meta as an
      `http://` address; no proxy, or an empty one, leaves the meta as it was. */
  function ProcessRequest(ipsText: String, dir: String, meta: map<String, String>)
    : (r: Result<map<String, String>>)
    ensures FetchProxy(ipsText, dir).Err? <==> r.Err?
    ensures r.Ok? ==> forall k :: k in meta && k != "proxy" ==> k in r.value && r.value[k] == meta[k]
    ensures r.Ok? ==> forall k :: k in r.value && k != "proxy" ==> k in meta
    ensures r.Ok? ==> var p := FetchProxy(ipsText, dir).value;
      if p.Some? && p.value != "" then "proxy" in r.value && r.value["proxy"] == "http://" + p.value
      else r.value == meta
  {
    var p :- FetchProxy(ipsText, dir);
    if p.Some? && p.value != "" then Ok(meta["proxy" := "http://" + p.value]) else Ok(meta)
  }

  /** A slot whose `ips.txt` line is `default` sends its requests without a proxy. */
  lemma DefaultLineNoProxy(ipsText: String, runDir: String, w: nat, meta: map<String, String>)
    requires |ReadLines(ipsText)| > 0
    requires Strip(ReadLines(ipsText)[w % |ReadLines(ipsText)|]) == "default"
    ensures ProcessRequest(ipsText, SlotDir(runDir, w), meta) == Ok(meta)
  {
    SlotPicksModulo(ProxyTable(ipsText), runDir, w);
  }

  /** An empty `ips.txt` makes every request fail with a division by zero. */
  lemma EmptyIpsFails(runDir: String, w: nat, meta: map<String, String>)
    ensures ProcessRequest("", SlotDir(runDir, w), meta) == Err(ZeroDivision)
  {
    SlotNumberOfSlotDir(runDir, w);
  }

  // ---------------------------------------------------------------------------
  // Default request headers

  const UserAgent: String :=
    "Mozilla/5.0 (Windows NT 10.0; Win64; x64) AppleWebKit/537.36 (KHTML, like Gecko) Chrome/87.0.4280.88 Safari/537.36"

  /** `random.randrange(1, 200, 20)` given the random draw `r`: the range holds the
      ten values 1, 21, ..., 181 and the draw picks one of them. */
  function Octet(r: nat): (v: int)
    ensures 1 <= v <= 181 && v % 20 == 1
  {
    1 + 20 * (r % 10)
  }

  /** The header value `'%s.%s.%s.%s' % (...)` for four draws. */
  function ForwardedFor(draws: seq<nat>): (h: String)
    requires |draws| == 4
  {
    Join(seq(4, i requires 0 <= i < 4 => NatToString(Octet(draws[i]))), ".")
  }

  /** The header splits back into its four octets. */
  lemma ForwardedForOctets(draws: seq<nat>)
    requires |draws| == 4
    ensures var parts := Split(ForwardedFor(draws), ".");
      |parts| == 4 && forall i :: 0 <= i < 4 ==> ParseInt(parts[i]) == Some(Octet(draws[i]))
  {
    var parts := seq(4, i requires 0 <= i < 4 => NatToString(Octet(draws[i])));
    forall k | 0 <= k < 4 ensures '.' !in parts[k] {
      var d := parts[k];
      forall i | 0 <= i < |d| ensures d[i] != '.' {
        assert IsDigit(d[i]);
      }
    }
    SplitJoin(parts, '.');
    forall i | 0 <= i < 4 ensures ParseInt(parts[i]) == Some(Octet(draws[i])) {
      ParseNatToString(Octet(draws[i]));
    }
  }

  /** `DEFAULT_REQUEST_HEADERS` of the spider copy at `dir`, given the four random
      draws. The cookie is computed before the forwarded address, so a bad slot name
      or an empty cookie file aborts the settings module. */
  function DefaultHeaders(cookiesText: String, dir: String, draws: seq<nat>)
    : (r: Result<map<String, String>>)
    requires |draws| == 4
    ensures r.Ok? <==> Pick(CookieTable(cookiesText), dir).Ok?
    ensures r.Ok? ==> r.value.Keys == {"User-Agent", "Cookie", "X-Forwarded-For"}
    ensures r.Ok? ==> r.value["Cookie"] == Pick(CookieTable(cookiesText), dir).value
    ensures r.Ok? ==> r.value["X-Forwarded-For"] == ForwardedFor(draws)
    ensures r.Ok? ==> r.value["User-Agent"] == UserAgent
  {
    var cookie :- Pick(CookieTable(cookiesText), dir);
    Ok(Headers(cookie, ForwardedFor(draws)))
  }

  /** The header dictionary for a cookie and a forwarded address. */
  function Headers(cookie: String, forwarded: String): (m: map<String, String>)
    ensures m.Keys == {"User-Agent", "Cookie", "X-Forwarded-For"}
    ensures m["User-Agent"] == UserAgent && m["Cookie"] == cookie && m["X-Forwarded-For"] == forwarded
  {
    assert "User-Agent"[0] == 'U' && "Cookie"[0] == 'C' && "X-Forwarded-For"[0] == 'X';
    map["User-Agent" := UserAgent, "Cookie" := cookie, "X-Forwarded-For" := forwarded]
  }

  /** Worker `w` sends the stripped `w mod n`-th line of `cookies.txt` as its cookie. */
  lemma SlotCookie(cookiesText: String, runDir: String, w: nat, draws: seq<nat>)
    requires |draws| == 4 && |ReadLines(cookiesText)| > 0
    ensures var n := |ReadLines(cookiesText)|;
      DefaultHeaders(cookiesText, SlotDir(runDir, w), draws).Ok? &&
      DefaultHeaders(cookiesText, SlotDir(runDir, w), draws).value["Cookie"] == Strip(ReadLines(cookiesText)[w % n])
  {
    SlotPicksModulo(CookieTable(cookiesText), runDir, w);
  }

  /** An empty `cookies.txt` makes the settings fail with a division by zero. */
  lemma EmptyCookiesFail(runDir: String, w: nat, draws: seq<nat>)
    requires |draws| == 4
    ensures DefaultHeaders("", SlotDir(runDir, w), draws) == Err(ZeroDivision)
  {
    SlotNumberOfSlotDir(runDir, w);
  }
}

=== FILE: lda.dfy ===
/** The count bookkeeping of the topic model's Gibbs sampler (`utils/lda.py`).

    `preprocessing` turns every non-blank line of the keyword file into a document
    of word ids, handing ids out densely in first-seen order; `__init__` gives every
    word of every document a random topic and counts the assignments; `sampling`
    moves one word to a new topic and keeps the counts in step.

    The probabilities the sampler draws from, the draw itself, `theta`, `phi` and the
    output files are floating point and randomness: the topic a draw yields is a
    parameter, any value in `[0, K)`.
 */
module Lda {
  import opened Wrappers
  import opened Text
  import opened Table

  // ---------------------------------------------------------------------------
  // Tokens

  predicate NoSpace(w: String) {
    forall j :: 0 <= j < |w| ==> !IsSpace(w[j])
  }

  /** The length of the leading run of non-space characters. */
  function WordEnd(s: String): (n: nat)
    ensures n <= |s|
    ensures NoSpace(s[..n])
    ensures n < |s| ==> IsSpace(s[n])
    decreases |s|
  {
    if |s| == 0 || IsSpace(s[0]) then 0
    else
      var n := 1 + WordEnd(s[1..]);
      assert forall j :: 1 <= j < n ==> s[..n][j] == s[1..][..n - 1][j - 1];
      n
  }

  /** Python's `s.split()`: the maximal runs of non-space characters, in order. */
  function Tokens(s: String): (r: seq<String>)
    ensures forall i :: 0 <= i < |r| ==> |r[i]| > 0 && NoSpace(r[i])
    decreases |s|
  {
    if |s| == 0 then []
    else if IsSpace(s[0]) then Tokens(s[1..])
    else
      var n := WordEnd(s);
      [s[..n]] + Tokens(s[n..])
  }

  lemma {:induction false} WordEndOf(w: String, rest: String)
    requires NoSpace(w)
    requires |rest| > 0 ==> IsSpace(rest[0])
    ensures WordEnd(w + rest) == |w|
    decreases |w|
  {
    if |w| > 0 {
      assert (w + rest)[1..] == w[1..] + rest;
      WordEndOf(w[1..], rest);
    }
  }

  /** A word followed by nothing or by white space is the first token. */
  lemma TokensOfWord(w: String, rest: String)
    requires |w| > 0 && NoSpace(w)
    requires |rest| > 0 ==> IsSpace(rest[0])
    ensures Tokens(w + rest) == [w] + Tokens(rest)
  {
    WordEndOf(w, rest);
    assert (w + rest)[..|w|] == w;
    assert (w + rest)[|w|..] == rest;
  }

  /** Splitting undoes joining with single spaces, as long as every word is
      non-empty and holds no white space. */
  lemma {:induction false} TokensOfJoin(words: seq<String>)
    requires forall i :: 0 <= i < |words| ==> |words[i]| > 0 && NoSpace(words[i])
    ensures Tokens(Join(words, " ")) == words
    decreases |words|
  {
    if |words| == 1 {
      TokensOfWord(words[0], "");
      assert words[0] + "" == words[0];
    } else if |words| > 1 {
      var rest := Join(words[1..], " ");
      TokensOfJoin(words[1..]);
      TokensOfWord(words[0], " " + rest);
      assert (" " + rest)[1..] == rest;
      assert words[0] + " " + rest == words[0] + (" " + rest);
    }
  }

  /** A line of white space only has no tokens. */
  lemma {:induction false} BlankTokens(s: String)
    requires forall j :: 0 <= j < |s| ==> IsSpace(s[j])
    ensures Tokens(s) == []
    decreases |s|
  {
    if |s| > 0 {
      BlankTokens(s[1..]);
    }
  }

  /** Leading white space produces no token. */
  lemma {:induction false} TokensLeadingSpace(pre: String, t: String)
    requires forall j :: 0 <= j < |pre| ==> IsSpace(pre[j])
    ensures Tokens(pre + t) == Tokens(t)
    decreases |pre|
  {
    if |pre| > 0 {
      assert (pre + t)[1..] == pre[1..] + t;
      TokensLeadingSpace(pre[1..], t);
    } else {
      assert pre + t == t;
    }
  }

  /** A word is cut at the same place when white space follows the text. */
  lemma {:induction false} WordEndBeforeSpace(r: String, tail: String)
    requires |tail| > 0 ==> IsSpace(tail[0])
    ensures WordEnd(r + tail) == WordEnd(r)
    decreases |r|
  {
    if |r| > 0 && !IsSpace(r[0]) {
      assert (r + tail)[1..] == r[1..] + tail;
      WordEndBeforeSpace(r[1..], tail);
    }
  }

  /** Trailing white space produces no token. */
  lemma {:induction false} TokensTrailingSpace(r: String, tail: String)
    requires forall j :: 0 <= j < |tail| ==> IsSpace(tail[j])
    ensures Tokens(r + tail) == Tokens(r)
    decreases |r|
  {
    if |r| == 0 {
      BlankTokens(tail);
      assert r + tail == tail;
    } else if IsSpace(r[0]) {
      assert (r + tail)[1..] == r[1..] + tail;
      TokensTrailingSpace(r[1..], tail);
    } else {
      var n := WordEnd(r);
      WordEndBeforeSpace(r, tail);
      assert (r + tail)[..n] == r[..n];
      assert (r + tail)[n..] == r[n..] + tail;
      TokensTrailingSpace(r[n..], tail);
    }
  }

  lemma CutAt(s: String, k: nat)
    requires k <= |s|
    ensures s == s[..k] + s[k..]
  {
  }

  /** `line.strip().split()` is `line.split()`. */
  lemma StripThenSplit(line: String)
    ensures Tokens(Strip(line)) == Tokens(line)
  {
    StripSteps(line);
    var t := TrimStartWhere(line, IsSpace);
    TokensTrimStart(line);
    TokensTrimEnd(t);
  }

  /** Dropping leading white space keeps the tokens. */
  lemma TokensTrimStart(line: String)
    ensures Tokens(TrimStartWhere(line, IsSpace)) == Tokens(line)
  {
    var t := TrimStartWhere(line, IsSpace);
    var pre := line[..|line| - |t|];
    assert line == pre + t by {
      CutAt(line, |line| - |t|);
    }
    assert forall j :: 0 <= j < |pre| ==> IsSpace(pre[j]);
    TokensLeadingSpace(pre, t);
  }

  /** Dropping trailing white space keeps the tokens. */
  lemma TokensTrimEnd(t: String)
    ensures Tokens(TrimEndWhere(t, IsSpace)) == Tokens(t)
  {
    var r := TrimEndWhere(t, IsSpace);
    var tail := t[|r|..];
    assert t == r + tail by {
      CutAt(t, |r|);
    }
    assert forall j :: 0 <= j < |tail| ==> IsSpace(tail[j]) by {
      forall j | 0 <= j < |tail| ensures IsSpace(tail[j]) {
        assert tail[j] == t[|r| + j];
      }
    }
    TokensTrailingSpace(r, tail);
  }

  // ---------------------------------------------------------------------------
  // Documents and vocabulary

  /** The document a line makes: its tokens, none for a blank line. The source
      strips the line first, which changes nothing (`StripThenSplit`). */
  function LineDocument(line: String): (r: seq<seq<String>>)
    ensures |r| <= 1
    ensures |r| == 1 ==> |r[0]| > 0
  {
    var t := Tokens(line);
    if |t| == 0 then [] else [t]
  }

  /** The documents of a keyword file, one per non-blank line. */
  function Documents(lines: seq<String>): (r: seq<seq<String>>)
    ensures |r| <= |lines|
    ensures forall x :: 0 <= x < |r| ==> |r[x]| > 0
    decreases |lines|
  {
    if |lines| == 0 then []
    else Documents(lines[..|lines| - 1]) + LineDocument(lines[|lines| - 1])
  }

  /** Dropping the last line of `a + b` drops the last line of `b`. */
  lemma InitOfAppend(a: seq<String>, b: seq<String>)
    requires |b| > 0
    ensures (a + b)[..|a + b| - 1] == a + b[..|b| - 1]
    ensures (a + b)[|a + b| - 1] == b[|b| - 1]
  {
  }

  lemma {:induction false} DocumentsAppend(a: seq<String>, b: seq<String>)
    ensures Documents(a + b) == Documents(a) + Documents(b)
    decreases |b|
  {
    if |b| == 0 {
      assert a + b == a;
    } else {
      var init := b[..|b| - 1];
      var last := LineDocument(b[|b| - 1]);
      DocumentsAppend(a, init);
      InitOfAppend(a, b);
      DocumentsStep(b);
      DocumentsStep(a + b);
      assert Documents(a + b) == Documents(a + init) + last;
      AppendAssoc3(Documents(a), Documents(init), last);
    }
  }

  /** One unfolding of `Documents`. */
  lemma DocumentsStep(lines: seq<String>)
    requires |lines| > 0
    ensures Documents(lines) == Documents(lines[..|lines| - 1]) + LineDocument(lines[|lines| - 1])
  {
  }

  lemma AppendAssoc3<T>(x: seq<T>, y: seq<T>, z: seq<T>)
    ensures (x + y) + z == x + (y + z)
  {
  }

  /** Blank lines anywhere in the file leave the documents as they are. */
  lemma BlankLineSkipped(a: seq<String>, blank: String, b: seq<String>)
    requires forall j :: 0 <= j < |blank| ==> IsSpace(blank[j])
    ensures Documents(a + [blank] + b) == Documents(a + b)
  {
    BlankTokens(blank);
    assert Documents([blank]) == [] by {
      assert [blank][..0] == [];
    }
    DocumentsAppend(a, [blank]);
    DocumentsAppend(a + [blank], b);
    DocumentsAppend(a, b);
  }

  /** All tokens of all documents, in reading order. */
  function Flatten(docs: seq<seq<String>>): seq<String>
    decreases |docs|
  {
    if |docs| == 0 then [] else Flatten(docs[..|docs| - 1]) + docs[|docs| - 1]
  }

  /** The vocabulary: every distinct token, in the order first seen. */
  function Vocabulary(lines: seq<String>): (r: seq<String>)
    ensures forall i, j :: 0 <= i < j < |r| ==> r[i] != r[j]
    ensures forall w :: w in r <==> w in Flatten(Documents(lines))
  {
    var flat := Flatten(Documents(lines));
    var r := FirstWins(flat, Itself);
    KeySeqItself(r);
    KeySeqItself(flat);
    r
  }

  datatype Document = Document(words: seq<nat>, length: nat)

  datatype Statistics = Statistics(docsCount: nat, wordsCount: nat, docs: seq<Document>,
                                   word2id: map<String, nat>, id2word: map<nat, String>)

  /** A vocabulary list and the dictionary from each word to its position. */
  ghost predicate Indexes(vocab: seq<String>, word2id: map<String, nat>) {
    && (forall w :: w in word2id <==> w in vocab)
    && (forall i :: 0 <= i < |vocab| ==> vocab[i] in word2id && word2id[vocab[i]] == i)
  }

  /** Every document's ids name its tokens in `vocab`. */
  ghost predicate Encodes(docs: seq<Document>, text: seq<seq<String>>, vocab: seq<String>) {
    && |docs| == |text|
    && forall x :: 0 <= x < |text| ==>
         && docs[x].length == |text[x]| == |docs[x].words|
         && forall y :: 0 <= y < |text[x]| ==>
              docs[x].words[y] < |vocab| && vocab[docs[x].words[y]] == text[x][y]
  }

  /** The distinct elements of a list without repeats are as many as the list. */
  lemma {:induction false} DistinctCard(s: seq<String>)
    requires forall i, j :: 0 <= i < j < |s| ==> s[i] != s[j]
    ensures |set w | w in s| == |s|
    decreases |s|
  {
    if |s| > 0 {
      var init := s[..|s| - 1];
      DistinctCard(init);
      assert (set w | w in s) == (set w | w in init) + {s[|s| - 1]};
    }
  }

  /** The dictionary holds one entry per vocabulary word. */
  lemma IndexesCard(vocab: seq<String>, word2id: map<String, nat>)
    requires Indexes(vocab, word2id)
    ensures |word2id| == |vocab|
  {
    assert forall i, j :: 0 <= i < j < |vocab| ==> vocab[i] != vocab[j] by {
      forall i, j | 0 <= i < j < |vocab| ensures vocab[i] != vocab[j] {
        assert word2id[vocab[i]] == i && word2id[vocab[j]] == j;
      }
    }
    DistinctCard(vocab);
    assert word2id.Keys == set w | w in vocab;
  }

  /** `id2word`, built from the ids in order. */
  function IdToWord(vocab: seq<String>): map<nat, String> {
    map i: nat | i < |vocab| :: vocab[i]
  }

  /** `id2word` is the exact inverse of `word2id`. */
  lemma IdToWordInverse(vocab: seq<String>, word2id: map<String, nat>)
    requires Indexes(vocab, word2id)
    ensures forall i :: i in IdToWord(vocab) <==> 0 <= i < |vocab|
    ensures forall w :: w in word2id ==>
      word2id[w] in IdToWord(vocab) && IdToWord(vocab)[word2id[w]] == w
    ensures forall i :: i in IdToWord(vocab) ==>
      IdToWord(vocab)[i] in word2id && word2id[IdToWord(vocab)[i]] == i
  {
    forall w | w in word2id
      ensures word2id[w] in IdToWord(vocab) && IdToWord(vocab)[word2id[w]] == w
    {
      var i :| 0 <= i < |vocab| && vocab[i] == w;
      assert word2id[w] == i;
    }
  }

  lemma DocumentsSnoc(lines: seq<String>, n: nat)
    requires n < |lines|
    ensures Documents(lines[..n + 1]) == Documents(lines[..n]) + LineDocument(lines[n])
  {
    assert lines[..n + 1][..n] == lines[..n];
  }

  lemma FlattenSnoc(text: seq<seq<String>>, line: seq<String>)
    ensures Flatten(text + [line]) == Flatten(text) + line
  {
    assert (text + [line])[..|text|] == text;
  }

  lemma AppendAllSnoc(p: seq<String>, line: seq<String>, m: nat)
    requires m < |line|
    ensures AppendAll([], p + line[..m + 1]) == AppendNew(AppendAll([], p + line[..m]), line[m])
  {
    assert (p + line[..m + 1])[..|p| + m] == p + line[..m];
    assert (p + line[..m + 1])[|p| + m] == line[m];
  }

  /** The inner loop of `preprocessing`: the ids of one line's tokens, new words
      getting the next id. */
  method EncodeLine(vocab0: seq<String>, word2id0: map<String, nat>, itemsIdx0: nat,
                    line: seq<String>, ghost seen: seq<String>)
    returns (vocab: seq<String>, word2id: map<String, nat>, itemsIdx: nat, words: seq<nat>)
    requires itemsIdx0 == |vocab0| && Indexes(vocab0, word2id0)
    requires vocab0 == AppendAll([], seen)
    ensures itemsIdx == |vocab| && Indexes(vocab, word2id)
    ensures vocab == AppendAll([], seen + line)
    ensures vocab0 <= vocab
    ensures |words| == |line|
    ensures forall y :: 0 <= y < |line| ==> words[y] < |vocab| && vocab[words[y]] == line[y]
  {
    vocab, word2id, itemsIdx, words := vocab0, word2id0, itemsIdx0, [];
    assert seen + line[..0] == seen;
    for m := 0 to |line|
      invariant itemsIdx == |vocab| && Indexes(vocab, word2id)
      invariant vocab == AppendAll([], seen + line[..m])
      invariant vocab0 <= vocab
      invariant |words| == m
      invariant forall y :: 0 <= y < m ==> words[y] < |vocab| && vocab[words[y]] == line[y]
    {
      var item := line[m];
      AppendAllSnoc(seen, line, m);
      if item in word2id {
        words := words + [word2id[item]];
      } else {
        word2id := word2id[item := itemsIdx];
        words := words + [itemsIdx];
        vocab := vocab + [item];
        itemsIdx := itemsIdx + 1;
      }
    }
    assert line[..|line|] == line;
  }

  /** The statistics `__init__` relies on: one entry per document, each length the
      number of its ids, every id below the vocabulary size. */
  ghost predicate Sound(data: Statistics) {
    && data.docsCount == |data.docs|
    && (forall x :: 0 <= x < |data.docs| ==> data.docs[x].length == |data.docs[x].words|)
    && InVocabulary(WordIds(data.docs), data.wordsCount)
  }

  /** What `preprocessing` has built after reading some lines: the vocabulary met so
      far in first-seen order, the dictionary indexing it, the next free id, and the
      documents encoded against it. */
  ghost predicate Loaded(read: seq<String>, vocab: seq<String>, word2id: map<String, nat>,
                         itemsIdx: nat, docs: seq<Document>) {
    && itemsIdx == |vocab| && Indexes(vocab, word2id)
    && vocab == AppendAll([], Flatten(Documents(read)))
    && Encodes(docs, Documents(read), vocab)
  }

  /** One pass of the outer loop of `preprocessing`. */
  method LoadLine(lines: seq<String>, n: nat, vocab0: seq<String>, word2id0: map<String, nat>,
                  itemsIdx0: nat, docs0: seq<Document>)
    returns (vocab: seq<String>, word2id: map<String, nat>, itemsIdx: nat, docs: seq<Document>)
    requires n < |lines| && Loaded(lines[..n], vocab0, word2id0, itemsIdx0, docs0)
    ensures Loaded(lines[..n + 1], vocab, word2id, itemsIdx, docs)
  {
    vocab, word2id, itemsIdx, docs := vocab0, word2id0, itemsIdx0, docs0;
    DocumentsSnoc(lines, n);
    var line := Tokens(lines[n]);
    StripThenSplit(lines[n]);
    ghost var text := Documents(lines[..n]);
    if |line| == 0 {
      assert Documents(lines[..n + 1]) == text + [];
      assert text + [] == text;
      return;
    }
    assert Documents(lines[..n + 1]) == text + [line];
    var words;
    vocab, word2id, itemsIdx, words := EncodeLine(vocab, word2id, itemsIdx, line, Flatten(text));
    FlattenSnoc(text, line);
    EncodesSnoc(docs, text, vocab0, vocab, Document(words, |line|), line);
    docs := docs + [Document(words, |line|)];
  }

  /** Once every line is read, the vocabulary built is the first-seen one. */
  lemma LoadedAll(lines: seq<String>, vocab: seq<String>, word2id: map<String, nat>,
                  itemsIdx: nat, docs: seq<Document>)
    requires Loaded(lines, vocab, word2id, itemsIdx, docs)
    ensures vocab == Vocabulary(lines) && |word2id| == |vocab|
  {
    var flat := Flatten(Documents(lines));
    var none: seq<String> := [];
    assert none + flat == flat;
    AppendAllFirstWins(none, flat);
    KeySeqItself(vocab);
    IndexesCard(vocab, word2id);
  }

  /** `preprocessing`: the documents of the non-blank lines as word ids, the ids
      handed out densely in first-seen order, and `id2word` the inverse of
      `word2id`. */
  method Preprocess(lines: seq<String>) returns (data: Statistics)
    ensures data.docsCount == |Documents(lines)|
    ensures Encodes(data.docs, Documents(lines), Vocabulary(lines))
    ensures data.wordsCount == |Vocabulary(lines)|
    ensures Indexes(Vocabulary(lines), data.word2id)
    ensures data.id2word == IdToWord(Vocabulary(lines))
    ensures Sound(data)
  {
    var vocab: seq<String> := [];
    var word2id: map<String, nat> := map[];
    var docs: seq<Document> := [];
    var itemsIdx: nat := 0;
    for n := 0 to |lines|
      invariant Loaded(lines[..n], vocab, word2id, itemsIdx, docs)
    {
      vocab, word2id, itemsIdx, docs := LoadLine(lines, n, vocab, word2id, itemsIdx, docs);
    }
    assert lines[..|lines|] == lines;
    LoadedAll(lines, vocab, word2id, itemsIdx, docs);
    data := Statistics(|docs|, |word2id|, docs, word2id, IdToWord(vocab));
  }

  lemma EncodesSnoc(docs: seq<Document>, text: seq<seq<String>>, vocab0: seq<String>, vocab: seq<String>,
                    doc: Document, line: seq<String>)
    requires Encodes(docs, text, vocab0) && vocab0 <= vocab
    requires doc.length == |line| == |doc.words|
    requires forall y :: 0 <= y < |line| ==> doc.words[y] < |vocab| && vocab[doc.words[y]] == line[y]
    ensures Encodes(docs + [doc], text + [line], vocab)
  {
  }

  // ---------------------------------------------------------------------------
  // Topic counts

  /** The word ids of the documents. */
  function WordIds(docs: seq<Document>): (ws: seq<seq<nat>>)
    ensures |ws| == |docs| && forall x :: 0 <= x < |docs| ==> ws[x] == docs[x].words
  {
    seq(|docs|, x requires 0 <= x < |docs| => docs[x].words)
  }

  /** Every id is below the vocabulary size. */
  predicate InVocabulary(ws: seq<seq<nat>>, wordsCount: nat) {
    forall x, y :: 0 <= x < |ws| && 0 <= y < |ws[x]| ==> ws[x][y] < wordsCount
  }

  /** One topic per word, each below `K`. */
  predicate Assigned(ws: seq<seq<nat>>, z: seq<seq<nat>>, K: nat) {
    && |z| == |ws|
    && forall x :: 0 <= x < |ws| ==> |z[x]| == |ws[x]| && forall y :: 0 <= y < |z[x]| ==> z[x][y] < K
  }

  /** Each word paired with its topic (as far as both go). */
  function Zip(w: seq<nat>, t: seq<nat>): (r: seq<(nat, nat)>)
    ensures |r| == (if |w| <= |t| then |w| else |t|)
    ensures forall i :: 0 <= i < |r| ==> r[i] == (w[i], t[i])
  {
    var n := if |w| <= |t| then |w| else |t|;
    seq(n, i requires 0 <= i < n => (w[i], t[i]))
  }

  /** Reference: how often each (word, topic) pair occurs in the corpus. */
  function PairBag(ws: seq<seq<nat>>, z: seq<seq<nat>>): multiset<(nat, nat)>
    requires |z| == |ws|
    decreases |ws|
  {
    if |ws| == 0 then multiset{}
    else
      var n := |ws| - 1;
      PairBag(ws[..n], z[..n]) + multiset(Zip(ws[n], z[n]))
  }

  /** Reference: how often each topic is assigned in the corpus. */
  function TopicBag(z: seq<seq<nat>>): multiset<nat>
    decreases |z|
  {
    if |z| == 0 then multiset{} else TopicBag(z[..|z| - 1]) + multiset(z[|z| - 1])
  }

  /** The sampler's matrices: `Z` and the counts `nw`, `nd`, `nwsum`, `ndsum`. */
  datatype Counts = Counts(z: seq<seq<nat>>, nw: seq<seq<int>>, nd: seq<seq<int>>,
                           nwsum: seq<int>, ndsum: seq<int>)

  /** The counts agree with the topic assignment: `nw[w][k]` counts word `w` under
      topic `k`, `nd[x][k]` the words of document `x` under `k`, `nwsum[k]` all words
      under `k`, and `ndsum[x]` is the length of document `x`. */
  ghost predicate Consistent(c: Counts, ws: seq<seq<nat>>, V: nat, K: nat) {
    && Assigned(ws, c.z, K)
    && DocumentCounts(c, ws, K)
    && WordCounts(c.nw, PairBag(ws, c.z), V, K)
    && TopicTotals(c.nwsum, TopicBag(c.z), K)
  }

  /** `nd[x][k]` counts the words of document `x` under topic `k`, and `ndsum[x]` is
      the length of document `x`. */
  ghost predicate DocumentCounts(c: Counts, ws: seq<seq<nat>>, K: nat)
    requires |c.z| == |ws|
  {
    && |c.nd| == |ws| && |c.ndsum| == |ws|
    && (forall x :: 0 <= x < |ws| ==> |c.nd[x]| == K && c.ndsum[x] == |ws[x]|)
    && (forall x, k :: 0 <= x < |ws| && 0 <= k < K ==> c.nd[x][k] == multiset(c.z[x])[k])
  }

  /** `nw` is a `V` by `K` table counting the (word, topic) pairs of `pairs`. */
  ghost predicate WordCounts(nw: seq<seq<int>>, pairs: multiset<(nat, nat)>, V: nat, K: nat) {
    && |nw| == V && (forall w :: 0 <= w < V ==> |nw[w]| == K)
    && (forall w, k :: 0 <= w < V && 0 <= k < K ==> nw[w][k] == pairs[(w, k)])
  }

  /** `nwsum` is a row of `K` counts of the topics in `topics`. */
  ghost predicate TopicTotals(nwsum: seq<int>, topics: multiset<nat>, K: nat) {
    && |nwsum| == K
    && (forall k :: 0 <= k < K ==> nwsum[k] == topics[k])
  }

  /** Adding the same bag to both sides of a balance keeps it. */
  lemma Shuffle<T>(a2: multiset<T>, b: multiset<T>, a: multiset<T>, c: multiset<T>, l: multiset<T>)
    requires a2 + b == a + c
    ensures (a2 + l) + b == (a + l) + c
  {
    forall q ensures ((a2 + l) + b)[q] == ((a + l) + c)[q] {
      assert (a2 + b)[q] == (a + c)[q];
    }
  }

  /** Changing one document's topics changes the pair counts by that document's
      pairs only. */
  lemma {:induction false} PairBagUpdate(ws: seq<seq<nat>>, z: seq<seq<nat>>, x: nat, zx: seq<nat>)
    requires |z| == |ws| && x < |ws|
    ensures PairBag(ws, z[x := zx]) + multiset(Zip(ws[x], z[x])) == PairBag(ws, z) + multiset(Zip(ws[x], zx))
    decreases |ws|
  {
    var n := |ws| - 1;
    var z2 := z[x := zx];
    if x < n {
      var wp, zp, z2p := ws[..n], z[..n], z2[..n];
      assert z2p == zp[x := zx];
      PairBagUpdate(wp, zp, x, zx);
      assert wp[x] == ws[x] && zp[x] == z[x];
      var last := multiset(Zip(ws[n], z[n]));
      assert z2[n] == z[n];
      PairBagLast(ws, z2);
      PairBagLast(ws, z);
      Shuffle(PairBag(wp, z2p), multiset(Zip(ws[x], z[x])), PairBag(wp, zp), multiset(Zip(ws[x], zx)), last);
    } else {
      assert z2[..n] == z[..n];
      PairBagLast(ws, z2);
      PairBagLast(ws, z);
    }
  }

  lemma PairBagLast(ws: seq<seq<nat>>, z: seq<seq<nat>>)
    requires |z| == |ws| > 0
    ensures PairBag(ws, z) == PairBag(ws[..|ws| - 1], z[..|ws| - 1]) + multiset(Zip(ws[|ws| - 1], z[|ws| - 1]))
  {
  }


  /** The same for the topic counts. */
  lemma {:induction false} TopicBagUpdate(z: seq<seq<nat>>, x: nat, zx: seq<nat>)
    requires x < |z|
    ensures TopicBag(z[x := zx]) + multiset(z[x]) == TopicBag(z) + multiset(zx)
    decreases |z|
  {
    var n := |z| - 1;
    var z2 := z[x := zx];
    if x < n {
      assert z2[..n] == z[..n][x := zx];
      TopicBagUpdate(z[..n], x, zx);
      assert z[..n][x] == z[x];
      var last := multiset(z[n]);
      assert z2[n] == z[n];
      assert TopicBag(z2) == TopicBag(z2[..n]) + last;
      assert TopicBag(z) == TopicBag(z[..n]) + last;
      Shuffle(TopicBag(z2[..n]), multiset(z[x]), TopicBag(z[..n]), multiset(zx), last);
    } else {
      assert z2[..n] == z[..n];
    }
  }

  /** `Z[i][j] = topic` */
  function Reassign(z: seq<seq<nat>>, i: nat, j: nat, topic: nat): (r: seq<seq<nat>>)
    requires i < |z| && j < |z[i]|
    ensures |r| == |z| && forall x :: 0 <= x < |z| ==> |r[x]| == |z[x]|
    ensures forall x, y :: 0 <= x < |z| && 0 <= y < |z[x]| ==>
      r[x][y] == if x == i && y == j then topic else z[x][y]
  {
    var zi: seq<nat> := z[i][j := topic];
    z[i := zi]
  }

  /** Moving a balance through an intermediate pair of bags. */
  lemma Cancel<T>(a: multiset<T>, b: multiset<T>, c: multiset<T>, d: multiset<T>, m: multiset<T>, n: multiset<T>)
    requires a + m == b + n && n + c == m + d
    ensures a + c == b + d
  {
    forall q ensures (a + c)[q] == (b + d)[q] {
      assert (a + m)[q] == (b + n)[q];
      assert (n + c)[q] == (m + d)[q];
    }
  }

  /** Reassigning one word of a document swaps one pair for another. */
  lemma ZipReassign(wx: seq<nat>, zx: seq<nat>, j: nat, topic: nat)
    requires j < |wx| && j < |zx|
    ensures multiset(Zip(wx, zx[j := topic])) + multiset{(wx[j], zx[j])}
         == multiset(Zip(wx, zx)) + multiset{(wx[j], topic)}
  {
    var p := Zip(wx, zx);
    assert Zip(wx, zx[j := topic]) == p[j := (wx[j], topic)];
    assert p[j] == (wx[j], zx[j]);
  }

  /** Reassigning one word moves one count of its pair from the old topic to the
      new one. */
  lemma PairBagReassign(ws: seq<seq<nat>>, z: seq<seq<nat>>, i: nat, j: nat, topic: nat)
    requires |z| == |ws| && i < |ws| && j < |ws[i]| && j < |z[i]|
    ensures PairBag(ws, Reassign(z, i, j, topic)) + multiset{(ws[i][j], z[i][j])}
         == PairBag(ws, z) + multiset{(ws[i][j], topic)}
  {
    var zi: seq<nat> := z[i][j := topic];
    assert Reassign(z, i, j, topic) == z[i := zi];
    PairBagUpdate(ws, z, i, zi);
    ZipReassign(ws[i], z[i], j, topic);
    Cancel(PairBag(ws, z[i := zi]), PairBag(ws, z), multiset{(ws[i][j], z[i][j])},
           multiset{(ws[i][j], topic)}, multiset(Zip(ws[i], z[i])), multiset(Zip(ws[i], zi)));
  }

  lemma TopicBagReassign(z: seq<seq<nat>>, i: nat, j: nat, topic: nat)
    requires i < |z| && j < |z[i]|
    ensures TopicBag(Reassign(z, i, j, topic)) + multiset{z[i][j]} == TopicBag(z) + multiset{topic}
  {
    var zi: seq<nat> := z[i][j := topic];
    assert Reassign(z, i, j, topic) == z[i := zi];
    TopicBagUpdate(z, i, zi);
    assert multiset(zi) + multiset{z[i][j]} == multiset(z[i]) + multiset{topic};
    Cancel(TopicBag(z[i := zi]), TopicBag(z), multiset{z[i][j]}, multiset{topic},
           multiset(z[i]), multiset(zi));
  }

  /** `m[a][b] += delta` */
  function Bump(m: seq<seq<int>>, a: nat, b: nat, delta: int): (r: seq<seq<int>>)
    requires a < |m| && b < |m[a]|
    ensures |r| == |m| && forall x :: 0 <= x < |m| ==> |r[x]| == |m[x]|
    ensures forall x, y :: 0 <= x < |m| && 0 <= y < |m[x]| ==>
      r[x][y] == m[x][y] + (if x == a && y == b then delta else 0)
  {
    m[a := m[a][b := m[a][b] + delta]]
  }

  /** `v[a] += delta` */
  function BumpAt(v: seq<int>, a: nat, delta: int): (r: seq<int>)
    requires a < |v|
    ensures |r| == |v| && forall x :: 0 <= x < |v| ==> r[x] == v[x] + (if x == a then delta else 0)
  {
    v[a := v[a] + delta]
  }

  /** The word-topic counts after the move match the pair counts after it. */
  lemma WordCountsStep(nw: seq<seq<int>>, before: multiset<(nat, nat)>, after: multiset<(nat, nat)>,
                       V: nat, K: nat, w: nat, was: nat, topic: nat)
    requires WordCounts(nw, before, V, K)
    requires after + multiset{(w, was)} == before + multiset{(w, topic)}
    requires w < V && was < K && topic < K
    ensures WordCounts(Bump(Bump(nw, w, was, -1), w, topic, 1), after, V, K)
  {
    forall v, k | 0 <= v < V && 0 <= k < K
      ensures Bump(Bump(nw, w, was, -1), w, topic, 1)[v][k] == after[(v, k)]
    {
      assert (after + multiset{(w, was)})[(v, k)] == (before + multiset{(w, topic)})[(v, k)];
    }
  }

  /** The topic totals after the move match the topic counts after it. */
  lemma TopicTotalsStep(nwsum: seq<int>, before: multiset<nat>, after: multiset<nat>,
                        K: nat, was: nat, topic: nat)
    requires TopicTotals(nwsum, before, K)
    requires after + multiset{was} == before + multiset{topic}
    requires was < K && topic < K
    ensures TopicTotals(BumpAt(BumpAt(nwsum, was, -1), topic, 1), after, K)
  {
    forall k | 0 <= k < K
      ensures BumpAt(BumpAt(nwsum, was, -1), topic, 1)[k] == after[k]
    {
      assert (after + multiset{was})[k] == (before + multiset{topic})[k];
    }
  }

  /** The document-topic counts after the move match the document's topics, and the
      document lengths are back where they were. */
  lemma DocumentCountsStep(c: Counts, ws: seq<seq<nat>>, K: nat, i: nat, j: nat, topic: nat)
    requires Assigned(ws, c.z, K) && DocumentCounts(c, ws, K)
    requires i < |ws| && j < |ws[i]| && topic < K
    ensures Assigned(ws, Reassign(c.z, i, j, topic), K)
    ensures var r := Counts(Reassign(c.z, i, j, topic), c.nw, Bump(Bump(c.nd, i, c.z[i][j], -1), i, topic, 1),
                            c.nwsum, BumpAt(BumpAt(c.ndsum, i, -1), i, 1));
      DocumentCounts(r, ws, K)
  {
    var z: seq<seq<nat>>, nd: seq<seq<int>> := c.z, c.nd;
    var z2 := Reassign(z, i, j, topic);
    assert z2[i] == z[i][j := topic];
    assert forall x :: 0 <= x < |z| && x != i ==> z2[x] == z[x];
    forall k | 0 <= k < K
      ensures Bump(Bump(nd, i, z[i][j], -1), i, topic, 1)[i][k] == multiset(z2[i])[k]
    {
      assert (multiset(z2[i]) + multiset{z[i][j]})[k] == (multiset(z[i]) + multiset{topic})[k];
    }
  }

  /** `sampling(i, j)` followed by `Z[i][j] = topic`: word `j` of document `i` leaves
      its topic and joins the drawn one, every count following it. */
  function Sample(c: Counts, ws: seq<seq<nat>>, V: nat, K: nat, i: nat, j: nat, topic: nat): (r: Counts)
    requires Consistent(c, ws, V, K) && InVocabulary(ws, V)
    requires i < |ws| && j < |ws[i]| && topic < K
    ensures Consistent(r, ws, V, K)
    ensures r.z == Reassign(c.z, i, j, topic)
  {
    var was := c.z[i][j];
    var w := ws[i][j];
    var nw := Bump(Bump(c.nw, w, was, -1), w, topic, 1);
    var nd := Bump(Bump(c.nd, i, was, -1), i, topic, 1);
    var nwsum := BumpAt(BumpAt(c.nwsum, was, -1), topic, 1);
    var ndsum := BumpAt(BumpAt(c.ndsum, i, -1), i, 1);
    var z := Reassign(c.z, i, j, topic);
    PairBagReassign(ws, c.z, i, j, topic);
    TopicBagReassign(c.z, i, j, topic);
    WordCountsStep(c.nw, PairBag(ws, c.z), PairBag(ws, z), V, K, w, was, topic);
    TopicTotalsStep(c.nwsum, TopicBag(c.z), TopicBag(z), K, was, topic);
    DocumentCountsStep(c, ws, K, i, j, topic);
    Counts(z, nw, nd, nwsum, ndsum)
  }

  /** Resampling the topic a word already has changes nothing. */
  lemma SampleSameTopic(c: Counts, ws: seq<seq<nat>>, V: nat, K: nat, i: nat, j: nat)
    requires Consistent(c, ws, V, K) && InVocabulary(ws, V)
    requires i < |ws| && j < |ws[i]|
    ensures Sample(c, ws, V, K, i, j, c.z[i][j]) == c
  {
    var was, w := c.z[i][j], ws[i][j];
    ReassignSame(c.z, i, j);
    BumpBack(c.nw, w, was);
    BumpBack(c.nd, i, was);
    BumpAtBack(c.nwsum, was);
    BumpAtBack(c.ndsum, i);
  }

  lemma ReassignSame(z: seq<seq<nat>>, i: nat, j: nat)
    requires i < |z| && j < |z[i]|
    ensures Reassign(z, i, j, z[i][j]) == z
  {
    assert z[i][j := z[i][j]] == z[i];
  }

  lemma BumpBack(m: seq<seq<int>>, a: nat, b: nat)
    requires a < |m| && b < |m[a]|
    ensures Bump(Bump(m, a, b, -1), a, b, 1) == m
  {
    var m1 := Bump(m, a, b, -1);
    assert m1[a][b := m1[a][b] + 1] == m[a];
  }

  lemma BumpAtBack(v: seq<int>, a: nat)
    requires a < |v|
    ensures BumpAt(BumpAt(v, a, -1), a, 1) == v
  {
  }


  // ---------------------------------------------------------------------------
  // Row and column totals

  /** `sum(row)` */
  function RowSum(row: seq<int>): int
    decreases |row|
  {
    if |row| == 0 then 0 else RowSum(row[..|row| - 1]) + row[|row| - 1]
  }

  /** `sum(m[:n, k])` */
  function ColumnSum(m: seq<seq<int>>, k: nat, n: nat): int
    requires n <= |m| && forall w :: 0 <= w < n ==> k < |m[w]|
    decreases n
  {
    if n == 0 then 0 else ColumnSum(m, k, n - 1) + m[n - 1][k]
  }

  /** How many elements of `bag` lie below `n`. */
  function TopicsBelow(bag: multiset<nat>, n: nat): nat
    decreases n
  {
    if n == 0 then 0 else TopicsBelow(bag, n - 1) + bag[n - 1]
  }

  /** How many pairs of `bag` have topic `k` and a word below `n`. */
  function WordsBelow(bag: multiset<(nat, nat)>, n: nat, k: nat): nat
    decreases n
  {
    if n == 0 then 0 else WordsBelow(bag, n - 1, k) + bag[(n - 1, k)]
  }

  lemma {:induction false} TopicsBelowAdd(a: multiset<nat>, b: multiset<nat>, n: nat)
    ensures TopicsBelow(a + b, n) == TopicsBelow(a, n) + TopicsBelow(b, n)
    decreases n
  {
    if n > 0 {
      TopicsBelowAdd(a, b, n - 1);
    }
  }

  lemma {:induction false} TopicsBelowOne(t: nat, n: nat)
    ensures TopicsBelow(multiset{t}, n) == if t < n then 1 else 0
    decreases n
  {
    if n > 0 {
      TopicsBelowOne(t, n - 1);
    }
  }

  /** A document's topics, all below `K`, number its length. */
  lemma {:induction false} TopicsBelowSeq(zs: seq<nat>, K: nat)
    requires forall y :: 0 <= y < |zs| ==> zs[y] < K
    ensures TopicsBelow(multiset(zs), K) == |zs|
    decreases |zs|
  {
    if |zs| > 0 {
      var init := zs[..|zs| - 1];
      var t := zs[|zs| - 1];
      assert zs == init + [t];
      assert multiset(zs) == multiset(init) + multiset{t};
      TopicsBelowSeq(init, K);
      TopicsBelowAdd(multiset(init), multiset{t}, K);
      TopicsBelowOne(t, K);
    } else {
      TopicsBelowNone(K);
    }
  }

  lemma {:induction false} TopicsBelowNone(n: nat)
    ensures TopicsBelow(multiset{}, n) == 0
    decreases n
  {
    if n > 0 {
      TopicsBelowNone(n - 1);
    }
  }

  lemma {:induction false} WordsBelowNone(n: nat, k: nat)
    ensures WordsBelow(multiset{}, n, k) == 0
    decreases n
  {
    if n > 0 {
      WordsBelowNone(n - 1, k);
    }
  }

  lemma {:induction false} RowSumCounts(row: seq<int>, bag: multiset<nat>)
    requires forall k :: 0 <= k < |row| ==> row[k] == bag[k]
    ensures RowSum(row) == TopicsBelow(bag, |row|)
    decreases |row|
  {
    if |row| > 0 {
      RowSumCounts(row[..|row| - 1], bag);
    }
  }

  lemma {:induction false} WordsBelowAdd(a: multiset<(nat, nat)>, b: multiset<(nat, nat)>, n: nat, k: nat)
    ensures WordsBelow(a + b, n, k) == WordsBelow(a, n, k) + WordsBelow(b, n, k)
    decreases n
  {
    if n > 0 {
      WordsBelowAdd(a, b, n - 1, k);
    }
  }

  lemma {:induction false} WordsBelowOne(w: nat, t: nat, n: nat, k: nat)
    ensures WordsBelow(multiset{(w, t)}, n, k) == if w < n && t == k then 1 else 0
    decreases n
  {
    if n > 0 {
      WordsBelowOne(w, t, n - 1, k);
    }
  }

  /** Summed over the vocabulary, a document's pairs with topic `k` are its words
      with topic `k`. */
  lemma {:induction false} WordsBelowZip(wx: seq<nat>, zx: seq<nat>, V: nat, k: nat)
    requires |wx| == |zx| && forall y :: 0 <= y < |wx| ==> wx[y] < V
    ensures WordsBelow(multiset(Zip(wx, zx)), V, k) == multiset(zx)[k]
    decreases |wx|
  {
    if |wx| > 0 {
      var n := |wx| - 1;
      assert Zip(wx, zx) == Zip(wx[..n], zx[..n]) + [(wx[n], zx[n])];
      assert multiset(Zip(wx, zx)) == multiset(Zip(wx[..n], zx[..n])) + multiset{(wx[n], zx[n])};
      assert zx == zx[..n] + [zx[n]];
      assert multiset(zx) == multiset(zx[..n]) + multiset{zx[n]};
      WordsBelowZip(wx[..n], zx[..n], V, k);
      WordsBelowAdd(multiset(Zip(wx[..n], zx[..n])), multiset{(wx[n], zx[n])}, V, k);
      WordsBelowOne(wx[n], zx[n], V, k);
    } else {
      WordsBelowNone(V, k);
    }
  }

  /** The same over the whole corpus. */
  lemma {:induction false} WordsBelowPairs(ws: seq<seq<nat>>, z: seq<seq<nat>>, V: nat, k: nat)
    requires |z| == |ws| && forall x :: 0 <= x < |ws| ==> |z[x]| == |ws[x]|
    requires InVocabulary(ws, V)
    ensures WordsBelow(PairBag(ws, z), V, k) == TopicBag(z)[k]
    decreases |ws|
  {
    if |ws| > 0 {
      var n := |ws| - 1;
      assert forall x :: 0 <= x < n ==> ws[..n][x] == ws[x] && z[..n][x] == z[x];
      assert PairBag(ws, z) == PairBag(ws[..n], z[..n]) + multiset(Zip(ws[n], z[n]));
      assert TopicBag(z) == TopicBag(z[..n]) + multiset(z[n]);
      WordsBelowPairs(ws[..n], z[..n], V, k);
      WordsBelowAdd(PairBag(ws[..n], z[..n]), multiset(Zip(ws[n], z[n])), V, k);
      WordsBelowZip(ws[n], z[n], V, k);
    } else {
      WordsBelowNone(V, k);
    }
  }

  lemma {:induction false} ColumnSumCounts(m: seq<seq<int>>, bag: multiset<(nat, nat)>, k: nat, n: nat)
    requires n <= |m| && forall w :: 0 <= w < n ==> k < |m[w]| && m[w][k] == bag[(w, k)]
    ensures ColumnSum(m, k, n) == WordsBelow(bag, n, k)
    decreases n
  {
    if n > 0 {
      ColumnSumCounts(m, bag, k, n - 1);
    }
  }

  /** The totals the sampler keeps agree with its counts: each document's row of
      `nd` sums to its length `ndsum[x]`, and each topic's column of `nw` sums to
      `nwsum[k]`. */
  lemma CountTotals(c: Counts, ws: seq<seq<nat>>, V: nat, K: nat)
    requires Consistent(c, ws, V, K) && InVocabulary(ws, V)
    ensures forall x :: 0 <= x < |ws| ==> RowSum(c.nd[x]) == c.ndsum[x]
    ensures forall k :: 0 <= k < K ==> ColumnSum(c.nw, k, V) == c.nwsum[k]
  {
    forall x | 0 <= x < |ws| ensures RowSum(c.nd[x]) == c.ndsum[x] {
      RowSumCounts(c.nd[x], multiset(c.z[x]));
      TopicsBelowSeq(c.z[x], K);
    }
    forall k | 0 <= k < K ensures ColumnSum(c.nw, k, V) == c.nwsum[k] {
      ColumnSumCounts(c.nw, PairBag(ws, c.z), k, V);
      WordsBelowPairs(ws, c.z, V, k);
    }
  }

  // ---------------------------------------------------------------------------
  // Initial assignment and training

  /** Some document has a word. */
  predicate HasWords(ws: seq<seq<nat>>) {
    exists x :: 0 <= x < |ws| && |ws[x]| > 0
  }

  /** The inner loop of `__init__`'s counting for one document: word `y` gets topic
      `draw(x, y)`, and `nw`, `nd[x]` and `nwsum` count it. */
  method DrawTopics(wx: seq<nat>, x: nat, V: nat, K: nat, draw: (nat, nat) -> nat,
                    nw0: seq<seq<int>>, nwsum0: seq<int>)
    returns (row: seq<nat>, ndRow: seq<int>, nw: seq<seq<int>>, nwsum: seq<int>)
    requires forall b :: 0 <= b < |wx| ==> wx[b] < V
    requires |nw0| == V && (forall w :: 0 <= w < V ==> |nw0[w]| == K) && |nwsum0| == K
    requires K > 0 ==> forall a, b :: draw(a, b) < K
    requires K == 0 ==> |wx| == 0
    ensures |row| == |wx| && forall b :: 0 <= b < |wx| ==> row[b] == draw(x, b) && row[b] < K
    ensures |ndRow| == K && forall k :: 0 <= k < K ==> ndRow[k] == multiset(row)[k]
    ensures |nw| == V && forall w :: 0 <= w < V ==> |nw[w]| == K
    ensures forall w, k :: 0 <= w < V && 0 <= k < K ==> nw[w][k] == nw0[w][k] + multiset(Zip(wx, row))[(w, k)]
    ensures |nwsum| == K && forall k :: 0 <= k < K ==> nwsum[k] == nwsum0[k] + multiset(row)[k]
  {
    var zeros: seq<int> := seq(K, _ => 0);
    row, ndRow, nw, nwsum := [], zeros, nw0, nwsum0;
    ghost var zipped: seq<(nat, nat)> := [];
    for y := 0 to |wx|
      invariant Tallied(wx, y, x, draw, row, zipped, ndRow, zeros, nw, nw0, nwsum, nwsum0, V, K)
    {
      var topic := draw(x, y);
      var w := wx[y];
      TallyStep(wx, y, x, draw, row, zipped, ndRow, zeros, nw, nw0, nwsum, nwsum0, V, K);
      row := row + [topic];
      zipped := zipped + [(w, topic)];
      nw := Bump(nw, w, topic, 1);
      ndRow := BumpAt(ndRow, topic, 1);
      nwsum := BumpAt(nwsum, topic, 1);
    }
    TallyDone(wx, x, draw, row, zipped, ndRow, zeros, nw, nw0, nwsum, nwsum0, V, K);
  }

  /** The state of `DrawTopics` after its first `y` words. */
  ghost predicate Tallied(wx: seq<nat>, y: nat, x: nat, draw: (nat, nat) -> nat,
                          row: seq<nat>, zipped: seq<(nat, nat)>, ndRow: seq<int>, zeros: seq<int>,
                          nw: seq<seq<int>>, nw0: seq<seq<int>>, nwsum: seq<int>, nwsum0: seq<int>, V: nat, K: nat)
  {
    && y <= |wx|
    && |row| == y && (forall b :: 0 <= b < y ==> row[b] == draw(x, b) && row[b] < K)
    && |zipped| == y && (forall b :: 0 <= b < y ==> zipped[b] == (wx[b], row[b]))
    && RowCounts(ndRow, zeros, row, K) && (forall k :: 0 <= k < K ==> zeros[k] == 0)
    && TableCounts(nw, nw0, zipped, V, K)
    && RowCounts(nwsum, nwsum0, row, K)
  }

  /** One word of `DrawTopics`: its topic is drawn and counted. */
  lemma TallyStep(wx: seq<nat>, y: nat, x: nat, draw: (nat, nat) -> nat,
                  row: seq<nat>, zipped: seq<(nat, nat)>, ndRow: seq<int>, zeros: seq<int>,
                  nw: seq<seq<int>>, nw0: seq<seq<int>>, nwsum: seq<int>, nwsum0: seq<int>, V: nat, K: nat)
    requires Tallied(wx, y, x, draw, row, zipped, ndRow, zeros, nw, nw0, nwsum, nwsum0, V, K) && y < |wx|
    requires wx[y] < V && draw(x, y) < K
    ensures Tallied(wx, y + 1, x, draw, row + [draw(x, y)], zipped + [(wx[y], draw(x, y))],
                    BumpAt(ndRow, draw(x, y), 1), zeros, Bump(nw, wx[y], draw(x, y), 1), nw0,
                    BumpAt(nwsum, draw(x, y), 1), nwsum0, V, K)
  {
    var t, w := draw(x, y), wx[y];
    TableBump(nw, nw0, zipped, w, t, V, K);
    RowBump(ndRow, zeros, row, t, K);
    RowBump(nwsum, nwsum0, row, t, K);
    SnocPointwise(wx, y, x, draw, row, zipped, K);
  }

  /** The drawn row and the pairs stay in step when one word is added. */
  lemma SnocPointwise(wx: seq<nat>, y: nat, x: nat, draw: (nat, nat) -> nat,
                      row: seq<nat>, zipped: seq<(nat, nat)>, K: nat)
    requires y < |wx| && draw(x, y) < K
    requires |row| == y && (forall b :: 0 <= b < y ==> row[b] == draw(x, b) && row[b] < K)
    requires |zipped| == y && (forall b :: 0 <= b < y ==> zipped[b] == (wx[b], row[b]))
    ensures var row', zipped' := row + [draw(x, y)], zipped + [(wx[y], draw(x, y))];
      && |row'| == y + 1 && (forall b :: 0 <= b < y + 1 ==> row'[b] == draw(x, b) && row'[b] < K)
      && |zipped'| == y + 1 && (forall b :: 0 <= b < y + 1 ==> zipped'[b] == (wx[b], row'[b]))
  {
  }

  /** After every word, the counts are those `DrawTopics` promises. */
  lemma TallyDone(wx: seq<nat>, x: nat, draw: (nat, nat) -> nat,
                  row: seq<nat>, zipped: seq<(nat, nat)>, ndRow: seq<int>, zeros: seq<int>,
                  nw: seq<seq<int>>, nw0: seq<seq<int>>, nwsum: seq<int>, nwsum0: seq<int>, V: nat, K: nat)
    requires Tallied(wx, |wx|, x, draw, row, zipped, ndRow, zeros, nw, nw0, nwsum, nwsum0, V, K)
    ensures |row| == |wx| && forall b :: 0 <= b < |wx| ==> row[b] == draw(x, b) && row[b] < K
    ensures |ndRow| == K && forall k :: 0 <= k < K ==> ndRow[k] == multiset(row)[k]
    ensures |nw| == V && forall w :: 0 <= w < V ==> |nw[w]| == K
    ensures forall w, k :: 0 <= w < V && 0 <= k < K ==> nw[w][k] == nw0[w][k] + multiset(Zip(wx, row))[(w, k)]
    ensures |nwsum| == K && forall k :: 0 <= k < K ==> nwsum[k] == nwsum0[k] + multiset(row)[k]
  {
    assert zipped == Zip(wx, row);
  }

  /** `v` is `v0` plus the count of each topic of `row`. */
  ghost predicate RowCounts(v: seq<int>, v0: seq<int>, row: seq<nat>, K: nat) {
    |v| == K && |v0| == K && forall k :: 0 <= k < K ==> v[k] == v0[k] + multiset(row)[k]
  }

  /** `nw` is `nw0` plus the count of each (word, topic) pair of `pairs`. */
  ghost predicate TableCounts(nw: seq<seq<int>>, nw0: seq<seq<int>>, pairs: seq<(nat, nat)>, V: nat, K: nat) {
    && |nw| == V && |nw0| == V
    && (forall a :: 0 <= a < V ==> |nw[a]| == K && |nw0[a]| == K)
    && forall a, k :: 0 <= a < V && 0 <= k < K ==> nw[a][k] == nw0[a][k] + multiset(pairs)[(a, k)]
  }

  /** Counting one more topic bumps its entry. */
  lemma RowBump(v: seq<int>, v0: seq<int>, row: seq<nat>, topic: nat, K: nat)
    requires RowCounts(v, v0, row, K) && topic < K
    ensures RowCounts(BumpAt(v, topic, 1), v0, row + [topic], K)
  {
    assert multiset(row + [topic]) == multiset(row) + multiset{topic};
  }

  /** Counting one more (word, topic) pair bumps its entry. */
  lemma TableBump(nw: seq<seq<int>>, nw0: seq<seq<int>>, pairs: seq<(nat, nat)>, w: nat, topic: nat, V: nat, K: nat)
    requires TableCounts(nw, nw0, pairs, V, K) && w < V && topic < K
    ensures TableCounts(Bump(nw, w, topic, 1), nw0, pairs + [(w, topic)], V, K)
  {
    assert multiset(pairs + [(w, topic)]) == multiset(pairs) + multiset{(w, topic)};
  }

  /** One document's pass of the counting loop in `__init__`. */
  method DrawDocument(c: Counts, ws: seq<seq<nat>>, V: nat, K: nat, x: nat, draw: (nat, nat) -> nat)
    returns (r: Counts)
    requires x < |ws| && InVocabulary(ws, V) && Consistent(c, ws[..x], V, K)
    requires K > 0 ==> forall a, b :: draw(a, b) < K
    requires K == 0 ==> |ws[x]| == 0
    requires DrawnBy(c.z, ws, x, draw)
    ensures Consistent(r, ws[..x + 1], V, K)
    ensures |r.z| == x + 1 && r.z[..x] == c.z
    ensures DrawnBy(r.z, ws, x + 1, draw)
  {
    var row, ndRow, nw, nwsum := DrawTopics(ws[x], x, V, K, draw, c.nw, c.nwsum);
    r := Counts(c.z + [row], nw, c.nd + [ndRow], nwsum, c.ndsum + [|ws[x]|]);
    assert (c.z + [row])[..x] == c.z;
    DrawnConsistent(c, ws, V, K, x, r, row, ndRow);
    DrawnSnoc(c.z, row, ws, x, draw);
  }

  /** The first `n` documents' words carry the topics `draw` gives them. */
  ghost predicate DrawnBy(z: seq<seq<nat>>, ws: seq<seq<nat>>, n: nat, draw: (nat, nat) -> nat) {
    && n <= |z| && n <= |ws|
    && (forall a :: 0 <= a < n ==> |z[a]| == |ws[a]|)
    && (forall a, b :: 0 <= a < n && 0 <= b < |z[a]| ==> z[a][b] == draw(a, b))
  }

  /** Appending a document drawn by `draw` extends the drawn prefix by one. */
  lemma DrawnSnoc(z: seq<seq<nat>>, row: seq<nat>, ws: seq<seq<nat>>, x: nat, draw: (nat, nat) -> nat)
    requires |z| == x && x < |ws| && DrawnBy(z, ws, x, draw)
    requires |row| == |ws[x]| && forall b :: 0 <= b < |row| ==> row[b] == draw(x, b)
    ensures DrawnBy(z + [row], ws, x + 1, draw)
  {
    var q := z + [row];
    forall a | 0 <= a < x + 1
      ensures |q[a]| == |ws[a]| && forall b :: 0 <= b < |q[a]| ==> q[a][b] == draw(a, b)
    {
      if a < x {
        assert q[a] == z[a];
      }
    }
  }

  /** Appending a document's topics keeps every topic assigned and in range. */
  lemma AssignedSnoc(ws: seq<seq<nat>>, z: seq<seq<nat>>, K: nat, x: nat, row: seq<nat>)
    requires x < |ws| && Assigned(ws[..x], z, K)
    requires |row| == |ws[x]| && forall b :: 0 <= b < |row| ==> row[b] < K
    ensures Assigned(ws[..x + 1], z + [row], K)
  {
    var p, q := ws[..x + 1], z + [row];
    forall a | 0 <= a < |p|
      ensures |q[a]| == |p[a]| && forall y :: 0 <= y < |q[a]| ==> q[a][y] < K
    {
      if a < x {
        assert p[a] == ws[..x][a] && q[a] == z[a];
      } else {
        assert p[a] == ws[x] && q[a] == row;
      }
    }
  }

  /** Appending a document's row of topic counts keeps `nd` and `ndsum` right. */
  lemma DocumentCountsSnoc(c: Counts, ws: seq<seq<nat>>, K: nat, x: nat, r: Counts,
                           row: seq<nat>, ndRow: seq<int>)
    requires x < |ws| && |c.z| == x && DocumentCounts(c, ws[..x], K)
    requires r.z == c.z + [row] && r.nd == c.nd + [ndRow] && r.ndsum == c.ndsum + [|ws[x]|]
    requires |ndRow| == K && forall k :: 0 <= k < K ==> ndRow[k] == multiset(row)[k]
    ensures DocumentCounts(r, ws[..x + 1], K)
  {
    var p := ws[..x + 1];
    forall a | 0 <= a < |p|
      ensures |r.nd[a]| == K && r.ndsum[a] == |p[a]|
      ensures forall k :: 0 <= k < K ==> r.nd[a][k] == multiset(r.z[a])[k]
    {
      if a < x {
        assert p[a] == ws[..x][a] && r.z[a] == c.z[a] && r.nd[a] == c.nd[a] && r.ndsum[a] == c.ndsum[a];
      } else {
        assert p[a] == ws[x] && r.z[a] == row && r.nd[a] == ndRow;
      }
    }
  }

  /** A table of pair counts that grows by a bag counts the grown bag. */
  lemma TableAdds(nw0: seq<seq<int>>, nw: seq<seq<int>>, V: nat, K: nat,
                  was: multiset<(nat, nat)>, added: multiset<(nat, nat)>, now: multiset<(nat, nat)>)
    requires now == was + added && WordCounts(nw0, was, V, K)
    requires |nw| == V && forall w :: 0 <= w < V ==> |nw[w]| == K
    requires forall w, k :: 0 <= w < V && 0 <= k < K ==> nw[w][k] == nw0[w][k] + added[(w, k)]
    ensures WordCounts(nw, now, V, K)
  {
  }

  /** A row of topic counts that grows by a bag counts the grown bag. */
  lemma RowAdds(v0: seq<int>, v: seq<int>, K: nat, was: multiset<nat>, added: multiset<nat>, now: multiset<nat>)
    requires now == was + added && TopicTotals(v0, was, K)
    requires |v| == K && forall k :: 0 <= k < K ==> v[k] == v0[k] + added[k]
    ensures TopicTotals(v, now, K)
  {
  }

  lemma DrawnConsistent(c: Counts, ws: seq<seq<nat>>, V: nat, K: nat, x: nat, r: Counts,
                         row: seq<nat>, ndRow: seq<int>)
    requires x < |ws| && Consistent(c, ws[..x], V, K)
    requires |row| == |ws[x]| && forall b :: 0 <= b < |row| ==> row[b] < K
    requires r.z == c.z + [row] && r.nd == c.nd + [ndRow] && r.ndsum == c.ndsum + [|ws[x]|]
    requires |ndRow| == K && forall k :: 0 <= k < K ==> ndRow[k] == multiset(row)[k]
    requires |r.nw| == V && forall w :: 0 <= w < V ==> |r.nw[w]| == K
    requires forall w, k :: 0 <= w < V && 0 <= k < K ==> r.nw[w][k] == c.nw[w][k] + multiset(Zip(ws[x], row))[(w, k)]
    requires |r.nwsum| == K && forall k :: 0 <= k < K ==> r.nwsum[k] == c.nwsum[k] + multiset(row)[k]
    ensures Consistent(r, ws[..x + 1], V, K)
  {
    BagsSnoc(ws, c.z, x, row);
    AssignedSnoc(ws, c.z, K, x, row);
    DocumentCountsSnoc(c, ws, K, x, r, row, ndRow);
    TableAdds(c.nw, r.nw, V, K, PairBag(ws[..x], c.z), multiset(Zip(ws[x], row)), PairBag(ws[..x + 1], r.z));
    RowAdds(c.nwsum, r.nwsum, K, TopicBag(c.z), multiset(row), TopicBag(r.z));
  }

  /** Appending a document's topics appends its pairs and topics to the counts. */
  lemma BagsSnoc(ws: seq<seq<nat>>, z: seq<seq<nat>>, x: nat, row: seq<nat>)
    requires x < |ws| && |z| == x
    ensures PairBag(ws[..x + 1], z + [row]) == PairBag(ws[..x], z) + multiset(Zip(ws[x], row))
    ensures TopicBag(z + [row]) == TopicBag(z) + multiset(row)
  {
    var p := ws[..x + 1];
    var q := z + [row];
    assert p[..x] == ws[..x];
    assert q[..x] == z;
    assert p[x] == ws[x] && q[x] == row;
    assert PairBag(p, q) == PairBag(p[..x], q[..x]) + multiset(Zip(p[x], q[x]));
    assert TopicBag(q) == TopicBag(q[..x]) + multiset(q[x]);
  }

  /** Before any document is read, the zero matrices count nothing. */
  lemma NothingCounted(ws: seq<seq<nat>>, V: nat, K: nat)
    ensures Consistent(Counts([], seq(V, _ => seq(K, _ => 0)), [], seq(K, _ => 0), []), ws[..0], V, K)
  {
    assert ws[..0] == [];
  }

  /** `__init__`'s counting loop: every word of every document gets the topic
      `draw(x, y)` (`random.randint(0, K - 1)`) and the counts are filled in to match;
      with no topic to draw from, the first word raises. */
  method Initialise(data: Statistics, K: nat, draw: (nat, nat) -> nat) returns (r: Result<Counts>)
    requires Sound(data)
    requires K > 0 ==> forall a, b :: draw(a, b) < K
    ensures r.Err? <==> K == 0 && HasWords(WordIds(data.docs))
    ensures r.Err? ==> r.fault == ValueError
    ensures r.Ok? ==> Consistent(r.value, WordIds(data.docs), data.wordsCount, K)
    ensures r.Ok? ==> forall x, y :: 0 <= x < |data.docs| && 0 <= y < |data.docs[x].words| ==>
      r.value.z[x][y] == draw(x, y)
  {
    var ws := WordIds(data.docs);
    var V := data.wordsCount;
    if K == 0 && HasWords(ws) {
      return Err(ValueError);
    }
    assert forall x :: 0 <= x < |ws| ==> K > 0 || |ws[x]| == 0;
    var c := DrawAll(ws, V, K, draw);
    return Ok(c);
  }

  /** The counting loop over all documents, when every document can be drawn for. */
  method DrawAll(ws: seq<seq<nat>>, V: nat, K: nat, draw: (nat, nat) -> nat) returns (c: Counts)
    requires InVocabulary(ws, V)
    requires K > 0 ==> forall a, b :: draw(a, b) < K
    requires forall x :: 0 <= x < |ws| ==> K > 0 || |ws[x]| == 0
    ensures Consistent(c, ws, V, K)
    ensures DrawnBy(c.z, ws, |ws|, draw)
  {
    c := Counts([], seq(V, _ => seq(K, _ => 0)), [], seq(K, _ => 0), []);
    NothingCounted(ws, V, K);
    for x := 0 to |ws|
      invariant Consistent(c, ws[..x], V, K) && |c.z| == x
      invariant DrawnBy(c.z, ws, x, draw)
    {
      assert K == 0 ==> |ws[x]| == 0;
      c := DrawDocument(c, ws, V, K, x, draw);
    }
    assert ws[..|ws|] == ws;
  }

  /** `__call__`'s training loop: `iterTimes` sweeps over every word of every
      document, each resampling the word's topic; `draw(it, i, j)` is the topic the
      multinomial draw yields. The counts stay consistent throughout, and the final
      assignment is that of the last sweep. */
  method Train(c0: Counts, ws: seq<seq<nat>>, V: nat, K: nat, iterTimes: nat,
               draw: (nat, nat, nat) -> nat) returns (c: Counts)
    requires Consistent(c0, ws, V, K) && InVocabulary(ws, V)
    requires K > 0 ==> forall it, i, j :: draw(it, i, j) < K
    ensures Consistent(c, ws, V, K)
    ensures iterTimes == 0 ==> c == c0
    ensures iterTimes > 0 ==> forall i, j :: 0 <= i < |ws| && 0 <= j < |ws[i]| ==>
      c.z[i][j] == draw(iterTimes - 1, i, j)
  {
    c := c0;
    for it := 0 to iterTimes
      invariant Consistent(c, ws, V, K)
      invariant it == 0 ==> c == c0
      invariant it > 0 ==> forall i, j :: 0 <= i < |ws| && 0 <= j < |ws[i]| ==> c.z[i][j] == draw(it - 1, i, j)
    {
      c := Sweep(c, ws, V, K, it, draw);
    }
  }

  /** One sweep of the training loop. */
  method Sweep(c0: Counts, ws: seq<seq<nat>>, V: nat, K: nat, it: nat,
               draw: (nat, nat, nat) -> nat) returns (c: Counts)
    requires Consistent(c0, ws, V, K) && InVocabulary(ws, V)
    requires K > 0 ==> forall a, i, j :: draw(a, i, j) < K
    ensures Consistent(c, ws, V, K)
    ensures forall i, j :: 0 <= i < |ws| && 0 <= j < |ws[i]| ==> c.z[i][j] == draw(it, i, j)
  {
    c := c0;
    for i := 0 to |ws|
      invariant Consistent(c, ws, V, K)
      invariant forall a, b :: 0 <= a < i && 0 <= b < |ws[a]| ==> c.z[a][b] == draw(it, a, b)
    {
      var before := c;
      c := SweepDocument(c, ws, V, K, it, i, draw);
      assert forall a :: 0 <= a < i ==> c.z[a] == before.z[a];
    }
  }

  /** The words of document `i` in one sweep. */
  method SweepDocument(c0: Counts, ws: seq<seq<nat>>, V: nat, K: nat, it: nat, i: nat,
                       draw: (nat, nat, nat) -> nat) returns (c: Counts)
    requires Consistent(c0, ws, V, K) && InVocabulary(ws, V) && i < |ws|
    requires K > 0 ==> forall a, x, y :: draw(a, x, y) < K
    ensures Consistent(c, ws, V, K)
    ensures forall a :: 0 <= a < |ws| && a != i ==> c.z[a] == c0.z[a]
    ensures forall b :: 0 <= b < |ws[i]| ==> c.z[i][b] == draw(it, i, b)
  {
    c := c0;
    for j := 0 to |ws[i]|
      invariant Consistent(c, ws, V, K)
      invariant Swept(c.z, c0.z, i, j, it, draw)
    {
      assert c.z[i][j] < K;
      SweptStep(c.z, c0.z, i, j, it, draw);
      c := Sample(c, ws, V, K, i, j, draw(it, i, j));
    }
  }

  /** Document `i` has had its first `j` words resampled by iteration `it`, and the
      other documents are as they were. */
  ghost predicate Swept(z: seq<seq<nat>>, z0: seq<seq<nat>>, i: nat, j: nat, it: nat, draw: (nat, nat, nat) -> nat) {
    && |z| == |z0| && i < |z| && j <= |z[i]|
    && (forall a :: 0 <= a < |z| && a != i ==> z[a] == z0[a])
    && forall b :: 0 <= b < j ==> z[i][b] == draw(it, i, b)
  }

  /** Resampling word `j` extends the swept prefix by one. */
  lemma SweptStep(z: seq<seq<nat>>, z0: seq<seq<nat>>, i: nat, j: nat, it: nat, draw: (nat, nat, nat) -> nat)
    requires Swept(z, z0, i, j, it, draw) && j < |z[i]|
    ensures Swept(Reassign(z, i, j, draw(it, i, j)), z0, i, j + 1, it, draw)
  {
    var r := Reassign(z, i, j, draw(it, i, j));
    forall a | 0 <= a < |z| && a != i ensures r[a] == z0[a] {
      assert forall b :: 0 <= b < |z[a]| ==> r[a][b] == z[a][b];
    }
  }

  /** `min(top_words_num, words_count)`: how many words are listed per topic, never
      more than the vocabulary holds. */
  function TopWordsNum(top: nat, wordsCount: nat): (r: nat)
    ensures r <= wordsCount && r <= top
    ensures r == top || r == wordsCount
  {
    if top <= wordsCount then top else wordsCount
  }
}

=== FILE: linker.dfy ===
/** The final pass over the consolidated source directory (`postprocess_final`).

    The pass indexes `users.csv` (user id to the spreadsheet row of its record,
    profile-url field to user id), then walks the keyword directories: every
    tweets file has its author and id columns turned into spreadsheet hyperlinks
    (to the author's row of `users.csv` and to the tweet's comments file), and
    every comments file has its tweet and author columns turned into hyperlinks
    (to the tweet's row of the keyword's `tweets.csv` and to the author's row of
    `users.csv`). Records whose author is not indexed are dropped.

    Spreadsheet rows are 1-based and the header occupies row 1, so the record at
    0-based position `i` of a file (header included) is on row `i + 1`.
 */
module Linker {
  import opened Wrappers
  import opened Text
  import opened Table
  import opened Consolidate

  // ---------------------------------------------------------------------------
  // Hyperlink cells
  // ---------------------------------------------------------------------------

  const Open: String := "=HYPERLINK(\""
  const Mid: String := "\",\""
  const Close: String := "\")"

  /** The formula `=HYPERLINK("target","caption")`. */
  function Hyperlink(target: String, caption: String): String {
    Open + target + Mid + caption + Close
  }

  /** The caption a hyperlink cell shows: the text after its last `","`, up to the first `")`. */
  function LabelOf(cell: String): String {
    FirstField(LastField(cell, Mid), Close)
  }

  /** Column A of the users sheet, addressed from a keyword directory and from a
      comments directory. */
  const UsersFromKeyword: String := "../users.csv#users!A"
  const UsersFromComments: String := "../../users.csv#users!A"

  /** Column A of row `n` of the users sheet, addressed through `column`. */
  function UserLink(column: String, n: nat, id: String): String {
    Hyperlink(column + NatToString(n), id)
  }

  /** Column C of row `n` of the keyword's tweets sheet, addressed from its comments directory. */
  function TweetLink(n: nat, id: String): String {
    Hyperlink("../tweets.csv#tweets!C" + NatToString(n), id)
  }

  /** The comments file of tweet `id`, addressed from the keyword directory. */
  function CommentsLink(id: String): String {
    Hyperlink("./comments/" + id + ".csv", id)
  }

  /** Reading the caption back out of a hyperlink recovers it, for every target
      without a comma and every caption without a double quote. */
  lemma LabelOfHyperlink(target: String, caption: String)
    requires ',' !in target && '"' !in caption
    ensures LabelOf(Hyperlink(target, caption)) == caption
  {
    HyperlinkTail(target, caption);
    CaptionBeforeClose(caption);
  }

  /** The text after a hyperlink's last `","` is its caption and the closing `")`. */
  lemma HyperlinkTail(target: String, caption: String)
    requires ',' !in target && '"' !in caption
    ensures LastField(Hyperlink(target, caption), Mid) == caption + Close
  {
    var a := Open + target;
    var t := caption + Close;
    assert Hyperlink(target, caption) == a + Mid + t;
    assert ',' !in Open;
    FirstAfterSecond(a, Mid, t);
    SplitAt(a, Mid, t);
    NoMidBeforeClose(caption);
    assert Split(t, Mid) == [t];
  }

  /** A caption without a double quote, closed, holds no `","`. */
  lemma NoMidBeforeClose(caption: String)
    requires '"' !in caption
    ensures !Occurs(caption + Close, Mid)
  {
    var t := caption + Close;
    forall i | 0 <= i && i + |Mid| <= |t|
      ensures !OccursAt(t, Mid, i)
    {
      assert t[i] == caption[i];
      assert t[i..i + |Mid|][0] == t[i];
    }
  }

  /** A caption without a double quote is all the text before the first `")`. */
  lemma CaptionBeforeClose(caption: String)
    requires '"' !in caption
    ensures FirstField(caption + Close, Close) == caption
  {
    FirstAfterHead(caption, Close, "");
    assert caption + Close + "" == caption + Close;
    SplitAt(caption, Close, "");
  }

  /** The numeral of a row number has no comma, so every link target built here qualifies. */
  lemma NumeralNoComma(n: nat)
    ensures ',' !in NatToString(n)
  {
    var s := NatToString(n);
    assert IsNumeral(s);
    forall i | 0 <= i < |s|
      ensures s[i] != ','
    {
      assert IsDigit(s[i]);
    }
  }

  // ---------------------------------------------------------------------------
  // The users index
  // ---------------------------------------------------------------------------

  /** `users_dict` (user id to the spreadsheet row of its record) and
      `urls_2_ids` (profile-url field to user id). */
  datatype UserIndex = UserIndex(rowOf: map<String, nat>, idOf: map<String, String>)

  /** The record at 0-based position `i` of `rows` is the last one with its user id. */
  predicate LastWithId(rows: seq<Row>, n: nat, i: nat)
    requires n <= |rows| && i < n && |rows[i]| > 0
  {
    forall j :: i < j < n ==> |rows[j]| == 0 || rows[j][0] != rows[i][0]
  }

  /** The record at 0-based position `i` of `rows` is the last one with its url field. */
  predicate LastWithUrl(rows: seq<Row>, n: nat, i: nat)
    requires n <= |rows| && i < n && |rows[i]| > 15
  {
    forall j :: i < j < n ==> |rows[j]| <= 15 || rows[j][15] != rows[i][15]
  }

  /** Every data record among the first `n` has the sixteen user columns. */
  predicate FullUsers(rows: seq<Row>, n: nat)
    requires n <= |rows|
  {
    forall i :: 1 <= i < n ==> |rows[i]| >= 16
  }

  /** The index built from the first `n` rows of `users.csv`, the header skipped;
      later records overwrite earlier ones with the same key. Every row number it
      stores is the row of a record with that user id, and every url it knows
      leads to an indexed user. */
  function IndexRows(rows: seq<Row>, n: nat): (r: Result<UserIndex>)
    requires n <= |rows|
    ensures r.Ok? <==> FullUsers(rows, n)
    ensures r.Ok? ==> forall k :: k in r.value.rowOf ==>
      2 <= r.value.rowOf[k] <= n && rows[r.value.rowOf[k] - 1][0] == k
    ensures r.Ok? ==> forall u :: u in r.value.idOf ==> r.value.idOf[u] in r.value.rowOf
    decreases n
  {
    if n <= 1 then Ok(UserIndex(map[], map[]))
    else
      var idx :- IndexRows(rows, n - 1);
      var row := rows[n - 1];
      if |row| < 16 then Err(IndexError)
      else Ok(UserIndex(idx.rowOf[row[0] := n], idx.idOf[row[15] := row[0]]))
  }

  /** Every user record is indexed under its id, at the row of the last record
      with that id. */
  lemma {:induction false} IndexRowsLastId(rows: seq<Row>, n: nat, i: nat)
    requires n <= |rows| && 1 <= i < n && IndexRows(rows, n).Ok?
    ensures rows[i][0] in IndexRows(rows, n).value.rowOf
    ensures LastWithId(rows, n, i) ==> IndexRows(rows, n).value.rowOf[rows[i][0]] == i + 1
    decreases n
  {
    IndexRowsStep(rows, n);
    if i < n - 1 {
      IndexRowsLastId(rows, n - 1, i);
    }
  }

  /** Every profile url is indexed, naming the user of the last record with that url. */
  lemma {:induction false} IndexRowsLastUrl(rows: seq<Row>, n: nat, i: nat)
    requires n <= |rows| && 1 <= i < n && IndexRows(rows, n).Ok?
    ensures rows[i][15] in IndexRows(rows, n).value.idOf
    ensures LastWithUrl(rows, n, i) ==> IndexRows(rows, n).value.idOf[rows[i][15]] == rows[i][0]
    decreases n
  {
    IndexRowsStep(rows, n);
    var url := rows[i][15];
    var after := IndexRows(rows, n).value.idOf;
    if i < n - 1 {
      IndexRowsLastUrl(rows, n - 1, i);
      var before := IndexRows(rows, n - 1).value.idOf;
      UrlStep(before, after, rows[n - 1][15], rows[n - 1][0], url);
      if LastWithUrl(rows, n, i) {
        LastWithUrlShrinks(rows, n, i);
      }
    } else {
      assert after == IndexRows(rows, n - 1).value.idOf[url := rows[i][0]];
    }
  }

  lemma LastWithUrlShrinks(rows: seq<Row>, n: nat, i: nat)
    requires n <= |rows| && i < n - 1 && |rows[i]| > 15 && |rows[n - 1]| > 15 && LastWithUrl(rows, n, i)
    ensures LastWithUrl(rows, n - 1, i) && rows[n - 1][15] != rows[i][15]
  {
  }

  /** Setting one url's user leaves every other url's user alone. */
  lemma UrlStep(before: map<String, String>, after: map<String, String>, key: String, id: String, url: String)
    requires after == before[key := id] && url in before
    ensures url in after
    ensures url != key ==> after[url] == before[url]
  {
  }

  /** One record more sets its id's row and its url's user, and nothing else. */
  lemma IndexRowsStep(rows: seq<Row>, n: nat)
    requires 1 < n <= |rows| && IndexRows(rows, n).Ok?
    ensures IndexRows(rows, n - 1).Ok? && |rows[n - 1]| >= 16
    ensures var before, after := IndexRows(rows, n - 1).value, IndexRows(rows, n).value;
      && after.rowOf == before.rowOf[rows[n - 1][0] := n]
      && after.idOf == before.idOf[rows[n - 1][15] := rows[n - 1][0]]
  {
  }

  /** The row stored for an indexed user is a full record of that user. */
  lemma IndexedRow(users: seq<Row>, idx: UserIndex, id: String)
    requires IndexRows(users, |users|) == Ok(idx) && id in idx.rowOf
    ensures 2 <= idx.rowOf[id] <= |users| && |users[idx.rowOf[id] - 1]| >= 16
    ensures users[idx.rowOf[id] - 1][0] == id
  {
    var r := IndexRows(users, |users|);
    var n := r.value.rowOf[id];
    assert 2 <= n <= |users| && users[n - 1][0] == id;
    assert FullUsers(users, |users|);
  }

  /** The index of a `users.csv`; opening a missing file raises. */
  function IndexUsers(users: CsvFile): (r: Result<UserIndex>)
    ensures users.Missing? ==> r == Err(FileNotFound)
    ensures users.Present? ==> (r.Ok? <==> FullUsers(users.rows, |users.rows|))
  {
    match users
    case Missing => Err(FileNotFound)
    case Present(rows) => IndexRows(rows, |rows|)
  }

  // ---------------------------------------------------------------------------
  // Tweets files
  // ---------------------------------------------------------------------------

  /** The author of a tweet record, when its profile-url field is indexed. */
  function Author(row: Row, idx: UserIndex): Option<String>
    requires |row| >= 2
  {
    if row[1] in idx.idOf && idx.idOf[row[1]] in idx.rowOf then Some(idx.idOf[row[1]]) else None
  }

  /** One data record of a tweets file: `None` when its author is not indexed
      (the `KeyError` the pass catches); a record without an id column raises. */
  function LinkTweet(row: Row, idx: UserIndex): (r: Result<Option<Row>>)
    ensures r.Ok? <==> |row| >= 3
    ensures r.Ok? ==> (r.value.Some? <==> Author(row, idx).Some?)
    ensures r.Ok? && r.value.Some? ==>
      var out := r.value.value;
      |out| == |row| && out[2] == CommentsLink(row[2]) &&
      forall k :: 0 <= k < |row| && k != 1 && k != 2 ==> out[k] == row[k]
  {
    if |row| < 3 then Err(IndexError)
    else
      match Author(row, idx)
      case None => Ok(None)
      case Some(id) =>
        Ok(Some(row[1 := UserLink(UsersFromKeyword, idx.rowOf[id], id)][2 := CommentsLink(row[2])]))
  }

  /** The kept records of a tweets file and `tweets_dict`, which maps each kept
      tweet id to the number of records kept up to and including it. */
  datatype LinkedTweets = LinkedTweets(kept: seq<Row>, count: map<String, nat>)

  /** Every kept record has an id column, and `count` sends every tweet id it knows
      to a kept record whose id column links that tweet's comments. */
  predicate CountsKept(lt: LinkedTweets) {
    && (forall j :: 0 <= j < |lt.kept| ==> |lt.kept[j]| >= 3)
    && forall t :: t in lt.count ==>
         1 <= lt.count[t] <= |lt.kept| && lt.kept[lt.count[t] - 1][2] == CommentsLink(t)
  }

  /** The pass over data records 1 .. n-1 of a tweets file. It fails exactly when
      some record lacks an id column, keeps at most one record per data record, and
      its `count` points at the kept records linking each tweet. */
  function LinkTweetRows(rows: seq<Row>, idx: UserIndex, n: nat): (r: Result<LinkedTweets>)
    requires n <= |rows|
    ensures r.Ok? <==> forall i :: 1 <= i < n ==> |rows[i]| >= 3
    ensures r.Ok? ==> |r.value.kept| <= if n == 0 then 0 else n - 1
    ensures r.Ok? ==> CountsKept(r.value)
    ensures r.Ok? ==> r.value.kept == Picks(Records(rows, n), TweetLinking(idx))
    decreases n
  {
    if n <= 1 then Ok(LinkedTweets([], map[]))
    else
      var acc :- LinkTweetRows(rows, idx, n - 1);
      var row := rows[n - 1];
      var out :- LinkTweet(row, idx);
      LinkTweetRowsNext(rows, idx, n, acc, out);
      Ok(Keep(acc, row, out))
  }

  /** `tweets_dict` and the kept records after one more record: its linked form,
      when there is one, is kept and counted under the record's tweet id. */
  function Keep(acc: LinkedTweets, row: Row, out: Option<Row>): LinkedTweets
    requires |row| >= 3
  {
    match out
    case None => acc
    case Some(linked) => LinkedTweets(acc.kept + [linked], acc.count[row[2] := |acc.kept| + 1])
  }

  /** One record more keeps every property of the pass. */
  lemma LinkTweetRowsNext(rows: seq<Row>, idx: UserIndex, n: nat, acc: LinkedTweets, out: Option<Row>)
    requires 1 < n <= |rows|
    requires CountsKept(acc) && |acc.kept| <= n - 2
    requires acc.kept == Picks(Records(rows, n - 1), TweetLinking(idx))
    requires LinkTweet(rows[n - 1], idx) == Ok(out)
    ensures var r := Keep(acc, rows[n - 1], out);
      CountsKept(r) && |r.kept| <= n - 1 && r.kept == Picks(Records(rows, n), TweetLinking(idx))
  {
    LinkTweetRowsPicks(rows, idx, n, acc.kept, out);
    if out.Some? {
      KeptSnoc(acc, out.value, rows[n - 1][2]);
    }
  }

  /** The linked form of a tweet record, `None` when it is dropped or malformed. */
  function LinkedTweet(row: Row, idx: UserIndex): Option<Row> {
    match LinkTweet(row, idx)
    case Ok(out) => out
    case Err(_) => None
  }

  /** `LinkedTweet` as a function of the record alone. */
  function TweetLinking(idx: UserIndex): Row -> Option<Row> {
    row => LinkedTweet(row, idx)
  }

  /** One record more: the kept records after records 1 .. n-2, extended by what the
      pass does with record n-1, are the kept records after records 1 .. n-1. */
  lemma LinkTweetRowsPicks(rows: seq<Row>, idx: UserIndex, n: nat, kept: seq<Row>, out: Option<Row>)
    requires 1 < n <= |rows|
    requires kept == Picks(Records(rows, n - 1), TweetLinking(idx))
    requires LinkTweet(rows[n - 1], idx) == Ok(out)
    ensures (if out.Some? then kept + [out.value] else kept) == Picks(Records(rows, n), TweetLinking(idx))
  {
    assert TweetLinking(idx)(rows[n - 1]) == out;
    RecordsSnoc(rows, n, TweetLinking(idx));
  }

  /** Keeping one more linked record, and counting its tweet, keeps `count` pointing
      at records that link each tweet's comments. */
  lemma KeptSnoc(acc: LinkedTweets, linked: Row, id: String)
    requires CountsKept(acc)
    requires |linked| >= 3 && linked[2] == CommentsLink(id)
    ensures CountsKept(LinkedTweets(acc.kept + [linked], acc.count[id := |acc.kept| + 1]))
  {
  }

  /** Every tweet whose author is indexed is kept and known to `count`. */
  lemma {:induction false} LinkTweetRowsKeeps(rows: seq<Row>, idx: UserIndex, n: nat, i: nat)
    requires n <= |rows| && 1 <= i < n && LinkTweetRows(rows, idx, n).Ok?
    requires Author(rows[i], idx).Some?
    ensures rows[i][2] in LinkTweetRows(rows, idx, n).value.count
    decreases n
  {
    LinkTweetRowsStep(rows, idx, n);
    if i < n - 1 {
      LinkTweetRowsKeeps(rows, idx, n - 1, i);
      assert rows[i][2] in LinkTweetRows(rows, idx, n - 1).value.count;
    }
  }

  /** One record more keeps every tweet counted so far and counts the record's
      tweet when its author is indexed. */
  lemma LinkTweetRowsStep(rows: seq<Row>, idx: UserIndex, n: nat)
    requires 1 < n <= |rows| && LinkTweetRows(rows, idx, n).Ok?
    ensures LinkTweetRows(rows, idx, n - 1).Ok?
    ensures LinkTweetRows(rows, idx, n - 1).value.count.Keys <= LinkTweetRows(rows, idx, n).value.count.Keys
    ensures Author(rows[n - 1], idx).Some? ==> rows[n - 1][2] in LinkTweetRows(rows, idx, n).value.count
    ensures var before, after := LinkTweetRows(rows, idx, n - 1).value, LinkTweetRows(rows, idx, n).value;
      after.kept == before.kept + (if Author(rows[n - 1], idx).Some? then [LinkTweet(rows[n - 1], idx).value.value] else [])
  {
  }

  /** Every kept record is the linked form of a data record. */
  lemma LinkTweetRowsOrigin(rows: seq<Row>, idx: UserIndex, n: nat, j: nat)
    requires n <= |rows| && LinkTweetRows(rows, idx, n).Ok? && j < |LinkTweetRows(rows, idx, n).value.kept|
    ensures exists i :: 1 <= i < n && LinkTweet(rows[i], idx) == Ok(Some(LinkTweetRows(rows, idx, n).value.kept[j]))
  {
    var kept := LinkTweetRows(rows, idx, n).value.kept;
    assert kept[j] in kept;
    LinkedRecord(rows, idx, n, kept[j]);
  }

  /** A record picked from data records 1 .. n-1 is the linked form of one of them. */
  lemma LinkedRecord(rows: seq<Row>, idx: UserIndex, n: nat, y: Row)
    requires n <= |rows| && y in Picks(Records(rows, n), TweetLinking(idx))
    ensures exists i :: 1 <= i < n && LinkTweet(rows[i], idx) == Ok(Some(y))
  {
    var recs := Records(rows, n);
    PicksMember(recs, TweetLinking(idx), y);
    var h :| 0 <= h < |recs| && TweetLinking(idx)(recs[h]) == Some(y);
    assert recs[h] == rows[h + 1];
    assert LinkTweet(rows[h + 1], idx) == Ok(Some(y));
  }

  /** A tweets file rewritten: its header, then the linked form of every record
      whose author is indexed, in file order; a file with no header hands `None` to
      the csv writer, which raises, and a record without an id column raises. */
  function LinkTweetsFile(rows: seq<Row>, idx: UserIndex): (r: Result<(seq<Row>, map<String, nat>)>)
    ensures |rows| == 0 ==> r == Err(CsvError)
    ensures r.Ok? <==> |rows| > 0 && forall i :: 1 <= i < |rows| ==> |rows[i]| >= 3
    ensures r.Ok? ==> r.value.0 == [rows[0]] + Picks(rows[1..], TweetLinking(idx))
    ensures r.Ok? ==> forall t :: t in r.value.1 ==>
      1 <= r.value.1[t] < |r.value.0| && |r.value.0[r.value.1[t]]| >= 3 &&
      r.value.0[r.value.1[t]][2] == CommentsLink(t)
  {
    var linked :- LinkTweetRows(rows, idx, |rows|);
    if |rows| == 0 then Err(CsvError)
    else
      assert Records(rows, |rows|) == rows[1..];
      Ok(([rows[0]] + linked.kept, linked.count))
  }

  // ---------------------------------------------------------------------------
  // Comments files
  // ---------------------------------------------------------------------------

  /** One data record of a comments file, as the pass is evidently meant to work:
      `count` holds the number of tweets kept up to each tweet, so the tweet is on
      row `count + 1` of its sheet. */
  function LinkComment(row: Row, idx: UserIndex, count: map<String, nat>): (r: Result<Option<Row>>)
    ensures r.Ok? <==> |row| >= 2
    ensures r.Ok? ==> (r.value.Some? <==> Author(row, idx).Some? && row[0] in count)
    ensures r.Ok? && r.value.Some? ==>
      var out := r.value.value;
      |out| == |row| && forall k :: 2 <= k < |row| ==> out[k] == row[k]
  {
    if |row| < 2 then Err(IndexError)
    else
      match Author(row, idx)
      case None => Ok(None)
      case Some(id) =>
        if row[0] !in count then Ok(None)
        else
          Ok(Some(row[0 := TweetLink(count[row[0]] + 1, row[0])][1 := UserLink(UsersFromComments, idx.rowOf[id], id)]))
  }

  /** One data record of a comments file as the pass is written: the tweet lookup
      subscripts the stored count, an int, so every record that would be linked
      raises `TypeError`; only the misses, which the pass drops, get through. */
  function LinkCommentAsWritten(row: Row, idx: UserIndex, count: map<String, nat>): (r: Result<Option<Row>>)
    ensures r.Ok? ==> r.value.None?
  {
    if |row| < 2 then Err(IndexError)
    else
      match Author(row, idx)
      case None => Ok(None)
      case Some(id) =>
        if row[0] !in count then Ok(None)
        else Err(TypeError)
  }

  /** The two readings agree except where the corrected one keeps a record: there
      the written one aborts. */
  lemma AsWrittenAborts(row: Row, idx: UserIndex, count: map<String, nat>)
    ensures LinkComment(row, idx, count).Ok? && LinkComment(row, idx, count).value.Some?
      <==> LinkCommentAsWritten(row, idx, count) == Err(TypeError)
    ensures LinkCommentAsWritten(row, idx, count) != Err(TypeError) ==>
      LinkCommentAsWritten(row, idx, count) == LinkComment(row, idx, count)
  {
  }

  /** The data records among the first `n` rows of a file: rows 1 .. n-1. */
  function Records(rows: seq<Row>, n: nat): (r: seq<Row>)
    requires n <= |rows|
    ensures |r| == if n == 0 then 0 else n - 1
    ensures forall i :: 1 <= i < n ==> r[i - 1] == rows[i]
  {
    if n <= 1 then [] else rows[1..n]
  }

  /** Picking from the first `n` records picks from the first `n - 1`, then from row `n - 1`. */
  lemma RecordsSnoc<U>(rows: seq<Row>, n: nat, pick: Row -> Option<U>)
    requires 1 < n <= |rows|
    ensures Picks(Records(rows, n), pick) == Picks(Records(rows, n - 1), pick) + Chosen(pick(rows[n - 1]))
  {
    assert Records(rows, n)[..n - 2] == Records(rows, n - 1);
  }

  /** The linked form of a comment record, when the pass keeps it. */
  function LinkedComment(row: Row, idx: UserIndex, count: map<String, nat>): Option<Row> {
    match LinkComment(row, idx, count)
    case Ok(out) => out
    case Err(_) => None
  }

  /** `LinkedComment` as a function of the record alone. */
  function Linking(idx: UserIndex, count: map<String, nat>): Row -> Option<Row> {
    row => LinkedComment(row, idx, count)
  }

  /** Every data record among the first `n` rows has an author column. */
  predicate Authored(rows: seq<Row>, n: nat)
    requires n <= |rows|
  {
    forall i :: 1 <= i < n ==> |rows[i]| >= 2
  }

  /** Every row of `out` is the linked form of one of data records 1 .. n-1. */
  predicate LinkedFrom(out: seq<Row>, rows: seq<Row>, idx: UserIndex, count: map<String, nat>, n: nat)
    requires n <= |rows|
  {
    forall j :: 0 <= j < |out| ==> exists i :: 1 <= i < n && LinkComment(rows[i], idx, count) == Ok(Some(out[j]))
  }

  /** The pass over data records 1 .. n-1 of a comments file, corrected: it fails
      exactly when some record lacks an author column, and otherwise keeps the
      linked form of every record whose author and tweet are known, in file order. */
  function LinkCommentRows(rows: seq<Row>, idx: UserIndex, count: map<String, nat>, n: nat): (r: Result<seq<Row>>)
    requires n <= |rows|
    ensures r.Ok? <==> Authored(rows, n)
    ensures r.Ok? ==> r.value == Picks(Records(rows, n), Linking(idx, count))
    ensures r.Ok? ==> LinkedFrom(r.value, rows, idx, count, n)
    ensures r.Ok? ==> |r.value| + Dropped(rows, idx, count, n) == if n == 0 then 0 else n - 1
    decreases n
  {
    if n <= 1 then Ok([])
    else
      var acc :- LinkCommentRows(rows, idx, count, n - 1);
      var out :- LinkComment(rows[n - 1], idx, count);
      LinkCommentRowsStep(rows, idx, count, n, acc, out);
      match out
      case None => Ok(acc)
      case Some(linked) => Ok(acc + [linked])
  }

  /** One record more: what the pass keeps after records 1 .. n-2, extended by
      what it does with record n-1, is what it keeps after records 1 .. n-1. */
  lemma LinkCommentRowsStep(rows: seq<Row>, idx: UserIndex, count: map<String, nat>, n: nat,
                            acc: seq<Row>, out: Option<Row>)
    requires 1 < n <= |rows|
    requires acc == Picks(Records(rows, n - 1), Linking(idx, count))
    requires LinkedFrom(acc, rows, idx, count, n - 1)
    requires |acc| + Dropped(rows, idx, count, n - 1) == n - 2
    requires LinkComment(rows[n - 1], idx, count) == Ok(out)
    requires Authored(rows, n - 1)
    ensures Authored(rows, n)
    ensures (if out.Some? then acc + [out.value] else acc) == Picks(Records(rows, n), Linking(idx, count))
    ensures LinkedFrom(if out.Some? then acc + [out.value] else acc, rows, idx, count, n)
    ensures |if out.Some? then acc + [out.value] else acc| + Dropped(rows, idx, count, n) == n - 1
  {
    assert Linking(idx, count)(rows[n - 1]) == out;
    RecordsSnoc(rows, n, Linking(idx, count));
    LinkedFromSnoc(rows, idx, count, n, acc, out);
  }

  /** Every kept record stays the linked form of some record as one more is read. */
  lemma LinkedFromSnoc(rows: seq<Row>, idx: UserIndex, count: map<String, nat>, n: nat,
                       acc: seq<Row>, out: Option<Row>)
    requires 1 < n <= |rows|
    requires LinkedFrom(acc, rows, idx, count, n - 1)
    requires LinkComment(rows[n - 1], idx, count) == Ok(out)
    ensures LinkedFrom(if out.Some? then acc + [out.value] else acc, rows, idx, count, n)
  {
    var r := if out.Some? then acc + [out.value] else acc;
    forall j | 0 <= j < |r|
      ensures exists i :: 1 <= i < n && LinkComment(rows[i], idx, count) == Ok(Some(r[j]))
    {
      if j < |acc| {
        var i :| 1 <= i < n - 1 && LinkComment(rows[i], idx, count) == Ok(Some(acc[j]));
        assert r[j] == acc[j];
      } else {
        assert LinkComment(rows[n - 1], idx, count) == Ok(Some(r[j]));
      }
    }
  }

  /** How many of data records 1 .. n-1 the comments pass drops. */
  function Dropped(rows: seq<Row>, idx: UserIndex, count: map<String, nat>, n: nat): nat
    requires n <= |rows|
  {
    if n <= 1 then 0
    else
      var row := rows[n - 1];
      Dropped(rows, idx, count, n - 1)
        + (if |row| >= 2 && Author(row, idx).Some? && row[0] in count then 0 else 1)
  }

  /** The same pass as written. */
  function LinkCommentRowsAsWritten(rows: seq<Row>, idx: UserIndex, count: map<String, nat>, n: nat): (r: Result<seq<Row>>)
    requires n <= |rows|
    decreases n
  {
    if n <= 1 then Ok([])
    else
      var acc :- LinkCommentRowsAsWritten(rows, idx, count, n - 1);
      var out :- LinkCommentAsWritten(rows[n - 1], idx, count);
      match out
      case None => Ok(acc)
      case Some(linked) => Ok(acc + [linked])
  }

  /** As written, a comments file never keeps a record: the pass either aborts
      with `TypeError` at the first record it could link, or drops every record. */
  lemma {:induction false} AsWrittenLosesComments(rows: seq<Row>, idx: UserIndex, count: map<String, nat>, n: nat)
    requires n <= |rows|
    ensures LinkCommentRowsAsWritten(rows, idx, count, n).Ok? ==> LinkCommentRowsAsWritten(rows, idx, count, n).value == []
    ensures LinkCommentRows(rows, idx, count, n).Ok? ==>
      LinkCommentRowsAsWritten(rows, idx, count, n).Ok? || LinkCommentRowsAsWritten(rows, idx, count, n) == Err(TypeError)
    ensures LinkCommentRows(rows, idx, count, n).Ok? && |LinkCommentRows(rows, idx, count, n).value| > 0
      ==> LinkCommentRowsAsWritten(rows, idx, count, n) == Err(TypeError)
    decreases n
  {
    if n > 1 {
      AsWrittenLosesComments(rows, idx, count, n - 1);
      AsWrittenAborts(rows[n - 1], idx, count);
    }
  }

  /** A comments file rewritten: its header, then the kept records. */
  function LinkCommentsFile(rows: seq<Row>, idx: UserIndex, count: map<String, nat>): (r: Result<seq<Row>>)
    ensures |rows| == 0 ==> r == Err(CsvError)
    ensures r.Ok? <==> |rows| > 0 && forall i :: 1 <= i < |rows| ==> |rows[i]| >= 2
    ensures r.Ok? ==> r.value == [rows[0]] + Picks(rows[1..], Linking(idx, count))
  {
    var kept :- LinkCommentRows(rows, idx, count, |rows|);
    if |rows| == 0 then Err(CsvError)
    else
      assert Records(rows, |rows|) == rows[1..];
      Ok([rows[0]] + kept)
  }

  /** The captions of the three kinds of link read back as the ids they show. */
  lemma UserLinkCaption(column: String, n: nat, id: String)
    requires ',' !in column && '"' !in id
    ensures LabelOf(UserLink(column, n, id)) == id
  {
    var target := column + NatToString(n);
    NumeralNoComma(n);
    assert ',' !in target;
    LabelOfHyperlink(target, id);
  }

  lemma TweetLinkCaption(n: nat, id: String)
    requires '"' !in id
    ensures LabelOf(TweetLink(n, id)) == id
  {
    var target := "../tweets.csv#tweets!C" + NatToString(n);
    NumeralNoComma(n);
    assert ',' !in target;
    LabelOfHyperlink(target, id);
  }

  lemma CommentsLinkCaption(id: String)
    requires ',' !in id && '"' !in id
    ensures LabelOf(CommentsLink(id)) == id
  {
    var target := "./comments/" + id + ".csv";
    assert ',' !in target;
    LabelOfHyperlink(target, id);
  }

  /** The cells a kept tweet record gets. */
  lemma LinkedTweetCells(row: Row, idx: UserIndex, out: Row)
    requires LinkTweet(row, idx) == Ok(Some(out))
    ensures Author(row, idx).Some?
    ensures out[1] == UserLink(UsersFromKeyword, idx.rowOf[Author(row, idx).value], Author(row, idx).value)
    ensures out[2] == CommentsLink(row[2])
  {
  }

  /** The cells a kept comment record gets. */
  lemma LinkedCommentCells(row: Row, idx: UserIndex, count: map<String, nat>, out: Row)
    requires LinkComment(row, idx, count) == Ok(Some(out))
    ensures Author(row, idx).Some? && row[0] in count
    ensures out[0] == TweetLink(count[row[0]] + 1, row[0])
    ensures out[1] == UserLink(UsersFromComments, idx.rowOf[Author(row, idx).value], Author(row, idx).value)
  {
  }

  /** The author link of a kept tweet or comment shows the author's id, and its
      comments link shows the tweet id. */
  lemma LinkedTweetCaptions(row: Row, idx: UserIndex, out: Row)
    requires LinkTweet(row, idx) == Ok(Some(out))
    requires '"' !in Author(row, idx).value
    ensures LabelOf(out[1]) == Author(row, idx).value
    ensures ',' !in row[2] && '"' !in row[2] ==> LabelOf(out[2]) == row[2]
  {
    LinkedTweetCells(row, idx, out);
    var id := Author(row, idx).value;
    UserLinkCaption(UsersFromKeyword, idx.rowOf[id], id);
    if ',' !in row[2] && '"' !in row[2] {
      CommentsLinkCaption(row[2]);
    }
  }

  lemma LinkedCommentCaptions(row: Row, idx: UserIndex, count: map<String, nat>, out: Row)
    requires LinkComment(row, idx, count) == Ok(Some(out))
    requires '"' !in Author(row, idx).value
    ensures LabelOf(out[1]) == Author(row, idx).value
    ensures '"' !in row[0] ==> LabelOf(out[0]) == row[0]
  {
    LinkedCommentCells(row, idx, count, out);
    var id := Author(row, idx).value;
    UserLinkCaption(UsersFromComments, idx.rowOf[id], id);
    if '"' !in row[0] {
      TweetLinkCaption(count[row[0]] + 1, row[0]);
    }
  }

  /** The corrected tweet link of a comment names the row of the tweets sheet
      whose id column shows the comment's tweet id, and shows that id itself. */
  lemma CommentTweetLink(tweets: seq<Row>, idx: UserIndex, sheet: seq<Row>, count: map<String, nat>, row: Row, out: Row)
    requires LinkTweetsFile(tweets, idx) == Ok((sheet, count))
    requires LinkComment(row, idx, count) == Ok(Some(out))
    requires ',' !in row[0] && '"' !in row[0]
    ensures row[0] in count && LabelOf(out[0]) == row[0]
    ensures 2 <= count[row[0]] + 1 <= |sheet| && |sheet[count[row[0]]]| >= 3
    ensures LabelOf(sheet[count[row[0]]][2]) == row[0]
  {
    CommentTweetCaption(row, idx, count, out);
    SheetRowOf(tweets, idx, sheet, count, row[0]);
  }

  /** A kept comment's tweet link shows the tweet id. */
  lemma CommentTweetCaption(row: Row, idx: UserIndex, count: map<String, nat>, out: Row)
    requires LinkComment(row, idx, count) == Ok(Some(out))
    requires '"' !in row[0]
    ensures row[0] in count && LabelOf(out[0]) == row[0]
  {
    LinkedCommentCells(row, idx, count, out);
    TweetLinkCaption(count[row[0]] + 1, row[0]);
  }

  /** A tweet the rewritten tweets file counts is on the sheet at that count, its id
      column showing the tweet id. */
  lemma SheetRowOf(tweets: seq<Row>, idx: UserIndex, sheet: seq<Row>, count: map<String, nat>, id: String)
    requires LinkTweetsFile(tweets, idx) == Ok((sheet, count)) && id in count
    requires ',' !in id && '"' !in id
    ensures 1 <= count[id] < |sheet| && |sheet[count[id]]| >= 3
    ensures LabelOf(sheet[count[id]][2]) == id
  {
    assert sheet[count[id]][2] == CommentsLink(id);
    CommentsLinkCaption(id);
  }

  /** The row number the author link of a kept tweet carries (`LinkedTweetCells`)
      is the row of the users sheet that holds the author's record. */
  lemma TweetAuthorLink(users: seq<Row>, idx: UserIndex, row: Row, out: Row)
    requires IndexRows(users, |users|) == Ok(idx)
    requires LinkTweet(row, idx) == Ok(Some(out))
    ensures Author(row, idx).Some? && Author(row, idx).value in idx.rowOf
    ensures var id := Author(row, idx).value;
      2 <= idx.rowOf[id] <= |users| && |users[idx.rowOf[id] - 1]| >= 16 && users[idx.rowOf[id] - 1][0] == id
  {
    assert Author(row, idx).Some? by {
      LinkedTweetCells(row, idx, out);
    }
    IndexedRow(users, idx, Author(row, idx).value);
  }

  /** The row number the author link of a kept comment carries (`LinkedCommentCells`)
      is the row of the users sheet that holds the author's record. */
  lemma CommentAuthorLink(users: seq<Row>, idx: UserIndex, count: map<String, nat>, row: Row, out: Row)
    requires IndexRows(users, |users|) == Ok(idx)
    requires LinkComment(row, idx, count) == Ok(Some(out))
    ensures Author(row, idx).Some? && Author(row, idx).value in idx.rowOf
    ensures var id := Author(row, idx).value;
      2 <= idx.rowOf[id] <= |users| && |users[idx.rowOf[id] - 1]| >= 16 && users[idx.rowOf[id] - 1][0] == id
  {
    assert Author(row, idx).Some? by {
      LinkedCommentCells(row, idx, count, out);
    }
    IndexedRow(users, idx, Author(row, idx).value);
  }

  /** A two-row user sheet: a header and user `1` whose profile-url field is `u`. */
  function ExampleUsers(): (r: seq<Row>)
    ensures |r| == 2 && |r[1]| == 16 && r[1][0] == "1" && r[1][15] == "u"
  {
    [["h", "h", "h", "h", "h", "h", "h", "h", "h", "h", "h", "h", "h", "h", "h", "h"],
     ["1", "", "", "", "", "", "", "", "", "", "", "", "", "", "", "u"]]
  }

  /** A two-record source on which the pass as written aborts: one user with
      profile url `u`, one tweet `7` by that user, one comment on it. */
  lemma AsWrittenAbortExample()
    ensures var users := ExampleUsers();
      var tweets := [["url", "user_id", "_id"], ["w", "u", "7"]];
      var comments := [["weibo_id", "comment_user_id"], ["7", "u"]];
      IndexRows(users, 2).Ok? &&
      var idx := IndexRows(users, 2).value;
      LinkTweetsFile(tweets, idx).Ok? &&
      var count := LinkTweetsFile(tweets, idx).value.1;
      LinkCommentRowsAsWritten(comments, idx, count, 2) == Err(TypeError) &&
      LinkCommentsFile(comments, idx, count).Ok? && |LinkCommentsFile(comments, idx, count).value| == 2
  {
    var users := ExampleUsers();
    var idx := IndexRows(users, 2).value;
    assert idx == UserIndex(map["1" := 2], map["u" := "1"]);
    var tweets := [["url", "user_id", "_id"], ["w", "u", "7"]];
    assert Author(tweets[1], idx) == Some("1");
    var count := LinkTweetsFile(tweets, idx).value.1;
    assert count == map["7" := 1];
    var comments := [["weibo_id", "comment_user_id"], ["7", "u"]];
    assert Author(comments[1], idx) == Some("1");
    assert LinkCommentAsWritten(comments[1], idx, count) == Err(TypeError);
  }

  // ---------------------------------------------------------------------------
  // The walk over the source directory
  // ---------------------------------------------------------------------------

  /** A keyword directory: its `tweets.csv`, if any, and its comments files in
      listing order. */
  datatype KeywordDir = KeywordDir(tweets: Option<seq<Row>>, comments: seq<(String, seq<Row>)>)

  /** Every comments file of a directory, linked against the same `tweets_dict`. */
  function LinkCommentFiles(files: seq<(String, seq<Row>)>, idx: UserIndex, count: map<String, nat>)
    : (r: Result<seq<(String, seq<Row>)>>)
    ensures r.Ok? <==> forall j :: 0 <= j < |files| ==> LinkCommentsFile(files[j].1, idx, count).Ok?
    ensures r.Ok? ==> |r.value| == |files| && forall j :: 0 <= j < |files| ==>
      r.value[j].0 == files[j].0 && LinkCommentsFile(files[j].1, idx, count) == Ok(r.value[j].1)
  {
    if |files| == 0 then Ok([])
    else
      var first :- LinkCommentsFile(files[0].1, idx, count);
      var rest :- LinkCommentFiles(files[1..], idx, count);
      Ok([(files[0].0, first)] + rest)
  }

  /** One keyword directory: the tweets file first (it replaces `tweets_dict`), then
      the comments files. A directory without a tweets file links its comments
      against whatever `tweets_dict` the walk last built. */
  function LinkDir(d: KeywordDir, idx: UserIndex, count: map<String, nat>): (r: Result<(KeywordDir, map<String, nat>)>)
    ensures r.Ok? ==> r.value.0.tweets.Some? == d.tweets.Some?
    ensures r.Ok? && d.tweets.Some? ==> LinkTweetsFile(d.tweets.value, idx) == Ok((r.value.0.tweets.value, r.value.1))
    ensures r.Ok? && d.tweets.None? ==> r.value.1 == count
    ensures r.Ok? ==> |r.value.0.comments| == |d.comments| && forall j :: 0 <= j < |d.comments| ==>
      r.value.0.comments[j].0 == d.comments[j].0 &&
      LinkCommentsFile(d.comments[j].1, idx, r.value.1) == Ok(r.value.0.comments[j].1)
  {
    var linked :-
      match d.tweets
      case None => Ok((None, count))
      case Some(rows) =>
        var built :- LinkTweetsFile(rows, idx);
        Ok((Some(built.0), built.1));
    var comments :- LinkCommentFiles(d.comments, idx, linked.1);
    Ok((KeywordDir(linked.0, comments), linked.1))
  }

  /** The `tweets_dict` in force when the walk reaches directory `k`: that of the
      nearest directory before it with a tweets file, or `count` when there is none. */
  function DictFor(dirs: seq<KeywordDir>, idx: UserIndex, count: map<String, nat>, k: nat): map<String, nat>
    requires k <= |dirs|
    decreases k
  {
    if k == 0 then count else DictAfter(dirs[k - 1], idx, DictFor(dirs, idx, count, k - 1))
  }

  /** The `tweets_dict` in force after directory `d` when `count` was in force before
      it: the one its tweets file builds, if it has one. */
  function DictAfter(d: KeywordDir, idx: UserIndex, count: map<String, nat>): map<String, nat> {
    if d.tweets.Some? && LinkTweetsFile(d.tweets.value, idx).Ok? then LinkTweetsFile(d.tweets.value, idx).value.1
    else count
  }

  /** The walk over the keyword directories in listing order, threading `tweets_dict`:
      each directory is linked against the `tweets_dict` of the nearest directory
      before it with a tweets file. */
  function LinkDirs(dirs: seq<KeywordDir>, idx: UserIndex, count: map<String, nat>): (r: Result<seq<KeywordDir>>)
    ensures r.Ok? ==> |r.value| == |dirs|
    ensures r.Ok? <==> forall k :: 0 <= k < |dirs| ==> LinkDir(dirs[k], idx, DictFor(dirs, idx, count, k)).Ok?
    ensures r.Ok? ==> forall k :: 0 <= k < |dirs| ==>
      LinkDir(dirs[k], idx, DictFor(dirs, idx, count, k)) == Ok((r.value[k], DictFor(dirs, idx, count, k + 1)))
    decreases |dirs|
  {
    if |dirs| == 0 then Ok([])
    else
      var first :- LinkDir(dirs[0], idx, count);
      LinkDirsShift(dirs, idx, count, first);
      var rest :- LinkDirs(dirs[1..], idx, first.1);
      LinkDirsCons(dirs, idx, count, first, rest);
      Ok([first.0] + rest)
  }

  /** Once the first directory is linked, the rest succeed along the walk's thread
      exactly when they succeed as a walk of their own started from its `tweets_dict`. */
  lemma LinkDirsShift(dirs: seq<KeywordDir>, idx: UserIndex, count: map<String, nat>,
                      first: (KeywordDir, map<String, nat>))
    requires |dirs| > 0 && LinkDir(dirs[0], idx, count) == Ok(first)
    ensures (forall k :: 0 <= k < |dirs| ==> LinkDir(dirs[k], idx, DictFor(dirs, idx, count, k)).Ok?)
      <==> forall k :: 0 <= k < |dirs[1..]| ==> LinkDir(dirs[1..][k], idx, DictFor(dirs[1..], idx, first.1, k)).Ok?
  {
    DictForShift(dirs, idx, count);
    if forall k :: 0 <= k < |dirs[1..]| ==> LinkDir(dirs[1..][k], idx, DictFor(dirs[1..], idx, first.1, k)).Ok? {
      forall k | 1 <= k < |dirs|
        ensures LinkDir(dirs[k], idx, DictFor(dirs, idx, count, k)).Ok?
      {
        assert dirs[k] == dirs[1..][k - 1];
      }
    } else {
      var k :| 0 <= k < |dirs[1..]| && LinkDir(dirs[1..][k], idx, DictFor(dirs[1..], idx, first.1, k)).Err?;
      assert dirs[1..][k] == dirs[k + 1];
    }
  }

  /** After the first directory the walk goes on with the `tweets_dict` it left. */
  lemma DictForShift(dirs: seq<KeywordDir>, idx: UserIndex, count: map<String, nat>)
    requires |dirs| > 0
    ensures LinkDir(dirs[0], idx, count).Ok? ==>
      forall k :: 1 <= k <= |dirs| ==>
        DictFor(dirs, idx, count, k) == DictFor(dirs[1..], idx, LinkDir(dirs[0], idx, count).value.1, k - 1)
  {
    if LinkDir(dirs[0], idx, count).Ok? {
      var after := LinkDir(dirs[0], idx, count).value.1;
      assert DictFor(dirs, idx, count, 1) == after;
      forall k | 1 <= k <= |dirs|
        ensures DictFor(dirs, idx, count, k) == DictFor(dirs[1..], idx, after, k - 1)
      {
        DictForShiftAt(dirs, idx, count, after, k);
      }
    }
  }

  lemma {:induction false} DictForShiftAt(dirs: seq<KeywordDir>, idx: UserIndex, count: map<String, nat>,
                                          after: map<String, nat>, k: nat)
    requires 1 <= k <= |dirs| && DictFor(dirs, idx, count, 1) == after
    ensures DictFor(dirs, idx, count, k) == DictFor(dirs[1..], idx, after, k - 1)
    decreases k
  {
    if k > 1 {
      DictForShiftAt(dirs, idx, count, after, k - 1);
      assert dirs[k - 1] == dirs[1..][k - 2];
    }
  }

  lemma LinkDirsCons(dirs: seq<KeywordDir>, idx: UserIndex, count: map<String, nat>,
                     first: (KeywordDir, map<String, nat>), rest: seq<KeywordDir>)
    requires |dirs| > 0 && LinkDir(dirs[0], idx, count) == Ok(first)
    requires |rest| == |dirs| - 1
    requires forall k :: 0 <= k < |dirs| - 1 ==>
      LinkDir(dirs[1..][k], idx, DictFor(dirs[1..], idx, first.1, k)) == Ok((rest[k], DictFor(dirs[1..], idx, first.1, k + 1)))
    ensures var r := [first.0] + rest;
      forall k :: 0 <= k < |dirs| ==>
        LinkDir(dirs[k], idx, DictFor(dirs, idx, count, k)) == Ok((r[k], DictFor(dirs, idx, count, k + 1)))
  {
    var r := [first.0] + rest;
    DictForShift(dirs, idx, count);
    forall k | 0 <= k < |dirs|
      ensures LinkDir(dirs[k], idx, DictFor(dirs, idx, count, k)) == Ok((r[k], DictFor(dirs, idx, count, k + 1)))
    {
      if k > 0 {
        assert dirs[k] == dirs[1..][k - 1];
        assert r[k] == rest[k - 1];
      }
    }
  }

  /** `postprocess_final`: index `users.csv`, then rewrite every tweets and comments
      file, each directory against the `tweets_dict` of the nearest directory before
      it with a tweets file; `tweets_dict` starts empty. */
  function PostprocessFinal(users: CsvFile, dirs: seq<KeywordDir>): (r: Result<seq<KeywordDir>>)
    ensures users.Missing? ==> r == Err(FileNotFound)
    ensures r.Ok? ==> |r.value| == |dirs| && users.Present? && FullUsers(users.rows, |users.rows|)
    ensures r.Ok? ==> forall k :: 0 <= k < |dirs| ==>
      var idx := IndexUsers(users).value;
      LinkDir(dirs[k], idx, DictFor(dirs, idx, map[], k)) == Ok((r.value[k], DictFor(dirs, idx, map[], k + 1)))
  {
    var idx :- IndexUsers(users);
    LinkDirs(dirs, idx, map[])
  }

  /** A directory that has its own tweets file links its comments against that
      file's `tweets_dict`, whatever the walk saw before. */
  lemma OwnTweetsIndex(d: KeywordDir, idx: UserIndex, before: map<String, nat>, other: map<String, nat>)
    requires d.tweets.Some?
    ensures LinkDir(d, idx, before) == LinkDir(d, idx, other)
  {
  }
}

=== FILE: pagination.dfy ===
/** Result-page fan-out shared by the tweet and comment spiders
    (`weibospider/spiders/tweet.py`, `weibospider/spiders/comment.py`).

    A response to a first-page URL (one ending in `page=1`) that reports `N` pages
    in total asks for pages 2 to `N` by replacing `page=1` in its URL. The page
    count comes from a regular-expression capture and is an input here.
 */
module Pagination {
  import opened Wrappers
  import opened Text

  /** The site every spider crawls (`base_url`). */
  const BaseUrl: String := "https://weibo.cn"

  const FirstPage: String := "page=1"
  const PageKey: String := "page="

  /** A URL built with `page=1` last is a first page. */
  lemma EndsWithPageOne(p: String)
    ensures EndsWith(p + FirstPage, FirstPage)
  {
    assert (p + FirstPage)[|p|..] == FirstPage;
  }

  /** The URL of page `n` derived from a first-page URL (Python's `str.replace`,
      which rewrites every occurrence). */
  function PageUrl(url: String, n: nat): String {
    ReplaceAll(url, FirstPage, PageKey + NatToString(n))
  }

  /** The follow-up requests a response yields: none unless its URL is a first page
      whose page count was found, otherwise pages 2 to the count, in order. */
  function PageUrls(url: String, total: Option<nat>): (r: seq<String>)
    ensures !EndsWith(url, FirstPage) || total.None? ==> r == []
    ensures EndsWith(url, FirstPage) && total.Some? ==>
      |r| == (if total.value >= 2 then total.value - 1 else 0) &&
      forall i :: 0 <= i < |r| ==> r[i] == PageUrl(url, i + 2)
  {
    if EndsWith(url, FirstPage) && total.Some? then
      var count := if total.value >= 2 then total.value - 1 else 0;
      seq(count, i requires 0 <= i < count => PageUrl(url, i + 2))
    else []
  }

  /** When `page=1` occurs only at the end of a URL, page `n`'s URL is the same URL
      ending in `page=n` instead. */
  lemma PageUrlAtEnd(prefix: String, n: nat)
    requires !Occurs(prefix, FirstPage)
    ensures PageUrl(prefix + FirstPage, n) == prefix + PageKey + NatToString(n)
  {
    ReplaceAtEnd(prefix, FirstPage, PageKey + NatToString(n));
  }

  /** Pages are never first pages again, so the fan-out happens once per listing:
      with `page=1` only at the end of the first URL, no follow-up URL is a first page
      (it ends in a number of two or more). */
  lemma FollowUpsEndInPage(prefix: String, total: nat)
    requires !Occurs(prefix, FirstPage)
    ensures var r := PageUrls(prefix + FirstPage, Some(total));
      forall i :: 0 <= i < |r| ==> r[i] == prefix + PageKey + NatToString(i + 2) && !EndsWith(r[i], FirstPage)
  {
    var url := prefix + FirstPage;
    assert EndsWith(url, FirstPage) by {
      assert url[|url| - |FirstPage|..] == FirstPage;
    }
    var r := PageUrls(url, Some(total));
    forall i | 0 <= i < |r|
      ensures r[i] == prefix + PageKey + NatToString(i + 2) && !EndsWith(r[i], FirstPage)
    {
      PageUrlAtEnd(prefix, i + 2);
      NotFirstPage(prefix, i + 2);
    }
  }

  /** A page URL of page two or more does not end in `page=1`. */
  lemma NotFirstPage(prefix: String, n: nat)
    requires n >= 2
    ensures !EndsWith(prefix + PageKey + NatToString(n), FirstPage)
  {
    var s := prefix + PageKey + NatToString(n);
    var d := NatToString(n);
    if n < 10 {
      assert d == [DigitChar(n)];
      assert s[|s| - 1] == d[0];
      assert s[|s| - 1] != '1';
    } else {
      assert |d| >= 2;
      assert s[|s| - 2] == d[|d| - 2];
      assert IsDigit(d[|d| - 2]);
      assert s[|s| - 2] != '=';
    }
    assert s[|s| - |FirstPage|..][5] == s[|s| - 1];
    assert s[|s| - |FirstPage|..][4] == s[|s| - 2];
  }
}

=== FILE: partition.dfy ===
/** How the runner (main.py) turns its configuration into work: the keyword list read
    from the keywords file, one task per keyword and date span (`split_tasks`), user ids
    sharded over workers (`split_users`), contiguous per-worker batches, and the slot
    directories `weibospider_<id>` that `crawl` creates for the workers.

    Dates are day ordinals; `strftime` is the parameter `isoDate`.
 */
module Partition {
  import opened Wrappers
  import opened Text
  import opened Table

  // ---------------------------------------------------------------------------
  // Python integer arithmetic

  function Min(a: int, b: int): int {
    if a <= b then a else b
  }

  /** Python's `a // b`. */
  function FloorDiv(a: int, b: int): int
    requires b != 0
  {
    if b > 0 then a / b else (-a) / (-b)
  }

  /** `int(math.ceil(a / b))`, computed exactly; the float division agrees while `a` stays below 2^53. */
  function CeilDiv(a: int, b: int): int
    requires b != 0
  {
    -FloorDiv(-a, b)
  }

  lemma CeilDivBounds(a: int, b: int)
    requires b > 0
    ensures CeilDiv(a, b) * b >= a
    ensures (CeilDiv(a, b) - 1) * b < a
  {
    var q := (-a) / b;
    var r := (-a) % b;
    assert -a == q * b + r && 0 <= r < b;
    assert CeilDiv(a, b) == -q;
    assert (-q) * b == a + r;
  }

  // ---------------------------------------------------------------------------
  // Paths

  /** POSIX `os.path.join(a, b)`. */
  function JoinPath(a: String, b: String): String {
    if StartsWith(b, "/") then b
    else if a == "" || EndsWith(a, "/") then a + b
    else a + "/" + b
  }

  /** `os.path.basename(p)`: the text after the last `/`. */
  function BaseName(p: String): String {
    LastField(p, "/")
  }

  /** The last piece of a split is whatever follows the last separator. */
  lemma {:induction false} LastFieldAfter(u: String, c: char, t: String)
    requires c !in t
    ensures LastField(u + [c] + t, [c]) == t
    decreases |u|
  {
    AbsentChar(t, [c], 0);
    if c !in u {
      FirstAfterHead(u, [c], t);
      SplitAt(u, [c], t);
    } else {
      var i := FirstIndex(u, c);
      var u1, u2 := u[..i], u[i + 1..];
      assert u == u1 + [c] + u2;
      assert u + [c] + t == u1 + [c] + (u2 + [c] + t);
      LastFieldPeel(u1, c, u2 + [c] + t);
      LastFieldAfter(u2, c, t);
    }
  }

  /** A piece before the first separator does not change the last piece. */
  lemma LastFieldPeel(a: String, c: char, rest: String)
    requires c !in a
    ensures LastField(a + [c] + rest, [c]) == LastField(rest, [c])
  {
    FirstAfterHead(a, [c], rest);
    SplitAt(a, [c], rest);
  }

  /** The position of the first `c` in `u`. */
  function FirstIndex(u: String, c: char): (i: nat)
    requires c in u
    ensures i < |u| && u[i] == c && c !in u[..i]
  {
    if u[0] == c then 0 else FirstIndex(u[1..], c) + 1
  }

  /** The basename of a path joined onto a directory is the name joined on. */
  lemma BaseNameJoin(dir: String, name: String)
    requires '/' !in name && name != ""
    ensures BaseName(JoinPath(dir, name)) == name
  {
    assert !StartsWith(name, "/") by {
      assert name[..1][0] == name[0] && name[0] in name;
    }
    if dir == "" || EndsWith(dir, "/") {
      if dir == "" {
        AbsentChar(name, "/", 0);
      } else {
        var u := dir[..|dir| - 1];
        assert dir == u + "/";
        assert dir + name == u + ['/'] + name;
        LastFieldAfter(u, '/', name);
      }
    } else {
      assert dir + "/" + name == dir + ['/'] + name;
      LastFieldAfter(dir, '/', name);
    }
  }

  /** The separator `os.path.join` puts after `a` before a relative name. */
  function JoinSep(a: String): String {
    if a == "" || EndsWith(a, "/") then "" else "/"
  }

  lemma JoinRelative(a: String, b: String)
    requires !StartsWith(b, "/")
    ensures JoinPath(a, b) == a + JoinSep(a) + b
  {
  }

  /** POSIX `os.path.join(os.path.join(a, b), c)` is `os.path.join(a, os.path.join(b, c))`
      for a relative, non-empty `c`. */
  lemma JoinAssoc(a: String, b: String, c: String)
    requires c != "" && c[0] != '/'
    ensures JoinPath(a, JoinPath(b, c)) == JoinPath(JoinPath(a, b), c)
  {
    assert !StartsWith(c, "/");
    if StartsWith(b, "/") {
      JoinKeepsHead(b, c);
    } else if b == "" {
      JoinAssocEmpty(a, c);
    } else {
      JoinAssocRelative(a, b, c);
    }
  }

  lemma JoinAssocEmpty(a: String, c: String)
    requires !StartsWith(c, "/")
    ensures JoinPath(a, JoinPath("", c)) == JoinPath(JoinPath(a, ""), c)
  {
    var dir := a + JoinSep(a);
    assert JoinPath("", c) == c by {
      JoinRelative("", c);
    }
    assert JoinSep(dir) == "" by {
      if JoinSep(a) != "" {
        SepAfter(a, JoinSep(a));
      }
    }
    assert JoinPath(JoinPath(a, ""), c) == dir + c by {
      JoinRelative(a, "");
      JoinRelative(dir, c);
    }
    JoinRelative(a, c);
  }

  lemma JoinAssocRelative(a: String, b: String, c: String)
    requires b != "" && !StartsWith(b, "/") && !StartsWith(c, "/")
    ensures JoinPath(a, JoinPath(b, c)) == JoinPath(JoinPath(a, b), c)
  {
    var bc, ab := b + JoinSep(b) + c, a + JoinSep(a) + b;
    assert JoinPath(b, c) == bc by {
      JoinRelative(b, c);
    }
    assert JoinPath(a, bc) == a + JoinSep(a) + bc by {
      HeadAfter(b, JoinSep(b) + c);
      assert bc == b + (JoinSep(b) + c);
      JoinRelative(a, bc);
    }
    assert JoinPath(JoinPath(a, b), c) == ab + JoinSep(b) + c by {
      JoinRelative(a, b);
      JoinRelative(ab, c);
      SepAfter(a + JoinSep(a), b);
    }
    SeqAssoc(ab, JoinSep(b), c);
    SeqAssoc(a + JoinSep(a), b, JoinSep(b) + c);
    SeqAssoc(b, JoinSep(b), c);
    SeqAssoc(a, JoinSep(a), bc);
  }

  /** A path starts with `/` when its non-empty first part does. */
  lemma HeadAfter(b: String, rest: String)
    requires b != ""
    ensures StartsWith(b + rest, "/") == StartsWith(b, "/")
  {
    assert (b + rest)[..1] == b[..1];
  }

  /** A path ends with `/` when its non-empty last part does. */
  lemma SepAfter(front: String, b: String)
    requires b != ""
    ensures JoinSep(front + b) == JoinSep(b)
  {
    var x := front + b;
    assert x[|x| - 1..] == b[|b| - 1..];
  }

  /** A relative join starts like its directory. */
  lemma JoinKeepsHead(b: String, c: String)
    requires b != "" && !StartsWith(c, "/")
    ensures StartsWith(JoinPath(b, c), "/") == StartsWith(b, "/")
  {
    assert JoinPath(b, c)[..1] == b[..1];
  }

  /** A relative join onto a non-empty name ends like that name. */
  lemma JoinKeepsTail(a: String, b: String)
    requires b != "" && !StartsWith(b, "/")
    ensures EndsWith(JoinPath(a, b), "/") == EndsWith(b, "/")
    ensures JoinPath(a, b) != ""
  {
    var ab := JoinPath(a, b);
    assert ab[|ab| - 1..] == b[|b| - 1..];
  }

  /** Splitting peels off a first component that holds no `/`. */
  lemma SplitPeel(u: String, rest: String)
    requires '/' !in u
    ensures Split(u + "/" + rest, "/") == [u] + Split(rest, "/")
  {
    FirstAfterHead(u, "/", rest);
    SplitAt(u, "/", rest);
  }

  /** `p.split('/')` with one more component `t` joined on. */
  lemma {:induction false} SplitSnoc(u: String, t: String)
    requires '/' !in t
    ensures Split(u + "/" + t, "/") == Split(u, "/") + [t]
    decreases |u|
  {
    if '/' !in u {
      SplitPeel(u, t);
      AbsentChar(t, "/", 0);
      AbsentChar(u, "/", 0);
    } else {
      var i := FirstIndex(u, '/');
      var u1, u2 := u[..i], u[i + 1..];
      assert u == u1 + "/" + u2;
      SplitSnoc(u2, t);
      SplitSnocPeel(u1, u2, t);
    }
  }

  /** A first component peeled off both sides keeps `SplitSnoc`. */
  lemma SplitSnocPeel(u1: String, u2: String, t: String)
    requires '/' !in u1
    requires Split(u2 + "/" + t, "/") == Split(u2, "/") + [t]
    ensures Split(u1 + "/" + u2 + "/" + t, "/") == Split(u1 + "/" + u2, "/") + [t]
  {
    assert Split(u1 + "/" + u2 + "/" + t, "/") == [u1] + Split(u2 + "/" + t, "/") by {
      assert u1 + "/" + u2 + "/" + t == u1 + "/" + (u2 + "/" + t);
      SplitPeel(u1, u2 + "/" + t);
    }
    assert Split(u1 + "/" + u2, "/") == [u1] + Split(u2, "/") by {
      SplitPeel(u1, u2);
    }
    SeqAssoc([u1], Split(u2, "/"), [t]);
  }

  /** One component of a path being resolved: empty and `.` components vanish, `..`
      drops the last component resolved so far (the root is its own parent), and any
      other component is appended. */
  function Step(resolved: seq<String>, c: String): seq<String> {
    if c == "" || c == "." then resolved
    else if c == ".." then (if resolved == [] then [] else resolved[..|resolved| - 1])
    else resolved + [c]
  }

  /** The components of the canonical path reached from the root through `cs`. */
  function Resolve(cs: seq<String>): seq<String>
    decreases |cs|
  {
    if cs == [] then [] else Step(Resolve(cs[..|cs| - 1]), cs[|cs| - 1])
  }

  /** `os.path.basename(os.path.realpath(p))` for a process whose working directory is
      `cwd`: a relative `p` is taken from `cwd`, `.` and `..` are resolved, and the
      basename of the root is empty. */
  function RealBaseName(cwd: String, p: String): String {
    var resolved := Resolve(Split(JoinPath(cwd, p), "/"));
    if resolved == [] then "" else resolved[|resolved| - 1]
  }

  /** Joining a component onto a path resolves as one more step. */
  lemma ResolveJoin(a: String, b: String)
    requires '/' !in b && b != ""
    ensures Resolve(Split(JoinPath(a, b), "/")) == Step(Resolve(Split(a, "/")), b)
  {
    assert !StartsWith(b, "/") by {
      assert b[..1][0] == b[0] && b[0] in b;
    }
    if a == "" {
      AbsentChar(b, "/", 0);
      AbsentChar("", "/", 0);
      assert JoinPath(a, b) == b;
      assert Split(b, "/") == [b] && Split(a, "/") == [""];
      assert [b][..0] == [] && [""][..0] == [];
      assert Resolve([""]) == Step([], "") == [];
    } else if EndsWith(a, "/") {
      var u := a[..|a| - 1];
      assert a == u + "/" + "";
      assert a + b == u + "/" + b;
      SplitSnoc(u, b);
      SplitSnoc(u, "");
      assert (Split(u, "/") + [b])[..|Split(u, "/")|] == Split(u, "/");
      assert (Split(u, "/") + [""])[..|Split(u, "/")|] == Split(u, "/");
    } else {
      SplitSnoc(a, b);
      assert (Split(a, "/") + [b])[..|Split(a, "/")|] == Split(a, "/");
    }
  }

  /** A plain last component is the basename `realpath` gives. */
  lemma RealBaseNamePlain(cwd: String, dir: String, name: String)
    requires '/' !in name && name !in {"", ".", ".."}
    ensures RealBaseName(cwd, JoinPath(dir, name)) == name
  {
    assert name[0] in name;
    JoinAssoc(cwd, dir, name);
    ResolveJoin(JoinPath(cwd, dir), name);
  }

  /** After a plain component `parent`, a last component `.` gives back `parent` and
      `..` gives back the basename of the directory above it; any other name is kept. */
  lemma RealBaseNameJoin(cwd: String, dir: String, parent: String, name: String)
    requires '/' !in parent && parent !in {"", ".", ".."}
    requires '/' !in name && name != ""
    ensures RealBaseName(cwd, JoinPath(JoinPath(dir, parent), name)) ==
      if name == "." then parent else if name == ".." then RealBaseName(cwd, dir) else name
  {
    var r0 := Resolve(Split(JoinPath(cwd, dir), "/"));
    var p := JoinPath(JoinPath(cwd, dir), parent);
    assert Resolve(Split(p, "/")) == r0 + [parent] by {
      ResolveJoin(JoinPath(cwd, dir), parent);
    }
    assert JoinPath(cwd, JoinPath(JoinPath(dir, parent), name)) == JoinPath(p, name) by {
      assert parent[0] in parent && name[0] in name;
      JoinAssoc(cwd, JoinPath(dir, parent), name);
      JoinAssoc(cwd, dir, parent);
    }
    ResolveJoin(p, name);
    assert (r0 + [parent])[..|r0|] == r0;
  }

  // ---------------------------------------------------------------------------
  // Tasks

  /** An inclusive range of days. */
  datatype Span = Span(first: int, last: int)

  predicate InSpan(d: int, sp: Span) {
    sp.first <= d <= sp.last
  }

  /** The per-record minimum counts every task passes on to its worker. */
  datatype Limits = Limits(like: int, repost: int, comment: int)

  /** One crawl job: a keyword, optionally restricted to a span of days. `name` is
      the directory the job writes to. */
  datatype Task = Task(name: String, keyword: String, span: Option<Span>, limits: Limits)

  /** The day spans of `split_tasks`: from `start`, `days` days each, the last one
      clipped to `end`. */
  function Spans(start: int, end: int, days: int): (r: seq<Span>)
    requires days >= 1
    ensures start > end ==> r == []
    ensures start <= end ==> |r| > 0 && r[0].first == start && r[|r| - 1].last == end
    ensures forall i :: 0 <= i < |r| ==> r[i].first <= r[i].last
    ensures forall i :: 0 <= i < |r| ==> r[i].last == Min(r[i].first + days - 1, end)
    ensures forall i :: 0 <= i < |r| - 1 ==> r[i + 1].first == r[i].last + 1
    decreases if start <= end then end - start + 1 else 0
  {
    if start > end then []
    else [Span(start, Min(start + days - 1, end))] + Spans(start + days, end, days)
  }

  /** Some span of `r` holds day `d`. */
  predicate Covered(d: int, r: seq<Span>) {
    exists i | 0 <= i < |r| :: InSpan(d, r[i])
  }

  /** `r` tiles `[start, end]`: every day of the range lies in a span, every span lies
      in the range, and the spans are in order without overlap. */
  ghost predicate Tiles(r: seq<Span>, start: int, end: int) {
    && (forall d :: InSpan(d, Span(start, end)) ==> Covered(d, r))
    && Inside(r, start, end)
    && Ordered(r)
  }

  predicate Inside(r: seq<Span>, start: int, end: int) {
    forall i :: 0 <= i < |r| ==> start <= r[i].first && r[i].last <= end
  }

  predicate Ordered(r: seq<Span>) {
    forall i, j :: 0 <= i < j < |r| ==> r[i].last < r[j].first
  }

  /** The spans of `split_tasks` tile the requested range: no day is crawled twice
      and none is skipped. */
  lemma SpansTile(start: int, end: int, days: int)
    requires days >= 1
    ensures Tiles(Spans(start, end, days), start, end)
  {
    SpansCover(start, end, days);
    SpansOrdered(start, end, days);
  }

  lemma {:induction false} SpansCover(start: int, end: int, days: int)
    requires days >= 1
    ensures forall d :: InSpan(d, Span(start, end)) ==> Covered(d, Spans(start, end, days))
    decreases if start <= end then end - start + 1 else 0
  {
    var r := Spans(start, end, days);
    if start <= end {
      var rest := Spans(start + days, end, days);
      SpansCover(start + days, end, days);
      forall d | InSpan(d, Span(start, end))
        ensures Covered(d, r)
      {
        if d > r[0].last {
          assert InSpan(d, Span(start + days, end));
          var i :| 0 <= i < |rest| && InSpan(d, rest[i]);
          assert r[i + 1] == rest[i];
        } else {
          assert InSpan(d, r[0]);
        }
      }
    }
  }

  lemma SpansOrdered(start: int, end: int, days: int)
    requires days >= 1
    ensures Inside(Spans(start, end, days), start, end)
    ensures Ordered(Spans(start, end, days))
  {
    SpansInside(start, end, days);
    SpansDisjoint(start, end, days);
  }

  /** Every span lies inside the range. */
  lemma SpansInside(start: int, end: int, days: int)
    requires days >= 1
    ensures Inside(Spans(start, end, days), start, end)
  {
    var r := Spans(start, end, days);
    forall i | 0 < i < |r|
      ensures start < r[i].first
    {
      ChainStep(r, 0, i);
    }
  }

  /** Each span ends before the next one starts. */
  lemma SpansDisjoint(start: int, end: int, days: int)
    requires days >= 1
    ensures Ordered(Spans(start, end, days))
  {
    var r := Spans(start, end, days);
    forall i, j | 0 <= i < j < |r|
      ensures r[i].last < r[j].first
    {
      ChainStep(r, i, j);
    }
  }

  /** In spans that each start the day after the previous one ends, an earlier span
      ends before a later one starts. */
  lemma {:induction false} ChainStep(r: seq<Span>, i: nat, j: nat)
    requires i < j < |r|
    requires forall k :: 0 <= k < |r| ==> r[k].first <= r[k].last
    requires forall k :: 0 <= k < |r| - 1 ==> r[k + 1].first == r[k].last + 1
    ensures r[i].last < r[j].first
    decreases j - i
  {
    if j > i + 1 {
      ChainStep(r, i, j - 1);
    }
  }

  lemma CeilOne(n: int, b: int)
    requires 0 < n <= b
    ensures CeilDiv(n, b) == 1
  {
    CeilDivBounds(n, b);
    var c := CeilDiv(n, b);
    if c < 1 {
      MulMono(c, 0, b);
    } else if c > 1 {
      MulMono(1, c - 1, b);
    }
  }

  lemma CeilStep(n: int, b: int)
    requires 0 < b < n
    ensures CeilDiv(n, b) == CeilDiv(n - b, b) + 1
  {
    CeilDivBounds(n, b);
    CeilDivBounds(n - b, b);
    var c, c' := CeilDiv(n, b), CeilDiv(n - b, b);
    assert (c' + 1) * b == c' * b + b;
    assert c' * b == (c' - 1) * b + b;
    if c < c' + 1 {
      MulMono(c, c', b);
    } else if c > c' + 1 {
      MulMono(c' + 1, c - 1, b);
    }
  }

  lemma MulMono(a: int, a': int, b: int)
    requires a <= a' && b >= 0
    ensures a * b <= a' * b
  {
  }

  /** There are `ceil((end - start + 1) / days)` spans. */
  lemma {:induction false} SpansCount(start: int, end: int, days: int)
    requires days >= 1 && start <= end
    ensures |Spans(start, end, days)| == CeilDiv(end - start + 1, days)
    decreases end - start + 1
  {
    var r := Spans(start, end, days);
    var n := end - start + 1;
    if start + days <= end {
      var rest := Spans(start + days, end, days);
      SpansCount(start + days, end, days);
      assert |rest| == CeilDiv(n - days, days) by {
        assert end - (start + days) + 1 == n - days;
      }
      assert |r| == 1 + |rest|;
      CeilStep(n, days);
    } else {
      assert |r| == 1;
      CeilOne(end - start + 1, days);
    }
  }

  /** The tasks `split_tasks` makes for one keyword: one per span, named
      `<keyword>_<first day>`, or one named after the keyword when either date is
      missing. */
  function KeywordTasks(keyword: String, dates: Option<Span>, days: int, limits: Limits,
                        isoDate: int -> String): (r: seq<Task>)
    requires dates.Some? ==> days >= 1
    ensures dates.None? ==> r == [Task(keyword, keyword, None, limits)]
    ensures dates.Some? ==> |r| == |Spans(dates.value.first, dates.value.last, days)|
    ensures dates.Some? ==> forall i :: 0 <= i < |r| ==>
      r[i] == Task(keyword + "_" + isoDate(Spans(dates.value.first, dates.value.last, days)[i].first),
                   keyword, Some(Spans(dates.value.first, dates.value.last, days)[i]), limits)
  {
    match dates
    case None => [Task(keyword, keyword, None, limits)]
    case Some(range) =>
      var spans := Spans(range.first, range.last, days);
      seq(|spans|, i requires 0 <= i < |spans| =>
        Task(keyword + "_" + isoDate(spans[i].first), keyword, Some(spans[i]), limits))
  }

  /** The date range `split_tasks` works in: both dates must be given. */
  function DateRange(dateStart: Option<int>, dateEnd: Option<int>): Option<Span> {
    if dateStart.Some? && dateEnd.Some? then Some(Span(dateStart.value, dateEnd.value)) else None
  }

  /** `split_tasks` before chunking: the tasks of every keyword, keyword by keyword. */
  function SplitTasks(keywords: seq<String>, dateStart: Option<int>, dateEnd: Option<int>,
                      days: int, limits: Limits, isoDate: int -> String): (r: seq<Task>)
    requires DateRange(dateStart, dateEnd).Some? ==> days >= 1
    ensures DateRange(dateStart, dateEnd).None? ==> |r| == |keywords|
    ensures forall t :: t in r ==> t.keyword in keywords && t.limits == limits
    decreases |keywords|
  {
    if |keywords| == 0 then []
    else KeywordTasks(keywords[0], DateRange(dateStart, dateEnd), days, limits, isoDate)
         + SplitTasks(keywords[1..], dateStart, dateEnd, days, limits, isoDate)
  }

  /** Without both dates every keyword becomes exactly one task, named after it. */
  lemma {:induction false} UndatedTasks(keywords: seq<String>, limits: Limits, isoDate: int -> String, days: int)
    ensures forall dateStart: Option<int>, dateEnd: Option<int> ::
      DateRange(dateStart, dateEnd).None? ==>
      SplitTasks(keywords, dateStart, dateEnd, days, limits, isoDate)
        == seq(|keywords|, i requires 0 <= i < |keywords| => Task(keywords[i], keywords[i], None, limits))
    decreases |keywords|
  {
    if |keywords| > 0 {
      UndatedTasks(keywords[1..], limits, isoDate, days);
    }
  }

  /** With both dates there are `|keywords| * spans` tasks. */
  lemma DatedTaskCount(keywords: seq<String>, range: Span, days: int, limits: Limits, isoDate: int -> String)
    requires days >= 1
    ensures |SplitTasks(keywords, Some(range.first), Some(range.last), days, limits, isoDate)|
      == |keywords| * |Spans(range.first, range.last, days)|
  {
    DatedCount(keywords, range, days, limits, isoDate);
    Times(|keywords|, |Spans(range.first, range.last, days)|);
  }

  /** `k * n`, counted out block by block. */
  function Blocks(k: nat, n: nat): (r: nat)
    ensures k > 0 ==> r >= n
  {
    if k == 0 then 0 else n + Blocks(k - 1, n)
  }

  /** Counting out `k` blocks of `n` is multiplying. */
  lemma {:induction false} Times(k: nat, n: nat)
    ensures Blocks(k, n) == k * n
    decreases k
  {
    if k > 0 {
      Times(k - 1, n);
      assert k * n == n + (k - 1) * n;
    }
  }

  /** With both dates every keyword gets one task per span, the keywords' blocks laid
      out one after another in keyword order: task `k * n + i` (see `Times`) is the
      `i`th task of keyword `k`, for `n` spans. */
  lemma DatedTasks(keywords: seq<String>, range: Span, days: int, limits: Limits,
                   isoDate: int -> String, k: nat, i: nat)
    requires days >= 1
    requires k < |keywords| && i < |Spans(range.first, range.last, days)|
    ensures var n := |Spans(range.first, range.last, days)|;
      var r := SplitTasks(keywords, Some(range.first), Some(range.last), days, limits, isoDate);
      Blocks(k, n) + i < |r| && r[Blocks(k, n) + i] == KeywordTasks(keywords[k], Some(range), days, limits, isoDate)[i]
  {
    var n := |Spans(range.first, range.last, days)|;
    var bs := KeywordBlocks(keywords, range, days, limits, isoDate);
    DatedFlatten(keywords, range, days, limits, isoDate);
    FlattenAt(bs, n, k, i);
  }

  /** With both dates there are exactly as many tasks per keyword as spans. */
  lemma DatedCount(keywords: seq<String>, range: Span, days: int, limits: Limits,
                   isoDate: int -> String)
    requires days >= 1
    ensures |SplitTasks(keywords, Some(range.first), Some(range.last), days, limits, isoDate)|
      == Blocks(|keywords|, |Spans(range.first, range.last, days)|)
  {
    var bs := KeywordBlocks(keywords, range, days, limits, isoDate);
    DatedFlatten(keywords, range, days, limits, isoDate);
    FlattenCount(bs, |Spans(range.first, range.last, days)|);
  }

  /** The dated tasks of each keyword, keyword by keyword. */
  function KeywordBlocks(keywords: seq<String>, range: Span, days: int, limits: Limits,
                         isoDate: int -> String): (r: seq<seq<Task>>)
    requires days >= 1
    ensures |r| == |keywords|
    ensures forall k :: 0 <= k < |r| ==> |r[k]| == |Spans(range.first, range.last, days)|
  {
    seq(|keywords|, k requires 0 <= k < |keywords| => KeywordTasks(keywords[k], Some(range), days, limits, isoDate))
  }

  lemma {:induction false} DatedFlatten(keywords: seq<String>, range: Span, days: int, limits: Limits,
                                        isoDate: int -> String)
    requires days >= 1
    ensures SplitTasks(keywords, Some(range.first), Some(range.last), days, limits, isoDate)
      == Flatten(KeywordBlocks(keywords, range, days, limits, isoDate))
    decreases |keywords|
  {
    if |keywords| > 0 {
      var bs := KeywordBlocks(keywords, range, days, limits, isoDate);
      assert bs[1..] == KeywordBlocks(keywords[1..], range, days, limits, isoDate) by {
        assert forall k :: 0 <= k < |bs| - 1 ==> bs[1..][k] == bs[k + 1];
      }
      DatedFlatten(keywords[1..], range, days, limits, isoDate);
      DatedStep(keywords, range, days, limits, isoDate);
    }
  }

  /** Blocks of one length `n` laid end to end: `Blocks(k, n) + i` is the `i`th
      element of the `k`th block. */
  lemma {:induction false} FlattenCount<T>(xss: seq<seq<T>>, n: nat)
    requires forall k :: 0 <= k < |xss| ==> |xss[k]| == n
    ensures |Flatten(xss)| == Blocks(|xss|, n)
    decreases |xss|
  {
    if |xss| > 0 {
      FlattenCount(xss[1..], n);
    }
  }

  lemma {:induction false} FlattenAt<T>(xss: seq<seq<T>>, n: nat, k: nat, i: nat)
    requires forall j :: 0 <= j < |xss| ==> |xss[j]| == n
    requires k < |xss| && i < n
    ensures Blocks(k, n) + i < |Flatten(xss)| && Flatten(xss)[Blocks(k, n) + i] == xss[k][i]
    decreases k
  {
    FlattenCount(xss, n);
    FlattenCount(xss[1..], n);
    if k > 0 {
      FlattenAt(xss[1..], n, k - 1, i);
    }
  }

  /** One keyword's block, then the tasks of the keywords after it. */
  lemma DatedStep(keywords: seq<String>, range: Span, days: int, limits: Limits, isoDate: int -> String)
    requires days >= 1 && |keywords| > 0
    ensures SplitTasks(keywords, Some(range.first), Some(range.last), days, limits, isoDate)
      == KeywordTasks(keywords[0], Some(range), days, limits, isoDate)
         + SplitTasks(keywords[1..], Some(range.first), Some(range.last), days, limits, isoDate)
    ensures |KeywordTasks(keywords[0], Some(range), days, limits, isoDate)| == |Spans(range.first, range.last, days)|
  {
    assert DateRange(Some(range.first), Some(range.last)) == Some(range);
  }

  /** `task_name.split('_')[0]`: the keyword the consolidation pass files a task under. */
  function KeywordOf(taskName: String): String {
    FirstField(taskName, "_")
  }

  /** The keyword comes back out of a task name exactly when it holds no `_`. */
  lemma KeywordOfTask(keyword: String, suffix: String)
    requires '_' !in keyword
    ensures KeywordOf(keyword + "_" + suffix) == keyword
    ensures KeywordOf(keyword) == keyword
  {
    FirstAfterHead(keyword, "_", suffix);
    SplitAt(keyword, "_", suffix);
    AbsentChar(keyword, "_", 0);
  }

  /** A keyword holding `_` is filed under its first piece instead. */
  lemma KeywordOfUnderscore(head: String, tail: String, suffix: String)
    requires '_' !in head
    ensures KeywordOf((head + "_" + tail) + "_" + suffix) == head
    ensures head != head + "_" + tail
  {
    assert (head + "_" + tail) + "_" + suffix == head + "_" + (tail + "_" + suffix);
    FirstAfterHead(head, "_", tail + "_" + suffix);
    SplitAt(head, "_", tail + "_" + suffix);
  }

  // ---------------------------------------------------------------------------
  // Batches

  /** How many items each worker takes, how many workers run, and their batches. */
  datatype Plan<T> = Plan(perWorker: int, workers: int, batches: seq<seq<T>>)

  /** Python's `xs[lo:hi]` for non-negative bounds. */
  function PySlice<T>(xs: seq<T>, lo: nat, hi: nat): (r: seq<T>)
    ensures |r| <= hi - lo || |r| == 0
  {
    var a := Min(lo, |xs|);
    var b := Min(hi, |xs|);
    if a >= b then [] else xs[a..b]
  }

  function Flatten<T>(xss: seq<seq<T>>): seq<T>
    decreases |xss|
  {
    if |xss| == 0 then [] else xss[0] + Flatten(xss[1..])
  }

  /** The chunking shared by `split_tasks` and `split_users`:
      `per = ceil(n / max_workers)`, `workers = ceil(n / per)`, and worker `w` takes
      `xs[w * per:(w + 1) * per]`. Both divisions raise on a zero divisor. */
  function Chunk<T>(xs: seq<T>, maxWorkers: int): (r: Result<Plan<T>>)
    ensures r.Err? ==> r.fault == ZeroDivision
    ensures r.Ok? ==> |r.value.batches| == (if r.value.workers > 0 then r.value.workers else 0)
  {
    if maxWorkers == 0 then Err(ZeroDivision)
    else
      var per := CeilDiv(|xs|, maxWorkers);
      if per == 0 then Err(ZeroDivision)
      else
        var workers := CeilDiv(|xs|, per);
        Ok(Plan(per, workers, if per > 0 then Batches(xs, per, workers) else []))
  }

  /** `[xs[w * per:(w + 1) * per] for w in range(count)]` */
  function Batches<T>(xs: seq<T>, per: nat, count: int): (r: seq<seq<T>>)
    ensures |r| == (if count > 0 then count else 0)
    ensures forall w :: 0 <= w < |r| ==> r[w] == PySlice(xs, w * per, (w + 1) * per)
  {
    var n := if count > 0 then count else 0;
    seq(n, w requires 0 <= w < n => PySlice(xs, w * per, (w + 1) * per))
  }

  /** Nothing to split is a division by zero, whatever the pool size. */
  lemma ChunkEmpty<T>(maxWorkers: int)
    ensures Chunk<T>([], maxWorkers) == Err(ZeroDivision)
  {
    if maxWorkers != 0 {
      assert FloorDiv(0, maxWorkers) == 0;
    }
  }

  /** The sizes `Chunk` computes for `n` items and a pool of `m` workers. */
  lemma ChunkSizes(n: int, m: int)
    requires n > 0 && m > 0
    ensures CeilDiv(n, m) >= 1
    ensures var per := CeilDiv(n, m); 1 <= CeilDiv(n, per) <= m
    ensures var per := CeilDiv(n, m); (CeilDiv(n, per) - 1) * per < n <= CeilDiv(n, per) * per
  {
    var per := CeilDiv(n, m);
    CeilDivBounds(n, m);
    if per <= 0 {
      MulMono(per, 0, m);
    }
    var workers := CeilDiv(n, per);
    CeilDivBounds(n, per);
    if workers <= 0 {
      MulMono(workers, 0, per);
    }
    if workers > m {
      MulMono(m, workers - 1, per);
    }
  }

  /** With items and a positive pool: at most `maxWorkers` workers, each with a
      non-empty batch of at most `perWorker` items, and the batches laid end to end
      give back the items in order. */
  lemma ChunkPartition<T>(xs: seq<T>, maxWorkers: int)
    requires |xs| > 0 && maxWorkers > 0
    ensures Chunk(xs, maxWorkers).Ok?
    ensures var p := Chunk(xs, maxWorkers).value;
      && p.perWorker == CeilDiv(|xs|, maxWorkers) >= 1
      && 1 <= p.workers <= maxWorkers
      && |p.batches| == p.workers
      && (forall w :: 0 <= w < |p.batches| ==> 0 < |p.batches[w]| <= p.perWorker)
      && Flatten(p.batches) == xs
  {
    var n := |xs|;
    ChunkSizes(n, maxWorkers);
    var per := CeilDiv(n, maxWorkers);
    var workers := CeilDiv(n, per);
    var p := Chunk(xs, maxWorkers).value;
    assert p == Plan(per, workers, Batches(xs, per, workers));
    forall w | 0 <= w < |p.batches|
      ensures 0 < |p.batches[w]| <= per
    {
      BatchSize(xs, per, workers, w);
    }
    FlattenSlices(xs, per, workers, p.batches);
  }

  lemma BatchSize<T>(xs: seq<T>, per: int, workers: int, w: nat)
    requires per >= 1 && w < workers && (workers - 1) * per < |xs|
    ensures 0 < |PySlice(xs, w * per, (w + 1) * per)| <= per
  {
    MulMono(w, workers - 1, per);
    assert (w + 1) * per == w * per + per;
  }

  lemma FlattenSlices<T>(xs: seq<T>, per: int, workers: int, batches: seq<seq<T>>)
    requires per >= 1 && workers >= 1
    requires (workers - 1) * per < |xs| <= workers * per
    requires |batches| == workers
    requires forall w :: 0 <= w < workers ==> batches[w] == PySlice(xs, w * per, (w + 1) * per)
    ensures Flatten(batches) == xs
  {
    FlattenSlicesFrom(xs, per, workers, batches, 0);
    assert batches[0..] == batches;
  }

  lemma {:induction false} FlattenSlicesFrom<T>(xs: seq<T>, per: int, workers: int, batches: seq<seq<T>>, k: nat)
    requires per >= 1 && workers >= 1 && k < workers
    requires (workers - 1) * per < |xs| <= workers * per
    requires |batches| == workers
    requires forall w :: 0 <= w < workers ==> batches[w] == PySlice(xs, w * per, (w + 1) * per)
    ensures k * per < |xs|
    ensures Flatten(batches[k..]) == xs[k * per..]
    decreases workers - k
  {
    MulMono(k, workers - 1, per);
    var lo := k * per;
    var hi := lo + per;
    assert (k + 1) * per == hi;
    assert batches[k] == PySlice(xs, lo, hi);
    assert batches[k..] == [batches[k]] + batches[k + 1..];
    if k + 1 < workers {
      FlattenSlicesFrom(xs, per, workers, batches, k + 1);
      assert hi < |xs|;
      assert batches[k] == xs[lo..hi];
      assert xs[lo..] == xs[lo..hi] + xs[hi..];
    } else {
      assert hi >= |xs|;
      assert batches[k] == xs[lo..];
      assert batches[k + 1..] == [];
    }
  }

  // ---------------------------------------------------------------------------
  // Worker slots and commands

  /** `os.path.join(run_dir, 'weibospider_' + str(worker_id))` */
  function SlotDir(runDir: String, worker: nat): String {
    JoinPath(runDir, SlotName(worker))
  }

  /** The slot directories `crawl` copies the spider into: one per id below `max_workers`. */
  function SlotDirs(runDir: String, maxWorkers: int): (r: seq<String>)
    ensures |r| == (if maxWorkers > 0 then maxWorkers else 0)
  {
    var count := if maxWorkers > 0 then maxWorkers else 0;
    seq(count, w requires 0 <= w < count => SlotDir(runDir, w))
  }

  /** However the pool size is given, a plan never runs more workers than it. */
  lemma ChunkWithinPool<T>(xs: seq<T>, maxWorkers: int)
    requires Chunk(xs, maxWorkers).Ok?
    ensures |Chunk(xs, maxWorkers).value.batches| <= (if maxWorkers > 0 then maxWorkers else 0)
  {
    if maxWorkers > 0 {
      ChunkPartition(xs, maxWorkers);
    } else {
      NonPositivePool(|xs|, maxWorkers);
    }
  }

  /** A pool size below one yields a non-positive worker count or a zero divisor. */
  lemma NonPositivePool(n: int, m: int)
    requires n >= 0 && m < 0
    ensures CeilDiv(n, m) <= 0
    ensures CeilDiv(n, m) != 0 ==> CeilDiv(n, CeilDiv(n, m)) <= 0
  {
    assert FloorDiv(-n, m) == n / (-m);
    var per := CeilDiv(n, m);
    if per != 0 {
      assert FloorDiv(-n, per) == n / (-per);
    }
  }

  /** Every worker a plan dispatches finds its slot directory already copied. */
  lemma DispatchedSlotsExist<T>(xs: seq<T>, maxWorkers: int, runDir: String)
    requires Chunk(xs, maxWorkers).Ok?
    ensures forall w :: 0 <= w < |Chunk(xs, maxWorkers).value.batches| ==>
      SlotDir(runDir, w) in SlotDirs(runDir, maxWorkers)
  {
    ChunkWithinPool(xs, maxWorkers);
    var slots := SlotDirs(runDir, maxWorkers);
    forall w | 0 <= w < |Chunk(xs, maxWorkers).value.batches|
      ensures SlotDir(runDir, w) in slots
    {
      assert slots[w] == SlotDir(runDir, w);
    }
  }

  /** The argument list `split_tasks` builds for one task, before `--file-dir`. */
  function TaskArgs(t: Task, isoDate: int -> String): seq<String> {
    var limits := ["--min-like-num", IntToString(t.limits.like),
                   "--min-repost-num", IntToString(t.limits.repost),
                   "--min-comment-num", IntToString(t.limits.comment)];
    match t.span
    case Some(sp) =>
      ["--keywords", t.keyword, "--date-start", isoDate(sp.first), "--date-end", isoDate(sp.last)] + limits
    case None => ["--keywords", t.keyword] + limits
  }

  /** The full argument list a worker passes to its spider run for task `t`; its last
      element is the task's output directory inside the slot. */
  function WorkerArgs(runDir: String, worker: nat, t: Task, isoDate: int -> String): (r: seq<String>)
    ensures |r| > 0
  {
    TaskArgs(t, isoDate) + ["--file-dir", JoinPath(JoinPath(SlotDir(runDir, worker), "data"), t.name)]
  }

  /** The name of worker `w`'s slot directory. */
  function SlotName(w: nat): String {
    "weibospider_" + NatToString(w)
  }

  lemma SlotNamePlain(w: nat)
    ensures '/' !in SlotName(w) && SlotName(w) !in {"", ".", ".."}
    ensures KeywordOf(SlotName(w)) == "weibospider"
  {
    var digits := NatToString(w);
    assert '/' !in digits by {
      forall i | 0 <= i < |digits| ensures digits[i] != '/' {
        assert IsDigit(digits[i]);
      }
    }
    assert forall i :: 0 <= i < |SlotName(w)| ==> SlotName(w)[i] != '/';
    assert SlotName(w) == "weibospider" + "_" + digits;
    KeywordOfTask("weibospider", digits);
  }

  /** `os.path.basename(os.path.realpath(args[-1]))`, run from the working directory
      `cwd`, recovers the task name the arguments were built for; the names `.` and `..`
      resolve to the `data` directory and to the slot directory instead. The plain
      basename of the argument is the task name in every case. */
  lemma TaskNameFromArgs(cwd: String, runDir: String, worker: nat, t: Task, isoDate: int -> String)
    requires '/' !in t.name && t.name != ""
    ensures var args := WorkerArgs(runDir, worker, t, isoDate); BaseName(args[|args| - 1]) == t.name
    ensures var args := WorkerArgs(runDir, worker, t, isoDate);
      RealBaseName(cwd, args[|args| - 1]) ==
        if t.name == "." then "data" else if t.name == ".." then SlotName(worker) else t.name
  {
    BaseNameJoin(JoinPath(SlotDir(runDir, worker), "data"), t.name);
    RealBaseNameJoin(cwd, SlotDir(runDir, worker), "data", t.name);
    SlotNamePlain(worker);
    RealBaseNamePlain(cwd, runDir, SlotName(worker));
  }

  /** What the consolidation pass reads back from a worker's arguments: the keyword
      any task made for it was made from, provided the keyword holds no `_` (and the
      task name no `/`). An undated keyword `.` or `..` is read back as `data` or
      `weibospider`, the directories `realpath` resolves it to. */
  lemma KeywordFromArgs(cwd: String, runDir: String, worker: nat, keyword: String, dates: Option<Span>,
                        days: int, limits: Limits, isoDate: int -> String, t: Task)
    requires dates.Some? ==> days >= 1
    requires t in KeywordTasks(keyword, dates, days, limits, isoDate)
    requires '_' !in keyword && '/' !in t.name && t.name != ""
    ensures var args := WorkerArgs(runDir, worker, t, isoDate); KeywordOf(BaseName(args[|args| - 1])) == keyword
    ensures var args := WorkerArgs(runDir, worker, t, isoDate);
      KeywordOf(RealBaseName(cwd, args[|args| - 1])) ==
        if dates.None? && keyword == "." then "data"
        else if dates.None? && keyword == ".." then "weibospider"
        else keyword
  {
    TaskNameFromArgs(cwd, runDir, worker, t, isoDate);
    TaskOfKeyword(keyword, dates, days, limits, isoDate, t);
    SlotNamePlain(worker);
    KeywordOfTask("data", "");
  }

  /** A task made for a `_`-free keyword is filed under it, and only an undated task
      can be named `.` or `..`. */
  lemma TaskOfKeyword(keyword: String, dates: Option<Span>, days: int, limits: Limits,
                      isoDate: int -> String, t: Task)
    requires dates.Some? ==> days >= 1
    requires t in KeywordTasks(keyword, dates, days, limits, isoDate)
    requires '_' !in keyword
    ensures KeywordOf(t.name) == keyword
    ensures t.name in {".", ".."} ==> dates.None? && t.name == keyword
  {
    var ts := KeywordTasks(keyword, dates, days, limits, isoDate);
    if dates.Some? {
      var i :| 0 <= i < |ts| && ts[i] == t;
      var date := isoDate(Spans(dates.value.first, dates.value.last, days)[i].first);
      assert t.name == keyword + "_" + date;
      KeywordOfTask(keyword, date);
      assert t.name[|keyword|] == '_';
    } else {
      KeywordOfTask(keyword, "");
    }
  }

  // ---------------------------------------------------------------------------
  // Users and keywords

  function StripAll(lines: seq<String>): (r: seq<String>)
    ensures |r| == |lines|
    ensures forall i :: 0 <= i < |lines| ==> r[i] == Strip(lines[i])
  {
    seq(|lines|, i requires 0 <= i < |lines| => Strip(lines[i]))
  }

  /** `split_users`: the stripped lines of `users.txt`, first occurrence kept, chunked
      over the workers. */
  function SplitUsers(lines: seq<String>, maxWorkers: int): Result<Plan<String>> {
    Chunk(Distinct(StripAll(lines)), maxWorkers)
  }

  /** Every user id is crawled by exactly one worker, once, in first-seen order. */
  lemma SplitUsersPartition(lines: seq<String>, maxWorkers: int)
    requires |lines| > 0 && maxWorkers > 0
    ensures SplitUsers(lines, maxWorkers).Ok?
    ensures var ids := Flatten(SplitUsers(lines, maxWorkers).value.batches);
      && (forall i, j :: 0 <= i < j < |ids| ==> ids[i] != ids[j])
      && (forall u :: u in ids <==> u in StripAll(lines))
      && ids == Firsts(StripAll(lines), s => s, |lines|)
  {
    var d := Distinct(StripAll(lines));
    assert StripAll(lines)[0] in d;
    ChunkPartition(d, maxWorkers);
  }

  /** An empty `users.txt` aborts `split_users` with a division by zero. */
  lemma SplitUsersEmpty(maxWorkers: int)
    ensures SplitUsers([], maxWorkers) == Err(ZeroDivision)
  {
    assert StripAll([]) == [];
    assert Distinct([]) == [];
    ChunkEmpty<String>(maxWorkers);
  }

  /** The runner's keyword list: the stripped lines of the keywords file, first
      occurrence kept, joined with `,` on the command line and split on `,` again. */
  function RunnerKeywords(lines: seq<String>): seq<String> {
    Split(Join(Distinct(StripAll(lines)), ","), ",")
  }

  /** The round trip through the command line returns the deduplicated keywords when
      there is at least one and none holds a comma; an empty file yields one empty keyword. */
  lemma RunnerKeywordsRoundTrip(lines: seq<String>)
    requires forall i :: 0 <= i < |lines| ==> ',' !in Strip(lines[i])
    ensures |lines| > 0 ==> RunnerKeywords(lines) == Distinct(StripAll(lines))
    ensures |lines| == 0 ==> RunnerKeywords(lines) == [""]
  {
    var d := Distinct(StripAll(lines));
    if |lines| > 0 {
      assert StripAll(lines)[0] in d;
      forall k | 0 <= k < |d| ensures ',' !in d[k] {
        assert d[k] in StripAll(lines);
      }
      SplitJoin(d, ',');
    } else {
      assert StripAll(lines) == [];
      assert d == [];
      SplitJoinEmpty(',');
    }
  }
}

=== FILE: pipeline.dfy ===
/** The CSV item pipeline (`weibospider/pipelines.py`, `CSVPipeline`).

    Each spider's items go to one output file. The first item an output receives
    writes the item's keys as a header record before its values; every later item
    writes its values only. Nothing is deduplicated: every item is written and its
    `_id` remembered, repeats included. The fan and follower spiders share the
    relationships output and its header flag.

    An item is a dictionary in insertion order; its values are modelled as the text
    the CSV writer puts in the cell.
 */
module Pipeline {
  import opened Wrappers
  import opened Text
  import opened Table

  type Item = seq<(String, String)>

  function Keys(item: Item): Row {
    seq(|item|, i requires 0 <= i < |item| => item[i].0)
  }

  function Values(item: Item): Row {
    seq(|item|, i requires 0 <= i < |item| => item[i].1)
  }

  /** `item[key]`, `None` standing for the `KeyError` of a missing key. */
  function Lookup(item: Item, key: String): (r: Option<String>)
    ensures r.Some? <==> key in Keys(item)
    ensures r.Some? ==> exists i :: 0 <= i < |item| && item[i] == (key, r.value)
    decreases |item|
  {
    if |item| == 0 then None
    else if item[0].0 == key then
      assert Keys(item)[0] == key;
      Some(item[0].1)
    else
      var r := Lookup(item[1..], key);
      assert Keys(item) == [item[0].0] + Keys(item[1..]);
      r
  }

  /** The five output files. */
  datatype Sink = UsersCsv | TweetsCsv | CommentsCsv | RelationshipsCsv | RepostsCsv

  /** The output a spider's items go to; other spiders have none. */
  function SinkOf(spider: String): Option<Sink> {
    if spider == "comment_spider" then Some(CommentsCsv)
    else if spider == "fan_spider" then Some(RelationshipsCsv)
    else if spider == "follower_spider" then Some(RelationshipsCsv)
    else if spider == "user_spider" then Some(UsersCsv)
    else if spider == "tweet_spider" then Some(TweetsCsv)
    else if spider == "repost_spider" then Some(RepostsCsv)
    else None
  }

  /** One output: whether its header was written, the records written, the ids kept. */
  datatype Output = Output(head: bool, rows: seq<Row>, ids: seq<String>)

  datatype State = State(users: Output, tweets: Output, comments: Output,
                         relationships: Output, reposts: Output)
  {
    function Get(k: Sink): Output {
      match k
      case UsersCsv => users
      case TweetsCsv => tweets
      case CommentsCsv => comments
      case RelationshipsCsv => relationships
      case RepostsCsv => reposts
    }

    function Set(k: Sink, o: Output): (st: State)
      ensures st.Get(k) == o
      ensures forall j :: j != k ==> st.Get(j) == Get(j)
    {
      match k
      case UsersCsv => this.(users := o)
      case TweetsCsv => this.(tweets := o)
      case CommentsCsv => this.(comments := o)
      case RelationshipsCsv => this.(relationships := o)
      case RepostsCsv => this.(reposts := o)
    }
  }

  /** `__init__`: every file freshly truncated, no header written, no id kept. */
  const Init: State := State(Output(false, [], []), Output(false, [], []), Output(false, [], []),
                             Output(false, [], []), Output(false, [], []))

  /** Writing one item to an output: the header first if it has none yet, then the
      values; the `_id` lookup comes after the write, so an item without one is
      written and then raises. */
  function Write(o: Output, item: Item): (r: (Output, Result<Item>))
    ensures r.0.head
    ensures r.1.Ok? <==> "_id" in Keys(item)
  {
    var rows := (if o.head then o.rows else o.rows + [Keys(item)]) + [Values(item)];
    match Lookup(item, "_id")
    case None => (Output(true, rows, o.ids), Err(KeyError))
    case Some(id) => (Output(true, rows, o.ids + [id]), Ok(item))
  }

  /** `process_item`: the new pipeline state and what the call returns. */
  function Process(st: State, spider: String, item: Item): (r: (State, Result<Item>))
    ensures SinkOf(spider).None? ==> r == (st, Ok(item))
    ensures SinkOf(spider).Some? ==>
      forall k :: k != SinkOf(spider).value ==> r.0.Get(k) == st.Get(k)
    ensures SinkOf(spider).Some? ==> r.0.Get(SinkOf(spider).value).head
    ensures SinkOf(spider).Some? ==> (r.1.Ok? <==> "_id" in Keys(item))
    ensures r.1.Ok? ==> r.1.value == item
  {
    match SinkOf(spider)
    case None => (st, Ok(item))
    case Some(k) =>
      var w := Write(st.Get(k), item);
      (st.Set(k, w.0), w.1)
  }

  /** The pipeline over a crawl's items, in the order the spiders yield them; an item
      that raises is logged and the crawl goes on. */
  function ProcessAll(st: State, events: seq<(String, Item)>): State
    decreases |events|
  {
    if |events| == 0 then st
    else ProcessAll(Process(st, events[0].0, events[0].1).0, events[1..])
  }

  /** Reference definition: the items bound for output `k`, in order. */
  function Routed(events: seq<(String, Item)>, k: Sink): (r: seq<Item>)
    ensures |r| <= |events|
    decreases |events|
  {
    if |events| == 0 then []
    else (if SinkOf(events[0].0) == Some(k) then [events[0].1] else []) + Routed(events[1..], k)
  }

  function ValueRows(items: seq<Item>): (r: seq<Row>)
    ensures |r| == |items|
    ensures forall i :: 0 <= i < |items| ==> r[i] == Values(items[i])
  {
    seq(|items|, i requires 0 <= i < |items| => Values(items[i]))
  }

  /** Reference definition: the `_id`s of the items that have one, in order. */
  function Ids(items: seq<Item>): seq<String>
    decreases |items|
  {
    if |items| == 0 then []
    else IdOf(items[0]) + Ids(items[1..])
  }

  /** The `_id`s an item contributes: its own, if it has one. */
  function IdOf(item: Item): seq<String> {
    match Lookup(item, "_id")
    case None => []
    case Some(id) => [id]
  }

  lemma IdsCons(item: Item, rest: seq<Item>)
    ensures Ids([item] + rest) == IdOf(item) + Ids(rest)
  {
    assert ([item] + rest)[1..] == rest;
  }

  /** One step touches only the output the spider's items go to. */
  lemma ProcessStep(st: State, spider: String, item: Item, k: Sink)
    ensures var o := Process(st, spider, item).0.Get(k);
      if SinkOf(spider) == Some(k) then
        && o.head
        && o.rows == (if st.Get(k).head then st.Get(k).rows else st.Get(k).rows + [Keys(item)]) + [Values(item)]
        && o.ids == st.Get(k).ids + IdOf(item)
      else o == st.Get(k)
  {
  }

  /** What an output holds after a run of items, from any state: the header of the
      first item bound for it if it had none, then one values record per item and
      the `_id` of every item that has one, duplicates included. */
  lemma ProcessAllOutput(st: State, events: seq<(String, Item)>, k: Sink)
    ensures var o := ProcessAll(st, events).Get(k);
      var items := Routed(events, k);
      && o.head == (st.Get(k).head || |items| > 0)
      && o.rows == (if !st.Get(k).head && |items| > 0 then st.Get(k).rows + [Keys(items[0])]
                    else st.Get(k).rows) + ValueRows(items)
      && o.ids == st.Get(k).ids + Ids(items)
  {
    ProcessAllAfter(st, events, k);
  }

  /** Reference definition: what output `o` holds once `items` are written to it. */
  function After(o: Output, items: seq<Item>): Output {
    Output(o.head || |items| > 0,
           (if !o.head && |items| > 0 then o.rows + [Keys(items[0])] else o.rows) + ValueRows(items),
           o.ids + Ids(items))
  }

  /** Writing one item, then the rest, is writing them all. */
  lemma AfterCons(o: Output, item: Item, rest: seq<Item>)
    ensures After(Write(o, item).0, rest) == After(o, [item] + rest)
  {
    var w := Write(o, item).0;
    assert w.head && w.rows == (if o.head then o.rows else o.rows + [Keys(item)]) + [Values(item)];
    AfterConsRows(o, w, item, rest);
    AfterConsIds(o, item, rest);
  }

  lemma AfterConsRows(o: Output, w: Output, item: Item, rest: seq<Item>)
    requires w.head && w.rows == (if o.head then o.rows else o.rows + [Keys(item)]) + [Values(item)]
    ensures After(w, rest).rows == After(o, [item] + rest).rows
  {
    var items := [item] + rest;
    var a := if o.head then o.rows else o.rows + [Keys(item)];
    ValueRowsCons(item, rest);
    AppendAssoc(a, Values(item), ValueRows(rest));
    assert items[0] == item;
  }

  lemma ValueRowsCons(item: Item, rest: seq<Item>)
    ensures ValueRows([item] + rest) == [Values(item)] + ValueRows(rest)
  {
    var l, r := ValueRows([item] + rest), [Values(item)] + ValueRows(rest);
    assert |l| == |r|;
    forall i | 0 <= i < |l|
      ensures l[i] == r[i]
    {
      if i > 0 {
        assert ([item] + rest)[i] == rest[i - 1];
      }
    }
  }

  lemma AppendAssoc<T>(a: seq<T>, v: T, vr: seq<T>)
    ensures (a + [v]) + vr == a + ([v] + vr)
  {
  }

  lemma AfterConsIds(o: Output, item: Item, rest: seq<Item>)
    ensures After(Write(o, item).0, rest).ids == After(o, [item] + rest).ids
  {
    assert Write(o, item).0.ids == o.ids + IdOf(item);
    IdsCons(item, rest);
  }

  /** A run of the pipeline leaves each output as if the items bound for it had
      been written to it in one go. */
  lemma {:induction false} ProcessAllAfter(st: State, events: seq<(String, Item)>, k: Sink)
    ensures ProcessAll(st, events).Get(k) == After(st.Get(k), Routed(events, k))
    decreases |events|
  {
    if |events| == 0 {
      assert ValueRows([]) == [];
    } else {
      var next := Process(st, events[0].0, events[0].1).0;
      assert ProcessAll(st, events) == ProcessAll(next, events[1..]);
      ProcessAllAfter(next, events[1..], k);
      var rest := Routed(events[1..], k);
      if SinkOf(events[0].0) == Some(k) {
        var item := events[0].1;
        assert next.Get(k) == Write(st.Get(k), item).0;
        assert Routed(events, k) == [item] + rest;
        AfterCons(st.Get(k), item, rest);
      } else {
        assert next.Get(k) == st.Get(k);
        assert Routed(events, k) == rest;
      }
    }
  }

  /** From a fresh pipeline, an output that received items holds exactly one header,
      the keys of the first of them, followed by every item's values. */
  lemma HeaderOnce(events: seq<(String, Item)>, k: Sink)
    ensures var o := ProcessAll(Init, events).Get(k);
      var items := Routed(events, k);
      && (|items| == 0 ==> o == Output(false, [], []))
      && (|items| > 0 ==> o.head && o.rows == [Keys(items[0])] + ValueRows(items))
      && o.ids == Ids(items)
  {
    ProcessAllAfter(Init, events, k);
  }

  /** The fan and follower spiders fill one file under a single header: that of
      whichever item came first. */
  lemma SharedRelationshipsHeader(fan: Item, follower: Item)
    ensures ProcessAll(Init, [("fan_spider", fan), ("follower_spider", follower)]).relationships.rows
      == [Keys(fan), Values(fan), Values(follower)]
    ensures ProcessAll(Init, [("follower_spider", follower), ("fan_spider", fan)]).relationships.rows
      == [Keys(follower), Values(follower), Values(fan)]
  {
    ProcessAllOutput(Init, [("fan_spider", fan), ("follower_spider", follower)], RelationshipsCsv);
    ProcessAllOutput(Init, [("follower_spider", follower), ("fan_spider", fan)], RelationshipsCsv);
  }

  /** Items from spiders the pipeline does not know leave it as it was. */
  lemma UnknownSpidersIgnored(st: State, events: seq<(String, Item)>)
    requires forall i :: 0 <= i < |events| ==> SinkOf(events[i].0).None?
    ensures ProcessAll(st, events) == st
    decreases |events|
  {
    if |events| > 0 {
      UnknownSpidersIgnored(st, events[1..]);
    }
  }
}

=== FILE: spider_run.dfy ===
/** One crawl task (`run_weibo_spider.py`).

    For every comma-separated keyword the task crawls the keyword's tweets, keeps
    those that reach the like, repost and comment thresholds (the first record of
    each tweet id), sorts them by those counts and writes them; then it crawls the
    comments of every kept tweet, keeps the first record of each comment id, sorts
    them by likes and writes them. The ids of every user met along the way (authors
    of kept tweets and of all comments) are gathered in first-seen order into
    `users.txt`.

    The crawls themselves are subprocesses; here the file a crawl leaves behind is
    a function of the crawl's argument.
 */
module SpiderRun {
  import opened Wrappers
  import opened Text
  import opened Table
  import opened Partition
  import opened Consolidate

  /** A crawl subprocess the task starts, in order. */
  datatype Crawl = TweetCrawl(keyword: String) | CommentCrawl(tweetId: String)

  /** The columns the tweet pass reads as integers: likes, reposts, comments. */
  const CountCols: seq<nat> := [5, 6, 7]

  function UserOf(row: Row): String {
    Cell(row, 1)
  }

  function TweetIdOf(row: Row): String {
    Cell(row, 2)
  }

  function CommentIdOf(row: Row): String {
    Cell(row, 3)
  }

  /** A tweet record reaches every threshold. */
  predicate Passes(row: Row, limits: Limits) {
    var counts := IntCells(row, CountCols);
    counts[0] >= limits.like && counts[1] >= limits.repost && counts[2] >= limits.comment
  }

  /** The records that reach the thresholds, in order. */
  function Passing(rows: seq<Row>, limits: Limits): (r: seq<Row>)
    ensures forall x :: x in r ==> x in rows && Passes(x, limits)
    ensures forall i :: 0 <= i < |rows| && Passes(rows[i], limits) ==> rows[i] in r
    decreases |rows|
  {
    if |rows| == 0 then []
    else
      var init := rows[..|rows| - 1];
      assert forall i :: 0 <= i < |init| ==> rows[i] == init[i];
      Passing(init, limits) + (if Passes(rows[|rows| - 1], limits) then [rows[|rows| - 1]] else [])
  }

  // ---------------------------------------------------------------------------
  // The tweet pass
  // ---------------------------------------------------------------------------

  /** The loop state: `tweet_ids`, `tweets` and `user_ids`. */
  datatype TweetState = TweetState(ids: seq<String>, kept: seq<Row>, users: seq<String>)

  /** The loop over a tweets file's records (header excluded), starting from the
      user ids gathered so far. A record whose counts cannot be read raises. */
  function TweetPass(rows: seq<Row>, limits: Limits, users: seq<String>): (r: Result<TweetState>)
    ensures r.Ok? <==> forall i :: 0 <= i < |rows| ==> CellsFault(rows[i], CountCols).None?
    decreases |rows|
  {
    if |rows| == 0 then Ok(TweetState([], [], users))
    else
      var row := rows[|rows| - 1];
      var st :- TweetPass(rows[..|rows| - 1], limits, users);
      match CellsFault(row, CountCols)
      case Some(f) => Err(f)
      case None =>
        if !Passes(row, limits) then Ok(st)
        else
          var users' := AppendNew(st.users, UserOf(row));
          if TweetIdOf(row) in st.ids then Ok(TweetState(st.ids, st.kept, users'))
          else Ok(TweetState(st.ids + [TweetIdOf(row)], st.kept + [row], users'))
  }

  /** What the tweet pass computes: the first record of each tweet id among those
      reaching the thresholds, their ids, and the authors of all of those records
      appended to the user ids when new. */
  lemma TweetPassMeaning(rows: seq<Row>, limits: Limits, users: seq<String>)
    requires TweetPass(rows, limits, users).Ok?
    ensures var st := TweetPass(rows, limits, users).value;
      && st.kept == FirstWins(Passing(rows, limits), TweetIdOf)
      && st.ids == KeySeq(st.kept, TweetIdOf)
      && st.users == AppendAll(users, KeySeq(Passing(rows, limits), UserOf))
  {
    TweetPassKept(rows, limits, users);
    TweetPassUsers(rows, limits, users);
  }

  /** One more record: the pass over the others succeeded, and the record is added
      as the loop body says. */
  lemma TweetPassStep(rows: seq<Row>, limits: Limits, users: seq<String>)
    requires |rows| > 0 && TweetPass(rows, limits, users).Ok?
    ensures var row := rows[|rows| - 1];
      var prev := TweetPass(rows[..|rows| - 1], limits, users);
      var st := TweetPass(rows, limits, users).value;
      && prev.Ok?
      && (!Passes(row, limits) ==> st == prev.value)
      && (Passes(row, limits) ==> st.users == AppendNew(prev.value.users, UserOf(row)))
      && (Passes(row, limits) && TweetIdOf(row) in prev.value.ids ==>
            st.ids == prev.value.ids && st.kept == prev.value.kept)
      && (Passes(row, limits) && TweetIdOf(row) !in prev.value.ids ==>
            st.ids == prev.value.ids + [TweetIdOf(row)] && st.kept == prev.value.kept + [row])
  {
  }

  /** The records a pass over `rows` sees reach the thresholds: those of the others,
      then the last one if it passes. */
  lemma PassingSnoc(rows: seq<Row>, limits: Limits)
    requires |rows| > 0
    ensures Passing(rows, limits) == Passing(rows[..|rows| - 1], limits)
      + (if Passes(rows[|rows| - 1], limits) then [rows[|rows| - 1]] else [])
  {
  }

  lemma {:induction false} TweetPassKept(rows: seq<Row>, limits: Limits, users: seq<String>)
    requires TweetPass(rows, limits, users).Ok?
    ensures var st := TweetPass(rows, limits, users).value;
      && st.kept == FirstWins(Passing(rows, limits), TweetIdOf)
      && st.ids == KeySeq(st.kept, TweetIdOf)
    decreases |rows|
  {
    if |rows| > 0 {
      var init := rows[..|rows| - 1];
      var row := rows[|rows| - 1];
      TweetPassStep(rows, limits, users);
      TweetPassKept(init, limits, users);
      PassingSnoc(rows, limits);
      var st := TweetPass(init, limits, users).value;
      var st' := TweetPass(rows, limits, users).value;
      var p := Passing(init, limits);
      if Passes(row, limits) {
        assert Passing(rows, limits) == p + [row];
        FirstWinsSnoc(p, row, TweetIdOf);
        if TweetIdOf(row) in st.ids {
          assert st'.kept == st.kept;
          assert st'.ids == st.ids;
        } else {
          assert st'.kept == st.kept + [row];
          KeySeqSnoc(st.kept, row, TweetIdOf);
        }
      } else {
        assert Passing(rows, limits) == p;
      }
    }
  }

  lemma {:induction false} TweetPassUsers(rows: seq<Row>, limits: Limits, users: seq<String>)
    requires TweetPass(rows, limits, users).Ok?
    ensures TweetPass(rows, limits, users).value.users == AppendAll(users, KeySeq(Passing(rows, limits), UserOf))
    decreases |rows|
  {
    if |rows| > 0 {
      var init := rows[..|rows| - 1];
      var row := rows[|rows| - 1];
      TweetPassStep(rows, limits, users);
      TweetPassUsers(init, limits, users);
      PassingSnoc(rows, limits);
      var p := Passing(init, limits);
      if Passes(row, limits) {
        var ks := KeySeq(p + [row], UserOf);
        assert ks == KeySeq(p, UserOf) + [UserOf(row)];
        assert ks[..|ks| - 1] == KeySeq(p, UserOf);
      } else {
        assert Passing(rows, limits) == p;
      }
    }
  }

  /** Kept tweets are unique by id, reach the thresholds, and every record that
      reaches them has its id kept. */
  lemma TweetPassKeeps(rows: seq<Row>, limits: Limits, users: seq<String>)
    requires TweetPass(rows, limits, users).Ok?
    ensures var st := TweetPass(rows, limits, users).value;
      && UniqueKeys(st.kept, TweetIdOf)
      && (forall i, j :: 0 <= i < j < |st.ids| ==> st.ids[i] != st.ids[j])
      && (forall j :: 0 <= j < |st.kept| ==> st.kept[j] in rows && Passes(st.kept[j], limits))
      && (forall i :: 0 <= i < |rows| && Passes(rows[i], limits) ==> TweetIdOf(rows[i]) in st.ids)
  {
    TweetPassMeaning(rows, limits, users);
    var st := TweetPass(rows, limits, users).value;
    var p := Passing(rows, limits);
    forall i | 0 <= i < |rows| && Passes(rows[i], limits)
      ensures TweetIdOf(rows[i]) in st.ids
    {
      var k :| 0 <= k < |p| && p[k] == rows[i];
      assert KeySeq(p, TweetIdOf)[k] == TweetIdOf(rows[i]);
    }
    forall j | 0 <= j < |st.kept|
      ensures st.kept[j] in rows && Passes(st.kept[j], limits)
    {
      assert st.kept[j] in p;
    }
  }

  /** The tweets written for a keyword: none when nothing was kept, otherwise the
      header and the kept tweets by likes, reposts and comments, descending. */
  function TweetsOut(header: Row, kept: seq<Row>): (r: Option<seq<Row>>)
    requires forall j :: 0 <= j < |kept| ==> CellsFault(kept[j], CountCols).None?
    ensures r.None? <==> |kept| == 0
    ensures r.Some? ==> |r.value| == |kept| + 1 && r.value[0] == header
    ensures r.Some? ==> multiset(r.value[1..]) == multiset(kept)
    ensures r.Some? ==> SortedDesc(r.value[1..], row => IntCells(row, CountCols))
    ensures r.Some? ==> KeepsTies(r.value[1..], kept, row => IntCells(row, CountCols))
  {
    if |kept| == 0 then None
    else
      KeysFaultSome(kept, CountCols);
      var sorted := SortRows(kept, CountCols).value;
      assert |sorted| == |multiset(sorted)| == |multiset(kept)| == |kept|;
      assert ([header] + sorted)[1..] == sorted;
      Some([header] + sorted)
  }

  // ---------------------------------------------------------------------------
  // The comment pass
  // ---------------------------------------------------------------------------

  /** The loop over a comments file's records (header excluded): the first record of
      each comment id is kept, every author is gathered; a record without a comment
      id column raises. */
  function CommentPass(rows: seq<Row>, users: seq<String>): (r: Result<(seq<Row>, seq<String>)>)
    ensures r.Ok? <==> forall i :: 0 <= i < |rows| ==> |rows[i]| >= 4
    decreases |rows|
  {
    if |rows| == 0 then Ok(([], users))
    else
      var row := rows[|rows| - 1];
      var st :- CommentPass(rows[..|rows| - 1], users);
      if |row| < 4 then Err(IndexError)
      else
        var kept := if CommentIdOf(row) in KeySeq(st.0, CommentIdOf) then st.0 else st.0 + [row];
        Ok((kept, AppendNew(st.1, UserOf(row))))
  }

  /** What the comment pass computes: the first record of each comment id, and the
      authors of every record appended to the user ids when new. */
  lemma CommentPassMeaning(rows: seq<Row>, users: seq<String>)
    requires CommentPass(rows, users).Ok?
    ensures CommentPass(rows, users).value.0 == FirstWins(rows, CommentIdOf)
    ensures CommentPass(rows, users).value.1 == AppendAll(users, KeySeq(rows, UserOf))
  {
    CommentPassKept(rows, users);
    CommentPassUsers(rows, users);
  }

  lemma {:induction false} CommentPassKept(rows: seq<Row>, users: seq<String>)
    requires CommentPass(rows, users).Ok?
    ensures CommentPass(rows, users).value.0 == FirstWins(rows, CommentIdOf)
    decreases |rows|
  {
    if |rows| > 0 {
      var init := rows[..|rows| - 1];
      var row := rows[|rows| - 1];
      CommentPassStep(rows, users);
      CommentPassKept(init, users);
      assert rows == init + [row];
      FirstWinsSnoc(init, row, CommentIdOf);
    }
  }

  lemma {:induction false} CommentPassUsers(rows: seq<Row>, users: seq<String>)
    requires CommentPass(rows, users).Ok?
    ensures CommentPass(rows, users).value.1 == AppendAll(users, KeySeq(rows, UserOf))
    decreases |rows|
  {
    if |rows| > 0 {
      var init := rows[..|rows| - 1];
      CommentPassStep(rows, users);
      CommentPassUsers(init, users);
      var ks := KeySeq(rows, UserOf);
      assert ks[..|ks| - 1] == KeySeq(init, UserOf);
    }
  }

  /** One more record: the pass over the others succeeded and the record is added as
      the loop body says. */
  lemma CommentPassStep(rows: seq<Row>, users: seq<String>)
    requires |rows| > 0 && CommentPass(rows, users).Ok?
    ensures var row := rows[|rows| - 1];
      var prev := CommentPass(rows[..|rows| - 1], users);
      var st := CommentPass(rows, users).value;
      && prev.Ok?
      && st.0 == (if CommentIdOf(row) in KeySeq(prev.value.0, CommentIdOf) then prev.value.0 else prev.value.0 + [row])
      && st.1 == AppendNew(prev.value.1, UserOf(row))
  {
  }

  /** The comments written for a tweet: none when there are none, otherwise the
      header and the comments by likes, descending; a bad likes cell raises. */
  function CommentsOut(header: Row, kept: seq<Row>): (r: Result<Option<seq<Row>>>)
    ensures |kept| == 0 ==> r == Ok(None)
    ensures |kept| > 0 ==> (r.Ok? <==> KeysFault(kept, [4]).None?)
    ensures r.Ok? && r.value.Some? ==> |r.value.value| == |kept| + 1 && r.value.value[0] == header
    ensures r.Ok? && r.value.Some? ==> multiset(r.value.value[1..]) == multiset(kept)
    ensures r.Ok? && r.value.Some? ==> SortedDesc(r.value.value[1..], row => IntCells(row, [4]))
    ensures r.Ok? && r.value.Some? ==> KeepsTies(r.value.value[1..], kept, row => IntCells(row, [4]))
  {
    if |kept| == 0 then Ok(None)
    else
      var sorted :- SortRows(kept, [4]);
      assert |sorted| == |multiset(sorted)| == |multiset(kept)| == |kept|;
      assert ([header] + sorted)[1..] == sorted;
      Ok(Some([header] + sorted))
  }

  // ---------------------------------------------------------------------------
  // A keyword
  // ---------------------------------------------------------------------------

  /** What a keyword leaves in its directory: `tweets.csv` when a tweet was kept, and
      `comments/<tweet id>.csv` for each kept tweet with comments. */
  datatype KeywordOut = KeywordOut(keyword: String, tweets: Option<seq<Row>>, comments: seq<(String, seq<Row>)>)

  /** The comment crawls of a keyword's kept tweets, in order, threading the user
      ids: each crawl's file is read, filtered and, when not empty, written under
      the tweet's id. */
  function CommentRuns(ids: seq<String>, commentsOf: String -> CsvFile, users: seq<String>)
    : (r: Result<(seq<(String, seq<Row>)>, seq<String>)>)
    ensures r.Ok? ==> forall j :: 0 <= j < |r.value.0| ==> r.value.0[j].0 in ids
    ensures (exists i :: 0 <= i < |ids| && commentsOf(ids[i]).Missing?) ==> r.Err?
    decreases |ids|
  {
    if |ids| == 0 then Ok(([], users))
    else
      var file := commentsOf(ids[0]);
      if file.Missing? then Err(FileNotFound)
      else
        var pass :- CommentPass(Body(file), users);
        var out :- CommentsOut(Head(file), pass.0);
        var rest :- CommentRuns(ids[1..], commentsOf, pass.1);
        var head := if out.Some? then [(ids[0], out.value)] else [];
        NamedAfterIds(ids, head, rest.0);
        NoneMissing(ids, commentsOf);
        Ok((head + rest.0, rest.1))
  }

  /** Files named after the first id, then files named after the others, are all
      named after some id. */
  lemma NamedAfterIds(ids: seq<String>, head: seq<(String, seq<Row>)>, rest: seq<(String, seq<Row>)>)
    requires |ids| > 0 && forall j :: 0 <= j < |head| ==> head[j].0 == ids[0]
    requires forall j :: 0 <= j < |rest| ==> rest[j].0 in ids[1..]
    ensures forall j :: 0 <= j < |head + rest| ==> (head + rest)[j].0 in ids
  {
    forall j | 0 <= j < |head + rest|
      ensures (head + rest)[j].0 in ids
    {
      if j >= |head| {
        assert (head + rest)[j] == rest[j - |head|];
      }
    }
  }

  /** No crawl output is missing if neither the first nor any later one is. */
  lemma NoneMissing(ids: seq<String>, commentsOf: String -> CsvFile)
    requires |ids| > 0 && !commentsOf(ids[0]).Missing?
    requires !exists i :: 0 <= i < |ids[1..]| && commentsOf(ids[1..][i]).Missing?
    ensures !exists i :: 0 <= i < |ids| && commentsOf(ids[i]).Missing?
  {
    forall i | 0 < i < |ids|
      ensures !commentsOf(ids[i]).Missing?
    {
      assert ids[i] == ids[1..][i - 1];
    }
  }

  /** The header record of a file (`None` in the source when the file is empty,
      which is then never written). */
  function Head(f: CsvFile): Row {
    if f.Present? && |f.rows| > 0 then f.rows[0] else []
  }

  /** Reference definition: the authors of every comment record of the given tweets,
      in crawl order. */
  function CommentUsers(ids: seq<String>, commentsOf: String -> CsvFile): seq<String>
    decreases |ids|
  {
    if |ids| == 0 then []
    else KeySeq(Body(commentsOf(ids[0])), UserOf) + CommentUsers(ids[1..], commentsOf)
  }

  /** The comment crawls add the authors of all their records, each when new. */
  lemma {:induction false} CommentRunsUsers(ids: seq<String>, commentsOf: String -> CsvFile, users: seq<String>)
    requires CommentRuns(ids, commentsOf, users).Ok?
    ensures CommentRuns(ids, commentsOf, users).value.1 == AppendAll(users, CommentUsers(ids, commentsOf))
    decreases |ids|
  {
    if |ids| > 0 {
      var file := commentsOf(ids[0]);
      CommentPassMeaning(Body(file), users);
      var pass := CommentPass(Body(file), users).value;
      CommentRunsUsers(ids[1..], commentsOf, pass.1);
      AppendAllConcat(users, KeySeq(Body(file), UserOf), CommentUsers(ids[1..], commentsOf));
    }
  }

  /** The comment files written: one per kept tweet with comments, under its id,
      holding the header and the first record of each comment id, by likes. */
  lemma {:induction false} CommentRunsFiles(ids: seq<String>, commentsOf: String -> CsvFile, users: seq<String>)
    requires CommentRuns(ids, commentsOf, users).Ok?
    ensures var files := CommentRuns(ids, commentsOf, users).value.0;
      forall j :: 0 <= j < |files| ==> CommentsFileOf(files[j], commentsOf)
    decreases |ids|
  {
    if |ids| > 0 {
      CommentRunsStep(ids, commentsOf, users);
      var file := commentsOf(ids[0]);
      var pass := CommentPass(Body(file), users).value;
      var out := CommentsOut(Head(file), pass.0).value;
      var rest := CommentRuns(ids[1..], commentsOf, pass.1).value;
      CommentRunsFiles(ids[1..], commentsOf, pass.1);
      var head := if out.Some? then [(ids[0], out.value)] else [];
      if out.Some? {
        FirstCommentsFile(ids[0], commentsOf, users);
      }
      CommentsFilesConcat(head, rest.0, commentsOf);
    }
  }

  /** The first crawl of a run of comment crawls, as the loop body performs it. */
  lemma CommentRunsStep(ids: seq<String>, commentsOf: String -> CsvFile, users: seq<String>)
    requires |ids| > 0 && CommentRuns(ids, commentsOf, users).Ok?
    ensures var file := commentsOf(ids[0]);
      && file.Present?
      && CommentPass(Body(file), users).Ok?
      && CommentsOut(Head(file), CommentPass(Body(file), users).value.0).Ok?
      && CommentRuns(ids[1..], commentsOf, CommentPass(Body(file), users).value.1).Ok?
      && var out := CommentsOut(Head(file), CommentPass(Body(file), users).value.0).value;
         CommentRuns(ids, commentsOf, users).value.0
           == (if out.Some? then [(ids[0], out.value)] else [])
              + CommentRuns(ids[1..], commentsOf, CommentPass(Body(file), users).value.1).value.0
  {
  }

  /** The file written for the first crawl, when it has comments. */
  lemma FirstCommentsFile(id: String, commentsOf: String -> CsvFile, users: seq<String>)
    requires commentsOf(id).Present? && CommentPass(Body(commentsOf(id)), users).Ok?
    requires CommentsOut(Head(commentsOf(id)), CommentPass(Body(commentsOf(id)), users).value.0).Ok?
    requires CommentsOut(Head(commentsOf(id)), CommentPass(Body(commentsOf(id)), users).value.0).value.Some?
    ensures CommentsFileOf((id, CommentsOut(Head(commentsOf(id)), CommentPass(Body(commentsOf(id)), users).value.0).value.value), commentsOf)
  {
    CommentPassKept(Body(commentsOf(id)), users);
  }

  /** A comments file as written for the tweet it is named after: the crawl's file
      exists, and the written file holds its header and then the first record of
      each comment id, by likes descending. */
  ghost predicate CommentsFileOf(entry: (String, seq<Row>), commentsOf: String -> CsvFile) {
    var file := commentsOf(entry.0);
    && file.Present?
    && |entry.1| == |FirstWins(Body(file), CommentIdOf)| + 1 >= 2
    && entry.1[0] == Head(file)
    && multiset(entry.1[1..]) == multiset(FirstWins(Body(file), CommentIdOf))
    && SortedDesc(entry.1[1..], row => IntCells(row, [4]))
  }

  lemma CommentsFilesConcat(a: seq<(String, seq<Row>)>, b: seq<(String, seq<Row>)>, commentsOf: String -> CsvFile)
    requires forall j :: 0 <= j < |a| ==> CommentsFileOf(a[j], commentsOf)
    requires forall j :: 0 <= j < |b| ==> CommentsFileOf(b[j], commentsOf)
    ensures forall j :: 0 <= j < |a + b| ==> CommentsFileOf((a + b)[j], commentsOf)
  {
    forall j | 0 <= j < |a + b|
      ensures CommentsFileOf((a + b)[j], commentsOf)
    {
      if j >= |a| {
        assert (a + b)[j] == b[j - |a|];
      }
    }
  }

  /** One keyword: crawl and filter its tweets, then crawl the comments of each kept
      tweet. The crawls started are the tweet crawl, then one comment crawl per kept
      tweet id in first-seen order. */
  function KeywordRun(keyword: String, limits: Limits, tweetsOf: String -> CsvFile,
                      commentsOf: String -> CsvFile, users: seq<String>)
    : (r: Result<(KeywordOut, seq<Crawl>, seq<String>)>)
    ensures tweetsOf(keyword).Missing? ==> r == Err(FileNotFound)
    ensures r.Ok? ==> r.value.0.keyword == keyword
    ensures r.Ok? ==> |r.value.1| >= 1 && r.value.1[0] == TweetCrawl(keyword)
  {
    var file := tweetsOf(keyword);
    if file.Missing? then Err(FileNotFound)
    else
      var st :- TweetPass(Body(file), limits, users);
      KeptCountsReadable(Body(file), limits, users);
      var tweets := TweetsOut(Head(file), st.kept);
      var comments :- CommentRuns(st.ids, commentsOf, st.users);
      Ok((KeywordOut(keyword, tweets, comments.0), [TweetCrawl(keyword)] + CommentCrawls(st.ids), comments.1))
  }

  /** One comment crawl per tweet id, in order. */
  function CommentCrawls(ids: seq<String>): (r: seq<Crawl>)
    ensures |r| == |ids|
    ensures forall i :: 0 <= i < |ids| ==> r[i] == CommentCrawl(ids[i])
  {
    seq(|ids|, i requires 0 <= i < |ids| => CommentCrawl(ids[i]))
  }

  lemma KeptCountsReadable(rows: seq<Row>, limits: Limits, users: seq<String>)
    requires TweetPass(rows, limits, users).Ok?
    ensures var kept := TweetPass(rows, limits, users).value.kept;
      forall j :: 0 <= j < |kept| ==> CellsFault(kept[j], CountCols).None?
  {
    TweetPassMeaning(rows, limits, users);
    var kept := TweetPass(rows, limits, users).value.kept;
    forall j | 0 <= j < |kept|
      ensures CellsFault(kept[j], CountCols).None?
    {
      assert kept[j] in Passing(rows, limits);
    }
  }

  /** Reference definition: the user ids a keyword's crawl reads, in reading order
      (authors of tweets that reach the thresholds, then comment authors). */
  function KeywordUsers(keyword: String, limits: Limits, tweetsOf: String -> CsvFile,
                        commentsOf: String -> CsvFile): seq<String>
  {
    var passing := Passing(Body(tweetsOf(keyword)), limits);
    KeySeq(passing, UserOf) + CommentUsers(KeySeq(FirstWins(passing, TweetIdOf), TweetIdOf), commentsOf)
  }

  lemma KeywordRunUsers(keyword: String, limits: Limits, tweetsOf: String -> CsvFile,
                        commentsOf: String -> CsvFile, users: seq<String>)
    requires KeywordRun(keyword, limits, tweetsOf, commentsOf, users).Ok?
    ensures KeywordRun(keyword, limits, tweetsOf, commentsOf, users).value.2 ==
      AppendAll(users, KeywordUsers(keyword, limits, tweetsOf, commentsOf))
  {
    var rows := Body(tweetsOf(keyword));
    TweetPassMeaning(rows, limits, users);
    var st := TweetPass(rows, limits, users).value;
    CommentRunsUsers(st.ids, commentsOf, st.users);
    AppendAllConcat(users, KeySeq(Passing(rows, limits), UserOf), CommentUsers(st.ids, commentsOf));
  }

  /** The tweets a keyword writes: nothing when no record reaches the thresholds,
      otherwise the header and the first record of each tweet id among those that
      do, by likes, reposts and comments. */
  lemma KeywordRunTweets(keyword: String, limits: Limits, tweetsOf: String -> CsvFile,
                         commentsOf: String -> CsvFile, users: seq<String>)
    requires KeywordRun(keyword, limits, tweetsOf, commentsOf, users).Ok?
    ensures var tweets := KeywordRun(keyword, limits, tweetsOf, commentsOf, users).value.0.tweets;
      var passing := Passing(Body(tweetsOf(keyword)), limits);
      && (tweets.None? <==> |passing| == 0)
      && (tweets.Some? ==> multiset(tweets.value[1..]) == multiset(FirstWins(passing, TweetIdOf)))
      && (tweets.Some? ==> SortedDesc(tweets.value[1..], row => IntCells(row, CountCols)))
  {
    var rows := Body(tweetsOf(keyword));
    TweetPassMeaning(rows, limits, users);
    var passing := Passing(rows, limits);
    if |passing| > 0 {
      assert passing[0] in FirstWins(passing, TweetIdOf) by {
        FirstWinsKeeps(passing, TweetIdOf, 0);
      }
    }
  }

  /** The comment crawls of a keyword are its kept tweet ids, once each, and every
      record that reaches the thresholds has its id's comments crawled. */
  lemma CommentCrawlsOnce(keyword: String, limits: Limits, tweetsOf: String -> CsvFile,
                          commentsOf: String -> CsvFile, users: seq<String>)
    requires KeywordRun(keyword, limits, tweetsOf, commentsOf, users).Ok?
    ensures var crawls := KeywordRun(keyword, limits, tweetsOf, commentsOf, users).value.1;
      && (forall i, j :: 1 <= i < j < |crawls| ==> crawls[i] != crawls[j])
      && (forall i :: 1 <= i < |crawls| ==> crawls[i].CommentCrawl?)
      && (forall row :: row in Body(tweetsOf(keyword)) && Passes(row, limits) ==>
            CommentCrawl(TweetIdOf(row)) in crawls)
  {
    var rows := Body(tweetsOf(keyword));
    var st := TweetPass(rows, limits, users).value;
    TweetPassKeeps(rows, limits, users);
    var cs := CommentCrawls(st.ids);
    assert KeywordRun(keyword, limits, tweetsOf, commentsOf, users).value.1 == [TweetCrawl(keyword)] + cs;
    forall row | row in rows && Passes(row, limits)
      ensures CommentCrawl(TweetIdOf(row)) in cs
    {
      var i :| 0 <= i < |rows| && rows[i] == row;
      var k :| 0 <= k < |st.ids| && st.ids[k] == TweetIdOf(row);
      assert cs[k] == CommentCrawl(st.ids[k]);
    }
  }

  // ---------------------------------------------------------------------------
  // The whole task
  // ---------------------------------------------------------------------------

  /** What a task leaves behind: the keyword directories (in processing order), the
      crawls it started, and `users.txt`. */
  datatype RunOut = RunOut(keywords: seq<KeywordOut>, crawls: seq<Crawl>, usersText: String)

  function KeywordRuns(keywords: seq<String>, limits: Limits, tweetsOf: String -> CsvFile,
                       commentsOf: String -> CsvFile, users: seq<String>)
    : (r: Result<(seq<KeywordOut>, seq<Crawl>, seq<String>)>)
    ensures r.Ok? ==> |r.value.0| == |keywords|
    ensures r.Ok? ==> forall i :: 0 <= i < |keywords| ==> r.value.0[i].keyword == keywords[i]
    decreases |keywords|
  {
    if |keywords| == 0 then Ok(([], [], users))
    else
      var first :- KeywordRun(keywords[0], limits, tweetsOf, commentsOf, users);
      var rest :- KeywordRuns(keywords[1..], limits, tweetsOf, commentsOf, first.2);
      Ok(([first.0] + rest.0, first.1 + rest.1, rest.2))
  }

  /** Reference definition: every user id the task reads, in reading order. */
  function RunUsers(keywords: seq<String>, limits: Limits, tweetsOf: String -> CsvFile,
                    commentsOf: String -> CsvFile): seq<String>
    decreases |keywords|
  {
    if |keywords| == 0 then []
    else KeywordUsers(keywords[0], limits, tweetsOf, commentsOf) + RunUsers(keywords[1..], limits, tweetsOf, commentsOf)
  }

  lemma {:induction false} KeywordRunsUsers(keywords: seq<String>, limits: Limits, tweetsOf: String -> CsvFile,
                                            commentsOf: String -> CsvFile, users: seq<String>)
    requires KeywordRuns(keywords, limits, tweetsOf, commentsOf, users).Ok?
    ensures KeywordRuns(keywords, limits, tweetsOf, commentsOf, users).value.2 ==
      AppendAll(users, RunUsers(keywords, limits, tweetsOf, commentsOf))
    decreases |keywords|
  {
    if |keywords| > 0 {
      KeywordRunUsers(keywords[0], limits, tweetsOf, commentsOf, users);
      var first := KeywordRun(keywords[0], limits, tweetsOf, commentsOf, users).value;
      KeywordRunsUsers(keywords[1..], limits, tweetsOf, commentsOf, first.2);
      AppendAllConcat(users, KeywordUsers(keywords[0], limits, tweetsOf, commentsOf),
                      RunUsers(keywords[1..], limits, tweetsOf, commentsOf));
    }
  }

  /** The task: `--keywords` split on commas, each keyword run in turn, the user ids
      written one per line. */
  function RunTask(keywordsArg: String, limits: Limits, tweetsOf: String -> CsvFile,
                   commentsOf: String -> CsvFile): (r: Result<RunOut>)
    ensures r.Ok? ==> |r.value.keywords| == |Split(keywordsArg, ",")| >= 1
    ensures r.Ok? ==> forall i :: 0 <= i < |r.value.keywords| ==>
      r.value.keywords[i].keyword == Split(keywordsArg, ",")[i]
  {
    var keywords := Split(keywordsArg, ",");
    var runs :- KeywordRuns(keywords, limits, tweetsOf, commentsOf, []);
    Ok(RunOut(runs.0, runs.1, WriteLines(runs.2)))
  }

  /** `users.txt` lists every user id the task read, once, in first-seen order. */
  lemma RunUsersFirstSeen(keywordsArg: String, limits: Limits, tweetsOf: String -> CsvFile,
                          commentsOf: String -> CsvFile)
    requires RunTask(keywordsArg, limits, tweetsOf, commentsOf).Ok?
    ensures var users := KeywordRuns(Split(keywordsArg, ","), limits, tweetsOf, commentsOf, []).value.2;
      var seen := RunUsers(Split(keywordsArg, ","), limits, tweetsOf, commentsOf);
      && RunTask(keywordsArg, limits, tweetsOf, commentsOf).value.usersText == WriteLines(users)
      && users == FirstWins(seen, Itself)
      && (forall i, j :: 0 <= i < j < |users| ==> users[i] != users[j])
      && (forall u :: u in users <==> u in seen)
  {
    var keywords := Split(keywordsArg, ",");
    var seen := RunUsers(keywords, limits, tweetsOf, commentsOf);
    KeywordRunsUsers(keywords, limits, tweetsOf, commentsOf, []);
    assert FirstWins([], Itself) == [];
    AppendAllFirstWins([], seen);
    assert [] + seen == seen;
    var users := FirstWins(seen, Itself);
    KeySeqItself(users);
    KeySeqItself(seen);
  }
}

=== FILE: table.dfy ===
/** CSV rows and the two list operations every consolidation step of the pipeline
    repeats: keep the first row seen for each identifier, and sort rows in
    descending order of integer columns (Python's stable `list.sort(key=...,
    reverse=True)` with tuple keys).
 */
module Table {
  import opened Wrappers
  import opened Text

  /** One CSV record, cell by cell. */
  type Row = seq<String>

  // ---------------------------------------------------------------------------
  // First occurrence wins

  /** The keys of `xs`, position by position. */
  function KeySeq<T>(xs: seq<T>, key: T -> String): (ks: seq<String>)
    ensures |ks| == |xs|
    ensures forall i :: 0 <= i < |xs| ==> ks[i] == key(xs[i])
  {
    seq(|xs|, i requires 0 <= i < |xs| => key(xs[i]))
  }

  /** The keys of one more element: the keys so far, then its key. */
  lemma KeySeqSnoc<T>(xs: seq<T>, x: T, key: T -> String)
    ensures KeySeq(xs + [x], key) == KeySeq(xs, key) + [key(x)]
  {
  }

  /** No two elements share a key. */
  predicate UniqueKeys<T>(xs: seq<T>, key: T -> String) {
    forall i, j :: 0 <= i < j < |xs| ==> key(xs[i]) != key(xs[j])
  }

  /** `xs[i]` is the first element of `xs` with its key. */
  predicate IsFirst<T>(xs: seq<T>, key: T -> String, i: int)
    requires 0 <= i < |xs|
  {
    forall h :: 0 <= h < i ==> key(xs[h]) != key(xs[i])
  }

  /** The loop `if key(x) not in seen: seen.append(key(x)); out.append(x)` run over
      `xs`: the element kept for each key is the first one met. */
  function FirstWins<T>(xs: seq<T>, key: T -> String): (r: seq<T>)
    ensures UniqueKeys(r, key)
    ensures forall k :: k in KeySeq(r, key) <==> k in KeySeq(xs, key)
    ensures forall y :: y in r ==> y in xs
    ensures |r| <= |xs|
    decreases |xs|
  {
    if |xs| == 0 then []
    else
      var d := FirstWins(xs[..|xs| - 1], key);
      var x := xs[|xs| - 1];
      assert KeySeq(xs, key) == KeySeq(xs[..|xs| - 1], key) + [key(x)];
      if key(x) in KeySeq(d, key) then d
      else
        assert KeySeq(d + [x], key) == KeySeq(d, key) + [key(x)];
        assert forall i :: 0 <= i < |d| ==> key(d[i]) != key(x) by {
          forall i | 0 <= i < |d| ensures key(d[i]) != key(x) {
            assert KeySeq(d, key)[i] == key(d[i]);
          }
        }
        d + [x]
  }

  /** Appending an element: it is kept exactly when its key is new. */
  lemma FirstWinsSnoc<T>(xs: seq<T>, x: T, key: T -> String)
    ensures FirstWins(xs + [x], key) ==
      if key(x) in KeySeq(FirstWins(xs, key), key) then FirstWins(xs, key) else FirstWins(xs, key) + [x]
  {
    assert (xs + [x])[..|xs|] == xs;
  }

  /** The independent description of the same list: the elements of `xs[..n]` that
      no earlier element shares a key with, in their original order. */
  function Firsts<T>(xs: seq<T>, key: T -> String, n: nat): seq<T>
    requires n <= |xs|
  {
    if n == 0 then []
    else Firsts(xs, key, n - 1) + (if IsFirst(xs, key, n - 1) then [xs[n - 1]] else [])
  }

  /** The first-seen loop keeps exactly the first occurrence of every key, in order. */
  lemma {:induction false} FirstWinsIsFirsts<T>(xs: seq<T>, key: T -> String)
    ensures FirstWins(xs, key) == Firsts(xs, key, |xs|)
    decreases |xs|
  {
    if |xs| > 0 {
      var n := |xs| - 1;
      var p := xs[..n];
      FirstWinsIsFirsts(p, key);
      FirstsOfPrefix(xs, p, key, n);
      var x := xs[n];
      if IsFirst(xs, key, n) {
        assert key(x) !in KeySeq(p, key) by {
          forall h | 0 <= h < n ensures KeySeq(p, key)[h] != key(x) {
            assert p[h] == xs[h];
          }
        }
      } else {
        var h :| 0 <= h < n && key(xs[h]) == key(x);
        assert KeySeq(p, key)[h] == key(x);
      }
    }
  }

  lemma {:induction false} FirstsOfPrefix<T>(xs: seq<T>, p: seq<T>, key: T -> String, n: nat)
    requires n <= |p| <= |xs| && p == xs[..|p|]
    ensures Firsts(p, key, n) == Firsts(xs, key, n)
    decreases n
  {
    if n > 0 {
      FirstsOfPrefix(xs, p, key, n - 1);
      assert IsFirst(p, key, n - 1) == IsFirst(xs, key, n - 1) by {
        assert forall h :: 0 <= h < n ==> p[h] == xs[h];
      }
    }
  }

  /** An element survives first-wins exactly when no earlier element has its key. */
  lemma FirstWinsKeeps<T>(xs: seq<T>, key: T -> String, i: nat)
    requires i < |xs|
    ensures IsFirst(xs, key, i) ==> xs[i] in FirstWins(xs, key)
  {
    FirstWinsIsFirsts(xs, key);
    FirstsContains(xs, key, |xs|, i);
  }

  lemma {:induction false} FirstsContains<T>(xs: seq<T>, key: T -> String, n: nat, i: nat)
    requires i < n <= |xs|
    ensures IsFirst(xs, key, i) ==> xs[i] in Firsts(xs, key, n)
    decreases n
  {
    if i < n - 1 {
      FirstsContains(xs, key, n - 1, i);
    }
  }

  /** Every element kept by first-wins is the first of `xs` carrying its key. */
  lemma FirstWinsOrigin<T>(xs: seq<T>, key: T -> String, y: T)
    requires y in FirstWins(xs, key)
    ensures exists i :: 0 <= i < |xs| && xs[i] == y && IsFirst(xs, key, i)
  {
    FirstWinsIsFirsts(xs, key);
    FirstsOrigin(xs, key, |xs|, y);
  }

  lemma {:induction false} FirstsOrigin<T>(xs: seq<T>, key: T -> String, n: nat, y: T)
    requires n <= |xs| && y in Firsts(xs, key, n)
    ensures exists i :: 0 <= i < n && xs[i] == y && IsFirst(xs, key, i)
    decreases n
  {
    if y in Firsts(xs, key, n - 1) {
      FirstsOrigin(xs, key, n - 1, y);
    } else {
      assert xs[n - 1] == y && IsFirst(xs, key, n - 1);
    }
  }

  /** Python's `if x not in xs: xs.append(x)`. */
  function AppendNew(xs: seq<String>, x: String): seq<String> {
    if x in xs then xs else xs + [x]
  }

  /** `AppendNew` of every element of `xs` in turn, starting from `acc`. */
  function AppendAll(acc: seq<String>, xs: seq<String>): seq<String>
    decreases |xs|
  {
    if |xs| == 0 then acc else AppendNew(AppendAll(acc, xs[..|xs| - 1]), xs[|xs| - 1])
  }

  /** A string as its own key. */
  function Itself(s: String): String {
    s
  }

  /** Identity keys read a list of strings back unchanged. */
  lemma KeySeqItself(xs: seq<String>)
    ensures KeySeq(xs, Itself) == xs
  {
  }

  /** The first-seen list of `q + [x]` is that of `q`, with `x` appended when new. */
  lemma FirstWinsAppendNew(q: seq<String>, x: String)
    ensures FirstWins(q + [x], Itself) == AppendNew(FirstWins(q, Itself), x)
  {
    KeySeqItself(FirstWins(q, Itself));
    FirstWinsSnoc(q, x, Itself);
  }

  /** Growing a first-seen list by appending unseen values continues the first-seen
      list of everything read so far. */
  lemma {:induction false} AppendAllFirstWins(p: seq<String>, xs: seq<String>)
    ensures AppendAll(FirstWins(p, Itself), xs) == FirstWins(p + xs, Itself)
    decreases |xs|
  {
    if |xs| == 0 {
      assert p + xs == p;
    } else {
      var init := xs[..|xs| - 1];
      var x := xs[|xs| - 1];
      calc {
        AppendAll(FirstWins(p, Itself), xs);
        AppendNew(AppendAll(FirstWins(p, Itself), init), x);
        { AppendAllFirstWins(p, init); }
        AppendNew(FirstWins(p + init, Itself), x);
        { FirstWinsAppendNew(p + init, x); }
        FirstWins(p + init + [x], Itself);
        { assert p + init + [x] == p + xs; }
        FirstWins(p + xs, Itself);
      }
    }
  }

  /** Appending two lists in turn appends their concatenation. */
  lemma {:induction false} AppendAllConcat(acc: seq<String>, xs: seq<String>, ys: seq<String>)
    ensures AppendAll(AppendAll(acc, xs), ys) == AppendAll(acc, xs + ys)
    decreases |ys|
  {
    if |ys| == 0 {
      assert xs + ys == xs;
    } else {
      AppendAllConcat(acc, xs, ys[..|ys| - 1]);
      assert (xs + ys)[..|xs + ys| - 1] == xs + ys[..|ys| - 1];
    }
  }

  // ---------------------------------------------------------------------------
  // Filtering loops

  /** The value of an optional result as a list of zero or one elements. */
  function Chosen<U>(o: Option<U>): (r: seq<U>)
    ensures o.None? <==> r == []
    ensures o.Some? ==> r == [o.value]
  {
    match o
    case Some(y) => [y]
    case None => []
  }

  /** The loop `for x in xs: y = pick(x); if y is not None: out.append(y)`: what
      `pick` chooses from each element, in order. */
  function Picks<T, U>(xs: seq<T>, pick: T -> Option<U>): (r: seq<U>)
    ensures |r| <= |xs|
    decreases |xs|
  {
    if |xs| == 0 then [] else Picks(xs[..|xs| - 1], pick) + Chosen(pick(xs[|xs| - 1]))
  }

  /** Picking from two lists in turn picks from their concatenation. */
  lemma {:induction false} PicksConcat<T, U>(a: seq<T>, b: seq<T>, pick: T -> Option<U>)
    ensures Picks(a + b, pick) == Picks(a, pick) + Picks(b, pick)
    decreases |b|
  {
    if |b| == 0 {
      assert a + b == a;
    } else {
      var b' := b[..|b| - 1];
      assert (a + b)[..|a + b| - 1] == a + b';
      PicksConcat(a, b', pick);
    }
  }

  /** Each element contributes its choice, in place. */
  lemma PicksOne<T, U>(x: T, pick: T -> Option<U>)
    ensures Picks([x], pick) == Chosen(pick(x))
  {
    assert [x][..0] == [];
  }

  /** A value is picked exactly when some element gives it. */
  lemma {:induction false} PicksMember<T, U>(xs: seq<T>, pick: T -> Option<U>, y: U)
    ensures y in Picks(xs, pick) <==> exists i :: 0 <= i < |xs| && pick(xs[i]) == Some(y)
    decreases |xs|
  {
    if |xs| > 0 {
      var init := xs[..|xs| - 1];
      PicksMember(init, pick, y);
      assert forall i :: 0 <= i < |init| ==> init[i] == xs[i];
      if pick(xs[|xs| - 1]) == Some(y) {
        assert y in Picks(xs, pick);
      }
    }
  }

  /** A dictionary filled by assigning `m[key(x)] = val(x)` for every `x` in order:
      the last element with a key decides its value. */
  function Assoc<T, V>(xs: seq<T>, key: T -> String, val: T -> V): (m: map<String, V>)
    ensures forall i :: 0 <= i < |xs| ==> key(xs[i]) in m
    ensures forall k :: k in m ==> k in KeySeq(xs, key)
    decreases |xs|
  {
    if |xs| == 0 then map[]
    else
      var init := xs[..|xs| - 1];
      var m := Assoc(init, key, val);
      assert forall i :: 0 <= i < |init| ==> xs[i] == init[i];
      assert KeySeq(xs, key) == KeySeq(init, key) + [key(xs[|xs| - 1])];
      m[key(xs[|xs| - 1]) := val(xs[|xs| - 1])]
  }

  /** The value stored under a key is that of the last element with the key. */
  lemma {:induction false} AssocLast<T, V>(xs: seq<T>, key: T -> String, val: T -> V, i: nat)
    requires i < |xs| && forall j :: i < j < |xs| ==> key(xs[j]) != key(xs[i])
    ensures Assoc(xs, key, val)[key(xs[i])] == val(xs[i])
    decreases |xs|
  {
    if i < |xs| - 1 {
      var init := xs[..|xs| - 1];
      assert init[i] == xs[i];
      AssocLast(init, key, val, i);
    }
  }

  /** Deduplicating plain strings: the distinct values in first-seen order, that is
      every value at the position where it first occurs and nowhere else. */
  function Distinct(xs: seq<String>): (r: seq<String>)
    ensures forall i, j :: 0 <= i < j < |r| ==> r[i] != r[j]
    ensures forall s :: s in r <==> s in xs
    ensures r == Firsts(xs, s => s, |xs|)
  {
    var r := FirstWins(xs, s => s);
    assert forall k :: k in r <==> k in KeySeq(r, s => s);
    assert forall k :: k in xs <==> k in KeySeq(xs, s => s);
    FirstWinsIsFirsts(xs, s => s);
    r
  }

  // ---------------------------------------------------------------------------
  // Descending sort on integer tuples

  /** Python's `a <= b` on tuples of integers. */
  predicate LexLe(a: seq<int>, b: seq<int>)
    decreases |a|
  {
    |a| == 0 || (|b| > 0 && (a[0] < b[0] || (a[0] == b[0] && LexLe(a[1..], b[1..]))))
  }

  lemma {:induction false} LexTotal(a: seq<int>, b: seq<int>)
    ensures LexLe(a, b) || LexLe(b, a)
    decreases |a|
  {
    if |a| > 0 && |b| > 0 && a[0] == b[0] {
      LexTotal(a[1..], b[1..]);
    }
  }

  lemma {:induction false} LexTrans(a: seq<int>, b: seq<int>, c: seq<int>)
    requires LexLe(a, b) && LexLe(b, c)
    ensures LexLe(a, c)
    decreases |a|
  {
    if |a| > 0 && a[0] == b[0] && b[0] == c[0] {
      LexTrans(a[1..], b[1..], c[1..]);
    }
  }

  /** Every later element ranks no higher than every earlier one. */
  predicate SortedDesc<T>(xs: seq<T>, rank: T -> seq<int>) {
    forall i, j :: 0 <= i < j < |xs| ==> LexLe(rank(xs[j]), rank(xs[i]))
  }

  /** Inserts `x` after every element ranking at least as high, which keeps equal
      ranks in arrival order. */
  function InsertDesc<T>(x: T, s: seq<T>, rank: T -> seq<int>): (r: seq<T>)
    ensures multiset(r) == multiset(s) + multiset{x}
    decreases |s|
  {
    if |s| == 0 then [x]
    else if LexLe(rank(x), rank(s[0])) then
      assert s == [s[0]] + s[1..];
      [s[0]] + InsertDesc(x, s[1..], rank)
    else [x] + s
  }

  lemma {:induction false} InsertDescSorted<T>(x: T, s: seq<T>, rank: T -> seq<int>)
    requires SortedDesc(s, rank)
    ensures SortedDesc(InsertDesc(x, s, rank), rank)
    decreases |s|
  {
    if |s| > 0 {
      if LexLe(rank(x), rank(s[0])) {
        var t := InsertDesc(x, s[1..], rank);
        SortedTail(s, rank);
        InsertDescSorted(x, s[1..], rank);
        InsertBehind(x, s, rank);
        BelowHead(x, s, t, rank);
        ConsSorted(s[0], t, rank);
      } else {
        InsertFront(x, s, rank);
        LexTotal(rank(x), rank(s[0]));
        forall j | 0 <= j < |s| ensures LexLe(rank(s[j]), rank(x)) {
          if j > 0 {
            LexTrans(rank(s[j]), rank(s[0]), rank(x));
          }
        }
        ConsSorted(x, s, rank);
      }
    }
  }

  /** Inserting behind the head of a sorted list leaves every element after the head
      ranking no higher than it. */
  lemma BelowHead<T>(x: T, s: seq<T>, t: seq<T>, rank: T -> seq<int>)
    requires |s| > 0 && SortedDesc(s, rank) && LexLe(rank(x), rank(s[0]))
    requires multiset(t) == multiset(s[1..]) + multiset{x}
    ensures forall j :: 0 <= j < |t| ==> LexLe(rank(t[j]), rank(s[0]))
  {
    forall j | 0 <= j < |t| ensures LexLe(rank(t[j]), rank(s[0])) {
      assert t[j] in multiset(t);
      if t[j] != x {
        assert t[j] in multiset(s[1..]);
        var k :| 0 <= k < |s[1..]| && s[1..][k] == t[j];
        assert s[k + 1] == t[j];
      }
    }
  }

  /** A sorted list behind an element ranking at least as high as all of it is sorted. */
  lemma ConsSorted<T>(y: T, t: seq<T>, rank: T -> seq<int>)
    requires SortedDesc(t, rank) && forall j :: 0 <= j < |t| ==> LexLe(rank(t[j]), rank(y))
    ensures SortedDesc([y] + t, rank)
  {
    var r := [y] + t;
    forall i, j | 0 <= i < j < |r| ensures LexLe(rank(r[j]), rank(r[i])) {
      if i == 0 {
        assert r[j] == t[j - 1];
      } else {
        assert r[i] == t[i - 1] && r[j] == t[j - 1];
      }
    }
  }


  /** Python's stable `sorted(xs, key=rank, reverse=True)`. */
  function SortDesc<T>(xs: seq<T>, rank: T -> seq<int>): (r: seq<T>)
    ensures multiset(r) == multiset(xs)
    ensures SortedDesc(r, rank)
    decreases |xs|
  {
    if |xs| == 0 then []
    else
      assert xs == xs[..|xs| - 1] + [xs[|xs| - 1]];
      InsertDescSorted(xs[|xs| - 1], SortDesc(xs[..|xs| - 1], rank), rank);
      InsertDesc(xs[|xs| - 1], SortDesc(xs[..|xs| - 1], rank), rank)
  }

  /** Chooses an element exactly when its rank is `v`. */
  function OfRank<T>(rank: T -> seq<int>, v: seq<int>): T -> Option<T> {
    x => if rank(x) == v then Some(x) else None
  }

  /** The elements of `xs` ranking `v`, in order. */
  function Tied<T>(xs: seq<T>, rank: T -> seq<int>, v: seq<int>): seq<T> {
    Picks(xs, OfRank(rank, v))
  }

  /** `r` lists the elements of every rank in the order `xs` does: a stable sort. */
  ghost predicate KeepsTies<T>(r: seq<T>, xs: seq<T>, rank: T -> seq<int>) {
    forall v :: Tied(r, rank, v) == Tied(xs, rank, v)
  }

  /** Nothing is picked when no element is chosen. */
  lemma PicksNothing<T, U>(xs: seq<T>, pick: T -> Option<U>)
    requires forall i :: 0 <= i < |xs| ==> pick(xs[i]).None?
    ensures Picks(xs, pick) == []
  {
    if |Picks(xs, pick)| > 0 {
      PicksMember(xs, pick, Picks(xs, pick)[0]);
    }
  }

  /** Inserting `x` into a sorted list puts it after every element of its rank. */
  lemma {:induction false} InsertDescTies<T>(x: T, s: seq<T>, rank: T -> seq<int>, v: seq<int>)
    requires SortedDesc(s, rank)
    ensures Tied(InsertDesc(x, s, rank), rank, v) == Tied(s, rank, v) + Chosen(OfRank(rank, v)(x))
    decreases |s|
  {
    if |s| == 0 {
      PicksOne(x, OfRank(rank, v));
    } else if LexLe(rank(x), rank(s[0])) {
      SortedTail(s, rank);
      InsertDescTies(x, s[1..], rank, v);
      TiesAfterHead(x, s, rank, v);
    } else {
      TiesBeforeHead(x, s, rank, v);
    }
  }

  /** The tail of a sorted list is sorted. */
  lemma SortedTail<T>(s: seq<T>, rank: T -> seq<int>)
    requires |s| > 0 && SortedDesc(s, rank)
    ensures SortedDesc(s[1..], rank)
  {
    forall i, j | 0 <= i < j < |s[1..]| ensures LexLe(rank(s[1..][j]), rank(s[1..][i])) {
      assert s[1..][i] == s[i + 1] && s[1..][j] == s[j + 1];
    }
  }

  /** Inserting behind the head: the head's choice comes first. */
  lemma TiesAfterHead<T>(x: T, s: seq<T>, rank: T -> seq<int>, v: seq<int>)
    requires |s| > 0 && LexLe(rank(x), rank(s[0]))
    requires Tied(InsertDesc(x, s[1..], rank), rank, v) == Tied(s[1..], rank, v) + Chosen(OfRank(rank, v)(x))
    ensures Tied(InsertDesc(x, s, rank), rank, v) == Tied(s, rank, v) + Chosen(OfRank(rank, v)(x))
  {
    var f := OfRank(rank, v);
    var t := InsertDesc(x, s[1..], rank);
    InsertBehind(x, s, rank);
    PicksCons(s[0], t, f);
    PicksHead(s, f);
    SeqAssoc(Chosen(f(s[0])), Picks(s[1..], f), Chosen(f(x)));
  }

  lemma InsertBehind<T>(x: T, s: seq<T>, rank: T -> seq<int>)
    requires |s| > 0 && LexLe(rank(x), rank(s[0]))
    ensures InsertDesc(x, s, rank) == [s[0]] + InsertDesc(x, s[1..], rank)
  {
  }

  /** Picking from `y` followed by `t`. */
  lemma PicksCons<T, U>(y: T, t: seq<T>, pick: T -> Option<U>)
    ensures Picks([y] + t, pick) == Chosen(pick(y)) + Picks(t, pick)
  {
    PicksConcat([y], t, pick);
    PicksOne(y, pick);
  }

  /** Picking from a non-empty list: its head, then its tail. */
  lemma PicksHead<T, U>(s: seq<T>, pick: T -> Option<U>)
    requires |s| > 0
    ensures Picks(s, pick) == Chosen(pick(s[0])) + Picks(s[1..], pick)
  {
    assert s == [s[0]] + s[1..];
    PicksCons(s[0], s[1..], pick);
  }

  lemma SeqAssoc<T>(a: seq<T>, b: seq<T>, c: seq<T>)
    ensures a + (b + c) == (a + b) + c
  {
  }

  /** `LexLe` is reflexive. */
  lemma {:induction false} LexRefl(a: seq<int>)
    ensures LexLe(a, a)
    decreases |a|
  {
    if |a| > 0 {
      LexRefl(a[1..]);
    }
  }

  /** Inserting in front of a lower-ranked head: no element of `s` shares `x`'s rank. */
  lemma TiesBeforeHead<T>(x: T, s: seq<T>, rank: T -> seq<int>, v: seq<int>)
    requires |s| > 0 && SortedDesc(s, rank) && !LexLe(rank(x), rank(s[0]))
    ensures Tied(InsertDesc(x, s, rank), rank, v) == Tied(s, rank, v) + Chosen(OfRank(rank, v)(x))
  {
    var f := OfRank(rank, v);
    InsertFront(x, s, rank);
    PicksCons(x, s, f);
    if rank(x) == v {
      RanksBelow(x, s, rank);
      PicksNothing(s, f);
    }
    ChosenSwap(f(x), Picks(s, f));
  }

  lemma InsertFront<T>(x: T, s: seq<T>, rank: T -> seq<int>)
    requires |s| > 0 && !LexLe(rank(x), rank(s[0]))
    ensures InsertDesc(x, s, rank) == [x] + s
  {
  }

  lemma ChosenSwap<U>(o: Option<U>, p: seq<U>)
    requires o.None? || p == []
    ensures Chosen(o) + p == p + Chosen(o)
  {
  }

  /** Every element of a sorted list ranks no higher than its head, so none shares
      the rank of something ranking above the head. */
  lemma RanksBelow<T>(x: T, s: seq<T>, rank: T -> seq<int>)
    requires |s| > 0 && SortedDesc(s, rank) && !LexLe(rank(x), rank(s[0]))
    ensures forall i :: 0 <= i < |s| ==> rank(s[i]) != rank(x)
  {
    LexRefl(rank(s[0]));
    assert forall i :: 0 <= i < |s| ==> LexLe(rank(s[i]), rank(s[0]));
  }

  /** The sort is stable: the elements of each rank keep their input order. */
  lemma {:induction false} SortDescStable<T>(xs: seq<T>, rank: T -> seq<int>)
    ensures KeepsTies(SortDesc(xs, rank), xs, rank)
    decreases |xs|
  {
    if |xs| > 0 {
      var init := xs[..|xs| - 1];
      SortDescStable(init, rank);
      forall v ensures Tied(SortDesc(xs, rank), rank, v) == Tied(xs, rank, v) {
        InsertDescTies(xs[|xs| - 1], SortDesc(init, rank), rank, v);
      }
    }
  }

  lemma SortKeepsElements<T>(xs: seq<T>, rank: T -> seq<int>)
    ensures |SortDesc(xs, rank)| == |xs|
    ensures forall y :: y in SortDesc(xs, rank) <==> y in xs
  {
    var r := SortDesc(xs, rank);
    assert |r| == |multiset(r)| == |multiset(xs)| == |xs|;
    forall y ensures y in r <==> y in xs {
      assert y in r <==> y in multiset(r);
      assert y in xs <==> y in multiset(xs);
    }
  }

  // ---------------------------------------------------------------------------
  // Integer columns

  /** The exception `int(row[c])` raises for the first column of `cols` that is
      missing or not a numeral, if any. */
  function CellsFault(row: Row, cols: seq<nat>): Option<Fault>
    decreases |cols|
  {
    if |cols| == 0 then None
    else if cols[0] >= |row| then Some(IndexError)
    else if ParseInt(row[cols[0]]).None? then Some(ValueError)
    else CellsFault(row, cols[1..])
  }

  /** The integers at `cols`; 0 stands in for a cell `CellsFault` rejects. */
  function IntCells(row: Row, cols: seq<nat>): (v: seq<int>)
    ensures |v| == |cols|
  {
    seq(|cols|, k requires 0 <= k < |cols| =>
      if cols[k] < |row| then ParseInt(row[cols[k]]).GetOr(0) else 0)
  }

  lemma {:induction false} CellsFaultNone(row: Row, cols: seq<nat>)
    requires CellsFault(row, cols).None?
    ensures forall k :: 0 <= k < |cols| ==> cols[k] < |row| && ParseInt(row[cols[k]]).Some?
    decreases |cols|
  {
    if |cols| > 0 {
      CellsFaultNone(row, cols[1..]);
      assert forall k :: 1 <= k < |cols| ==> cols[k] == cols[1..][k - 1];
    }
  }

  /** The exception raised while computing the sort key of every row, in list order. */
  function KeysFault(rows: seq<Row>, cols: seq<nat>): Option<Fault>
    decreases |rows|
  {
    if |rows| == 0 then None
    else if CellsFault(rows[0], cols).Some? then CellsFault(rows[0], cols)
    else KeysFault(rows[1..], cols)
  }

  /** `rows.sort(key=lambda x: (int(x[c0]), int(x[c1]), ...), reverse=True)`: Python
      computes every key first, so a bad cell anywhere aborts the sort. */
  function SortRows(rows: seq<Row>, cols: seq<nat>): (r: Result<seq<Row>>)
    ensures r.Ok? <==> KeysFault(rows, cols).None?
    ensures r.Ok? ==> multiset(r.value) == multiset(rows)
    ensures r.Ok? ==> SortedDesc(r.value, row => IntCells(row, cols))
    ensures r.Ok? ==> KeepsTies(r.value, rows, row => IntCells(row, cols))
  {
    SortDescStable(rows, row => IntCells(row, cols));
    match KeysFault(rows, cols)
    case Some(f) => Err(f)
    case None => Ok(SortDesc(rows, row => IntCells(row, cols)))
  }

  lemma {:induction false} KeysFaultNone(rows: seq<Row>, cols: seq<nat>, i: nat)
    requires i < |rows| && KeysFault(rows, cols).None?
    ensures CellsFault(rows[i], cols).None?
    decreases |rows|
  {
    if i > 0 {
      KeysFaultNone(rows[1..], cols, i - 1);
    }
  }

  /** The sort raises exactly when some row has a missing or non-numeric key cell. */
  lemma {:induction false} KeysFaultSome(rows: seq<Row>, cols: seq<nat>)
    ensures KeysFault(rows, cols).None? <==> forall i :: 0 <= i < |rows| ==> CellsFault(rows[i], cols).None?
    decreases |rows|
  {
    if |rows| > 0 {
      KeysFaultSome(rows[1..], cols);
      if KeysFault(rows, cols).None? {
        forall i | 0 <= i < |rows| ensures CellsFault(rows[i], cols).None? {
          KeysFaultNone(rows, cols, i);
        }
      } else if CellsFault(rows[0], cols).None? {
        var j :| 0 <= j < |rows[1..]| && CellsFault(rows[1..][j], cols).Some?;
        assert rows[j + 1] == rows[1..][j];
      }
    }
  }
}

=== FILE: text.dfy ===
/** Python `str` operations the pipeline relies on, with the semantics CPython gives
    them: `split` with an explicit separator, `replace`, `strip`, `endswith`, `in`,
    `str(int)` and `int(str)`, plus the lemmas that let the other modules show that
    an identifier survives a trip through a path, a URL or a spreadsheet cell.
 */
module Text {
  import opened Wrappers

  type String = seq<char>

  /** The characters for which Python's `str.isspace()` holds. */
  predicate IsSpace(c: char) {
    || ('\t' <= c <= '\r')
    || ('\U{1c}' <= c <= '\U{1f}')
    || c == ' ' || c == '\U{85}' || c == '\U{a0}' || c == '\U{1680}'
    || ('\U{2000}' <= c <= '\U{200a}')
    || c == '\U{2028}' || c == '\U{2029}' || c == '\U{202f}' || c == '\U{205f}' || c == '\U{3000}'
  }

  // ---------------------------------------------------------------------------
  // Substrings

  /** `pat` occurs in `s` starting at index `i`. */
  predicate OccursAt(s: String, pat: String, i: int) {
    0 <= i && i + |pat| <= |s| && s[i..i + |pat|] == pat
  }

  /** Python's `pat in s`. */
  predicate Occurs(s: String, pat: String) {
    exists i | 0 <= i <= |s| - |pat| :: OccursAt(s, pat, i)
  }

  /** `r` is a contiguous piece of `s` starting at `a`. */
  predicate InfixAt(r: String, s: String, a: int) {
    0 <= a && a + |r| <= |s| && r == s[a..a + |r|]
  }

  predicate IsInfix(r: String, s: String) {
    exists a | 0 <= a <= |s| - |r| :: InfixAt(r, s, a)
  }

  predicate StartsWith(s: String, prefix: String) {
    |prefix| <= |s| && s[..|prefix|] == prefix
  }

  /** Python's `s.endswith(suffix)`. */
  predicate EndsWith(s: String, suffix: String) {
    |suffix| <= |s| && s[|s| - |suffix|..] == suffix
  }

  lemma ShiftOccurs(s: String, pat: String)
    requires |s| > 0
    ensures forall i :: 0 <= i ==> (OccursAt(s[1..], pat, i) <==> OccursAt(s, pat, i + 1))
    ensures forall i :: 1 <= i ==> (OccursAt(s, pat, i) <==> OccursAt(s[1..], pat, i - 1))
    ensures OccursAt(s, pat, 0) <==> |pat| <= |s| && s[..|pat|] == pat
  {
    forall i | 0 <= i
      ensures OccursAt(s[1..], pat, i) <==> OccursAt(s, pat, i + 1)
    {
      if i + |pat| <= |s| - 1 {
        assert s[1..][i..i + |pat|] == s[i + 1..i + 1 + |pat|];
      }
    }
    forall i | 1 <= i
      ensures OccursAt(s, pat, i) <==> OccursAt(s[1..], pat, i - 1)
    {
      if i + |pat| <= |s| {
        assert s[1..][i - 1..i - 1 + |pat|] == s[i..i + |pat|];
      }
    }
    if |pat| <= |s| {
      assert s[0..|pat|] == s[..|pat|];
    }
  }

  /** The index of the first occurrence of `pat` in `s`, as Python's `str.find`
      computes it (`None` for -1). */
  function IndexOf(s: String, pat: String): (r: Option<nat>)
    requires |pat| > 0
    ensures r.Some? ==> OccursAt(s, pat, r.value)
    ensures r.Some? ==> forall j :: 0 <= j < r.value ==> !OccursAt(s, pat, j)
    ensures r.None? <==> !Occurs(s, pat)
    decreases |s|
  {
    if |s| < |pat| then None
    else
      ShiftOccurs(s, pat);
      if s[..|pat|] == pat then Some(0)
      else
      match IndexOf(s[1..], pat)
      case None => None
      case Some(i) => Some(i + 1)
  }

  /** An occurrence with nothing before it is the one `IndexOf` finds. */
  lemma IndexOfAt(s: String, pat: String, k: nat)
    requires |pat| > 0 && OccursAt(s, pat, k)
    requires forall j :: 0 <= j < k ==> !OccursAt(s, pat, j)
    ensures IndexOf(s, pat) == Some(k)
  {
  }

  /** A pattern holding a character that `s` lacks does not occur in `s`. */
  lemma AbsentChar(s: String, pat: String, k: nat)
    requires k < |pat| && pat[k] !in s
    ensures !Occurs(s, pat)
  {
    forall i | 0 <= i && i + |pat| <= |s|
      ensures !OccursAt(s, pat, i)
    {
      assert s[i..i + |pat|][k] == s[i + k];
      assert s[i + k] in s;
    }
  }

  /** A character that the pattern does not contain splits the search in two. */
  lemma AbsentAcross(a: String, c: char, b: String, pat: String)
    requires c !in pat && !Occurs(a, pat) && !Occurs(b, pat)
    ensures !Occurs(a + [c] + b, pat)
  {
    var s := a + [c] + b;
    forall i | 0 <= i && i + |pat| <= |s|
      ensures !OccursAt(s, pat, i)
    {
      if i + |pat| <= |a| {
        assert s[i..i + |pat|] == a[i..i + |pat|];
        assert !OccursAt(a, pat, i);
      } else if i > |a| {
        assert s[i..i + |pat|] == b[i - |a| - 1..i - |a| - 1 + |pat|];
        assert !OccursAt(b, pat, i - |a| - 1);
      } else {
        assert s[i..i + |pat|][|a| - i] == c;
      }
    }
  }

  lemma SliceOfSlice(s: String, a: int, b: int, i: int, j: int)
    requires 0 <= a <= b <= |s| && 0 <= i <= j <= b - a
    ensures s[a..b][i..j] == s[a + i..a + j]
  {
    assert forall k :: 0 <= k < j - i ==> s[a..b][i..j][k] == s[a + i..a + j][k];
  }

  /** A piece of a string without the pattern is without it too. */
  lemma InfixAbsent(r: String, s: String, pat: String)
    requires IsInfix(r, s) && !Occurs(s, pat)
    ensures !Occurs(r, pat)
  {
    var a :| 0 <= a <= |s| - |r| && InfixAt(r, s, a);
    forall i | 0 <= i && i + |pat| <= |r|
      ensures !OccursAt(r, pat, i)
    {
      SliceOfSlice(s, a, a + |r|, i, i + |pat|);
      assert !OccursAt(s, pat, a + i);
    }
  }

  /** `sep` placed right after `a` is found there when its first character is not in `a`. */
  lemma FirstAfterHead(a: String, sep: String, t: String)
    requires |sep| > 0 && sep[0] !in a
    ensures IndexOf(a + sep + t, sep) == Some(|a|)
  {
    var s := a + sep + t;
    assert s[|a|..|a| + |sep|] == sep;
    forall j | 0 <= j < |a|
      ensures !OccursAt(s, sep, j)
    {
      assert s[j..j + |sep|][0] == a[j];
    }
    IndexOfAt(s, sep, |a|);
  }

  /** `sep` placed right after `a` is found there when its second character is not in `a`
      and differs from its first. */
  lemma FirstAfterSecond(a: String, sep: String, t: String)
    requires |sep| >= 2 && sep[1] !in a && sep[0] != sep[1]
    ensures IndexOf(a + sep + t, sep) == Some(|a|)
  {
    var s := a + sep + t;
    assert s[|a|..|a| + |sep|] == sep;
    forall j | 0 <= j < |a|
      ensures !OccursAt(s, sep, j)
    {
      assert s[j..j + |sep|][1] == s[j + 1];
      if j + 1 < |a| {
        assert s[j + 1] == a[j + 1];
      } else {
        assert s[j + 1] == sep[0];
      }
    }
    IndexOfAt(s, sep, |a|);
  }

  /** `sep` placed right after `a` is found there when `a` does not hold it and its first
      character does not recur inside it, so no occurrence can straddle the boundary. */
  lemma FirstAfterClean(a: String, sep: String, t: String)
    requires |sep| > 0 && !Occurs(a, sep) && sep[0] !in sep[1..]
    ensures IndexOf(a + sep + t, sep) == Some(|a|)
  {
    var s := a + sep + t;
    assert s[|a|..|a| + |sep|] == sep;
    forall j | 0 <= j < |a|
      ensures !OccursAt(s, sep, j)
    {
      if j + |sep| <= |a| {
        assert s[j..j + |sep|] == a[j..j + |sep|];
        assert !OccursAt(a, sep, j);
      } else {
        var k := |a| - j;
        assert s[j..j + |sep|][k] == s[|a|] == sep[0];
        assert sep[k] == sep[1..][k - 1];
      }
    }
    IndexOfAt(s, sep, |a|);
  }

  // ---------------------------------------------------------------------------
  // split and join

  /** Python's `s.split(sep)` for a non-empty separator: the pieces between
      non-overlapping occurrences found from the left. */
  function Split(s: String, sep: String): (r: seq<String>)
    requires |sep| > 0
    ensures |r| >= 1
    ensures !Occurs(s, sep) ==> r == [s]
    decreases |s|
  {
    match IndexOf(s, sep)
    case None => [s]
    case Some(i) => [s[..i]] + Split(s[i + |sep|..], sep)
  }

  /** `s.split(sep)[0]` */
  function FirstField(s: String, sep: String): String
    requires |sep| > 0
  {
    Split(s, sep)[0]
  }

  /** `s.split(sep)[-1]` */
  function LastField(s: String, sep: String): String
    requires |sep| > 0
  {
    var parts := Split(s, sep); parts[|parts| - 1]
  }

  /** When the first separator sits right after `a`, splitting peels `a` off. */
  lemma SplitAt(a: String, sep: String, t: String)
    requires |sep| > 0 && IndexOf(a + sep + t, sep) == Some(|a|)
    ensures Split(a + sep + t, sep) == [a] + Split(t, sep)
  {
    var s := a + sep + t;
    assert s[..|a|] == a;
    assert s[|a| + |sep|..] == t;
  }

  /** `sep.join(parts)` */
  function Join(parts: seq<String>, sep: String): String
    decreases |parts|
  {
    if |parts| == 0 then ""
    else if |parts| == 1 then parts[0]
    else parts[0] + sep + Join(parts[1..], sep)
  }

  /** Splitting on a one-character separator undoes joining with it, as long as no
      piece holds the separator and there is at least one piece. */
  lemma {:induction false} SplitJoin(parts: seq<String>, c: char)
    requires |parts| > 0 && forall k :: 0 <= k < |parts| ==> c !in parts[k]
    ensures Split(Join(parts, [c]), [c]) == parts
    decreases |parts|
  {
    if |parts| == 1 {
      AbsentChar(parts[0], [c], 0);
    } else {
      var rest := Join(parts[1..], [c]);
      FirstAfterHead(parts[0], [c], rest);
      SplitAt(parts[0], [c], rest);
      SplitJoin(parts[1..], c);
    }
  }

  /** Joining no pieces and splitting again yields one empty piece. */
  lemma SplitJoinEmpty(c: char)
    ensures Split(Join([], [c]), [c]) == [""]
  {
    assert !OccursAt("", [c], 0);
    assert forall i :: !OccursAt("", [c], i);
  }

  // ---------------------------------------------------------------------------
  // replace

  /** Python's `s.replace(pat, rep)`: every non-overlapping occurrence found from
      the left is replaced. */
  function ReplaceAll(s: String, pat: String, rep: String): (r: String)
    requires |pat| > 0
    ensures !Occurs(s, pat) ==> r == s
    decreases |s|
  {
    match IndexOf(s, pat)
    case None => s
    case Some(i) => s[..i] + rep + ReplaceAll(s[i + |pat|..], pat, rep)
  }

  /** Replacing a pattern that occurs only at the very end rewrites just that end. */
  lemma ReplaceAtEnd(p: String, pat: String, rep: String)
    requires |pat| > 0 && !Occurs(p, pat) && pat[0] !in pat[1..]
    ensures ReplaceAll(p + pat, pat, rep) == p + rep
  {
    FirstAfterClean(p, pat, "");
    assert p + pat == p + pat + "";
    var s := p + pat;
    assert s[..|p|] == p;
    assert s[|p| + |pat|..] == "";
    assert !OccursAt("", pat, 0);
    assert forall i :: !OccursAt("", pat, i);
  }

  /** Replacing a character by text without it removes the character everywhere. */
  lemma {:induction false} ReplaceCharGone(s: String, c: char, rep: String)
    requires c !in rep
    ensures c !in ReplaceAll(s, [c], rep)
    decreases |s|
  {
    match IndexOf(s, [c])
    case None =>
      forall i | 0 <= i < |s|
        ensures s[i] != c
      {
        if s[i] == c {
          assert s[i..i + 1] == [c];
          assert OccursAt(s, [c], i);
        }
      }
    case Some(i) =>
      forall j | 0 <= j < i
        ensures s[j] != c
      {
        if s[j] == c {
          assert s[j..j + 1] == [c];
          assert OccursAt(s, [c], j);
        }
      }
      ReplaceCharGone(s[i + 1..], c, rep);
  }

  /** Replacing brings in no character that neither the text nor the replacement has. */
  lemma {:induction false} ReplaceKeepsAbsent(s: String, pat: String, rep: String, d: char)
    requires |pat| > 0 && d !in s && d !in rep
    ensures d !in ReplaceAll(s, pat, rep)
    decreases |s|
  {
    match IndexOf(s, pat)
    case None =>
    case Some(i) =>
      var head, tail := s[..i], s[i + |pat|..];
      assert d !in head && d !in tail by {
        assert forall j :: 0 <= j < |head| ==> head[j] in s;
        assert forall j :: 0 <= j < |tail| ==> tail[j] in s;
      }
      ReplaceKeepsAbsent(s[i + |pat|..], pat, rep, d);
  }

  /** Every occurrence of the character `c` in `s` replaced by `rep`, one character
      at a time; with `rep == ""` this keeps the other characters of `s`, in order. */
  function Substitute(s: String, c: char, rep: String): (r: String)
    ensures c !in s ==> r == s
    ensures c !in rep ==> c !in r
    decreases |s|
  {
    if |s| == 0 then "" else (if s[0] == c then rep else [s[0]]) + Substitute(s[1..], c, rep)
  }

  /** Substituting in two pieces in turn substitutes in their concatenation. */
  lemma {:induction false} SubstituteConcat(a: String, b: String, c: char, rep: String)
    ensures Substitute(a + b, c, rep) == Substitute(a, c, rep) + Substitute(b, c, rep)
    decreases |a|
  {
    if |a| > 0 {
      assert (a + b)[1..] == a[1..] + b;
      assert (a + b)[0] == a[0];
      SubstituteConcat(a[1..], b, c, rep);
      var h := if a[0] == c then rep else [a[0]];
      assert Substitute(a + b, c, rep) == h + (Substitute(a[1..], c, rep) + Substitute(b, c, rep));
    } else {
      assert a + b == b;
    }
  }

  /** A one-character pattern occurs nowhere before `i` exactly when the character does not. */
  lemma CharBefore(s: String, c: char, i: nat)
    requires i <= |s| && forall j :: 0 <= j < i ==> !OccursAt(s, [c], j)
    ensures c !in s[..i]
  {
    forall j | 0 <= j < i
      ensures s[j] != c
    {
      if s[j] == c {
        assert s[j..j + 1] == [c];
        assert OccursAt(s, [c], j);
      }
    }
  }

  /** Python's `s.replace(c, rep)` for a one-character pattern is the character-by-
      character substitution: no other character is touched, none is reordered. */
  lemma {:induction false} ReplaceCharIsSubstitute(s: String, c: char, rep: String)
    ensures ReplaceAll(s, [c], rep) == Substitute(s, c, rep)
    decreases |s|
  {
    match IndexOf(s, [c])
    case None =>
      CharBefore(s, c, |s|);
      assert s[..|s|] == s;
    case Some(i) =>
      CharBefore(s, c, i);
      assert s[i] == c by { assert s[i..i + 1] == [c]; }
      ReplaceCharIsSubstitute(s[i + 1..], c, rep);
      assert s == s[..i] + [c] + s[i + 1..];
      SubstituteAt(s[..i], c, s[i + 1..], rep);
  }

  /** The substitution around the first occurrence of `c`. */
  lemma SubstituteAt(head: String, c: char, tail: String, rep: String)
    requires c !in head
    ensures Substitute(head + [c] + tail, c, rep) == head + rep + Substitute(tail, c, rep)
  {
    assert ([c] + tail)[1..] == tail;
    assert Substitute([c] + tail, c, rep) == rep + Substitute(tail, c, rep);
    assert head + [c] + tail == head + ([c] + tail);
    SubstituteConcat(head, [c] + tail, c, rep);
  }

  // ---------------------------------------------------------------------------
  // strip

  function TrimStartWhere(s: String, drop: char -> bool): (r: String)
    ensures |r| <= |s| && r == s[|s| - |r|..]
    ensures |r| > 0 ==> !drop(r[0])
    ensures forall i :: 0 <= i < |s| - |r| ==> drop(s[i])
    decreases |s|
  {
    if |s| > 0 && drop(s[0]) then
      var r := TrimStartWhere(s[1..], drop);
      assert s[1..][|s| - 1 - |r|..] == s[|s| - |r|..];
      assert forall i :: 1 <= i < |s| - |r| ==> s[i] == s[1..][i - 1];
      r
    else s
  }

  function TrimEndWhere(s: String, drop: char -> bool): (r: String)
    ensures |r| <= |s| && r == s[..|r|]
    ensures |r| > 0 ==> !drop(r[|r| - 1])
    ensures forall i :: |r| <= i < |s| ==> drop(s[i])
    decreases |s|
  {
    if |s| > 0 && drop(s[|s| - 1]) then
      var r := TrimEndWhere(s[..|s| - 1], drop);
      assert s[..|s| - 1][..|r|] == s[..|r|];
      assert forall i :: |r| <= i < |s| - 1 ==> s[i] == s[..|s| - 1][i];
      r
    else s
  }

  /** Python's `s.strip(chars)`: drops the leading and trailing characters for which
      `drop` holds, and nothing else. */
  function StripWhere(s: String, drop: char -> bool): (r: String)
    ensures |r| <= |s|
    ensures |r| > 0 ==> !drop(r[0]) && !drop(r[|r| - 1])
    ensures IsInfix(r, s)
    ensures forall c :: c in r ==> c in s
    ensures |s| > 0 && !drop(s[0]) && !drop(s[|s| - 1]) ==> r == s
    ensures (forall i :: 0 <= i < |s| ==> drop(s[i])) ==> r == ""
  {
    var t := TrimStartWhere(s, drop);
    var r := TrimEndWhere(t, drop);
    assert r == s[|s| - |t|..|s| - |t| + |r|];
    assert InfixAt(r, s, |s| - |t|);
    r
  }

  /** Python's `s.strip()` with no argument. */
  function Strip(s: String): (r: String)
    ensures |r| <= |s|
    ensures |r| > 0 ==> !IsSpace(r[0]) && !IsSpace(r[|r| - 1])
    ensures IsInfix(r, s)
    ensures forall c :: c in r ==> c in s
    ensures |s| > 0 && !IsSpace(s[0]) && !IsSpace(s[|s| - 1]) ==> r == s
  {
    StripWhere(s, IsSpace)
  }

  /** `strip()` trims the leading white space, then the trailing. */
  lemma StripSteps(s: String)
    ensures Strip(s) == TrimEndWhere(TrimStartWhere(s, IsSpace), IsSpace)
  {
  }

  /** Python's `s.strip(',')` and its kin: strips one given character. */
  function StripChar(s: String, c: char): (r: String)
    ensures |r| > 0 ==> r[0] != c && r[|r| - 1] != c
    ensures IsInfix(r, s)
    ensures forall d :: d in r ==> d in s
  {
    StripWhere(s, x => x == c)
  }

  // ---------------------------------------------------------------------------
  // Integers as text

  predicate IsDigit(c: char) {
    '0' as int <= c as int <= '9' as int
  }

  /** A non-empty run of ASCII decimal digits. */
  predicate IsNumeral(s: String) {
    |s| > 0 && forall i :: 0 <= i < |s| ==> IsDigit(s[i])
  }

  function DigitChar(d: nat): (c: char)
    requires d < 10
    ensures IsDigit(c) && (c as int) - ('0' as int) == d
  {
    (('0' as int) + d) as char
  }

  function DigitsValue(s: String): nat
    requires forall i :: 0 <= i < |s| ==> IsDigit(s[i])
    decreases |s|
  {
    if |s| == 0 then 0
    else
      assert IsDigit(s[|s| - 1]);
      DigitsValue(s[..|s| - 1]) * 10 + ((s[|s| - 1] as int) - ('0' as int))
  }

  /** Python's `str(n)` for a natural number. */
  function NatToString(n: nat): (r: String)
    ensures IsNumeral(r)
    decreases n
  {
    if n < 10 then [DigitChar(n)] else NatToString(n / 10) + [DigitChar(n % 10)]
  }

  /** Python's `str(i)`. */
  function IntToString(i: int): String {
    if i < 0 then "-" + NatToString(-i) else NatToString(i)
  }

  /** Python's `int(s)` on an optional sign followed by ASCII digits; `None` stands for
      the `ValueError` it raises on anything else. */
  function ParseInt(s: String): Option<int> {
    if |s| > 0 && (s[0] == '+' || s[0] == '-') then
      if IsNumeral(s[1..]) then
        var v: int := DigitsValue(s[1..]);
        Some(if s[0] == '-' then -v else v)
      else None
    else if IsNumeral(s) then Some(DigitsValue(s))
    else None
  }

  lemma {:induction false} DigitsOfNat(n: nat)
    ensures DigitsValue(NatToString(n)) == n
    decreases n
  {
    var r := NatToString(n);
    if n >= 10 {
      DigitsOfNat(n / 10);
      assert r[..|r| - 1] == NatToString(n / 10);
    }
  }

  /** `int(str(n)) == n` for natural numbers. */
  lemma ParseNatToString(n: nat)
    ensures ParseInt(NatToString(n)) == Some(n)
  {
    DigitsOfNat(n);
  }

  /** `int(str(i)) == i`. */
  lemma ParseIntToString(i: int)
    ensures ParseInt(IntToString(i)) == Some(i)
  {
    if i < 0 {
      var s := IntToString(i);
      assert s[1..] == NatToString(-i);
      DigitsOfNat(-i);
    } else {
      ParseNatToString(i);
    }
  }

  // ---------------------------------------------------------------------------
  // Lines of a text file

  /** The pieces laid end to end. */
  function Concat(parts: seq<String>): String
    decreases |parts|
  {
    if |parts| == 0 then "" else parts[0] + Concat(parts[1..])
  }

  predicate IsLineBreak(c: char) {
    c == '\n' || c == '\r'
  }

  /** The length of the first line of `s`, terminator included: a line ends at `\n`,
      at `\r\n`, or at a lone `\r`, and otherwise runs to the end of the text. */
  function LineLength(s: String): (n: nat)
    requires |s| > 0
    ensures 0 < n <= |s|
    ensures forall i :: 0 <= i < n - 1 ==> s[i] != '\n'
    ensures forall i :: 0 <= i < n - 1 && s[i] == '\r' ==> i == n - 2 && s[n - 1] == '\n'
    ensures n < |s| ==> IsLineBreak(s[n - 1])
    ensures n < |s| && s[n - 1] == '\r' ==> s[n] != '\n'
    decreases |s|
  {
    if s[0] == '\n' then 1
    else if s[0] == '\r' then (if |s| > 1 && s[1] == '\n' then 2 else 1)
    else if |s| == 1 then 1
    else 1 + LineLength(s[1..])
  }

  /** `line` holds no line terminator except, possibly, one at its end. */
  predicate OneTerminator(line: String) {
    forall j :: 0 <= j < |line| - 1 ==>
      line[j] != '\n' && (line[j] == '\r' ==> j == |line| - 2 && line[j + 1] == '\n')
  }

  /** `r` is a text cut into lines: every line is non-empty and holds a terminator
      at most at its end, every line but the last ends in one, and a `\r` ending a
      line is not followed by `\n` (the two would have made one terminator). */
  predicate LineSplit(r: seq<String>) {
    && (forall i :: 0 <= i < |r| ==> |r[i]| > 0 && OneTerminator(r[i]))
    && (forall i :: 0 <= i < |r| - 1 ==> IsLineBreak(r[i][|r[i]| - 1]))
    && (forall i :: 0 <= i < |r| - 1 && r[i][|r[i]| - 1] == '\r' ==> r[i + 1][0] != '\n')
  }

  /** `f.readlines()` on a file opened with `newline=''`: the text cut into lines,
      each keeping its terminator. */
  function ReadLines(s: String): (r: seq<String>)
    ensures Concat(r) == s
    ensures LineSplit(r)
    decreases |s|
  {
    if |s| == 0 then []
    else
      var n := LineLength(s);
      assert s == s[..n] + s[n..];
      var rest := ReadLines(s[n..]);
      LineSplitCons(s, n, rest);
      [s[..n]] + rest
  }

  /** The first line of `s`, then the lines of the rest. */
  lemma LineSplitCons(s: String, n: nat, rest: seq<String>)
    requires |s| > 0 && n == LineLength(s)
    requires Concat(rest) == s[n..] && LineSplit(rest)
    ensures LineSplit([s[..n]] + rest)
  {
    var line := s[..n];
    assert OneTerminator(line) by {
      assert forall j :: 0 <= j < n ==> line[j] == s[j];
    }
    if |rest| > 0 {
      ConcatHead(rest);
      assert line[n - 1] == s[n - 1];
    }
    ConsLines(line, rest);
    ConsEnds(line, rest);
    ConsCrLf(line, rest);
  }

  lemma ConsLines(line: String, rest: seq<String>)
    requires |line| > 0 && OneTerminator(line)
    requires forall i :: 0 <= i < |rest| ==> |rest[i]| > 0 && OneTerminator(rest[i])
    ensures forall i :: 0 <= i < |[line] + rest| ==> |([line] + rest)[i]| > 0 && OneTerminator(([line] + rest)[i])
  {
    assert forall i :: 1 <= i < |[line] + rest| ==> ([line] + rest)[i] == rest[i - 1];
  }

  lemma ConsEnds(line: String, rest: seq<String>)
    requires |line| > 0 && (|rest| > 0 ==> IsLineBreak(line[|line| - 1]))
    requires forall i :: 0 <= i < |rest| - 1 ==> |rest[i]| > 0 && IsLineBreak(rest[i][|rest[i]| - 1])
    ensures var r := [line] + rest; forall i :: 0 <= i < |r| - 1 ==> |r[i]| > 0 && IsLineBreak(r[i][|r[i]| - 1])
  {
    assert forall i :: 1 <= i < |[line] + rest| ==> ([line] + rest)[i] == rest[i - 1];
  }

  lemma ConsCrLf(line: String, rest: seq<String>)
    requires |line| > 0 && forall i :: 0 <= i < |rest| ==> |rest[i]| > 0
    requires |rest| > 0 && line[|line| - 1] == '\r' ==> rest[0][0] != '\n'
    requires forall i :: 0 <= i < |rest| - 1 && rest[i][|rest[i]| - 1] == '\r' ==> rest[i + 1][0] != '\n'
    ensures var r := [line] + rest;
      forall i :: 0 <= i < |r| - 1 && r[i][|r[i]| - 1] == '\r' ==> r[i + 1][0] != '\n'
  {
    assert forall i :: 1 <= i < |[line] + rest| ==> ([line] + rest)[i] == rest[i - 1];
  }

  /** A text made of non-empty lines starts with its first line's first character. */
  lemma ConcatHead(parts: seq<String>)
    requires |parts| > 0 && |parts[0]| > 0
    ensures |Concat(parts)| > 0 && Concat(parts)[0] == parts[0][0]
  {
  }

  /** `f.writelines([line + '\n' for line in lines])`: each line followed by `\n`. */
  function WriteLines(lines: seq<String>): (r: String)
    ensures |r| == |Concat(lines)| + |lines|
    ensures |lines| > 0 ==> |r| > 0 && r[|r| - 1] == '\n'
    decreases |lines|
  {
    if |lines| == 0 then "" else lines[0] + "\n" + WriteLines(lines[1..])
  }

  lemma {:induction false} LineLengthOfLine(line: String, rest: String)
    requires forall i :: 0 <= i < |line| ==> !IsLineBreak(line[i])
    ensures LineLength(line + "\n" + rest) == |line| + 1
    decreases |line|
  {
    var s := line + "\n" + rest;
    if |line| > 0 {
      assert s[1..] == line[1..] + "\n" + rest;
      LineLengthOfLine(line[1..], rest);
    }
  }

  /** Reading back lines written one per line yields each with its `\n`, provided
      none holds a line break. */
  lemma {:induction false} ReadWrittenLines(lines: seq<String>)
    requires forall k :: 0 <= k < |lines| ==> forall i :: 0 <= i < |lines[k]| ==> !IsLineBreak(lines[k][i])
    ensures ReadLines(WriteLines(lines)) == seq(|lines|, k requires 0 <= k < |lines| => lines[k] + "\n")
    decreases |lines|
  {
    if |lines| > 0 {
      var rest := WriteLines(lines[1..]);
      var s := WriteLines(lines);
      assert s == lines[0] + "\n" + rest;
      LineLengthOfLine(lines[0], rest);
      var n := |lines[0]| + 1;
      assert s[..n] == lines[0] + "\n";
      assert s[n..] == rest;
      ReadWrittenLines(lines[1..]);
    }
  }

  /** Stripping is idempotent. */
  lemma StripStable(s: String)
    ensures Strip(Strip(s)) == Strip(s)
  {
  }

  /** A stripped line read back with its `\n` strips to itself. */
  lemma StripNewline(s: String)
    requires Strip(s) == s
    ensures Strip(s + "\n") == s
  {
    var t := s + "\n";
    if |s| == 0 {
      assert t == "\n";
      assert forall i :: 0 <= i < |t| ==> IsSpace(t[i]);
    } else {
      var a := TrimStartWhere(t, IsSpace);
      assert a == t;
      var b := TrimEndWhere(a, IsSpace);
      assert b == s;
    }
  }
}

=== FILE: topics.dfy ===
/** Topic curation (`postprocess_topics`).

    After the final pass has turned ids into hyperlinks, this pass reads the ids
    back out of the hyperlink captions, drops everything written by a blocked
    user, gathers each keyword's tweets and the comments on kept tweets into one
    topic sheet per keyword, then curates every topic sheet: the content cell is
    normalised (`extract_comment_content`, a parameter here), rows whose content
    is shorter than five characters or similar to an earlier kept row (a
    `difflib` ratio test, also a parameter) are dropped, and the rest is sorted by
    likes. Topic sheets not named after a keyword are deleted, and the contents
    of all remaining sheets are collected into `comments.txt`.
 */
module Topics {
  import opened Wrappers
  import opened Text
  import opened Table
  import opened Consolidate
  import opened Linker

  /** The header of every topic sheet: user name, time, content, link, likes, id. */
  const TopicsHead: Row := [
    "\U{7528}\U{6237}\U{540D}", "\U{65F6}\U{95F4}", "\U{5185}\U{5BB9}",
    "\U{94FE}\U{63A5}", "\U{8D5E}\U{6570}", "_id"]

  // ---------------------------------------------------------------------------
  // The block list and the users dictionary
  // ---------------------------------------------------------------------------

  /** The block-list file: its lines, each stripped. */
  function BlockLines(text: String): (r: seq<String>)
    ensures |r| == |ReadLines(text)|
    ensures forall i :: 0 <= i < |r| ==> r[i] == Strip(ReadLines(text)[i])
  {
    var lines := ReadLines(text);
    seq(|lines|, i requires 0 <= i < |lines| => Strip(lines[i]))
  }

  /** A users record can be read: it has a nick name, and an authentication
      column whenever there is a block list to test it against. */
  predicate Readable(row: Row, lines: seq<String>) {
    |row| >= 2 && (|lines| == 0 || |row| >= 11)
  }

  /** Python's `any(line in row[10] or line in row[1] for line in lines)`. */
  predicate Blocked(row: Row, lines: seq<String>)
    requires Readable(row, lines)
  {
    exists k | 0 <= k < |lines| :: Occurs(row[10], lines[k]) || Occurs(row[1], lines[k])
  }

  /** An empty block-list line is a substring of every cell, so it blocks everyone. */
  lemma EmptyLineBlocksAll(row: Row, lines: seq<String>, k: nat)
    requires Readable(row, lines) && k < |lines| && lines[k] == ""
    ensures Blocked(row, lines)
  {
    assert OccursAt(row[1], lines[k], 0);
  }

  /** Without a block list nobody is blocked. */
  lemma NoLinesBlockNobody(row: Row)
    requires Readable(row, [])
    ensures !Blocked(row, [])
  {
  }

  /** What the pass remembers of a user: the nick name and whether the user is blocked. */
  datatype UserEntry = UserEntry(name: String, blocked: bool)

  function EntryOf(row: Row, lines: seq<String>): UserEntry {
    if Readable(row, lines) then UserEntry(row[1], Blocked(row, lines)) else UserEntry("", false)
  }

  /** `users_dict`, from the rows of `users.csv` (header included): the last record
      with an id decides its entry, and a record too short to read raises. */
  function UsersDict(users: seq<Row>, lines: seq<String>): (r: Result<map<String, UserEntry>>)
    ensures r.Ok? <==> forall i :: 1 <= i < |users| ==> Readable(users[i], lines)
    ensures r.Ok? ==> forall i :: 1 <= i < |users| ==> users[i][0] in r.value
    ensures r.Ok? ==> forall i :: (1 <= i < |users| && (forall j :: i < j < |users| ==> users[j][0] != users[i][0]))
                                  ==> r.value[users[i][0]] == UserEntry(users[i][1], Blocked(users[i], lines))
  {
    if exists i | 1 <= i < |users| :: !Readable(users[i], lines) then Err(IndexError)
    else
      var data := if |users| == 0 then [] else users[1..];
      var m := Assoc(data, row => Cell(row, 0), row => EntryOf(row, lines));
      assert forall i :: 1 <= i < |users| ==> data[i - 1] == users[i];
      forall i | 1 <= i < |users| && (forall j :: i < j < |users| ==> users[j][0] != users[i][0])
        ensures m[users[i][0]] == UserEntry(users[i][1], Blocked(users[i], lines))
      {
        forall j | i - 1 < j < |data|
          ensures Cell(data[j], 0) != Cell(data[i - 1], 0)
        {
          assert data[j] == users[j + 1];
        }
        AssocLast(data, row => Cell(row, 0), row => EntryOf(row, lines), i - 1);
      }
      Ok(m)
  }

  // ---------------------------------------------------------------------------
  // Topic rows
  // ---------------------------------------------------------------------------

  /** The topic row of one tweet record, with its tweet id: `None` when its author
      is blocked; an author missing from the dictionary raises `KeyError`. */
  function TweetTopic(tweet: Row, users: map<String, UserEntry>): (r: Result<Option<(String, Row)>>)
    ensures |tweet| < 3 ==> r == Err(IndexError)
    ensures |tweet| >= 3 && LabelOf(tweet[1]) !in users ==> r == Err(KeyError)
    ensures r.Ok? ==> LabelOf(tweet[1]) in users && (r.value.Some? <==> !users[LabelOf(tweet[1])].blocked)
    ensures r.Ok? && r.value.Some? ==>
      |tweet| >= 13 && r.value.value.0 == LabelOf(tweet[2]) && |r.value.value.1| == |TopicsHead| &&
      r.value.value.1[0] == users[LabelOf(tweet[1])].name && r.value.value.1[5] == LabelOf(tweet[2])
  {
    if |tweet| < 3 then Err(IndexError)
    else
      var userId := LabelOf(tweet[1]);
      var tweetId := LabelOf(tweet[2]);
      if userId !in users then Err(KeyError)
      else if users[userId].blocked then Ok(None)
      else if |tweet| < 13 then Err(IndexError)
      else Ok(Some((tweetId, [users[userId].name, tweet[3], tweet[12], tweet[0], tweet[5], tweetId])))
  }

  /** The id of the tweet a tweet record gives a topic row for, when it gives one. */
  function KeptId(tweet: Row, users: map<String, UserEntry>): Option<String> {
    match TweetTopic(tweet, users)
    case Ok(Some(pair)) => Some(pair.0)
    case _ => None
  }

  /** Some record of `tweets` gives a topic row with tweet id `t` (see `PicksMember`). */
  predicate KeptTweet(tweets: seq<Row>, users: map<String, UserEntry>, t: String) {
    t in Picks(tweets, x => KeptId(x, users))
  }

  /** The topic row a tweet record gives, when it gives one. */
  function TweetRow(tweet: Row, users: map<String, UserEntry>): Option<Row> {
    match TweetTopic(tweet, users)
    case Ok(Some(pair)) => Some(pair.1)
    case _ => None
  }

  /** The `tweets_dict` entry a tweet record adds when it gives a topic row: its
      tweet id, sent to its url cell. */
  function KeptEntry(tweet: Row, users: map<String, UserEntry>): Option<(String, String)> {
    match TweetTopic(tweet, users)
    case Ok(Some(pair)) => Some((pair.0, tweet[0]))
    case _ => None
  }

  /** `KeptEntry` as a function of the record alone. */
  function Entry(users: map<String, UserEntry>): Row -> Option<(String, String)> {
    tweet => KeptEntry(tweet, users)
  }

  /** The entries the records of a tweets file add, in file order. */
  function TweetEntries(tweets: seq<Row>, users: map<String, UserEntry>): seq<(String, String)> {
    Picks(tweets, Entry(users))
  }

  function EntryKey(e: (String, String)): String { e.0 }

  function EntryVal(e: (String, String)): String { e.1 }

  /** The dictionary that assigning the entries in turn builds: the last entry with
      an id decides the url stored under it. */
  function Entries(es: seq<(String, String)>): map<String, String> {
    Assoc(es, EntryKey, EntryVal)
  }

  lemma EntriesSnoc(es: seq<(String, String)>, e: (String, String))
    ensures Entries(es + [e]) == Entries(es)[e.0 := e.1]
  {
    assert (es + [e])[..|es|] == es;
  }

  /** Assigning two runs of entries in turn is assigning their concatenation. */
  lemma {:induction false} EntriesConcat(a: seq<(String, String)>, b: seq<(String, String)>)
    ensures Entries(a + b) == Entries(a) + Entries(b)
    decreases |b|
  {
    if |b| == 0 {
      assert a + b == a;
    } else {
      var init := b[..|b| - 1];
      var e := b[|b| - 1];
      assert b == init + [e];
      SeqAssoc(a, init, [e]);
      EntriesConcat(a, init);
      EntriesSnoc(a + init, e);
      EntriesSnoc(init, e);
      UnionUpdate(Entries(a), Entries(init), e.0, e.1);
    }
  }

  lemma UnionUpdate(m: map<String, String>, n: map<String, String>, k: String, v: String)
    ensures (m + n)[k := v] == m + n[k := v]
  {
  }

  /** The topic rows of a tweets file's records (header excluded) and the updated
      `tweets_dict` (tweet id to the tweet's url cell): the loop fails at the first
      record that raises; otherwise it writes the row of every record whose author
      is not blocked, in file order, and `tweets_dict` gains exactly their ids. */
  function TweetTopics(tweets: seq<Row>, users: map<String, UserEntry>, dict: map<String, String>)
    : (r: Result<(seq<Row>, map<String, String>)>)
    ensures r.Ok? <==> forall tweet :: tweet in tweets ==> TweetTopic(tweet, users).Ok?
    ensures r.Ok? ==> r.value.0 == Picks(tweets, t => TweetRow(t, users))
    decreases |tweets|
  {
    if |tweets| == 0 then Ok(([], dict))
    else
      var init := tweets[..|tweets| - 1];
      var last := tweets[|tweets| - 1];
      assert tweets == init + [last];
      var acc :- TweetTopics(init, users, dict);
      var out :- TweetTopic(last, users);
      match out
      case None => Ok(acc)
      case Some(pair) => Ok((acc.0 + [pair.1], acc.1[pair.0 := last[0]]))
  }

  /** `tweets_dict` gains exactly the ids of the tweets given a row, and each row
      written names a tweet now in `tweets_dict`. */
  lemma {:induction false} TweetTopicsDict(tweets: seq<Row>, users: map<String, UserEntry>, dict: map<String, String>)
    requires TweetTopics(tweets, users, dict).Ok?
    ensures var r := TweetTopics(tweets, users, dict).value;
      && (forall t :: t in r.1 <==> t in dict || KeptTweet(tweets, users, t))
      && (forall j :: 0 <= j < |r.0| ==> |r.0[j]| == |TopicsHead| && r.0[j][5] in r.1)
    decreases |tweets|
  {
    if |tweets| > 0 {
      var init := tweets[..|tweets| - 1];
      var last := tweets[|tweets| - 1];
      TweetTopicsDict(init, users, dict);
      assert Picks(tweets, x => KeptId(x, users)) == Picks(init, x => KeptId(x, users)) + Chosen(KeptId(last, users));
    }
  }

  /** Each id in `tweets_dict` is sent to the url cell of the last tweet given a row
      with that id, or keeps its old value when no such tweet was read. */
  lemma {:induction false} TweetTopicsValues(tweets: seq<Row>, users: map<String, UserEntry>, dict: map<String, String>)
    requires TweetTopics(tweets, users, dict).Ok?
    ensures TweetTopics(tweets, users, dict).value.1 == dict + Entries(TweetEntries(tweets, users))
    decreases |tweets|
  {
    if |tweets| > 0 {
      var init := tweets[..|tweets| - 1];
      var last := tweets[|tweets| - 1];
      TweetTopicsValues(init, users, dict);
      TweetTopicsLast(tweets, users, dict);
      assert TweetEntries(tweets, users) == TweetEntries(init, users) + Chosen(Entry(users)(last));
      AssignAfter(dict, TweetEntries(init, users), KeptEntry(last, users));
    }
  }

  /** `m`, with the entry `o` assigned when there is one. */
  function Assign(m: map<String, String>, o: Option<(String, String)>): map<String, String> {
    match o
    case None => m
    case Some(e) => m[e.0 := e.1]
  }

  /** The loop body on the last record: it assigns that record's entry, if any. */
  lemma TweetTopicsLast(tweets: seq<Row>, users: map<String, UserEntry>, dict: map<String, String>)
    requires |tweets| > 0 && TweetTopics(tweets, users, dict).Ok?
    ensures TweetTopics(tweets[..|tweets| - 1], users, dict).Ok?
    ensures TweetTopics(tweets, users, dict).value.1 ==
      Assign(TweetTopics(tweets[..|tweets| - 1], users, dict).value.1, KeptEntry(tweets[|tweets| - 1], users))
  {
  }

  /** Assigning one more entry on top of a run of entries assigns the longer run. */
  lemma AssignAfter(dict: map<String, String>, es: seq<(String, String)>, o: Option<(String, String)>)
    ensures Assign(dict + Entries(es), o) == dict + Entries(es + Chosen(o))
  {
    match o
    case None =>
      assert es + [] == es;
    case Some(e) =>
      EntriesSnoc(es, e);
  }

  /** The topic row of one comment record: `None` when its author is blocked or its
      tweet was not kept; an author missing from the dictionary raises `KeyError`. */
  function CommentTopic(comment: Row, users: map<String, UserEntry>, dict: map<String, String>): (r: Result<Option<Row>>)
    ensures |comment| < 2 ==> r == Err(IndexError)
    ensures |comment| >= 2 && LabelOf(comment[1]) !in users ==> r == Err(KeyError)
    ensures r.Ok? ==> (r.value.Some? <==>
      !users[LabelOf(comment[1])].blocked && LabelOf(comment[0]) in dict)
    ensures r.Ok? && r.value.Some? ==>
      |comment| >= 6 && |r.value.value| == |TopicsHead| &&
      r.value.value[0] == users[LabelOf(comment[1])].name && r.value.value[3] == dict[LabelOf(comment[0])] &&
      r.value.value[2] == comment[2]
  {
    if |comment| < 2 then Err(IndexError)
    else
      var userId := LabelOf(comment[1]);
      var tweetId := LabelOf(comment[0]);
      if userId !in users then Err(KeyError)
      else if users[userId].blocked || tweetId !in dict then Ok(None)
      else if |comment| < 6 then Err(IndexError)
      else Ok(Some([users[userId].name, comment[5], comment[2], dict[tweetId], comment[4], comment[3]]))
  }

  /** The topic row a comment record gives, when it gives one. */
  function CommentRow(comment: Row, users: map<String, UserEntry>, dict: map<String, String>): Option<Row> {
    match CommentTopic(comment, users, dict)
    case Ok(out) => out
    case Err(_) => None
  }

  /** The topic rows of a comments file's records (header excluded): the loop fails
      at the first record that raises; otherwise it writes the row of every record
      that qualifies, in file order. */
  function CommentTopics(comments: seq<Row>, users: map<String, UserEntry>, dict: map<String, String>)
    : (r: Result<seq<Row>>)
    ensures r.Ok? <==> forall comment :: comment in comments ==> CommentTopic(comment, users, dict).Ok?
    ensures r.Ok? ==> r.value == Picks(comments, c => CommentRow(c, users, dict))
    ensures r.Ok? ==> forall j :: 0 <= j < |r.value| ==>
      exists i :: 0 <= i < |comments| && CommentTopic(comments[i], users, dict) == Ok(Some(r.value[j]))
    ensures r.Ok? ==> |r.value| <= |comments|
    decreases |comments|
  {
    if |comments| == 0 then Ok([])
    else
      var init := comments[..|comments| - 1];
      assert comments == init + [comments[|comments| - 1]];
      var acc :- CommentTopics(init, users, dict);
      var out :- CommentTopic(comments[|comments| - 1], users, dict);
      assert forall i :: 0 <= i < |init| ==> comments[i] == init[i];
      match out
      case None => Ok(acc)
      case Some(row) =>
        assert CommentTopic(comments[|comments| - 1], users, dict) == Ok(Some((acc + [row])[|acc|]));
        Ok(acc + [row])
  }

  /** A linked tweet record reads back as the tweet it was made from: the topic
      pass resolves the author the final pass linked, and the tweet id it linked. */
  lemma LinkedTweetTopic(row: Row, idx: UserIndex, out: Row, users: map<String, UserEntry>)
    requires LinkTweet(row, idx) == Ok(Some(out))
    requires '"' !in Author(row, idx).value && ',' !in row[2] && '"' !in row[2]
    requires Author(row, idx).value in users && !users[Author(row, idx).value].blocked
    requires |row| >= 13
    ensures TweetTopic(out, users) == Ok(Some((row[2], [users[Author(row, idx).value].name,
      row[3], row[12], row[0], row[5], row[2]])))
  {
    LinkedTweetCaptions(row, idx, out);
  }

  // ---------------------------------------------------------------------------
  // The walk
  // ---------------------------------------------------------------------------

  /** A keyword directory as the walk meets it: its name, its tweets file (if any)
      and its comments files in listing order, all with their headers. */
  datatype TopicDir = TopicDir(name: String, tweets: Option<seq<Row>>, comments: seq<seq<Row>>)

  /** The topics directory: file names with their rows, in listing order. */
  type Files = seq<(String, seq<Row>)>

  predicate HasFile(files: Files, name: String) {
    exists i | 0 <= i < |files| :: files[i].0 == name
  }

  /** Opening `name` for appending and writing `rows`: an existing file grows, a
      missing one is created at the end of the listing. */
  function Append(files: Files, name: String, rows: seq<Row>): (r: Files)
    ensures HasFile(files, name) ==> |r| == |files|
    ensures !HasFile(files, name) ==> r == files + [(name, rows)]
    ensures forall i :: 0 <= i < |files| ==> r[i].0 == files[i].0
    ensures forall i :: 0 <= i < |files| && files[i].0 != name ==> r[i] == files[i]
    ensures forall i :: 0 <= i < |files| && files[i].0 == name ==> r[i].1 == files[i].1 + rows
  {
    if HasFile(files, name) then
      seq(|files|, i requires 0 <= i < |files| =>
        if files[i].0 == name then (name, files[i].1 + rows) else files[i])
    else files + [(name, rows)]
  }

  /** Appending twice to one file appends both row lists in turn. */
  lemma AppendTwice(files: Files, name: String, a: seq<Row>, b: seq<Row>)
    ensures Append(Append(files, name, a), name, b) == Append(files, name, a + b)
  {
    var once := Append(files, name, a);
    var r := Append(once, name, b);
    var both := Append(files, name, a + b);
    if HasFile(files, name) {
      var k :| 0 <= k < |files| && files[k].0 == name;
      assert once[k].0 == name;
      forall i | 0 <= i < |files|
        ensures r[i] == both[i]
      {
        if files[i].0 == name {
          assert files[i].1 + a + b == files[i].1 + (a + b);
        }
      }
    } else {
      assert once[|files|].0 == name;
      assert forall i :: 0 <= i < |files| ==> r[i] == both[i];
      assert r[|files|] == both[|files|];
    }
  }

  /** The walk's state: the topics directory, the current topic file and `tweets_dict`. */
  datatype Walk = Walk(files: Files, current: Option<String>, dict: map<String, String>)

  /** The records of a file, its header skipped. */
  function Data(rows: seq<Row>): seq<Row> {
    if |rows| == 0 then [] else rows[1..]
  }

  /** The records of several files, file after file. */
  function AllData(files: seq<seq<Row>>): seq<Row>
    decreases |files|
  {
    if |files| == 0 then [] else Data(files[0]) + AllData(files[1..])
  }

  /** The header a topic file is given when the walk creates it. */
  function NewHeader(files: Files, file: String): seq<Row> {
    if HasFile(files, file) then [] else [TopicsHead]
  }

  /** A tweets file: it selects the keyword's topic file, which gets the header
      when it is new, then one row per tweet of an unblocked author. */
  function WalkTweets(w: Walk, name: String, tweets: seq<Row>, users: map<String, UserEntry>): (r: Result<Walk>)
    ensures r.Ok? <==> forall tweet :: tweet in Data(tweets) ==> TweetTopic(tweet, users).Ok?
    ensures r.Ok? ==> r.value.current == Some(name + ".csv") && HasFile(r.value.files, name + ".csv")
    ensures r.Ok? ==> (r.value.files ==
      Append(w.files, name + ".csv", NewHeader(w.files, name + ".csv") + Picks(Data(tweets), t => TweetRow(t, users))))
    ensures r.Ok? ==> forall t :: t in r.value.dict <==> t in w.dict || KeptTweet(Data(tweets), users, t)
    ensures r.Ok? ==> r.value.dict == w.dict + Entries(TweetEntries(Data(tweets), users))
  {
    var file := name + ".csv";
    var topics :- TweetTopics(Data(tweets), users, w.dict);
    TweetTopicsDict(Data(tweets), users, w.dict);
    TweetTopicsValues(Data(tweets), users, w.dict);
    var files := Append(w.files, file, NewHeader(w.files, file) + topics.0);
    assert files[if HasFile(w.files, file) then (var i :| 0 <= i < |w.files| && w.files[i].0 == file; i) else |w.files|].0 == file;
    Ok(Walk(files, Some(file), topics.1))
  }

  /** A comments file: its rows go to the current topic file; before any tweets
      file there is none, and opening `None` raises `TypeError` before any record
      is looked at. */
  function WalkComments(w: Walk, comments: seq<Row>, users: map<String, UserEntry>): (r: Result<Walk>)
    ensures w.current.None? ==> r == Err(TypeError)
    ensures w.current.Some? ==>
      (r.Ok? <==> forall comment :: comment in Data(comments) ==> CommentTopic(comment, users, w.dict).Ok?)
    ensures r.Ok? ==> (w.current.Some? &&
      r.value == Walk(Append(w.files, w.current.value, Picks(Data(comments), c => CommentRow(c, users, w.dict))),
                      w.current, w.dict))
  {
    match w.current
    case None => Err(TypeError)
    case Some(file) =>
      var topics :- CommentTopics(Data(comments), users, w.dict);
      Ok(Walk(Append(w.files, file, topics), w.current, w.dict))
  }

  /** The comments files of a directory, in listing order: their rows all go to the
      current topic file, one file after the other. */
  function WalkCommentFiles(w: Walk, files: seq<seq<Row>>, users: map<String, UserEntry>): (r: Result<Walk>)
    ensures r.Ok? && |files| > 0 ==> w.current.Some?
    ensures r.Ok? ==> r.value.current == w.current && r.value.dict == w.dict
    ensures r.Ok? && |files| > 0 ==> (w.current.Some? &&
      r.value.files == Append(w.files, w.current.value, Picks(AllData(files), c => CommentRow(c, users, w.dict))))
    decreases |files|, 1
  {
    if |files| == 0 then Ok(w)
    else
      var w' :- WalkComments(w, files[0], users);
      var r := WalkCommentFiles(w', files[1..], users);
      WalkCommentFilesStep(w, w', files, users);
      r
  }

  lemma WalkCommentFilesStep(w: Walk, w': Walk, files: seq<seq<Row>>, users: map<String, UserEntry>)
    requires |files| > 0 && WalkComments(w, files[0], users) == Ok(w')
    requires var r := WalkCommentFiles(w', files[1..], users);
      r.Ok? ==> (r.value.current == w'.current && r.value.dict == w'.dict &&
      (|files| > 1 ==> r.value.files == Append(w'.files, w'.current.value,
                                               Picks(AllData(files[1..]), c => CommentRow(c, users, w'.dict)))))
    ensures var r := WalkCommentFiles(w', files[1..], users);
      r.Ok? ==> (w.current.Some? &&
      r.value.files == Append(w.files, w.current.value, Picks(AllData(files), c => CommentRow(c, users, w.dict))))
    decreases |files|, 0
  {
    var r := WalkCommentFiles(w', files[1..], users);
    var pick := c => CommentRow(c, users, w.dict);
    var file := w.current.value;
    var p0 := Picks(Data(files[0]), pick);
    PicksConcat(Data(files[0]), AllData(files[1..]), pick);
    if r.Ok? {
      if |files| == 1 {
        assert AllData(files) == Data(files[0]) + [];
        assert Data(files[0]) + [] == Data(files[0]);
      } else {
        AppendTwice(w.files, file, p0, Picks(AllData(files[1..]), pick));
      }
    }
  }

  /** Some directory of the walk keeps a tweet with id `t`. */
  predicate KeptInDirs(dirs: seq<TopicDir>, users: map<String, UserEntry>, t: String) {
    exists d | 0 <= d < |dirs| :: dirs[d].tweets.Some? && KeptTweet(Data(dirs[d].tweets.value), users, t)
  }

  lemma KeptInDirsStep(dirs: seq<TopicDir>, users: map<String, UserEntry>)
    requires |dirs| > 0
    ensures forall t :: KeptInDirs(dirs, users, t) <==>
      (dirs[0].tweets.Some? && KeptTweet(Data(dirs[0].tweets.value), users, t)) || KeptInDirs(dirs[1..], users, t)
  {
    assert forall d :: 1 <= d < |dirs| ==> dirs[d] == dirs[1..][d - 1];
    forall t | KeptInDirs(dirs[1..], users, t)
      ensures KeptInDirs(dirs, users, t)
    {
      var d :| 0 <= d < |dirs| - 1 && dirs[1..][d].tweets.Some? && KeptTweet(Data(dirs[1..][d].tweets.value), users, t);
      assert dirs[d + 1] == dirs[1..][d];
    }
  }

  /** The `tweets_dict` entries one directory's tweets file adds. */
  function DirEntries(d: TopicDir, users: map<String, UserEntry>): seq<(String, String)> {
    match d.tweets
    case None => []
    case Some(rows) => TweetEntries(Data(rows), users)
  }

  /** The entries the walk adds, directory after directory. */
  function WalkEntries(dirs: seq<TopicDir>, users: map<String, UserEntry>): seq<(String, String)>
    decreases |dirs|
  {
    if |dirs| == 0 then [] else DirEntries(dirs[0], users) + WalkEntries(dirs[1..], users)
  }

  /** A directory's tweets file, when it has one. */
  function WalkDirTweets(w: Walk, d: TopicDir, users: map<String, UserEntry>): (r: Result<Walk>)
    ensures r.Ok? ==> forall t :: t in r.value.dict <==>
      t in w.dict || (d.tweets.Some? && KeptTweet(Data(d.tweets.value), users, t))
    ensures r.Ok? ==> r.value.dict == w.dict + Entries(DirEntries(d, users))
  {
    match d.tweets
    case None =>
      assert w.dict + Entries([]) == w.dict;
      Ok(w)
    case Some(rows) => WalkTweets(w, d.name, rows, users)
  }

  /** The walk over the keyword directories in listing order: `tweets_dict` ends up
      holding exactly the tweets it held before and those kept in some directory,
      each kept id sent to the url cell of the last tweet with that id the walk read. */
  function WalkDirs(w: Walk, dirs: seq<TopicDir>, users: map<String, UserEntry>): (r: Result<Walk>)
    ensures r.Ok? ==> forall t :: t in r.value.dict <==> t in w.dict || KeptInDirs(dirs, users, t)
    ensures r.Ok? ==> r.value.dict == w.dict + Entries(WalkEntries(dirs, users))
    decreases |dirs|
  {
    if |dirs| == 0 then Ok(w)
    else
      var d := dirs[0];
      var w1 :- WalkDirTweets(w, d, users);
      var w2 :- WalkCommentFiles(w1, d.comments, users);
      KeptInDirsStep(dirs, users);
      var r := WalkDirs(w2, dirs[1..], users);
      if r.Ok? then (WalkDirsEntries(w.dict, w2.dict, r.value.dict, dirs, users); r) else r
  }

  /** One directory more: entries added after the first directory's, on top of what
      it added, are the entries of the whole walk. */
  lemma WalkDirsEntries(dict: map<String, String>, mid: map<String, String>, last: map<String, String>,
                        dirs: seq<TopicDir>, users: map<String, UserEntry>)
    requires |dirs| > 0
    requires mid == dict + Entries(DirEntries(dirs[0], users))
    requires last == mid + Entries(WalkEntries(dirs[1..], users))
    ensures last == dict + Entries(WalkEntries(dirs, users))
  {
    EntriesConcat(DirEntries(dirs[0], users), WalkEntries(dirs[1..], users));
    MapUnionAssoc(dict, Entries(DirEntries(dirs[0], users)), Entries(WalkEntries(dirs[1..], users)));
  }

  lemma MapUnionAssoc(a: map<String, String>, b: map<String, String>, c: map<String, String>)
    ensures (a + b) + c == a + (b + c)
  {
  }

  // ---------------------------------------------------------------------------
  // Curation
  // ---------------------------------------------------------------------------

  /** A topic row with its content cell normalised. */
  function Normalised(row: Row, norm: String -> String): Row
    requires |row| >= 3
  {
    row[2 := norm(row[2])]
  }

  /** Some kept row's content is similar to `content`. */
  predicate SimilarToKept(content: String, kept: seq<Row>, similar: (String, String) -> bool)
    requires forall j :: 0 <= j < |kept| ==> |kept[j]| >= 3
  {
    exists j | 0 <= j < |kept| :: similar(content, kept[j][2])
  }

  /** The greedy selection: each row in turn is normalised and kept unless its content
      is shorter than five characters or similar to a row kept before it. */
  function Select(rows: seq<Row>, norm: String -> String, similar: (String, String) -> bool): (r: Result<seq<Row>>)
    ensures r.Ok? <==> forall i :: 0 <= i < |rows| ==> |rows[i]| >= 3
    ensures r.Ok? ==> forall j :: 0 <= j < |r.value| ==> |r.value[j]| >= 3 && |r.value[j][2]| >= 5
    ensures r.Ok? ==> forall i, j :: 0 <= i < j < |r.value| ==> !similar(r.value[j][2], r.value[i][2])
    decreases |rows|
  {
    if |rows| == 0 then Ok([])
    else
      var init := rows[..|rows| - 1];
      var kept :- Select(init, norm, similar);
      var last := rows[|rows| - 1];
      assert forall i :: 0 <= i < |init| ==> rows[i] == init[i];
      if |last| < 3 then Err(IndexError)
      else
        var row := Normalised(last, norm);
        if |row[2]| < 5 || SimilarToKept(row[2], kept, similar) then Ok(kept)
        else Ok(kept + [row])
  }

  /** Every selected row is a normalised input row. */
  lemma {:induction false} SelectOrigin(rows: seq<Row>, norm: String -> String, similar: (String, String) -> bool, j: nat)
    requires Select(rows, norm, similar).Ok? && j < |Select(rows, norm, similar).value|
    ensures exists i :: 0 <= i < |rows| && |rows[i]| >= 3 && Select(rows, norm, similar).value[j] == Normalised(rows[i], norm)
    decreases |rows|
  {
    var init := rows[..|rows| - 1];
    var kept := Select(init, norm, similar).value;
    assert forall i :: 0 <= i < |init| ==> rows[i] == init[i];
    if j < |kept| {
      SelectOrigin(init, norm, similar, j);
    } else {
      assert Select(rows, norm, similar).value[j] == Normalised(rows[|rows| - 1], norm);
    }
  }

  /** Every input row is selected, too short, or similar to a selected row. */
  lemma {:induction false} SelectComplete(rows: seq<Row>, norm: String -> String, similar: (String, String) -> bool, i: nat)
    requires Select(rows, norm, similar).Ok? && i < |rows|
    ensures |rows[i]| >= 3
    ensures var kept := Select(rows, norm, similar).value;
      Normalised(rows[i], norm) in kept || |norm(rows[i][2])| < 5 || SimilarToKept(norm(rows[i][2]), kept, similar)
    decreases |rows|
  {
    var init := rows[..|rows| - 1];
    var kept := Select(init, norm, similar).value;
    var r := Select(rows, norm, similar).value;
    assert forall k :: 0 <= k < |init| ==> rows[k] == init[k];
    assert forall k :: 0 <= k < |kept| ==> kept[k] in r && kept[k] == r[k];
    if i < |rows| - 1 {
      SelectComplete(init, norm, similar, i);
      if SimilarToKept(norm(rows[i][2]), kept, similar) {
        var j :| 0 <= j < |kept| && similar(norm(rows[i][2]), kept[j][2]);
        assert r[j] == kept[j];
      }
    }
  }

  /** One topic sheet curated: header, then the selected rows by likes, descending. */
  function Curate(rows: seq<Row>, norm: String -> String, similar: (String, String) -> bool): (r: Result<seq<Row>>)
    ensures r.Ok? ==> |r.value| >= 1 && r.value[0] == TopicsHead
    ensures r.Ok? ==> forall j :: 1 <= j < |r.value| ==> |r.value[j]| >= 5 && |r.value[j][2]| >= 5
    ensures r.Ok? ==> SortedDesc(r.value[1..], row => IntCells(row, [4]))
    ensures r.Ok? ==> Select(Data(rows), norm, similar).Ok?
    ensures r.Ok? ==> multiset(r.value[1..]) == multiset(Select(Data(rows), norm, similar).value)
    ensures r.Ok? ==> KeepsTies(r.value[1..], Select(Data(rows), norm, similar).value, row => IntCells(row, [4]))
  {
    var kept :- Select(Data(rows), norm, similar);
    var sorted :- SortRows(kept, [4]);
    assert ([TopicsHead] + sorted)[1..] == sorted;
    SortedComplete(kept, sorted);
    Ok([TopicsHead] + sorted)
  }

  /** Sorting the selected rows by likes keeps every row long enough to have a like
      count and content of five characters. */
  lemma SortedComplete(kept: seq<Row>, sorted: seq<Row>)
    requires forall i :: 0 <= i < |kept| ==> |kept[i]| >= 3 && |kept[i][2]| >= 5
    requires SortRows(kept, [4]) == Ok(sorted)
    ensures forall j :: 0 <= j < |sorted| ==> |sorted[j]| >= 5 && |sorted[j][2]| >= 5
  {
    forall j | 0 <= j < |sorted|
      ensures |sorted[j]| >= 5 && |sorted[j][2]| >= 5
    {
      assert sorted[j] in multiset(kept);
      var i :| 0 <= i < |kept| && kept[i] == sorted[j];
      KeysFaultNone(kept, [4], i);
    }
  }

  /** The last dot of a file name, if any. */
  function LastDot(name: String): (r: Option<nat>)
    ensures r.Some? ==> r.value < |name| && name[r.value] == '.' && '.' !in name[r.value + 1..]
    ensures r.None? ==> '.' !in name
  {
    if |name| == 0 then None
    else if name[|name| - 1] == '.' then Some(|name| - 1)
    else
      var r := LastDot(name[..|name| - 1]);
      assert name == name[..|name| - 1] + [name[|name| - 1]];
      if r.Some? then
        assert name[r.value + 1..] == name[..|name| - 1][r.value + 1..] + [name[|name| - 1]];
        r
      else r
  }

  /** `os.path.splitext(name)[0]` for a plain file name: everything before the last
      dot, unless only dots precede it. */
  function Stem(name: String): String {
    match LastDot(name)
    case None => name
    case Some(i) => if forall k :: 0 <= k < i ==> name[k] == '.' then name else name[..i]
  }

  /** The last dot of `a + "." + b` is the one after `a` when `b` has none. */
  lemma {:induction false} LastDotBefore(a: String, b: String)
    requires '.' !in b
    ensures LastDot(a + "." + b) == Some(|a|)
    decreases |b|
  {
    var name := a + "." + b;
    if |b| > 0 {
      assert b[|b| - 1] in b;
      assert name[..|name| - 1] == a + "." + b[..|b| - 1];
      assert b == b[..|b| - 1] + [b[|b| - 1]];
      LastDotBefore(a, b[..|b| - 1]);
    }
  }

  /** A keyword's topic file is recognised as that keyword's. */
  lemma StemOfTopicFile(keyword: String)
    requires exists k :: 0 <= k < |keyword| && keyword[k] != '.'
    ensures Stem(keyword + ".csv") == keyword
  {
    var name := keyword + ".csv";
    assert name == keyword + "." + "csv";
    LastDotBefore(keyword, "csv");
    var k :| 0 <= k < |keyword| && keyword[k] != '.';
    assert name[k] == keyword[k];
    assert name[..|keyword|] == keyword;
  }

  /** The curation of every topic file: files not named after a keyword are deleted,
      the others curated in place. */
  function CurateAll(files: Files, keywords: seq<String>, norm: String -> String,
                     similar: (String, String) -> bool): (r: Result<Files>)
    ensures r.Ok? ==> forall j :: 0 <= j < |r.value| ==> Stem(r.value[j].0) in keywords
    ensures r.Ok? ==> |r.value| <= |files|
    decreases |files|
  {
    if |files| == 0 then Ok([])
    else
      var init := files[..|files| - 1];
      var acc :- CurateAll(init, keywords, norm, similar);
      var last := files[|files| - 1];
      if Stem(last.0) !in keywords then Ok(acc)
      else
        var rows :- Curate(last.1, norm, similar);
        Ok(acc + [(last.0, rows)])
  }

  /** Every file that survives is a keyword's topic file, curated. */
  lemma {:induction false} CurateAllOrigin(files: Files, keywords: seq<String>, norm: String -> String,
                                           similar: (String, String) -> bool, j: nat)
    requires CurateAll(files, keywords, norm, similar).Ok? && j < |CurateAll(files, keywords, norm, similar).value|
    ensures exists i :: (0 <= i < |files| && files[i].0 == CurateAll(files, keywords, norm, similar).value[j].0 &&
                         Curate(files[i].1, norm, similar) == Ok(CurateAll(files, keywords, norm, similar).value[j].1))
    decreases |files|
  {
    var init := files[..|files| - 1];
    var acc := CurateAll(init, keywords, norm, similar).value;
    assert forall i :: 0 <= i < |init| ==> files[i] == init[i];
    if j < |acc| {
      CurateAllOrigin(init, keywords, norm, similar, j);
    }
  }

  /** Every keyword's topic file survives. */
  lemma {:induction false} CurateAllKeeps(files: Files, keywords: seq<String>, norm: String -> String,
                                          similar: (String, String) -> bool, i: nat)
    requires CurateAll(files, keywords, norm, similar).Ok? && i < |files| && Stem(files[i].0) in keywords
    ensures exists j :: (0 <= j < |CurateAll(files, keywords, norm, similar).value| &&
                         CurateAll(files, keywords, norm, similar).value[j].0 == files[i].0)
    decreases |files|
  {
    var init := files[..|files| - 1];
    CurateAllStep(files, keywords, norm, similar);
    var acc := CurateAll(init, keywords, norm, similar).value;
    var r := CurateAll(files, keywords, norm, similar).value;
    if i < |files| - 1 {
      assert files[i] == init[i];
      CurateAllKeeps(init, keywords, norm, similar, i);
      var j :| 0 <= j < |acc| && acc[j].0 == init[i].0;
      assert r[j] == acc[j];
    } else {
      assert r[|acc|].0 == files[i].0;
    }
  }

  /** Curating one more file keeps what the others gave and adds the file when it
      belongs to a keyword. */
  lemma CurateAllStep(files: Files, keywords: seq<String>, norm: String -> String,
                      similar: (String, String) -> bool)
    requires |files| > 0 && CurateAll(files, keywords, norm, similar).Ok?
    ensures var acc := CurateAll(files[..|files| - 1], keywords, norm, similar);
      var r := CurateAll(files, keywords, norm, similar).value;
      && acc.Ok? && |acc.value| <= |r|
      && (forall j :: 0 <= j < |acc.value| ==> r[j] == acc.value[j])
      && (Stem(files[|files| - 1].0) in keywords ==> |r| == |acc.value| + 1 && r[|acc.value|].0 == files[|files| - 1].0)
  {
  }

  /** The rows of every file of a listing, file by file. */
  function Sheets(files: Files): (r: seq<seq<Row>>)
    ensures |r| == |files|
    ensures forall i :: 0 <= i < |files| ==> r[i] == files[i].1
  {
    seq(|files|, i requires 0 <= i < |files| => files[i].1)
  }

  /** Every row has a cell at `col`. */
  predicate HasColumn(rows: seq<Row>, col: nat) {
    forall row :: row in rows ==> |row| > col
  }

  /** Column `col` of `rows`, top to bottom. */
  function Column(rows: seq<Row>, col: nat): (r: seq<String>)
    requires HasColumn(rows, col)
    ensures |r| == |rows|
    ensures forall j :: 0 <= j < |rows| ==> r[j] == rows[j][col]
  {
    seq(|rows|, j requires 0 <= j < |rows| => rows[j][col])
  }

  lemma ColumnConcat(a: seq<Row>, b: seq<Row>, col: nat)
    requires HasColumn(a, col) && HasColumn(b, col)
    ensures HasColumn(a + b, col) && Column(a + b, col) == Column(a, col) + Column(b, col)
  {
  }

  lemma AllDataCons(files: Files)
    requires |files| > 0
    ensures AllData(Sheets(files)) == Data(files[0].1) + AllData(Sheets(files[1..]))
  {
    assert Sheets(files)[1..] == Sheets(files[1..]);
  }

  /** The content cells of every data row of every topic file, in listing order:
      reading fails when some data row has no content cell. */
  function Contents(files: Files): (r: Result<seq<String>>)
    ensures r.Ok? <==> HasColumn(AllData(Sheets(files)), 2)
    ensures r.Ok? ==> r.value == Column(AllData(Sheets(files)), 2)
    decreases |files|
  {
    if |files| == 0 then Ok([])
    else
      var data := Data(files[0].1);
      AllDataCons(files);
      if exists i | 0 <= i < |data| :: |data[i]| < 3 then
        var i :| 0 <= i < |data| && |data[i]| < 3;
        assert data[i] in AllData(Sheets(files));
        Err(IndexError)
      else
        var rest :- Contents(files[1..]);
        ColumnConcat(data, AllData(Sheets(files[1..])), 2);
        Ok(Column(data, 2) + rest)
  }

  /** The outputs of the pass: the topic files and `comments.txt`. */
  datatype TopicsOut = TopicsOut(files: Files, comments: String)

  /** `postprocess_topics`. The block list file and `users.csv` must exist; the topics
      directory holds `existing` before the walk. */
  function PostprocessTopics(blockFile: Option<String>, users: CsvFile, dirs: seq<TopicDir>, existing: Files,
                             keywords: seq<String>, norm: String -> String, similar: (String, String) -> bool)
    : (r: Result<TopicsOut>)
    ensures blockFile.None? ==> r == Err(FileNotFound)
    ensures blockFile.Some? && users.Missing? ==> r == Err(FileNotFound)
    ensures r.Ok? ==> forall j :: 0 <= j < |r.value.files| ==> Stem(r.value.files[j].0) in keywords
    ensures r.Ok? ==> blockFile.Some? && users.Present? && UsersDict(users.rows, BlockLines(blockFile.value)).Ok?
    ensures r.Ok? ==> (
      var walked := WalkDirs(Walk(existing, None, map[]), dirs, UsersDict(users.rows, BlockLines(blockFile.value)).value);
      walked.Ok? && CurateAll(walked.value.files, keywords, norm, similar) == Ok(r.value.files))
    ensures r.Ok? ==> Contents(r.value.files).Ok? && r.value.comments == WriteLines(Contents(r.value.files).value)
  {
    match blockFile
    case None => Err(FileNotFound)
    case Some(text) =>
      match users
      case Missing => Err(FileNotFound)
      case Present(rows) =>
        var dict :- UsersDict(rows, BlockLines(text));
        var walked :- WalkDirs(Walk(existing, None, map[]), dirs, dict);
        var curated :- CurateAll(walked.files, keywords, norm, similar);
        var contents :- Contents(curated);
        Ok(TopicsOut(curated, WriteLines(contents)))
  }
}

=== FILE: tweet_spider.dfy ===
/** The tweet spider (`weibospider/spiders/tweet.py`): the search URLs it starts from
    and the identifying fields of the items it yields.

    Dates are day numbers; `compact(d)` stands for `strftime("%Y%m%d")` of day `d`.
    The HTML of a result page is an input: for each tweet, the captures of its
    repost link, its counts, the optional links and its text, already extracted.
 */
module TweetSpider {
  import opened Wrappers
  import opened Text
  import opened Table
  import opened Partition
  import opened Pagination
  import opened Pipeline
  import opened SpiderRun

  const SearchUrl: String := "https://weibo.cn/search/mblog?hideSearchFrame=&keyword="

  // ---------------------------------------------------------------------------
  // Seed URLs

  /** A whole-day search: the same day string is the start and the end. */
  function DayUrl(keyword: String, day: String): String {
    SearchUrl + keyword + "&starttime=" + day + "&endtime=" + day + "&atten=1&sort=time&" + FirstPage
  }

  /** An hour-window search between two `YYYYMMDD-H` stamps. */
  function HourUrl(keyword: String, begin: String, end: String): String {
    SearchUrl + keyword + "&advancedfilter=1&starttime=" + begin + "&endtime=" + end + "&sort=time&atten=1&" + FirstPage
  }

  /** A search without dates. */
  function PlainUrl(keyword: String): String {
    SearchUrl + keyword + "&" + FirstPage
  }

  function Stamp(day: String, offset: nat): String {
    day + "-" + NatToString(offset)
  }

  /** The URLs one keyword contributes for day `d`: the day search, then the hours
      7 to 23 stamped from the previous day, then the hours 0 to 6 stamped from the
      day before that. */
  function KeywordDayUrls(keyword: String, d: int, compact: int -> String): (r: seq<String>)
    ensures |r| == 25
  {
    var back1 := compact(d - 1);
    var back2 := compact(d - 2);
    [DayUrl(keyword, compact(d))]
    + seq(17, i requires 0 <= i < 17 => HourUrl(keyword, Stamp(back1, i + 7 + 16), Stamp(back1, i + 7 - 7)))
    + seq(7, h requires 0 <= h < 7 => HourUrl(keyword, Stamp(back2, h + 40), Stamp(back2, h + 17)))
  }

  /** The 24 hour windows of a day, read in order, end at offsets 0 to 23 and begin 23
      offsets later: the first 17 stamped from the previous day, the last 7 from the
      day before. */
  lemma HourWindow(keyword: String, d: int, compact: int -> String, t: nat)
    requires t < 24
    ensures var day := if t < 17 then compact(d - 1) else compact(d - 2);
      KeywordDayUrls(keyword, d, compact)[t + 1] == HourUrl(keyword, Stamp(day, t + 23), Stamp(day, t))
  {
  }

  /** The blocks of one day, one per keyword in keyword order. */
  function KeywordBlocks(keywords: seq<String>, d: int, compact: int -> String): (b: seq<seq<String>>)
    ensures |b| == |keywords|
    ensures forall j :: 0 <= j < |keywords| ==> b[j] == KeywordDayUrls(keywords[j], d, compact)
  {
    seq(|keywords|, j requires 0 <= j < |keywords| => KeywordDayUrls(keywords[j], d, compact))
  }

  /** Every keyword's URLs for one day, in keyword order. */
  function DayUrls(keywords: seq<String>, d: int, compact: int -> String): seq<String> {
    Flatten(KeywordBlocks(keywords, d, compact))
  }

  function Days(first: int, last: int): nat {
    if first <= last then last - first + 1 else 0
  }

  /** The blocks of a date range, one per day in order. */
  function DayBlocks(keywords: seq<String>, first: int, last: int, compact: int -> String): (b: seq<seq<String>>)
    ensures |b| == Days(first, last)
    ensures forall k :: 0 <= k < |b| ==> b[k] == DayUrls(keywords, first + k, compact)
  {
    var days := Days(first, last);
    seq(days, k requires 0 <= k < days => DayUrls(keywords, first + k, compact))
  }

  /** `init_url_by_keywords` with dates: day by day from `first` to `last` inclusive,
      each day's URLs keyword by keyword. */
  function DatedUrls(keywords: seq<String>, first: int, last: int, compact: int -> String): seq<String> {
    Flatten(DayBlocks(keywords, first, last, compact))
  }

  /** Concatenating blocks of equal size `n`: the length is `n` times the count. */
  lemma {:induction false} FlattenLength<T>(xss: seq<seq<T>>, n: nat)
    requires forall i :: 0 <= i < |xss| ==> |xss[i]| == n
    ensures |Flatten(xss)| == n * |xss|
    decreases |xss|
  {
    if |xss| > 0 {
      FlattenLength(xss[1..], n);
      assert n * |xss| == n + n * (|xss| - 1);
    }
  }

  /** ... and element `t` of block `k` sits at `n * k + t`. */
  lemma {:induction false} FlattenAt<T>(xss: seq<seq<T>>, n: nat, k: nat, t: nat)
    requires forall i :: 0 <= i < |xss| ==> |xss[i]| == n
    requires k < |xss| && t < n
    ensures n * k + t < |Flatten(xss)| && Flatten(xss)[n * k + t] == xss[k][t]
    decreases k
  {
    FlattenLength(xss, n);
    if k > 0 {
      FlattenAt(xss[1..], n, k - 1, t);
      assert n * k + t == n + (n * (k - 1) + t);
    }
  }

  /** The block an element of a concatenation comes from. */
  function BlockOf<T(==)>(xss: seq<seq<T>>, x: T): (k: nat)
    requires x in Flatten(xss)
    ensures k < |xss| && x in xss[k]
    decreases |xss|
  {
    if x in xss[0] then 0 else BlockOf(xss[1..], x) + 1
  }

  /** With dates, each keyword gets 25 URLs per day of the range (one day search and
      24 hour windows), laid out day by day and, within a day, keyword by keyword. */
  lemma DatedUrlsLayout(keywords: seq<String>, first: int, last: int, compact: int -> String, k: nat, j: nat, t: nat)
    requires k < Days(first, last) && j < |keywords| && t < 25
    ensures var r := DatedUrls(keywords, first, last, compact);
      && |r| == 25 * |keywords| * Days(first, last)
      && 25 * |keywords| * k + 25 * j + t < |r|
      && r[25 * |keywords| * k + 25 * j + t] == KeywordDayUrls(keywords[j], first + k, compact)[t]
  {
    var outer := DayBlocks(keywords, first, last, compact);
    forall i | 0 <= i < |outer| ensures |outer[i]| == 25 * |keywords| {
      FlattenLength(KeywordBlocks(keywords, first + i, compact), 25);
    }
    FlattenLength(outer, 25 * |keywords|);
    assert 25 * j + t < 25 * |keywords| by {
      assert 25 * j <= 25 * (|keywords| - 1);
    }
    FlattenAt(outer, 25 * |keywords|, k, 25 * j + t);
    FlattenLength(KeywordBlocks(keywords, first + k, compact), 25);
    FlattenAt(KeywordBlocks(keywords, first + k, compact), 25, j, t);
  }

  /** `init_url_by_keywords`: with both dates, every day of the range; otherwise one
      plain search per keyword. */
  function SearchUrls(keywords: seq<String>, dates: Option<(int, int)>, compact: int -> String): (r: seq<String>)
    ensures dates.None? ==> |r| == |keywords| && forall j :: 0 <= j < |keywords| ==> r[j] == PlainUrl(keywords[j])
  {
    match dates
    case None => seq(|keywords|, j requires 0 <= j < |keywords| => PlainUrl(keywords[j]))
    case Some((first, last)) => DatedUrls(keywords, first, last, compact)
  }

  /** `init_url_by_user_id`: one profile URL per user id, in order. */
  function ProfileUrls(userIds: seq<String>): (r: seq<String>)
    ensures |r| == |userIds|
    ensures forall i :: 0 <= i < |userIds| ==> r[i] == BaseUrl + "/" + userIds[i] + "/profile?page=1"
  {
    seq(|userIds|, i requires 0 <= i < |userIds| => BaseUrl + "/" + userIds[i] + "/profile?page=1")
  }

  /** Every seed URL is a first page, so each one fans out into its further pages. */
  lemma SeedsArePageOne(keywords: seq<String>, dates: Option<(int, int)>, compact: int -> String, u: String)
    requires u in SearchUrls(keywords, dates, compact)
    ensures EndsWith(u, FirstPage)
  {
    if dates.None? {
      var r := SearchUrls(keywords, dates, compact);
      var j :| 0 <= j < |r| && r[j] == u;
      EndsWithPageOne(SearchUrl + keywords[j] + "&");
    } else {
      DatedSeedIsPageOne(keywords, dates.value.0, dates.value.1, compact, u);
    }
  }

  lemma DatedSeedIsPageOne(keywords: seq<String>, first: int, last: int, compact: int -> String, u: String)
    requires u in DatedUrls(keywords, first, last, compact)
    ensures EndsWith(u, FirstPage)
  {
    var outer := DayBlocks(keywords, first, last, compact);
    var k := BlockOf(outer, u);
    DaySeedIsPageOne(keywords, first + k, compact, u);
  }

  lemma DaySeedIsPageOne(keywords: seq<String>, d: int, compact: int -> String, u: String)
    requires u in DayUrls(keywords, d, compact)
    ensures EndsWith(u, FirstPage)
  {
    var inner := KeywordBlocks(keywords, d, compact);
    var j := BlockOf(inner, u);
    KeywordSeedIsPageOne(keywords[j], d, compact, u);
  }

  lemma KeywordSeedIsPageOne(keyword: String, d: int, compact: int -> String, u: String)
    requires u in KeywordDayUrls(keyword, d, compact)
    ensures EndsWith(u, FirstPage)
  {
    var r := KeywordDayUrls(keyword, d, compact);
    var t :| 0 <= t < |r| && r[t] == u;
    DayUrlsArePageOne(keyword, d, compact, t);
  }

  lemma DayUrlsArePageOne(keyword: String, d: int, compact: int -> String, t: nat)
    requires t < 25
    ensures EndsWith(KeywordDayUrls(keyword, d, compact)[t], FirstPage)
  {
    if t == 0 {
      var day := compact(d);
      EndsWithPageOne(SearchUrl + keyword + "&starttime=" + day + "&endtime=" + day + "&atten=1&sort=time&");
    } else {
      HourWindow(keyword, d, compact, t - 1);
      var day := if t - 1 < 17 then compact(d - 1) else compact(d - 2);
      var begin, end := Stamp(day, t - 1 + 23), Stamp(day, t - 1);
      EndsWithPageOne(SearchUrl + keyword + "&advancedfilter=1&starttime=" + begin + "&endtime=" + end + "&sort=time&atten=1&");
    }
  }

  // ---------------------------------------------------------------------------
  // Items

  /** What a result page shows of one tweet, already extracted: the repost-link
      captures (tweet id and numeric author id), the time-and-source text after
      `time_fix`'s input has been cut, the three counts, the optional links and the
      text. */
  datatype TweetNode = TweetNode(
    tweetId: String, authorId: String,
    createdAt: String, tool: Option<String>,
    likes: nat, reposts: nat, comments: nat,
    image: Option<String>, video: Option<String>, web: Option<String>, origin: Option<String>,
    content: String)

  /** `'=HYPERLINK("{:s}")'.format(x)`, or `Unknown` when the link is absent. */
  function LinkOrUnknown(link: Option<String>): String {
    match link
    case None => "Unknown"
    case Some(x) => "=HYPERLINK(\"" + x + "\")"
  }

  /** The `user_id` field: the author's profile path. */
  function UserPath(authorId: String): String {
    "/u/" + authorId
  }

  /** The item `parse` yields for a tweet, in field order. */
  function TweetItem(n: TweetNode): (item: Item)
    ensures |item| == 13
  {
    [ ("weibo_url", "=HYPERLINK(\"https://weibo.com/" + n.authorId + "/" + n.tweetId + "\")"),
      ("user_id", UserPath(n.authorId)),
      ("_id", n.tweetId),
      ("created_at", n.createdAt),
      ("tool", n.tool.GetOr("Unknown")),
      ("like_num", NatToString(n.likes)),
      ("repost_num", NatToString(n.reposts)),
      ("comment_num", NatToString(n.comments)),
      ("image_url", LinkOrUnknown(n.image)),
      ("video_url", LinkOrUnknown(n.video)),
      ("web_url", LinkOrUnknown(n.web)),
      ("origin_weibo", LinkOrUnknown(n.origin)),
      ("content", n.content) ]
  }

  /** The record the pipeline writes for a tweet is the one the crawl task reads: the
      author path in column 1, the tweet id in column 2, and the three counts in
      columns 5 to 7 as numerals that read back as the counts. */
  lemma TweetRecordColumns(n: TweetNode)
    ensures var row := Values(TweetItem(n));
      && UserOf(row) == UserPath(n.authorId)
      && TweetIdOf(row) == n.tweetId
      && CellsFault(row, CountCols).None?
      && IntCells(row, CountCols) == [n.likes as int, n.reposts as int, n.comments as int]
      && Lookup(TweetItem(n), "_id") == Some(n.tweetId)
  {
    TweetRowCounts(n);
    TweetItemId(n);
  }

  /** The three count columns of a tweet record read back as its counts. */
  lemma TweetRowCounts(n: TweetNode)
    ensures var row := Values(TweetItem(n));
      && CellsFault(row, CountCols).None?
      && IntCells(row, CountCols) == [n.likes as int, n.reposts as int, n.comments as int]
  {
    var row := Values(TweetItem(n));
    ParseNatToString(n.likes);
    ParseNatToString(n.reposts);
    ParseNatToString(n.comments);
    assert row[5] == NatToString(n.likes) && row[6] == NatToString(n.reposts) && row[7] == NatToString(n.comments);
    assert CellsFault(row, CountCols) == CellsFault(row, [6, 7]) == CellsFault(row, [7]) == None;
  }

  /** A tweet record's `_id` is the tweet id, found in its third field. */
  lemma TweetItemId(n: TweetNode)
    ensures Lookup(TweetItem(n), "_id") == Some(n.tweetId)
  {
    var item := TweetItem(n);
    assert item[0].0 != "_id" && item[1].0 != "_id";
    assert item[1..][1..] == item[2..];
    assert Lookup(item[2..], "_id") == Some(n.tweetId);
  }

  /** The author path names the author: the text after its last `/` is the id. */
  lemma UserPathNamesAuthor(authorId: String)
    requires IsNumeral(authorId)
    ensures LastField(UserPath(authorId), "/") == authorId
  {
    assert '/' !in authorId by {
      forall i | 0 <= i < |authorId| ensures authorId[i] != '/' {
        assert IsDigit(authorId[i]);
      }
    }
    assert UserPath(authorId) == "/u" + ['/'] + authorId;
    LastFieldAfter("/u", '/', authorId);
  }
}

=== FILE: user_spider.dfy ===
/** The user spider (`weibospider/spiders/user.py`): which users it crawls, the
    URLs it requests, and the user record it assembles from a profile page and the
    matching information page.

    Reading a `.txt` argument is a parameter `readFile` (`None` when the file cannot
    be opened). The pages are inputs: the three counts found on the profile page and,
    for the information page, the first capture of each field's pattern (`None` when
    the pattern matched nothing), already extracted.
 */
module UserSpider {
  import opened Wrappers
  import opened Text
  import opened Table
  import opened Partition
  import opened Pagination
  import opened Pipeline
  import opened Consolidate
  import opened TweetSpider

  // ---------------------------------------------------------------------------
  // The users to crawl

  /** The ids one command-line entry stands for: the stripped lines of a `.txt`
      file, or the entry itself. */
  function IdsOfArg(arg: String, readFile: String -> Option<String>): (r: Result<seq<String>>)
    ensures !EndsWith(arg, ".txt") ==> r == Ok([arg])
    ensures EndsWith(arg, ".txt") ==> (r.Ok? <==> readFile(arg).Some?)
    ensures r.Err? ==> r.fault == FileNotFound
  {
    if EndsWith(arg, ".txt") then
      match readFile(arg)
      case None => Err(FileNotFound)
      case Some(text) => Ok(StripAll(ReadLines(text)))
    else Ok([arg])
  }

  /** `__init__`: the ids of every entry, in entry order; an unreadable file aborts. */
  function UserIds(args: seq<String>, readFile: String -> Option<String>): (r: Result<seq<String>>)
    ensures r.Ok? <==> forall i :: 0 <= i < |args| ==> IdsOfArg(args[i], readFile).Ok?
    ensures r.Err? ==> r.fault == FileNotFound
    decreases |args|
  {
    if |args| == 0 then Ok([])
    else
      assert forall i :: 1 <= i < |args| ==> args[i] == args[1..][i - 1];
      var head :- IdsOfArg(args[0], readFile);
      var rest :- UserIds(args[1..], readFile);
      Ok(head + rest)
  }

  /** Entries that are not `.txt` files are the ids themselves, in order. */
  lemma {:induction false} UserIdsPlain(args: seq<String>, readFile: String -> Option<String>)
    requires forall i :: 0 <= i < |args| ==> !EndsWith(args[i], ".txt")
    ensures UserIds(args, readFile) == Ok(args)
    decreases |args|
  {
    if |args| > 0 {
      UserIdsPlain(args[1..], readFile);
      assert [args[0]] + args[1..] == args;
    }
  }

  /** The `users.txt` a crawl task writes reads back as the same ids, provided none
      holds a line break or surrounding white space. */
  lemma UsersFileFeedsSpider(path: String, ids: seq<String>, readFile: String -> Option<String>)
    requires EndsWith(path, ".txt") && readFile(path) == Some(WriteLines(ids))
    requires forall k :: 0 <= k < |ids| ==> Strip(ids[k]) == ids[k]
    requires forall k :: 0 <= k < |ids| ==> forall i :: 0 <= i < |ids[k]| ==> !IsLineBreak(ids[k][i])
    ensures UserIds([path], readFile) == Ok(ids)
  {
    UsersFileRoundTrip(ids);
    assert [path][1..] == [];
    assert IdsOfArg(path, readFile) == Ok(ids);
    assert ids + [] == ids;
  }

  // ---------------------------------------------------------------------------
  // URLs

  /** `start_requests`: the ids are paths such as `/u/<id>` appended to the site. */
  function RequestUrl(userId: String): String {
    BaseUrl + userId
  }

  /** `response.url.split('weibo.cn')[-1]`: the `url` field of the record. */
  function UrlField(responseUrl: String): String {
    LastField(responseUrl, "weibo.cn")
  }

  /** The `url` field gives back the id the page was requested with, unless the id
      itself holds `weibo.cn` (redirects are not modelled: the response URL is the
      request URL). */
  lemma UrlFieldOfRequest(userId: String)
    requires !Occurs(userId, "weibo.cn")
    ensures UrlField(RequestUrl(userId)) == userId
  {
    assert RequestUrl(userId) == "https://" + "weibo.cn" + userId;
    FirstAfterHead("https://", "weibo.cn", userId);
    SplitAt("https://", "weibo.cn", userId);
  }

  /** A tweet author's profile path, as the tweet spider records it, comes back as
      the user record's `url`. */
  lemma AuthorPathComesBack(authorId: String)
    requires IsNumeral(authorId)
    ensures UrlField(RequestUrl(UserPath(authorId))) == UserPath(authorId)
  {
    var p := UserPath(authorId);
    assert 'w' !in p by {
      forall i | 0 <= i < |p| ensures p[i] != 'w' {
        if i >= 3 {
          assert p[i] == authorId[i - 3];
          assert IsDigit(authorId[i - 3]);
        }
      }
    }
    AbsentChar(p, "weibo.cn", 0);
    UrlFieldOfRequest(p);
  }

  // ---------------------------------------------------------------------------
  // The record

  const Unknown: String := "Unknown"
  const Nbsp: char := '\U{00A0}'
  /** The two `sex_orientation` values: same-sex and opposite-sex. */
  const SameSex: String := "\U{540C}\U{6027}\U{604B}"
  const OppositeSex: String := "\U{5F02}\U{6027}\U{604B}"

  /** What `parse` carries to the information page: the three counts of the profile
      page (`None` when the pattern is not on it) and the `url` field. */
  datatype Profile = Profile(tweets: Option<nat>, follows: Option<nat>, fans: Option<nat>, url: String)

  /** The first capture of each field pattern on the information page. */
  datatype InfoCaptures = InfoCaptures(
    infoId: Option<String>, nickName: Option<String>, gender: Option<String>,
    place: Option<String>, brief: Option<String>, birthday: Option<String>,
    sexOrientation: Option<String>, sentiment: Option<String>, vipLevel: Option<String>,
    authentication: Option<String>, labels: Option<String>)

  /** `if x and x[0]`: the pattern matched and its first capture is not empty. */
  predicate Filled(c: Option<String>) {
    c.Some? && c.value != ""
  }

  /** A count as the record holds it: the number, or `Unknown`. */
  function CountText(c: Option<nat>): (s: String)
    ensures c.None? ==> s == Unknown
    ensures c.Some? ==> IsNumeral(s) && ParseInt(s) == Some(c.value as int)
  {
    match c
    case None => Unknown
    case Some(n) =>
      ParseNatToString(n);
      NatToString(n)
  }

  /** A text field: its capture without non-breaking spaces, or `Unknown`. */
  function Cleaned(c: Option<String>): (r: String)
    ensures !Filled(c) ==> r == Unknown
    ensures Filled(c) ==> r == Substitute(c.value, Nbsp, "")
    ensures Filled(c) ==> Nbsp !in r
    ensures Filled(c) && Nbsp !in c.value ==> r == c.value
  {
    if Filled(c) then
      ReplaceCharGone(c.value, Nbsp, "");
      ReplaceCharIsSubstitute(c.value, Nbsp, "");
      if Nbsp !in c.value then AbsentChar(c.value, [Nbsp], 0); ReplaceAll(c.value, [Nbsp], "")
      else ReplaceAll(c.value, [Nbsp], "")
    else Unknown
  }

  /** The birthday, the one field kept exactly as captured. */
  function Verbatim(c: Option<String>): (r: String)
    ensures !Filled(c) ==> r == Unknown
    ensures Filled(c) ==> r == c.value
  {
    if Filled(c) then c.value else Unknown
  }

  /** The words of the place, split at single spaces after the cleaning. */
  function PlaceWords(place: String): (w: seq<String>)
    ensures |w| >= 1
  {
    Split(ReplaceAll(place, [Nbsp], ""), " ")
  }

  function Province(place: Option<String>): String {
    if Filled(place) then PlaceWords(place.value)[0] else Unknown
  }

  function City(place: Option<String>): String {
    if Filled(place) && |PlaceWords(place.value)| > 1 then PlaceWords(place.value)[1] else Unknown
  }

  /** A one-word place is the province, and the city is unknown. */
  lemma PlaceOneWord(place: String)
    requires place != "" && ' ' !in place && Nbsp !in place
    ensures Province(Some(place)) == place && City(Some(place)) == Unknown
  {
    AbsentChar(place, [Nbsp], 0);
    AbsentChar(place, " ", 0);
  }

  /** `province city` gives the province first and the city second. */
  lemma PlaceTwoWords(province: String, city: String)
    requires ' ' !in province && ' ' !in city && Nbsp !in province && Nbsp !in city
    ensures var place := province + " " + city;
      Province(Some(place)) == province && City(Some(place)) == city
  {
    var place := province + " " + city;
    assert Nbsp !in place by {
      assert forall i :: 0 <= i < |place| ==> place[i] != Nbsp;
    }
    AbsentChar(place, [Nbsp], 0);
    FirstAfterHead(province, " ", city);
    SplitAt(province, " ", city);
    AbsentChar(city, " ", 0);
  }

  /** `sex_orientation`: same-sex when the cleaned capture equals the raw gender
      capture, opposite-sex otherwise; comparing needs a gender capture, and there
      being none raises `IndexError`. */
  function SexOrientation(so: Option<String>, gender: Option<String>): (r: Result<String>)
    ensures r.Err? <==> Filled(so) && gender.None?
    ensures r.Err? ==> r.fault == IndexError
    ensures r.Ok? && !Filled(so) ==> r.value == Unknown
    ensures r.Ok? && Filled(so) ==> (r.value == SameSex <==> Cleaned(so) == gender.value)
    ensures r.Ok? && Filled(so) ==> (r.value == OppositeSex <==> Cleaned(so) != gender.value)
  {
    if Filled(so) then
      match gender
      case None => Err(IndexError)
      case Some(g) =>
        assert SameSex[0] != OppositeSex[0];
        if ReplaceAll(so.value, [Nbsp], "") == g then Ok(SameSex) else Ok(OppositeSex)
    else Ok(Unknown)
  }

  /** `labels`: non-breaking spaces become commas, semicolons go, and commas are
      stripped from both ends. */
  function Labels(c: Option<String>): (r: String)
    ensures !Filled(c) ==> r == Unknown
    ensures Filled(c) ==> r == StripChar(Substitute(Substitute(c.value, Nbsp, ","), ';', ""), ',')
    ensures Filled(c) ==> Nbsp !in r && ';' !in r
    ensures Filled(c) && |r| > 0 ==> r[0] != ',' && r[|r| - 1] != ','
  {
    if Filled(c) then
      var commas := ReplaceAll(c.value, [Nbsp], ",");
      ReplaceCharIsSubstitute(c.value, Nbsp, ",");
      ReplaceCharIsSubstitute(commas, ';', "");
      ReplaceCharGone(c.value, Nbsp, ",");
      var joined := ReplaceAll(commas, ";", "");
      ReplaceCharGone(commas, ';', "");
      ReplaceKeepsAbsent(commas, ";", "", Nbsp);
      StripChar(joined, ',')
    else Unknown
  }

  /** Two labels separated by a non-breaking space come out separated by a comma. */
  lemma LabelsPair(a: String, b: String)
    requires a != "" && b != ""
    requires Nbsp !in a && Nbsp !in b && ';' !in a && ';' !in b && ',' !in a && ',' !in b
    ensures Labels(Some(a + [Nbsp] + b)) == a + "," + b
  {
    var joined := a + "," + b;
    SubstituteAt(a, Nbsp, b, ",");
    assert ';' !in joined by {
      assert forall i :: 0 <= i < |joined| ==> joined[i] == ',' || joined[i] in a || joined[i] in b;
    }
    LabelsOf(a + [Nbsp] + b, joined);
  }

  /** A capture whose commas-for-spaces form has no semicolon and no comma at either
      end is labelled by that form. */
  lemma LabelsOf(s: String, joined: String)
    requires s != "" && Substitute(s, Nbsp, ",") == joined && ';' !in joined
    requires |joined| > 0 && joined[0] != ',' && joined[|joined| - 1] != ','
    ensures Labels(Some(s)) == joined
  {
    assert Substitute(joined, ';', "") == joined;
    assert StripChar(joined, ',') == joined;
  }

  /** The column names of the user record, in the order `parse_info` fills them. */
  const UserFields: seq<String> := [
    "_id", "nick_name", "gender", "province", "city", "brief_introduction", "birthday",
    "sex_orientation", "sentiment", "vip_level", "authentication", "labels",
    "tweets_num", "follows_num", "fans_num", "url"]

  /** `parse_info`: the user record. The id capture is read first, so a page URL
      without `<digits>/info` raises before a missing gender can. */
  function ParseInfo(cap: InfoCaptures, prof: Profile): (r: Result<Item>)
    ensures r.Ok? <==> cap.infoId.Some? && (Filled(cap.sexOrientation) ==> cap.gender.Some?)
    ensures r.Err? ==> r.fault == IndexError
    ensures r.Ok? ==> Keys(r.value) == UserFields
  {
    if cap.infoId.None? then Err(IndexError)
    else
      var so :- SexOrientation(cap.sexOrientation, cap.gender);
      Ok([ ("_id", cap.infoId.value),
           ("nick_name", Cleaned(cap.nickName)),
           ("gender", Cleaned(cap.gender)),
           ("province", Province(cap.place)),
           ("city", City(cap.place)),
           ("brief_introduction", Cleaned(cap.brief)),
           ("birthday", Verbatim(cap.birthday)),
           ("sex_orientation", so),
           ("sentiment", Cleaned(cap.sentiment)),
           ("vip_level", Cleaned(cap.vipLevel)),
           ("authentication", Cleaned(cap.authentication)),
           ("labels", Labels(cap.labels)),
           ("tweets_num", CountText(prof.tweets)),
           ("follows_num", CountText(prof.follows)),
           ("fans_num", CountText(prof.fans)),
           ("url", prof.url) ])
  }

  /** The record the pipeline writes for a user is the one the post-processing reads:
      the id in column 0, the nick name in column 1, the verification text in
      column 10, the follower count in column 14 and the profile path in column 15;
      each text column is `Unknown` or free of non-breaking spaces. */
  lemma UserRecordColumns(cap: InfoCaptures, prof: Profile)
    requires ParseInfo(cap, prof).Ok?
    ensures var item := ParseInfo(cap, prof).value;
      var row := Values(item);
      && |row| == 16
      && row[0] == cap.infoId.value
      && row[1] == Cleaned(cap.nickName)
      && row[10] == Cleaned(cap.authentication)
      && row[14] == CountText(prof.fans)
      && row[15] == prof.url
      && Lookup(item, "_id") == Some(cap.infoId.value)
      && (forall k :: k in {1, 2, 5, 8, 9, 10} ==> row[k] == Unknown || Nbsp !in row[k])
  {
    var item := ParseInfo(cap, prof).value;
    var row := Values(item);
    assert item[0] == ("_id", cap.infoId.value);
    assert row[1] == Cleaned(cap.nickName) && row[2] == Cleaned(cap.gender) && row[5] == Cleaned(cap.brief);
    assert row[8] == Cleaned(cap.sentiment) && row[9] == Cleaned(cap.vipLevel) && row[10] == Cleaned(cap.authentication);
    forall k | k in {1, 2, 5, 8, 9, 10} ensures row[k] == Unknown || Nbsp !in row[k] {
      if k == 1 { CleanedClean(cap.nickName); }
      else if k == 2 { CleanedClean(cap.gender); }
      else if k == 5 { CleanedClean(cap.brief); }
      else if k == 8 { CleanedClean(cap.sentiment); }
      else if k == 9 { CleanedClean(cap.vipLevel); }
      else { CleanedClean(cap.authentication); }
    }
  }

  /** A cleaned capture is `Unknown` or free of non-breaking spaces. */
  lemma CleanedClean(c: Option<String>)
    ensures Cleaned(c) == Unknown || Nbsp !in Cleaned(c)
  {
  }

  /** A user page without a follower count makes `postprocess_users` fail: the count
      is written as `Unknown`, and sorting by column 14 reads it as an integer. */
  lemma UnknownFansStopsMerge(cap: InfoCaptures, prof: Profile, header: Row)
    requires ParseInfo(cap, prof).Ok? && prof.fans.None?
    ensures MergeUsers([Present([header, Values(ParseInfo(cap, prof).value)])]) == Err(ValueError)
  {
    UserRecordColumns(cap, prof);
    UnsortableRecordStopsMerge(header, Values(ParseInfo(cap, prof).value));
  }

  lemma UnsortableRecordStopsMerge(header: Row, row: Row)
    requires |row| == 16 && row[14] == Unknown
    ensures MergeUsers([Present([header, row])]) == Err(ValueError)
  {
    var files := [Present([header, row])];
    assert DataRows(files) == [row] by {
      assert Body(files[0]) == [row];
      assert DataRows(files[1..]) == [];
    }
    assert ParseInt(Unknown).None?;
    assert CellsFault(row, [14]) == Some(ValueError);
    assert CellsFault([row][0], [14]).Some?;
    assert !SortableFirsts([row], 15, [14]);
    MergeFaults([row], 15, [14]);
  }
}

=== FILE: wrappers.dfy ===
/** Optional values and fallible results shared by every module of the model.

    The modelled program is a Python batch pipeline: an operation either returns
    a value or raises an exception that aborts the run. `Fault` names the
    exceptions the model distinguishes; `Result` carries either outcome.
 */
module Wrappers {

  datatype Option<+T> = None | Some(value: T) {
    function GetOr(default: T): T {
      match this
      case Some(v) => v
      case None => default
    }
  }

  /** The Python exceptions that can escape an operation of the model. */
  datatype Fault =
    | ZeroDivision   // `ZeroDivisionError`: a ceil-division or a modulus by zero
    | IndexError     // a row shorter than the column it is read at, or an empty capture list
    | KeyError       // a dictionary lookup of a missing key that nothing catches
    | TypeError      // an operation applied to a value of the wrong type
    | ValueError     // `int()` on a cell that is not a decimal numeral
    | FileNotFound   // listing or opening a path that does not exist
    | CsvError       // `csv.writer.writerow` given something that is not a record

  datatype Result<+T> = Ok(value: T) | Err(fault: Fault) {
    predicate IsFailure() {
      Err?
    }

    function PropagateFailure<U>(): Result<U>
      requires Err?
    {
      Err(fault)
    }

    function Extract(): T
      requires Ok?
    {
      value
    }
  }
}
